=== FILE: README.md ===
# Swing-By reconciliation and knowledge-base core, in Dafny

This project models the pure logic at the heart of Swing-By. Swing-By collects a paper's
bibliographic data from arXiv, Crossref and ADS, gives every paper a 32-character identity key
(the "SBKey"), and keeps Markdown notes and key-indexed tables about papers.

The modules follow the repository's structure:

- `Values`: Python's dynamic values (`None`, booleans, integers, strings, lists, dicts) with
  Python truthiness. Records are `map<string, Value>`. An exception the code would raise is
  the `Err` side of `Wrappers.Result`.
- `Text`, `Dicts`, `Warn`: `TextUtils`, `DictUtils` and `WarningProcessor` from `src/utils`.
- `SbKey`: `clean_text`, `verify_entry`, `_format_entry` and `generate_sbkey` from
  `src/paper_rel_gen.py`.
- `Providers`: the arXiv, Crossref and ADS query builders, result normalisation and the
  "same title, else ask the user" gate. The network calls and the user's answer are fields of
  a `Services` value.
- `Reconcile`: `ArticleAPI`. This covers `get_data` with its title lookups and its
  fallbacks for missing references, `get_basic_data`, and the keys of a reference list. Every
  operation returns the lookups it made, in order, so that fallback order and stopping can be
  stated. The lookups are a `Fetcher` function parameter; `Reconcile.ServiceFetcher` sends
  each one to the provider it names.
- `Legacy`: the older `process_article` chain of `src/paper_rel_gen.py`, and the table entry and
  front matter the script builds from it.
- `Markdown`, `Notes`, `Wikilinks`, `OrderedDicts`: front matter, heading sections, the
  References/Bibtex/Others blocks of a note, and wikilink dictionaries. Where the order of a
  Python dict is observable, it is modelled as a sequence of pairs.
- `Tables`, `PaperFiles`, `Knowledge`: last-write-wins tables, `update_entries`,
  `vector_search` over an abstract distance, the note scanner of `paper_db_creation.py`, and
  the `Knowledge`/`Article` entries and the factory.

The network, the LLM reference parser, YAML load and dump, the BibTeX parser, the embedding
call, distances and the clock are function parameters.

## Model

| member | source | states |
|---|---|---|
| Strings.StripUnicodeSpaces | src/utils/md.py:9 | `strip()` removes Unicode whitespace such as an ideographic space and a no-break space, not only ASCII blanks |
| Text.CleanValue | src/utils/text.py:6-9 | `None` cleans to the empty string and a string to its cleaned form; any other value raises |
| Text.CleanShape | src/utils/text.py:9 | the cleaned text holds only lower-case letters, digits and single inner spaces, with no leading or trailing space |
| Text.CleanIdempotent | src/utils/text.py:9 | cleaning twice gives what cleaning once gives |
| Text.CleanWordsOfClean | src/utils/text.py:9 | the words of the cleaned text are the lower-cased alphanumeric runs of the original |
| Text.CleanHelloWorld | tests/test_utils.py:49-56 | "Hello, World!" cleans to "hello world" |
| Text.SameValue | src/utils/text.py:12-13 | `same` holds exactly when both cleaned forms are equal, and raises when either side cannot be cleaned |
| Text.SameProperties | src/utils/text.py:12-13 | `same` is reflexive, symmetric and transitive, and cleaning an argument first does not change the answer |
| Text.SameExamples | tests/test_utils.py:58-60 | "Test, text!" is the same as "test text" but not as "another test text" |
| Text.GetFirstString | src/utils/text.py:16-21 | a list gives its first element (an empty list raises), a string itself, anything else "" |
| Text.GetLastName | src/utils/text.py:24-30 | `None` stays `None`; with a comma, the stripped text before the first comma; otherwise the stripped last space-separated piece; a non-string raises |
| Text.LastNameWithComma | src/utils/text.py:27-28 | the last name is the stripped prefix that ends just before the first comma |
| Text.LastNameWithoutComma | src/utils/text.py:29-30 | the last name is the stripped suffix after the last space |
| Text.GetAuthor | src/utils/text.py:33-44 | a list gives the author of its first element; a dict with `family` gives "family, given"; any other dict gives its `name`; a string gives itself; anything else gives "". The errors come in Python's evaluation order: a non-string family raises `TypeError`, then a missing given raises `KeyError("given")`, then a non-string given raises `TypeError` |
| Text.GetAuthorFamilyFirst | src/utils/text.py:39 | `{"family": None}` raises `TypeError` before `given` is read; `{"family": "Doe"}` raises `KeyError("given")` |
| Text.LastNameOfFormattedAuthor | src/utils/text.py:24-44 | the last name of a "family, given" author is the family name again |
| Dicts.MergeRecords | src/utils/dict.py:9-15 | the keys of both; a key of only one side keeps its value; on a shared key the first value wins when truthy, else the second |
| Dicts.Merge | src/utils/dict.py:4-15 | merging with `None` on either side gives the other side |
| Dicts.MergeKeepsTruthy | src/utils/dict.py:13 | a truthy value of the first dict is never replaced |
| Dicts.MergeTruthy | src/utils/dict.py:9-13 | a merged value is truthy exactly when either side's value is |
| Dicts.MergeSelf | src/utils/dict.py:13 | merging a dict with itself gives it back |
| Dicts.MergeAssociative | src/utils/dict.py:9-13 | the merge is associative |
| Dicts.MergeInPlace | src/utils/dict.py:9-15 | the in-place loop over the second dict's keys computes the merge |
| Dicts.Rename | src/utils/dict.py:18-20 | the value moves from the source key to the target key, the source key is gone, other keys are untouched; a missing source raises |
| Dicts.RenameKeysOk | src/utils/dict.py:18-20 | for a mapping with distinct sources that are never targets, renaming succeeds exactly when every source key is present |
| Dicts.RenameKeysKeeps | src/utils/dict.py:18-20 | after a successful renaming, a key that is neither a source nor a target keeps its value |
| Dicts.RenameKeysOnly | src/utils/dict.py:18-20 | after a successful renaming, every key is an untouched old key or a target |
| Dicts.RenameKeysMoves | src/utils/dict.py:18-20 | with distinct sources that are never targets, each target holds its source's old value |
| Dicts.RenameKeysDrops | src/utils/dict.py:18-20 | under the same conditions, no source key remains after a successful renaming |
| Dicts.RenameKeysSpec | src/utils/dict.py:18-20 | under the same conditions, a successful renaming leaves each target holding its source's old value, removes every source key, and leaves other keys unchanged |
| Warn.ProcessWarning | src/utils/warn.py:8-15 | in script mode nothing is asked and the answer is no; otherwise the message is shown, the answer is yes exactly when the user typed "y", and with `abort` any other answer ends the program |
| Warn.ProcessArticleWarning | src/utils/warn.py:18-22 | the article warning always asks, accepts exactly on "y", and never ends the program unless `abort` is set |
| Warn.Confirm | src/utils/warn.py:18-22 | the gate accepts exactly when the user answers "y" to the article warning |
| SbKey.CleanTextValue | src/paper_rel_gen.py:101-102 | `clean_text` succeeds exactly on strings |
| SbKey.CleanTextWords | src/paper_rel_gen.py:101-102 | splitting `clean_text` on whitespace gives the same words `TextUtils.clean` keeps |
| SbKey.CleanIsJoinedCleanText | src/paper_rel_gen.py:101-102 | `TextUtils.clean` is `clean_text` with its words re-joined by single spaces |
| SbKey.VerifyEntry | src/paper_rel_gen.py:115-121 | a string gives itself, an empty list raises, a non-empty list gives what its first element gives, and anything that is neither list nor string gives "" |
| SbKey.VerifyEntryFirstString | src/paper_rel_gen.py:115-121 | on a string, or a list starting with one, `verify_entry` agrees with `get_first_string` |
| SbKey.FormatEntry | src/paper_rel_gen.py:123-124 | exactly `n` characters: the lower-cased text with spaces as '.', padded with '.' |
| SbKey.FormatEntryAlphabet | src/paper_rel_gen.py:123-124 | a segment built from alphanumerics, spaces and dots holds only key characters |
| SbKey.Initials | src/paper_rel_gen.py:136 | one character per word: its first letter |
| SbKey.AuthorPart | src/paper_rel_gen.py:127 | a falsy author gives "."; a truthy author must be a string with a word, and gives its first cleaned word |
| SbKey.YearPart | src/paper_rel_gen.py:130-131 | the year's text when it is all digits, else "." |
| SbKey.GenerateSbKey | src/paper_rel_gen.py:126-141 | the key exists exactly when the author part exists and the title is a string with a word, and it is 32 characters long |
| SbKey.KeyLayout | src/paper_rel_gen.py:126-138 | the key is 6 author characters, 4 year characters, 6 first-title-word characters and 16 initials, in that order |
| SbKey.KeyAlphabet | src/paper_rel_gen.py:126-138 | every key character is a lower-case letter, a digit or '.' |
| SbKey.KeyYear | src/paper_rel_gen.py:130-132 | a four-digit year appears verbatim at positions 6 to 9 |
| SbKey.KeySameTitle | src/paper_rel_gen.py:134-136 | titles that are the `same` give the same key |
| SbKey.KeyExample | tests/test_pipeline.py:48-63 | ("The Test Title", "Test, Author", "2099") gives "test..2099the...ttt............." |
| SbKey.LongKeyExample | tests/test_pipeline.py:48-63 | ("LongerFirst" followed by twenty times " a", "LongTest, Author", the integer 2099) gives "longte2099longerlaaaaaaaaaaaaaaa" |
| Markdown.DelimiterContains | src/utils/md.py:11-16 | a line is a delimiter exactly when its stripped text contains "---" |
| Markdown.LayoutOf | src/utils/md.py:8-18 | the first non-blank line decides: without '---' the note is plain; with it, the first later line holding '---' closes the front matter, or the note is unclosed |
| Markdown.SplitFrontMatter | src/utils/md.py:8-26 | an all-blank note raises `IndexError` and an unclosed one an unbound `yaml_end`; a plain note gives the lines from the first non-blank one; otherwise the YAML text lies strictly between the delimiters and the body follows the closing one |
| Markdown.SplitFrontMatterReassembles | src/utils/md.py:8-26 | skipped lines, delimiters, YAML text and body concatenate back to the note |
| Markdown.SplitFrontMatterExample | src/utils/md.py:8-26 | a one-line front matter between "---" lines splits as expected |
| Markdown.ExtractYamlRaw | new_paper_rel_gen.py:113-129 | the loaded front matter and the body, with no author normalisation; a plain note gives an empty mapping; a load failure raises |
| Markdown.NormaliseAuthor | src/utils/md.py:22-24 | a truthy author that is not a list becomes a one-element list, and every other field is kept |
| Markdown.ExtractYaml | src/utils/md.py:8-26 | the raw split with the author normalised; front matter that is not a mapping raises |
| Markdown.AuthorIsList | src/utils/md.py:22-24 | after extraction a truthy author is always a list |
| Markdown.LevelStrip | src/utils/md.py:66-69 | counting '#' in the first token of the raw line or of the stripped line gives the same level |
| Markdown.ScanSection | src/utils/md.py:61-71 | the loop finds a header exactly when one exists, and stops at the first later line whose level equals the last header's level seen so far |
| Markdown.ExtractSection | src/utils/md.py:54-78 | `None` exactly when no non-blank line contains "# name" case-insensitively; otherwise the text is the lines strictly between the header and the end, joined by newlines |
| Markdown.CreateMdText | src/utils/md.py:81-89 | falsy metadata leaves the body alone; otherwise the dump is fenced by "---" lines before the body |
| Markdown.OthersSectionShape | src/utils/md.py:92-99 | "## Others", the stripped text, then one "### key" block per entry in order |
| Markdown.FirstBibtexBlock | src/utils/md.py:30-31 | a found block is the text between a case-insensitive BibTeX opening fence and a closing fence |
| Markdown.ParseIntFormat | src/utils/md.py:40 | `int` of a year's decimal text gives the year back |
| Markdown.ExtractBibtex | src/utils/md.py:29-45 | an empty record exactly when there is no block, no parsed entry, a missing title, author or year, or a year `int` refuses; otherwise the entry's key, its title field, its author field split on " and ", and its year field read as an integer |
| Markdown.ExtractBibtexRaw | new_paper_rel_gen.py:131-148 | `None` exactly when there is no block, no parsed entry, or a missing title, author or year; otherwise the entry's key, its title field, its year field kept as text, and its authors split on " and " so that re-joining them gives the field back |
| Notes.ScanReferences | gen_ref_map.py:129-138 | the loop finds the last References header and the last later '#' line that is not an Undiscovered header |
| Notes.LastBlock | gen_ref_map.py:129-138 | the block starts at the last header and ends at the last closing line after some header, or at the end |
| Notes.FindReferences | gen_ref_map.py:124-147 | nothing is found and the note is unchanged exactly when no line is a References header; the links found are keyed uniquely |
| Notes.FindReferencesReassembles | gen_ref_map.py:124-147 | when the recorded end does not precede the last header, the removed block and the remaining lines concatenate back to the note, and the links found are those of the block |
| Notes.FindReferencesEndBeforeStart | gen_ref_map.py:124-147 | when a header follows the recorded end, no links are found, and the lines from the end up to that header are kept twice |
| Notes.FindReferencesDropsSection | gen_ref_map.py:129-145 | on a four-line note the whole "# Notes" section after the References block is removed too |
| Notes.FindReferencesFixed | gen_ref_map.py:124-147 | the same scan ending at the first closing line: nothing changes without a header, and the note never grows |
| Notes.FindReferencesFixedKeepsSection | gen_ref_map.py:129-145 | on the same note only the References block is removed |
| Notes.FindReferencesFixedReassembles | gen_ref_map.py:124-147 | the removed block and the remaining lines concatenate back to the note, and the links found are those of the block |
| Notes.ScanBibtex | gen_ref_map.py:154-162 | the loop finds the first '#' line after the first Bibtex header that is not itself a header, and the last Bibtex header before it |
| Notes.FirstBlock | gen_ref_map.py:154-162 | the block ends at the first closing line after the first header, or at the end, and starts at the last header before that end |
| Notes.FindBibtex | gen_ref_map.py:149-170 | the text is "" and the note unchanged exactly when no line is a Bibtex header; the note never grows |
| Notes.FindBibtexReassembles | gen_ref_map.py:149-170 | the remaining lines, the header and the returned text concatenate back to the note |
| Notes.ScanOthers | gen_ref_map.py:111-122 | `None` without an Others header; otherwise the index of the first later '#' line, or the line count |
| Notes.FindOthers | gen_ref_map.py:111-122 | `None` exactly when no line is an Others header; otherwise an Others header comes before the end, every '#' line between an Others header and the end is itself an Others header, and the end is the line count or a '#' line that is not an Others header |
| Wikilinks.WikilinkKeyOf | src/knowledge/obsidian.py:82-88 | the key of a link "folder/name\|alias" is "name" |
| Wikilinks.WikilinkKeyPlain | src/knowledge/obsidian.py:85 | a key never holds '/' or '\|' |
| Wikilinks.CloseSpec | src/knowledge/obsidian.py:76 | the lazy pattern closes at the first "]]" with no newline before it, and fails when a newline or the end comes first |
| Wikilinks.FindLinksItems | src/knowledge/obsidian.py:76 | scanning written list lines gives back exactly the listed links |
| Wikilinks.CreateWikilinkDict | src/knowledge/obsidian.py:82-88 | the dictionary maps each link's key to the link, later links replacing earlier ones |
| Wikilinks.WikilinkDictLast | gen_ref_map.py:95-101 | a key holds the last link filed under it |
| Wikilinks.WikilinkDictKeys | gen_ref_map.py:95-101 | the keys are exactly the links' keys |
| Wikilinks.PartitionLinks | src/knowledge/obsidian.py:93-98 | the loop writes the discovered links to one part and the others to the Undiscovered part, in dictionary order |
| Wikilinks.PartitionExact | src/knowledge/obsidian.py:93-98 | every reference lands in exactly one of the two parts |
| Wikilinks.CreateReferenceSection | src/knowledge/obsidian.py:90-100 | the section is the stripped discovered part, a blank line and the stripped Undiscovered block |
| Wikilinks.ReferenceSectionLinks | src/knowledge/obsidian.py:90-100 | scanning the section gives the discovered links, then the undiscovered ones |
| Wikilinks.ReferenceSectionRoundTrip | src/knowledge/obsidian.py:73-100 | reading a written section back and keying its links gives the dictionary it was written from |
| Wikilinks.NoteReferenceSection | gen_ref_map.py:172-181 | iterating over a missing list of existing notes raises exactly when there are references |
| Wikilinks.NoteReferenceSectionLinks | gen_ref_map.py:172-181 | scanning the section gives the discovered links, then the undiscovered ones |
| Wikilinks.ObsidianMergeReferences | src/knowledge/obsidian.py:73-80 | the result is sorted by key; a non-empty body's links override the new links; otherwise only the new links |
| Wikilinks.ObsidianMergeCanonical | src/knowledge/obsidian.py:73-80 | the merge is the only key-sorted dictionary holding the merged links |
| Wikilinks.NoteMergeReferences | gen_ref_map.py:103-109 | without a table row nothing changes; otherwise the row's links, overridden by the note's, sorted by key |
| Wikilinks.NoteMergeIdempotent | gen_ref_map.py:103-109 | merging twice with the same row gives what merging once gives |
| OrderedDicts.Put | src/knowledge/obsidian.py:86 | assigning a present key replaces its value in place; a new key goes last |
| OrderedDicts.PutMap | src/knowledge/obsidian.py:86 | assignment updates the mapping and keeps the keys unique |
| OrderedDicts.ToMapLast | src/knowledge/obsidian.py:82-88 | a key maps to the value of its last assignment |
| OrderedDicts.UnionMap | src/knowledge/obsidian.py:77 | `a \| b` keeps `a`'s keys first and maps like `b` overriding `a` |
| OrderedDicts.SortByKey | src/knowledge/obsidian.py:78 | sorting keeps exactly the same pairs, ordered by key |
| OrderedDicts.SortByKeyMap | src/knowledge/obsidian.py:78 | sorting a dictionary's items by key keeps its keys unique and its mapping unchanged |
| OrderedDicts.SortedDetermined | src/knowledge/obsidian.py:78 | two key-sorted dictionaries with the same pairs are equal |
| OrderedDicts.Restrict | src/knowledge/obsidian.py:94-98 | the pairs whose key is (or is not) among the local files, in order |
| OrderedDicts.RestrictMultiset | src/knowledge/obsidian.py:94-98 | the two restrictions together hold every pair exactly once |
| Tables.DropDuplicates | src/knowledge/base.py:47 | one row per key, each row from the input, no key lost |
| Tables.DropDuplicatesKeepsLast | src/knowledge/base.py:47 | the last row with a key survives |
| Tables.DropDuplicatesOnlyLast | src/knowledge/base.py:47 | a surviving row is the last one with its key |
| Tables.AppendRow | src/knowledge/base.py:45-48 | the entry is the last row, no other row has its key, and the others are the earlier rows without that key, each collapsed to its last occurrence |
| Tables.AppendRowTwice | src/knowledge/base.py:45-48 | appending two entries with one key equals appending only the second |
| Tables.AppendDbEntry | src/knowledge/base.py:45-48 | without a key column anywhere the table stays and `KeyError` is raised; otherwise the table is replaced, its columns gain the entry's fields, the entry is the last row and the only one with its key, and the earlier rows lose that key and collapse to their last occurrences; `KeyError` follows exactly when the entry has no key |
| Tables.AppendPaperDb | src/paper_rel_gen.py:177-184 | the first append creates the table from the entry; afterwards the entry is the last row and the only one with its key |
| Tables.AppendPaperDbFirst | src/paper_rel_gen.py:177-184 | the first append equals appending to an empty table |
| Tables.AppendArticleDb | src/paper_rel_gen.py:186-198 | the article row is the last row and the only one with its key |
| Tables.LoadDb | src/knowledge/base.py:23-34 | a failed read gives an empty table with columns key, title, keywords, file_name and file_hash |
| Tables.PaperDbUpdate | gen_ref_map.py:67-73 | rows labelled with the entry's key become the entry, and nothing changes without such a row; an entry without a key raises |
| Tables.SortBy | src/knowledge/base.py:53 | the rows are a permutation of the input, sorted by the weight |
| Tables.PrefixSmallest | src/knowledge/base.py:53-54 | the first `n` rows of a sorted table have the smallest weights |
| Tables.VectorSearch | src/knowledge/base.py:50-54 | a missing column raises; otherwise `min(n, rows)` rows with the largest distances, in order of decreasing distance |
| Tables.VectorSearchNearest | src/knowledge/base.py:50-54 | the corrected search returns the rows with the smallest distances, nearest first |
| Tables.VectorSearchReturnsFarthest | src/knowledge/base.py:50-54 | asked for one row, the search as written returns the farther of two rows |
| Tables.KeyIndex | paper_db_creation.py:64-66 | each old key maps to the index of its last occurrence; an unhashable key raises |
| Tables.Unfound | paper_db_creation.py:69-74 | the appended entries are new entries whose key was not found |
| Tables.UpdateAllSpec | paper_db_creation.py:69-74 | the update loop gives the closed-form result |
| Tables.UpdateEntries | paper_db_creation.py:62-76 | succeeds exactly when every key is hashable |
| Tables.UpdateEntriesShape | paper_db_creation.py:62-76 | old rows keep their places, each updated by the new entries found for it; the rest are appended in order; the row at index 0 is never updated |
| Tables.UpdateEntriesFixed | paper_db_creation.py:62-76 | the corrected version succeeds under the same condition |
| Tables.UpdateEntriesFixedShape | paper_db_creation.py:62-76 | with index 0 counted as found, no appended entry shares a key with an old row |
| Tables.UpdateEntriesDuplicatesFirst | paper_db_creation.py:71 | an update of the first row is appended as a duplicate instead |
| PaperFiles.KeepTags | paper_db_creation.py:143 | the kept tags are exactly the tags that are not meta tags |
| PaperFiles.KeepTagsAppend | paper_db_creation.py:143 | filtering keeps the tags' order |
| PaperFiles.KeepTagsIdempotent | paper_db_creation.py:143 | filtering twice gives what filtering once gives |
| PaperFiles.ProcessMetadata | paper_db_creation.py:126-149 | a read or extraction failure gives `None`; a falsy key gives `None`; otherwise key, title, category and year are copied, the tags are filtered and the embeddings added |
| PaperFiles.ProcessMetadataComplete | paper_db_creation.py:135-149 | with all fields present, an entry results exactly when the tags can be iterated |
| PaperFiles.ProcessFile | paper_db_creation.py:126-149 | a failed read or extraction gives `None`; an entry has exactly the seven fields |
| PaperFiles.ProcessFiles | paper_db_creation.py:152-161 | only ".md" files are processed, and it succeeds exactly when every note does; the result is each note's truthy entry in file order, with `None` and empty entries skipped; every entry comes from a note |
| PaperFiles.ProcessFilesKeeps | paper_db_creation.py:157-159 | the truthy entry of any note is in the result |
| PaperFiles.ProcessFilesAppend | paper_db_creation.py:154-159 | the entries of two lists of files laid end to end are the entries of the first followed by those of the second |
| PaperFiles.ProcessFilesSkipsOthers | paper_db_creation.py:155 | removing a file that is not a note changes nothing |
| Knowledge.Or3 | src/knowledge/article.py:75 | `a or b or c` is the first truthy operand, or the last |
| Knowledge.Basename | src/knowledge/knowledge.py:23 | the base name is the suffix after the last '/' |
| Knowledge.DbEntry | src/knowledge/knowledge.py:19-27 | key and keywords from the metadata and the file's base name, each embedding overriding a field of the same name |
| Knowledge.MdMetadata | src/knowledge/knowledge.py:29-35 | `created` keeps a truthy creation time, else equals `updated`; tags are the keywords |
| Knowledge.Summary | src/knowledge/article.py:102-103 | the arXiv summary, else the ADS abstract, else the Crossref abstract |
| Knowledge.ArticleDbEntryAsWritten | src/knowledge/article.py:70-71 | the base entry is called without its embeddings, which always raises `TypeError` |
| Knowledge.ArticleDbEntry | src/knowledge/article.py:70-86 | the base entry plus the doi from Crossref, then ADS, then arXiv, the copied bibliographic fields, and no citing papers |
| Knowledge.ArticleOverlay | src/knowledge/article.py:72-84 | the article's own fields of its table entry |
| Knowledge.CategoryAndTags | src/knowledge/article.py:97-98 | the category is the first keyword and the tags are "Paper" then the keywords; an empty list raises `IndexError` |
| Knowledge.ArticleFront | src/knowledge/article.py:88-100 | the base front matter plus title, author, year, category and tags |
| Knowledge.ArticleMdMetadata | src/knowledge/article.py:88-100 | the article's front matter exists exactly when the keywords are a non-empty list |
| Knowledge.Create | src/knowledge/factory.py:8-16 | "default", "article" and "debug" give their classes; any other name raises `ValueError` |
| Knowledge.CreateInjective | src/knowledge/factory.py:8-16 | each class has exactly one name |
| Providers.Accept | src/article_api/arxiv_api.py:46-55 | without a requested title the record is used; otherwise it is used when the titles are the `same`, else only when the user answers "y"; a non-text title raises |
| Providers.AcceptSameTitle | src/article_api/arxiv_api.py:46-55 | a record whose title is the `same` is used without asking |
| Providers.ArxivProcess | src/article_api/arxiv_api.py:32-57 | no hit gives `None`; no authors raises; the record has title, first author, the id after the last '/', doi and summary |
| Providers.ArxivQueryString | src/article_api/arxiv_api.py:73-76 | "ti:" and the title, with " AND au:" and the author only when the author is truthy |
| Providers.ArxivQueryTitle | src/article_api/arxiv_api.py:73-76 | the cleaned title and whether an author was added can be read back from the query |
| Providers.ArxivWithTitle | src/article_api/arxiv_api.py:59-77 | a title that cannot be cleaned raises; otherwise the first hit is checked against the cleaned title |
| Providers.First | src/article_api/crossref_api.py:21 | indexing `[0]` succeeds exactly on a non-empty list or string |
| Providers.IssuedYear | src/article_api/crossref_api.py:21 | the year is the first element of the first `date-parts` entry |
| Providers.CrossrefProcess | src/article_api/crossref_api.py:15-42 | title and doi reduced to one string, the author as "family, given", the issue year, the abstract, and the references only when asked for |
| Providers.CrossrefQueryFields | src/article_api/crossref_api.py:57-62 | `query.title` is the cleaned title, and `query.author` is present only for a truthy author |
| Providers.CrossrefWithTitle | src/article_api/crossref_api.py:44-73 | the search result is checked against the cleaned title |
| Providers.CrossrefWithDoiNeverAsks | src/article_api/crossref_api.py:75-96 | a DOI lookup passes no title, so it never depends on the user's answer |
| Providers.AdsQuery | src/article_api/ads_api.py:19-45 | a failed request, the maintenance page or an empty result list gives `None`; otherwise the first document is processed without a title |
| Providers.AdsProcess | src/article_api/ads_api.py:47-74 | title and doi reduced to one string, the other fields copied, and, when asked, one reference lookup per bibcode |
| Providers.AdsReferences | src/article_api/ads_api.py:59-60 | one lookup per bibcode, same length and order, without references of their own |
| Providers.AdsReferencesNeverAsk | src/article_api/ads_api.py:59-60 | the reference lookups by bibcode never depend on the user's answer |
| Providers.AdsTitleQuery | src/article_api/ads_api.py:86-89 | `title:"..."`, with ` author:"..."` only for a truthy author |
| Providers.AdsQueryTitle | src/article_api/ads_api.py:86-89 | the cleaned title is the text between the first two quotes of the query |
| Providers.AdsWithTitle | src/article_api/ads_api.py:76-91 | a title that cannot be cleaned raises; otherwise the title query is searched |
| Providers.AdsIdentifierQueries | src/article_api/ads_api.py:93-129 | the DOI, bibcode and arXiv lookups search "doi:", "bibcode:" and "arXiv:" followed by the identifier, three different queries |
| Providers.AdsNeverAsks | src/article_api/ads_api.py:44 | ADS results never depend on the user's answer, references included |
| Reconcile.MergeFrom | src/article_api/article_api.py:144-177 | no result leaves the data alone; otherwise the renamed result is merged so that a truthy field is never replaced; a result missing a renamed field raises |
| Reconcile.Apply | src/article_api/article_api.py:75-82 | the lookups in turn keep every field and every truthy value |
| Reconcile.ApplyNothingFound | src/article_api/article_api.py:144-146 | lookups that find nothing change nothing |
| Reconcile.TitleData | src/article_api/article_api.py:70-84 | the lookups are by title on arXiv, then Crossref, then ADS |
| Reconcile.Chain | src/article_api/article_api.py:95-141 | the fallbacks are examined in list order, each on the data the earlier ones left: one whose guard is `None` is skipped, any other looks up its field's value with its provider and merges the result in; no made fallback but the last found the sought field, and the chain ends before the list does only right after one that found it; truthy fields are kept |
| Reconcile.ChainUnguarded | src/article_api/article_api.py:95-141 | with every remaining guard `None`, the data is unchanged and no lookup is made |
| Reconcile.Missing | src/article_api/article_api.py:95-141 | a missing sought field raises; one that is not `None` leaves the data alone without a lookup; otherwise the chain runs from the first fallback |
| Reconcile.MissingData | src/article_api/article_api.py:87-93 | succeeds exactly when the Crossref chain does and the ADS chain does on the data it left; the lookups are the Crossref chain's, then the ADS chain's; every field and every truthy value is kept |
| Reconcile.MissingDataOrder | src/article_api/article_api.py:87-141 | at most five lookups, none on arXiv, and no Crossref lookup after an ADS one |
| Reconcile.CrossrefFallbackUsesAdsDoi | src/article_api/article_api.py:95-113 | with no arXiv doi and an ADS bibcode, the Crossref fallbacks make exactly one lookup: Crossref by the doi ADS gave |
| Reconcile.BasicRun | src/article_api/article_api.py:182-257 | the lookups made are the first `n` planned ones, each merged into the data the earlier ones left; the data after each earlier one was not verified, and the run ends before the plan does only on verified data; an error means the whole plan's run fails |
| Reconcile.GetBasicData | src/article_api/article_api.py:182-257 | the lookups are the first `n` of DOI on Crossref then ADS, bibcode on ADS, title on ADS then Crossref (a stage without identifier left out), where `n` is the first count after which the data is verified, or the whole plan; that data is returned exactly when verified, keeping a truthy title and first author; no identifier means no lookup |
| Reconcile.BasicRunStops | src/article_api/article_api.py:209-229 | once the first lookup verifies the data, no later lookup is made |
| Reconcile.FilterUnstructured | src/article_api/article_api.py:284-295 | succeeds exactly when every truthy entry is a mapping; at most as many entries out as in |
| Reconcile.FilterUnstructuredRoutes | src/article_api/article_api.py:284-295 | the first list holds exactly the truthy structured entries, and the second every unstructured text |
| Reconcile.FilterUnstructuredAppend | src/article_api/article_api.py:284-295 | filtering keeps the order of the entries in both lists |
| Reconcile.Normalise | src/article_api/article_api.py:312-327 | the title is taken from `article-title`, `title`, then `series-title`; the first author is derived when missing; required fields holding `None` are removed |
| Reconcile.Stub | src/article_api/article_api.py:309-310 | an unstructured entry is replaced by what the parser makes of its text |
| Reconcile.DictToSbKey | src/article_api/article_api.py:308-344 | a key has 32 characters, the batch parser is never called, and an unstructured entry is parsed first |
| Reconcile.KeyOf | src/article_api/article_api.py:337-344 | no data gives no key; a key has 32 characters |
| Reconcile.DictToSbKeyComplete | src/article_api/article_api.py:308-344 | a complete structured reference needs no lookup |
| Reconcile.DictToSbKeyIncomplete | src/article_api/article_api.py:329-338 | an incomplete reference whose basic data is not found yields no key after exactly the basic lookups |
| Reconcile.ListKeys | src/article_api/article_api.py:298-305 | succeeds exactly when every entry does; the keys are each entry's key in entry order, entries without a key contributing none, and the events are each entry's events in entry order |
| Reconcile.ListKeysGood | src/article_api/article_api.py:298-305 | when every entry's outcome is well formed, so is the list's |
| Reconcile.ListKeysAppend | src/article_api/article_api.py:298-305 | the keys of a concatenation are the keys of each part, in order |
| Reconcile.ListToSbKey | src/article_api/article_api.py:298-305 | every key has 32 characters and no batch parse happens |
| Reconcile.ListToSbKeyAppend | src/article_api/article_api.py:298-305 | the keys of a concatenation are the keys of each part, in order |
| Reconcile.ReferenceKeys | src/article_api/article_api.py:267-281 | the parser runs once, first, exactly when some entry is unstructured; keys have 32 characters |
| Reconcile.UnstructuredFound | src/article_api/article_api.py:284-295 | the second list is non-empty exactly when some entry is unstructured |
| Reconcile.ReferenceKeysOrder | src/article_api/article_api.py:276-278 | the structured entries' keys come before the parsed entries' |
| Reconcile.Initial | src/article_api/article_api.py:32-50 | title, author and first author as given, every other field `None` |
| Reconcile.ListOr | src/article_api/article_api.py:63 | a falsy value gives the empty list, a list its items, anything else raises |
| Reconcile.References | src/article_api/article_api.py:62-64 | a missing reference field raises; otherwise Crossref's references then ADS's, a falsy list contributing nothing and any other non-list raising |
| Reconcile.NormalisedForms | src/article_api/article_api.py:312-327 | a list normalised in place holds structured references only in normal form: no `article-title` and no required field holding `None` |
| Reconcile.DictToSbKeyNormalises | src/article_api/article_api.py:308-327 | a structured reference that yields an outcome was normalised without error |
| Reconcile.ReferenceKeysNormalise | src/article_api/article_api.py:267-327 | when the keys of a reference list are made, every structured reference in it was normalised without error |
| Reconcile.NormalisedLists | src/article_api/article_api.py:62-64 | with every structured reference normalisable, both reference lists are normalised where they stand, entry by entry |
| Reconcile.Collect | src/article_api/article_api.py:53-54 | every starting field is kept, and a truthy title or first author is never replaced |
| Reconcile.CollectTitleFirst | src/article_api/article_api.py:75-82 | the first three lookups are by title on arXiv, Crossref, then ADS |
| Reconcile.Keyed | src/article_api/article_api.py:55-64 | the data gains its own key from title, first author and year, and as `ref` the keys `generate_sbkey` gives for its Crossref then ADS references, in that order, each 32 characters long, with exactly that run's events; in the Crossref and ADS lists each structured reference is replaced by its normal form where it stands and every other entry kept; every other field is unchanged |
| Reconcile.GetData | src/article_api/article_api.py:21-67 | the result always has a key and a reference list, keeps every starting field, keeps a truthy title and first author, holds its Crossref and ADS references in normal form, and has as `ref` the keys of the references the lookups collected |
| Legacy.FirstHit | src/paper_rel_gen.py:561-589 | the enabled fallbacks are tried in order until the first hit; a hit is returned exactly when some enabled fallback hits |
| Legacy.Fill | src/paper_rel_gen.py:525-589 | skipped when already filled; otherwise the first hit is copied in, or nothing changes after every enabled fallback was tried |
| Legacy.WithArxiv | src/paper_rel_gen.py:507-511 | the arXiv group takes the answer and nothing else changes |
| Legacy.WithCrossref | src/paper_rel_gen.py:513-516 | the Crossref group takes the answer and nothing else changes |
| Legacy.WithAds | src/paper_rel_gen.py:518-523 | the ADS group takes the answer and nothing else changes |
| Legacy.FillArxiv | src/paper_rel_gen.py:525-542 | skipped when the arXiv id is truthy; only the arXiv group changes, and only to an answer with a truthy id; with a falsy id, the id ends up truthy exactly when the query by a truthy Crossref doi or by a truthy ADS doi answers with a truthy id |
| Legacy.FillCrossref | src/paper_rel_gen.py:544-559 | skipped when the Crossref references are truthy; only the Crossref group changes, and only to an answer with truthy references; with falsy references, they end up truthy exactly when the query by a truthy arXiv doi or by a truthy ADS doi answers with truthy references |
| Legacy.FillAds | src/paper_rel_gen.py:561-589 | skipped when the bibcode is truthy; only the ADS group changes, and only to an answer with a truthy bibcode; with a falsy bibcode, it ends up truthy exactly when the query by a truthy arXiv doi, by a truthy Crossref doi or by a truthy arXiv id answers with a truthy bibcode |
| Legacy.AdsFallbackOrder | src/paper_rel_gen.py:561-589 | ADS is asked by arXiv doi, then Crossref doi, then arXiv id |
| Legacy.AdsStopsAtFirst | src/paper_rel_gen.py:565-572 | a hit by the arXiv doi ends the ADS chain |
| Legacy.ProcessArticle | src/paper_rel_gen.py:484-505 | the title queries come first, at most ten queries are made, and a group its title query found is kept; a group its title query missed ends up found exactly when one of its enabled fallbacks answers: the arXiv id by the Crossref or ADS title dois, the Crossref references by the final arXiv doi or the ADS title doi, the bibcode by the final arXiv doi, Crossref doi or arXiv id |
| Legacy.ToRecord | src/paper_rel_gen.py:485-495 | the nine fields of the returned dict |
| Legacy.Enabled | src/paper_rel_gen.py:561-589 | the queries issued are exactly those of the fallbacks whose guard holds |
| Legacy.Distinct | src/paper_rel_gen.py:749 | every element once, no other |
| Legacy.ReferenceUnion | src/paper_rel_gen.py:749 | succeeds exactly when both lists are iterable and hashable; each reference once; exactly the references of either list |
| Legacy.GetOr | src/paper_rel_gen.py:758-760 | a present embedding, else the placeholder |
| Legacy.DoiOf | src/paper_rel_gen.py:745 | the arXiv doi when truthy, else the Crossref doi when truthy, else the ADS doi; a field is read, and can raise, only when the ones before it are falsy |
| Legacy.DoiOfPresent | src/paper_rel_gen.py:745 | with all three doi fields present, the short-circuit read is the `or` of the three |
| Legacy.DoiOfArxivOnly | src/paper_rel_gen.py:745 | a truthy arXiv doi is enough: the other doi fields need not exist |
| Legacy.OrganizeDbEntry | src/paper_rel_gen.py:739-763 | succeeds exactly when the identifier, reference and metadata fields are present, the doi fields it reads are present, and the references can be united; identifiers, the doi by arXiv then Crossref then ADS, united references, no citing papers, metadata fields |
| Legacy.DbEntryFields | src/paper_rel_gen.py:745-751 | the doi is the first truthy doi (a field not read counts as absent), and the references are duplicate-free and exactly those of either list |
| Legacy.OrganizeMdMetadata | src/paper_rel_gen.py:765-779 | succeeds exactly when the fields are present and the keywords a non-empty list; tags are "Paper" then the keywords; the category is the first keyword |
| Legacy.CreatedIsUpdated | src/paper_rel_gen.py:769-770 | on `process_article`'s dict the creation time is the update time |
| Legacy.ProcessedEntry | src/paper_rel_gen.py:739-763 | `process_article`'s dict always yields a table entry when the metadata has every field the entry reads and each reference field is falsy or a list of hashable values |

## Left out

- Network, LLM, YAML, BibTeX, HDF and file I/O are left out. Provider lookups, the reference
  parser, `yaml.safe_load`/`yaml.dump`, the BibTeX parser, embeddings and distances are
  function parameters. An exception inside a provider's `_query` is part of the oracle's
  `None`.
- `OpenAPI.reference_parse` is not defined in `src/llm_api/open.py`. It is the `parse` parameter
  of `Reconcile`.
- `TextUtils.generate_sbkey` is called but not defined. The model uses the
  `src/paper_rel_gen.py` definition without its `DB.append_article_db` side effect.
- `same_text` (SequenceMatcher ratio), numpy norms and NaN are floating point. The distance is
  an abstract `Value -> real`, and NaN is the `nan` parameter of `Legacy.OrganizeDbEntry`.
- Python set order in `organize_db_entry`'s `ref` is unspecified. `Legacy.ReferenceUnion` lists
  the elements by first occurrence, and it does not model `1 == True` hashing alike.
- `Values.Elements` refuses a dict where Python would iterate its keys.
- Values.Format: a list renders as "[...]" and a dict as "{...}", not as Python's `repr`. So in the arXiv and ADS query strings (`Providers.ArxivQueryString`, `Providers.AdsTitleQuery`, `Providers.AdsWithDoi`, `Providers.AdsWithBibcode`, `Providers.AdsWithArxiv`) every list- or dict-valued argument gives the same text, and the provider oracles answer all such authors alike. A faithful `repr` needs Python's string escaping and dict order.
- Tables.VectorSearch: the `distance` column that `vector_search` adds is not modelled. Distances are floating point and `Value` has no float, so the rows come back as stored.
- Tables.VectorSearchNearest: likewise, the rows come back without the `distance` column.
- Markdown.ParseInt: reads ASCII digits only. Python's `int` also accepts underscores between digits ("2_006") and other Unicode decimal digits; the model refuses both, so such a year gives `{}`.
- Values.IsDigits: tests ASCII digits only. `str.isdigit` also accepts superscripts such as "²" and other Unicode digits, so for such a year `SbKey.YearPart` gives "." where Python keeps the text.
- Strings.LowerStr: lower-cases ASCII letters only. Python's `str.lower` lowers every cased Unicode letter, and `re.IGNORECASE` folds Unicode case.
- Markdown.IsHeader: matches the header name through `Strings.LowerStr`, so it is ASCII-only case-insensitive. A non-ASCII letter in a name or line that differs only in case is not matched.
- Notes.Marks: likewise matches headers with ASCII-only lower-casing.
- Markdown.OpensBibtex: likewise matches ```` ```BibTeX ```` with ASCII-only case folding.
- Reconcile.FilterUnstructured: raises at the filter for a truthy entry that is not a mapping. Python raises later, in `_dict_to_sbkey`, with possibly a different exception.
- Reconcile.GetBasicData: the three stages `_get_basic_doi`, `_get_basic_bibcode` and `_get_basic_title` are flattened into one list of lookups with one stopping rule.
- Reconcile.Keyed: Python object identity is not modelled. A reference dict that appears in both lists, or twice in one, is normalised from its value as it was before the call, not a second time.
- Reconcile.Stub: a parser result that is not a mapping gives `AttributeError`, whatever Python would raise.
- Reconcile.ReferenceKeys: `generate_sbkey` on a non-list goes to `_dict_to_sbkey`, which is `Reconcile.DictToSbKey`; the dispatch itself is not modelled.
- Markdown.SplitFrontMatter: the unclosed-front-matter error is named `yaml_end` for every copy; `paper_db_creation.py` calls that variable `metadata_end`.
- PaperFiles.ProcessMetadata: a tag list given as a mapping is refused instead of iterating its keys.
- `Article.__init__` passes two arguments to `Knowledge.__init__`. Notes are modelled by their parsed front matter, so construction is not modelled.
- The `query_*` functions of `src/paper_rel_gen.py` are total oracles (the fields of `Legacy.Sources`); their exceptions and `check_title` prompts are not modelled.
- `ObsidianNote._modify_section`, `update_file`, `Note.update_note`, `KnowledgeBase.qna` and `DebugNote` are I/O or depend on code that is not shown.
- `append_reference`, the root `paper_rel_gen.py` and `src/article_api/article.py` refer to names that do not exist.

## Findings

| source | as written | input that shows it | evidently intended | confidence | as-written member | corrected member |
|---|---|---|---|---|---|---|
| gen_ref_map.py:129-145 | the References scan has no `break`, so the block runs to the last later '#' line | the note "# References", "# Notes", "text", "# More": the "# Notes" section is removed too | end the block at the first later '#' line, as the Bibtex and Others scans do | not executed | Notes.FindReferencesDropsSection | Notes.FindReferencesFixedKeepsSection |
| src/knowledge/base.py:53 | `vector_search` sorts by distance descending, so it returns the farthest rows | two rows at distances 1 and 2 with `n = 1`: the row at distance 2 comes back | ascending order, returning the nearest rows | not executed | Tables.VectorSearchReturnsFarthest | Tables.VectorSearchNearest |
| paper_db_creation.py:71 | `if idx:` treats index 0 as absent | one old entry with key "a" and a new entry with key "a": both are kept | `if idx is not None:`, updating the first row in place | not executed | Tables.UpdateEntriesDuplicatesFirst | Tables.UpdateEntriesFixedShape |
| src/knowledge/article.py:71 | `Article.db_entry` calls `super().db_entry()` without the required `embeddings` | any article note: `TypeError` | pass the embeddings on to the base entry | not executed | Knowledge.ArticleDbEntryAsWritten | Knowledge.ArticleDbEntry |

=== FILE: dicts.dfy ===
/** `DictUtils`: the "first truthy value wins" merge and key renaming. */
module Dicts {
  import opened Wrappers
  import opened Values

  /** The value `merge` leaves under key `k`, for `k` in either record. */
  function MergedAt(d1: Record, d2: Record, k: string): Value
    requires k in d1 || k in d2
  {
    if k !in d1 then d2[k] else if k in d2 then Or(d1[k], d2[k]) else d1[k]
  }

  /** `DictUtils.merge(dict1, dict2)` on two records: the keys of both, and for a shared key
      the first record's value when it is truthy, otherwise the second's. */
  function MergeRecords(d1: Record, d2: Record): (r: Record)
    ensures r.Keys == d1.Keys + d2.Keys
    ensures forall k :: k in d1 && k !in d2 ==> r[k] == d1[k]
    ensures forall k :: k in d2 && k !in d1 ==> r[k] == d2[k]
    ensures forall k :: k in d1 && k in d2 ==>
      (Truthy(d1[k]) ==> r[k] == d1[k]) && (!Truthy(d1[k]) ==> r[k] == d2[k])
  {
    map k | k in d1.Keys + d2.Keys :: MergedAt(d1, d2, k)
  }

  /** `DictUtils.merge` with Python's `None` for either argument. */
  function Merge(d1: Option<Record>, d2: Option<Record>): (r: Option<Record>)
    ensures d1.None? ==> r == d2
    ensures d2.None? ==> r == d1
    ensures d1.Some? && d2.Some? ==> r.Some? && r.value.Keys == d1.value.Keys + d2.value.Keys
  {
    match (d1, d2)
    case (None, _) => d2
    case (_, None) => d1
    case (Some(a), Some(b)) => Some(MergeRecords(a, b))
  }

  /** Every truthy field of the first record survives a merge unchanged. */
  lemma MergeKeepsTruthy(d1: Record, d2: Record, k: string)
    requires k in d1 && Truthy(d1[k])
    ensures MergeRecords(d1, d2)[k] == d1[k]
  {
  }

  /** A field of the merge is truthy exactly when it is truthy in either input. */
  lemma MergeTruthy(d1: Record, d2: Record, k: string)
    requires k in d1 || k in d2
    ensures Truthy(MergeRecords(d1, d2)[k]) <==>
      (k in d1 && Truthy(d1[k])) || (k in d2 && Truthy(d2[k]))
  {
  }

  /** `merge(d, d) == d`. */
  lemma MergeSelf(d: Record)
    ensures MergeRecords(d, d) == d
  {
  }

  /** Merging is associative, so a chain of provider merges can be regrouped. */
  lemma MergeAssociative(a: Record, b: Record, c: Record)
    ensures MergeRecords(MergeRecords(a, b), c) == MergeRecords(a, MergeRecords(b, c))
  {
    var l, r := MergeRecords(MergeRecords(a, b), c), MergeRecords(a, MergeRecords(b, c));
    forall k | k in l.Keys ensures l[k] == r[k] {
    }
  }

  /** The merge as the source performs it: walking the keys of `dict2` in order and updating
      `dict1` in place. `order` lists the keys of `d2`, each once. */
  method MergeInPlace(d1: Record, d2: Record, order: seq<string>) returns (r: Record)
    requires forall k :: k in d2 <==> k in order
    ensures r == MergeRecords(d1, d2)
  {
    r := d1;
    var i := 0;
    ghost var seen: set<string> := {};
    while i < |order|
      invariant 0 <= i <= |order|
      invariant seen <= d2.Keys && r.Keys == d1.Keys + seen
      invariant forall j :: 0 <= j < i ==> order[j] in seen
      invariant forall k :: k in r ==> r[k] == if k in seen then MergedAt(d1, d2, k) else d1[k]
    {
      var k := order[i];
      if k !in r {
        r := r[k := d2[k]];
      } else {
        r := r[k := Or(r[k], d2[k])];
      }
      seen := seen + {k};
      i := i + 1;
    }
    assert seen == d2.Keys by {
      forall k | k in d2 ensures k in seen {
        var j :| 0 <= j < |order| && order[j] == k;
      }
    }
  }

  /** `d[dst] = d.pop(src)`: `src` moves to `dst`, or a `KeyError` when `src` is absent. */
  function Rename(d: Record, src: string, dst: string): (r: Result<Record>)
    ensures r.Ok? <==> src in d
    ensures r.Ok? ==> dst in r.value && r.value[dst] == d[src]
    ensures r.Ok? && src != dst ==> src !in r.value
    ensures r.Ok? ==> forall k :: k != src && k != dst ==> (k in r.value <==> k in d)
    ensures r.Ok? ==> forall k :: k in d && k != src && k != dst ==> r.value[k] == d[k]
  {
    if src in d then Ok((d - {src})[dst := d[src]]) else Err(KeyError(src))
  }

  /** `DictUtils.rename_key(dict, key_mapping)`: the renames applied one by one, in the
      mapping's order; the first missing source raises. */
  function RenameKeys(d: Record, mapping: seq<(string, string)>): (r: Result<Record>)
    decreases |mapping|
  {
    if |mapping| == 0 then Ok(d)
    else
      var d' :- Rename(d, mapping[0].0, mapping[0].1);
      RenameKeys(d', mapping[1..])
  }

  predicate Sources(mapping: seq<(string, string)>, k: string) {
    exists i :: 0 <= i < |mapping| && mapping[i].0 == k
  }

  predicate Targets(mapping: seq<(string, string)>, k: string) {
    exists i :: 0 <= i < |mapping| && mapping[i].1 == k
  }

  lemma TailSourcesTargets(mapping: seq<(string, string)>)
    requires |mapping| > 0
    ensures forall k :: Sources(mapping[1..], k) ==> Sources(mapping, k)
    ensures forall k :: Targets(mapping[1..], k) ==> Targets(mapping, k)
    ensures Sources(mapping, mapping[0].0) && Targets(mapping, mapping[0].1)
    ensures forall k :: Sources(mapping, k) ==> k == mapping[0].0 || Sources(mapping[1..], k)
    ensures forall k :: Targets(mapping, k) ==> k == mapping[0].1 || Targets(mapping[1..], k)
  {
    var rest := mapping[1..];
    forall k | Sources(mapping, k) ensures k == mapping[0].0 || Sources(rest, k) {
      var i :| 0 <= i < |mapping| && mapping[i].0 == k;
      if i > 0 { assert rest[i - 1] == mapping[i]; }
    }
    forall k | Targets(mapping, k) ensures k == mapping[0].1 || Targets(rest, k) {
      var i :| 0 <= i < |mapping| && mapping[i].1 == k;
      if i > 0 { assert rest[i - 1] == mapping[i]; }
    }
    forall k | Sources(rest, k) ensures Sources(mapping, k) {
      var i :| 0 <= i < |rest| && rest[i].0 == k;
      assert mapping[i + 1] == rest[i];
    }
    forall k | Targets(rest, k) ensures Targets(mapping, k) {
      var i :| 0 <= i < |rest| && rest[i].1 == k;
      assert mapping[i + 1] == rest[i];
    }
    assert mapping[0] == mapping[0];
  }

  /** Renaming with distinct sources that are never targets succeeds exactly when every
      source is in the record; a missing source is a `KeyError`. */
  lemma {:induction false} RenameKeysOk(d: Record, mapping: seq<(string, string)>)
    requires forall i, j :: 0 <= i < j < |mapping| ==> mapping[i].0 != mapping[j].0 && mapping[i].1 != mapping[j].1
    requires forall i, j :: 0 <= i < |mapping| && 0 <= j < |mapping| ==> mapping[i].0 != mapping[j].1
    ensures RenameKeys(d, mapping).Ok? <==> forall i :: 0 <= i < |mapping| ==> mapping[i].0 in d
    decreases |mapping|
  {
    if |mapping| > 0 {
      var (s, t) := mapping[0];
      var rest := mapping[1..];
      if s in d {
        var d' := Rename(d, s, t).value;
        RenameKeysOk(d', rest);
        assert RenameKeys(d, mapping) == RenameKeys(d', rest);
        forall i | 0 <= i < |rest| ensures (rest[i].0 in d' <==> rest[i].0 in d) {
          assert rest[i] == mapping[i + 1];
        }
        forall i | 0 <= i < |mapping| ensures mapping[i].0 in d <==> i == 0 || rest[i - 1].0 in d {
          if i > 0 { assert mapping[i] == rest[i - 1]; }
        }
      }
    }
  }

  /** A successful renaming keeps every key that is neither a source nor a target, with its
      value. */
  lemma {:induction false} RenameKeysKeeps(d: Record, mapping: seq<(string, string)>)
    requires RenameKeys(d, mapping).Ok?
    ensures var r := RenameKeys(d, mapping).value;
      forall k :: k in d && !Sources(mapping, k) && !Targets(mapping, k) ==> k in r && r[k] == d[k]
    decreases |mapping|
  {
    if |mapping| > 0 {
      var (s, t) := mapping[0];
      var d' := Rename(d, s, t).value;
      assert RenameKeys(d, mapping) == RenameKeys(d', mapping[1..]);
      RenameKeysKeeps(d', mapping[1..]);
      TailSourcesTargets(mapping);
    }
  }

  /** Every key after a successful renaming is a target, or was in the record and is no
      source. */
  lemma {:induction false} RenameKeysOnly(d: Record, mapping: seq<(string, string)>)
    requires RenameKeys(d, mapping).Ok?
    ensures var r := RenameKeys(d, mapping).value;
      forall k :: k in r ==> (k in d && !Sources(mapping, k)) || Targets(mapping, k)
    decreases |mapping|
  {
    if |mapping| > 0 {
      var (s, t) := mapping[0];
      var d' := Rename(d, s, t).value;
      assert RenameKeys(d, mapping) == RenameKeys(d', mapping[1..]);
      RenameKeysOnly(d', mapping[1..]);
      TailSourcesTargets(mapping);
    }
  }

  /** With distinct sources that are never targets, every target ends up holding the former
      value of its source. */
  lemma {:induction false} RenameKeysMoves(d: Record, mapping: seq<(string, string)>)
    requires forall i, j :: 0 <= i < j < |mapping| ==> mapping[i].0 != mapping[j].0 && mapping[i].1 != mapping[j].1
    requires forall i, j :: 0 <= i < |mapping| && 0 <= j < |mapping| ==> mapping[i].0 != mapping[j].1
    requires RenameKeys(d, mapping).Ok?
    ensures var r := RenameKeys(d, mapping).value;
      forall i :: 0 <= i < |mapping| ==>
        mapping[i].0 in d && mapping[i].1 in r && r[mapping[i].1] == d[mapping[i].0]
    decreases |mapping|
  {
    RenameKeysOk(d, mapping);
    if |mapping| > 0 {
      var (s, t) := mapping[0];
      var rest := mapping[1..];
      var d' := Rename(d, s, t).value;
      assert RenameKeys(d, mapping) == RenameKeys(d', rest);
      RenameKeysMoves(d', rest);
      RenameKeysKeeps(d', rest);
      var r := RenameKeys(d, mapping).value;
      forall j | 0 <= j < |rest| ensures rest[j].0 != t && rest[j].1 != t {
        assert rest[j] == mapping[j + 1];
      }
      forall i | 0 <= i < |mapping|
        ensures mapping[i].0 in d && mapping[i].1 in r && r[mapping[i].1] == d[mapping[i].0]
      {
        if i > 0 {
          assert mapping[i] == rest[i - 1];
          assert mapping[i].0 != s && mapping[i].0 != t;
        }
      }
    }
  }

  /** With distinct sources that are never targets, no source is left after a successful
      renaming. */
  lemma {:induction false} RenameKeysDrops(d: Record, mapping: seq<(string, string)>)
    requires forall i, j :: 0 <= i < j < |mapping| ==> mapping[i].0 != mapping[j].0 && mapping[i].1 != mapping[j].1
    requires forall i, j :: 0 <= i < |mapping| && 0 <= j < |mapping| ==> mapping[i].0 != mapping[j].1
    requires RenameKeys(d, mapping).Ok?
    ensures var r := RenameKeys(d, mapping).value;
      forall i :: 0 <= i < |mapping| ==> mapping[i].0 !in r
    decreases |mapping|
  {
    if |mapping| > 0 {
      var (s, t) := mapping[0];
      var rest := mapping[1..];
      var d' := Rename(d, s, t).value;
      assert RenameKeys(d, mapping) == RenameKeys(d', rest);
      RenameKeysDrops(d', rest);
      RenameKeysOnly(d', rest);
      forall j | 0 <= j < |rest| ensures rest[j].1 != s {
        assert rest[j] == mapping[j + 1];
      }
      forall i | 0 <= i < |mapping| ensures mapping[i].0 !in RenameKeys(d, mapping).value {
        if i > 0 { assert mapping[i] == rest[i - 1]; }
      }
    }
  }

  /** With distinct sources that are never targets, a successful renaming leaves every target
      holding the former value of its source, removes every source, and leaves every other
      key untouched. */
  lemma RenameKeysSpec(d: Record, mapping: seq<(string, string)>)
    requires forall i, j :: 0 <= i < j < |mapping| ==> mapping[i].0 != mapping[j].0 && mapping[i].1 != mapping[j].1
    requires forall i, j :: 0 <= i < |mapping| && 0 <= j < |mapping| ==> mapping[i].0 != mapping[j].1
    requires RenameKeys(d, mapping).Ok?
    ensures var r := RenameKeys(d, mapping).value;
      (forall i :: 0 <= i < |mapping| ==>
        mapping[i].0 in d && mapping[i].1 in r && r[mapping[i].1] == d[mapping[i].0]) &&
      (forall i :: 0 <= i < |mapping| ==> mapping[i].0 !in r) &&
      (forall k :: k in d && !Sources(mapping, k) && !Targets(mapping, k) ==> k in r && r[k] == d[k]) &&
      (forall k :: k in r ==> (k in d && !Sources(mapping, k)) || Targets(mapping, k))
  {
    RenameKeysMoves(d, mapping);
    RenameKeysDrops(d, mapping);
    RenameKeysKeeps(d, mapping);
    RenameKeysOnly(d, mapping);
  }
}

=== FILE: knowledge.dfy ===
/** The knowledge notes of `src/knowledge`: the table entry and the front matter a note
    produces, the article specialisations, and the factory choosing a note class by name.
    A note is given by its parsed front matter (`metadata`); the clock is a parameter. */
module Knowledge {
  import opened Wrappers
  import opened Values
  import opened Strings

  /** `r` is what Python's `vs[0] or vs[1] or ...` gives: the first truthy operand, or the
      last operand when none is truthy. */
  predicate FirstTruthyOf(r: Value, vs: seq<Value>) {
    exists i :: 0 <= i < |vs| && r == vs[i] && (Truthy(r) || i == |vs| - 1)
      && forall j :: 0 <= j < i ==> !Truthy(vs[j])
  }

  /** `a or b or c`. */
  function Or3(a: Value, b: Value, c: Value): (r: Value)
    ensures FirstTruthyOf(r, [a, b, c])
    ensures Truthy(r) <==> Truthy(a) || Truthy(b) || Truthy(c)
  {
    var vs := [a, b, c];
    var r := Or(Or(a, b), c);
    assert r == vs[if Truthy(a) then 0 else if Truthy(b) then 1 else 2];
    r
  }

  /** The fields of `metadata` named in `keys`, each copied with `.get`. */
  function Copy(metadata: Record, keys: set<string>): (r: Record)
    ensures r.Keys == keys
    ensures forall k :: k in keys ==> r[k] == Get(metadata, k)
  {
    map k | k in keys :: Get(metadata, k)
  }

  /** `os.path.basename(path)`. */
  function Basename(path: string): (r: string)
    ensures |r| <= |path| && r == path[|path| - |r|..]
    ensures forall i :: 0 <= i < |r| ==> r[i] != '/'
    ensures |r| < |path| ==> path[|path| - |r| - 1] == '/'
  {
    AfterLastSpec(path, '/');
    AfterLast(path, '/')
  }

  /** `Knowledge.db_entry(embeddings)`: key and keywords from the metadata, the file's base
      name, then every embedding copied in, overriding a field of the same name. */
  function DbEntry(metadata: Record, fileName: string, embeddings: Record): (r: Record)
    ensures r.Keys == {"key", "keywords", "file_name"} + embeddings.Keys
    ensures forall k :: k in embeddings ==> r[k] == embeddings[k]
    ensures forall k :: k in {"key", "keywords"} && k !in embeddings ==> r[k] == Get(metadata, k)
    ensures "file_name" !in embeddings ==> r["file_name"] == VStr(Basename(fileName))
  {
    map["key" := Get(metadata, "key"), "keywords" := Get(metadata, "keywords"),
        "file_name" := VStr(Basename(fileName))] + embeddings
  }

  /** `Knowledge.md_metadata()` at time `now`: `updated` is the current time and `created`
      the note's own truthy creation time, or the current time as well. */
  function MdMetadata(metadata: Record, now: string): (r: Record)
    ensures r.Keys == {"key", "updated", "created", "tags"}
    ensures r["key"] == Get(metadata, "key") && r["tags"] == Get(metadata, "keywords")
    ensures r["updated"] == VStr(now)
    ensures Truthy(Get(metadata, "created")) ==> r["created"] == metadata["created"]
    ensures !Truthy(Get(metadata, "created")) ==> r["created"] == r["updated"]
  {
    map["key" := Get(metadata, "key"), "updated" := VStr(now),
        "created" := Or(Get(metadata, "created"), VStr(now)), "tags" := Get(metadata, "keywords")]
  }

  /** The fields `Article.db_entry` copies from the metadata. */
  const CopiedFields: set<string> := {"arxiv_id", "bibcode", "title", "author", "year", "ref"}

  /** The fields `Article.db_entry` sets on top of the base entry. */
  const ArticleFields: set<string> := CopiedFields + {"doi", "cited_by"}

  /** `Article.summary()`: the arXiv summary, else the ADS abstract, else the Crossref
      abstract. */
  function Summary(metadata: Record): (r: Value)
    ensures FirstTruthyOf(r, [Get(metadata, "arxiv_summary"), Get(metadata, "ads_abstract"),
                              Get(metadata, "crossref_abstract")])
  {
    Or3(Get(metadata, "arxiv_summary"), Get(metadata, "ads_abstract"), Get(metadata, "crossref_abstract"))
  }

  /** `Article.db_entry()` as written: it calls the base `db_entry` without the embeddings
      that method requires, which raises `TypeError` whatever the note holds. */
  function ArticleDbEntryAsWritten(metadata: Record): (r: Result<Record>)
    ensures r.Err? && r.error.TypeError?
  {
    Err(TypeError("db_entry() missing 1 required positional argument: 'embeddings'"))
  }

  /** `Article.db_entry` with the embeddings passed on to the base entry: the identifiers,
      the doi taken from Crossref, then ADS, then arXiv, the bibliographic fields and the
      references copied from the metadata, and no citing papers yet. */
  function ArticleDbEntry(metadata: Record, fileName: string, embeddings: Record): (r: Record)
    ensures r.Keys == DbEntry(metadata, fileName, embeddings).Keys + ArticleFields
    ensures forall k :: k in DbEntry(metadata, fileName, embeddings) && k !in ArticleFields ==>
      r[k] == DbEntry(metadata, fileName, embeddings)[k]
    ensures FirstTruthyOf(r["doi"], [Get(metadata, "crossref_doi"), Get(metadata, "ads_doi"),
                                     Get(metadata, "arxiv_doi")])
    ensures forall k :: k in CopiedFields ==> r[k] == Get(metadata, k)
    ensures r["cited_by"] == VList([])
  {
    DbEntry(metadata, fileName, embeddings) + ArticleOverlay(metadata)
  }

  /** The article's own fields of its table entry. */
  function ArticleOverlay(metadata: Record): (r: Record)
    ensures r.Keys == ArticleFields
    ensures FirstTruthyOf(r["doi"], [Get(metadata, "crossref_doi"), Get(metadata, "ads_doi"),
                                     Get(metadata, "arxiv_doi")])
    ensures forall k :: k in CopiedFields ==> r[k] == Get(metadata, k)
    ensures r["cited_by"] == VList([])
  {
    var doi := Or3(Get(metadata, "crossref_doi"), Get(metadata, "ads_doi"), Get(metadata, "arxiv_doi"));
    Copy(metadata, CopiedFields) + map["doi" := doi, "cited_by" := VList([])]
  }

  /** The category and tags `Article.md_metadata` derives from the keywords: the first
      keyword, and "Paper" followed by the keywords. Keywords that are not a non-empty list
      raise: `IndexError` when empty, `KeyError` for a mapping, `TypeError` otherwise (a
      non-empty string indexes but cannot be added to a list). */
  function CategoryAndTags(keywords: Value): (r: Result<(Value, Value)>)
    ensures r.Ok? <==> keywords.VList? && |keywords.items| > 0
    ensures (keywords.VList? || keywords.VStr?) && !Truthy(keywords) ==> r == Err(IndexError)
    ensures r.Ok? ==>
      r.value.0 == keywords.items[0] && r.value.1 == VList([VStr("Paper")] + keywords.items)
  {
    match keywords
    case VList(kw) =>
      if |kw| == 0 then Err(IndexError)
      else
        var tags := [VStr("Paper")] + kw;
        assert tags[1..] == kw;
        Ok((kw[0], VList(tags)))
    case VStr(s) =>
      if |s| == 0 then Err(IndexError) else Err(TypeError("can only concatenate list to list"))
    case VDict(_) => Err(KeyError("0"))
    case _ => Err(TypeError("object is not subscriptable"))
  }

  /** The front matter of an article: the base front matter `b` plus title, author and year
      from the metadata, and the given category and tags. */
  function ArticleFront(b: Record, metadata: Record, category: Value, tags: Value): (r: Record)
    ensures r.Keys == b.Keys + {"title", "author", "year", "category", "tags"}
    ensures r["category"] == category && r["tags"] == tags
    ensures forall k :: k in b && k !in {"title", "author", "year", "category", "tags"} ==> r[k] == b[k]
    ensures forall k :: k in {"title", "author", "year"} ==> r[k] == Get(metadata, k)
  {
    b + Copy(metadata, {"title", "author", "year"}) + map["category" := category, "tags" := tags]
  }

  /** `Article.md_metadata()` at time `now`: the base front matter with the article's fields,
      the category and tags derived from the keywords. */
  function ArticleMdMetadata(metadata: Record, now: string): (r: Result<Record>)
    ensures r.Ok? <==> CategoryAndTags(Get(metadata, "keywords")).Ok?
    ensures r.Ok? ==>
      var (category, tags) := CategoryAndTags(Get(metadata, "keywords")).value;
      r.value == ArticleFront(MdMetadata(metadata, now), metadata, category, tags)
  {
    var b := MdMetadata(metadata, now);
    var (category, tags) :- CategoryAndTags(b["tags"]);
    Ok(ArticleFront(b, metadata, category, tags))
  }

  /** The note classes `KnowledgeFactory.create` chooses between. */
  datatype Kind = KnowledgeNote | ArticleNote | DebugNote

  /** The registry of `KnowledgeFactory.create`, by type name. */
  const Registry: map<string, Kind> := map["default" := KnowledgeNote, "article" := ArticleNote, "debug" := DebugNote]

  /** `KnowledgeFactory.create(type_name)`: the registered class, or `ValueError` for an
      unknown name. */
  function Create(typeName: string): (r: Result<Kind>)
    ensures r.Ok? <==> typeName in {"default", "article", "debug"}
    ensures typeName == "default" ==> r == Ok(KnowledgeNote)
    ensures typeName == "article" ==> r == Ok(ArticleNote)
    ensures typeName == "debug" ==> r == Ok(DebugNote)
    ensures r.Err? ==> r.error.ValueError?
  {
    if typeName in Registry then Ok(Registry[typeName])
    else Err(ValueError("Unknown knowledge type: " + typeName))
  }

  /** Each class has exactly one name. */
  lemma CreateInjective(a: string, b: string)
    requires Create(a).Ok? && Create(a) == Create(b)
    ensures a == b
  { }
}

=== FILE: legacy.dfy ===
/** The older article pipeline of `src/paper_rel_gen.py`: `process_article` with its title
    lookups and `_fill_missing_*` fallbacks, and the table entry and front matter the script
    assembles from the result. Every provider query is a parameter; the clock and the
    script's file name are parameters too. */
module Legacy {
  import opened Wrappers
  import opened Values
  import opened Knowledge

  /** The record `process_article` fills: one field per key of its dict. */
  datatype ArticleData = ArticleData(
    arxivId: Value, summary: Value, arxivDoi: Value,
    crossrefDoi: Value, crossrefReference: Value,
    adsDoi: Value, adsAbstract: Value, adsReference: Value, adsBibcode: Value)

  /** What an arXiv query answers: id, summary and doi. */
  datatype ArxivHit = ArxivHit(id: Value, summary: Value, doi: Value)

  /** What a Crossref query answers: doi and reference keys. */
  datatype CrossrefHit = CrossrefHit(doi: Value, reference: Value)

  /** What an ADS query answers: doi, abstract, reference keys and bibcode. */
  datatype AdsHit = AdsHit(doi: Value, abstractText: Value, reference: Value, bibcode: Value)

  /** The `query_*` functions. The title queries take the title and author, the others an
      identifier and the title to check the answer against. */
  datatype Sources = Sources(
    arxivTitle: (Value, Value) -> ArxivHit,
    arxivDoi: (Value, Value) -> ArxivHit,
    crossrefTitle: (Value, Value) -> CrossrefHit,
    crossrefDoi: (Value, Value) -> CrossrefHit,
    adsTitle: (Value, Value) -> AdsHit,
    adsDoi: (Value, Value) -> AdsHit,
    adsArxiv: (Value, Value) -> AdsHit)

  /** One provider query, as issued. */
  datatype Query =
    | ArxivTitle(title: Value, author: Value)
    | CrossrefTitle(title: Value, author: Value)
    | AdsTitle(title: Value, author: Value)
    | ArxivDoi(doi: Value)
    | CrossrefDoi(doi: Value)
    | AdsDoi(doi: Value)
    | AdsArxiv(arxivId: Value)

  /** The identifier a fallback query is made with. */
  function Arg(q: Query): Value {
    match q
    case ArxivTitle(t, _) => t
    case CrossrefTitle(t, _) => t
    case AdsTitle(t, _) => t
    case ArxivDoi(x) => x
    case CrossrefDoi(x) => x
    case AdsDoi(x) => x
    case AdsArxiv(x) => x
  }

  /** The queries of a fallback list whose guard holds, in order. */
  function Enabled(attempts: seq<(bool, Query)>): (r: seq<Query>)
    ensures |r| <= |attempts|
    ensures forall q :: q in r <==> exists i :: 0 <= i < |attempts| && attempts[i].0 && attempts[i].1 == q
    decreases |attempts|
  {
    if |attempts| == 0 then []
    else if attempts[0].0 then [attempts[0].1] + Enabled(attempts[1..])
    else Enabled(attempts[1..])
  }

  /** Some query of `qs` gives an answer that counts as found. */
  ghost predicate AnyHit<T>(qs: seq<Query>, ask: Query -> T, hit: T -> bool) {
    exists i :: 0 <= i < |qs| && hit(ask(qs[i]))
  }

  /** A fallback chain: each attempt whose guard holds is queried in turn, and the first
      answer that counts as found ends the chain. The queries issued and the answer found
      are returned. */
  function FirstHit<T>(attempts: seq<(bool, Query)>, ask: Query -> T, hit: T -> bool)
    : (r: (Option<T>, seq<Query>))
    ensures r.1 <= Enabled(attempts)
    ensures forall i :: 0 <= i < |r.1| - 1 ==> !hit(ask(r.1[i]))
    ensures r.0.Some? ==> |r.1| > 0 && r.0.value == ask(r.1[|r.1| - 1]) && hit(r.0.value)
    ensures r.0.None? ==> r.1 == Enabled(attempts) && !AnyHit(r.1, ask, hit)
    ensures r.0.Some? <==> AnyHit(Enabled(attempts), ask, hit)
    decreases |attempts|
  {
    if |attempts| == 0 then (None, [])
    else
      var rest := FirstHit(attempts[1..], ask, hit);
      if !attempts[0].0 then rest
      else
        var q := attempts[0].1;
        HitStepOutcome(q, Enabled(attempts[1..]), rest, ask, hit);
        HitStep(q, rest, ask, hit)
  }

  /** One enabled attempt in front of the rest of the chain: query it, and stop when the
      answer counts as found. */
  function HitStep<T>(q: Query, rest: (Option<T>, seq<Query>), ask: Query -> T, hit: T -> bool)
    : (Option<T>, seq<Query>)
  {
    var answer := ask(q);
    if hit(answer) then (Some(answer), [q]) else (rest.0, [q] + rest.1)
  }

  /** What a chain over the enabled queries `e` returns: a prefix of them, each but the last
      one missing, ending in a hit exactly when some query of `e` hits. */
  ghost predicate HitOutcome<T>(e: seq<Query>, r: (Option<T>, seq<Query>), ask: Query -> T, hit: T -> bool) {
    && r.1 <= e
    && (forall i :: 0 <= i < |r.1| - 1 ==> !hit(ask(r.1[i])))
    && (r.0.Some? ==> |r.1| > 0 && r.0.value == ask(r.1[|r.1| - 1]) && hit(r.0.value))
    && (r.0.None? ==> r.1 == e && !AnyHit(r.1, ask, hit))
    && (r.0.Some? <==> AnyHit(e, ask, hit))
  }

  /** Putting one enabled query in front keeps the outcome a chain outcome. */
  lemma HitStepOutcome<T>(q: Query, tail: seq<Query>, rest: (Option<T>, seq<Query>),
                          ask: Query -> T, hit: T -> bool)
    requires HitOutcome(tail, rest, ask, hit)
    ensures HitOutcome([q] + tail, HitStep(q, rest, ask, hit), ask, hit)
  {
    var e := [q] + tail;
    if hit(ask(q)) {
      assert [q] <= e;
      assert AnyHit(e, ask, hit) by { assert e[0] == q; }
    } else {
      var tried := [q] + rest.1;
      assert forall i :: 0 < i < |tried| ==> tried[i] == rest.1[i - 1];
      assert AnyHit(e, ask, hit) ==> AnyHit(tail, ask, hit) by {
        if AnyHit(e, ask, hit) {
          var i :| 0 <= i < |e| && hit(ask(e[i]));
          assert i > 0 && e[i] == tail[i - 1];
        }
      }
      assert AnyHit(tail, ask, hit) ==> AnyHit(e, ask, hit) by {
        if AnyHit(tail, ask, hit) {
          var i :| 0 <= i < |tail| && hit(ask(tail[i]));
          assert e[i + 1] == tail[i];
        }
      }
      assert forall i :: 0 <= i < |tried| && hit(ask(tried[i])) ==> i > 0 && hit(ask(rest.1[i - 1]));
    }
  }

  /** One `_fill_missing_*` step: nothing happens when the guard field is already filled;
      otherwise the fallback chain runs and a found answer is copied in with `apply`. */
  function Fill<T>(d: ArticleData, filled: bool, attempts: seq<(bool, Query)>, ask: Query -> T,
                   hit: T -> bool, apply: (ArticleData, T) -> ArticleData): (r: (ArticleData, seq<Query>))
    ensures filled ==> r == (d, [])
    ensures r.1 <= Enabled(attempts)
    ensures forall i :: 0 <= i < |r.1| - 1 ==> !hit(ask(r.1[i]))
    ensures r.0 == d || (|r.1| > 0 && hit(ask(r.1[|r.1| - 1])) && r.0 == apply(d, ask(r.1[|r.1| - 1])))
    ensures !filled && AnyHit(Enabled(attempts), ask, hit) ==>
      |r.1| > 0 && hit(ask(r.1[|r.1| - 1])) && r.0 == apply(d, ask(r.1[|r.1| - 1]))
    ensures !filled && !AnyHit(Enabled(attempts), ask, hit) ==> r == (d, Enabled(attempts))
  {
    if filled then (d, [])
    else
      var (found, tried) := FirstHit(attempts, ask, hit);
      (if found.Some? then apply(d, found.value) else d, tried)
  }

  /** Some enabled query of a fallback list gives an answer that counts as found exactly
      when some attempt whose guard holds does. */
  lemma AnyHitEnabled<T>(attempts: seq<(bool, Query)>, ask: Query -> T, hit: T -> bool)
    ensures AnyHit(Enabled(attempts), ask, hit) <==>
      exists i :: 0 <= i < |attempts| && attempts[i].0 && hit(ask(attempts[i].1))
  {
    var e := Enabled(attempts);
    if AnyHit(e, ask, hit) {
      var k :| 0 <= k < |e| && hit(ask(e[k]));
      assert e[k] in e;
    }
    if exists i :: 0 <= i < |attempts| && attempts[i].0 && hit(ask(attempts[i].1)) {
      var i :| 0 <= i < |attempts| && attempts[i].0 && hit(ask(attempts[i].1));
      assert attempts[i].1 in e;
      var k :| 0 <= k < |e| && e[k] == attempts[i].1;
    }
  }

  /** The same over a list of two or three attempts, spelled out. */
  lemma AnyHitOfFew<T>(attempts: seq<(bool, Query)>, ask: Query -> T, hit: T -> bool)
    requires 2 <= |attempts| <= 3
    ensures AnyHit(Enabled(attempts), ask, hit) <==>
      (attempts[0].0 && hit(ask(attempts[0].1))) || (attempts[1].0 && hit(ask(attempts[1].1)))
      || (|attempts| == 3 && attempts[2].0 && hit(ask(attempts[2].1)))
  {
    AnyHitEnabled(attempts, ask, hit);
  }

  /** `d` and `e` agree on every field outside the arXiv group. */
  predicate SameButArxiv(d: ArticleData, e: ArticleData) {
    e.(arxivId := d.arxivId, summary := d.summary, arxivDoi := d.arxivDoi) == d
  }

  /** `d` and `e` agree on every field outside the Crossref group. */
  predicate SameButCrossref(d: ArticleData, e: ArticleData) {
    e.(crossrefDoi := d.crossrefDoi, crossrefReference := d.crossrefReference) == d
  }

  /** `d` and `e` agree on every field outside the ADS group. */
  predicate SameButAds(d: ArticleData, e: ArticleData) {
    e.(adsDoi := d.adsDoi, adsAbstract := d.adsAbstract, adsReference := d.adsReference,
       adsBibcode := d.adsBibcode) == d
  }

  function WithArxiv(d: ArticleData, h: ArxivHit): (r: ArticleData)
    ensures SameButArxiv(d, r) && r.arxivId == h.id && r.summary == h.summary && r.arxivDoi == h.doi
  {
    d.(arxivId := h.id, summary := h.summary, arxivDoi := h.doi)
  }

  function WithCrossref(d: ArticleData, h: CrossrefHit): (r: ArticleData)
    ensures SameButCrossref(d, r) && r.crossrefDoi == h.doi && r.crossrefReference == h.reference
  {
    d.(crossrefDoi := h.doi, crossrefReference := h.reference)
  }

  function WithAds(d: ArticleData, h: AdsHit): (r: ArticleData)
    ensures SameButAds(d, r)
    ensures r.adsDoi == h.doi && r.adsAbstract == h.abstractText && r.adsReference == h.reference
    ensures r.adsBibcode == h.bibcode
  {
    d.(adsDoi := h.doi, adsAbstract := h.abstractText, adsReference := h.reference, adsBibcode := h.bibcode)
  }

  /** The arXiv fallbacks: the Crossref doi, then the ADS doi. */
  function ArxivAttempts(d: ArticleData): seq<(bool, Query)> {
    [(Truthy(d.crossrefDoi), ArxivDoi(d.crossrefDoi)), (Truthy(d.adsDoi), ArxivDoi(d.adsDoi))]
  }

  /** The Crossref fallbacks: the arXiv doi, then the ADS doi. */
  function CrossrefAttempts(d: ArticleData): seq<(bool, Query)> {
    [(Truthy(d.arxivDoi), CrossrefDoi(d.arxivDoi)), (Truthy(d.adsDoi), CrossrefDoi(d.adsDoi))]
  }

  /** The ADS fallbacks: the arXiv doi, the Crossref doi, then the arXiv id. The last guard
      also asks for an empty bibcode, which always holds once the chain reaches it. */
  function AdsAttempts(d: ArticleData): seq<(bool, Query)> {
    [(Truthy(d.arxivDoi), AdsDoi(d.arxivDoi)), (Truthy(d.crossrefDoi), AdsDoi(d.crossrefDoi)),
     (!Truthy(d.adsBibcode) && Truthy(d.arxivId), AdsArxiv(d.arxivId))]
  }

  /** How an ADS fallback is answered: by arXiv id or by doi. */
  function AskAds(s: Sources, title: Value, q: Query): AdsHit {
    if q.AdsArxiv? then s.adsArxiv(q.arxivId, title) else s.adsDoi(Arg(q), title)
  }

  /** `_fill_missing_arxiv_data`: skipped when the arXiv id is filled; an answer counts only
      with a truthy id; only the arXiv group can change. */
  function FillArxiv(s: Sources, d: ArticleData, title: Value): (r: (ArticleData, seq<Query>))
    ensures Truthy(d.arxivId) ==> r == (d, [])
    ensures SameButArxiv(d, r.0)
    ensures r.1 <= Enabled(ArxivAttempts(d))
    ensures forall i :: 0 <= i < |r.1| - 1 ==> !Truthy(s.arxivDoi(Arg(r.1[i]), title).id)
    ensures r.0 == d || (|r.1| > 0 && Truthy(r.0.arxivId)
                         && r.0 == WithArxiv(d, s.arxivDoi(Arg(r.1[|r.1| - 1]), title)))
    ensures !Truthy(d.arxivId) ==>
      (Truthy(r.0.arxivId) <==> (Truthy(d.crossrefDoi) && Truthy(s.arxivDoi(d.crossrefDoi, title).id))
                                || (Truthy(d.adsDoi) && Truthy(s.arxivDoi(d.adsDoi, title).id)))
  {
    var ask := q => s.arxivDoi(Arg(q), title);
    var hit := (h: ArxivHit) => Truthy(h.id);
    var a := ArxivAttempts(d);
    assert a[0].1 == ArxivDoi(d.crossrefDoi) && a[1].1 == ArxivDoi(d.adsDoi);
    AnyHitOfFew(a, ask, hit);
    assert Arg(a[0].1) == d.crossrefDoi && Arg(a[1].1) == d.adsDoi;
    Fill(d, Truthy(d.arxivId), a, ask, hit, WithArxiv)
  }

  /** `_fill_missing_crossref_data`: skipped when the Crossref references are filled; an
      answer counts only with truthy references; only the Crossref group can change. */
  function FillCrossref(s: Sources, d: ArticleData, title: Value): (r: (ArticleData, seq<Query>))
    ensures Truthy(d.crossrefReference) ==> r == (d, [])
    ensures SameButCrossref(d, r.0)
    ensures r.1 <= Enabled(CrossrefAttempts(d))
    ensures forall i :: 0 <= i < |r.1| - 1 ==> !Truthy(s.crossrefDoi(Arg(r.1[i]), title).reference)
    ensures r.0 == d || (|r.1| > 0 && Truthy(r.0.crossrefReference)
                         && r.0 == WithCrossref(d, s.crossrefDoi(Arg(r.1[|r.1| - 1]), title)))
    ensures !Truthy(d.crossrefReference) ==>
      (Truthy(r.0.crossrefReference) <==>
         (Truthy(d.arxivDoi) && Truthy(s.crossrefDoi(d.arxivDoi, title).reference))
         || (Truthy(d.adsDoi) && Truthy(s.crossrefDoi(d.adsDoi, title).reference)))
  {
    var ask := q => s.crossrefDoi(Arg(q), title);
    var hit := (h: CrossrefHit) => Truthy(h.reference);
    var a := CrossrefAttempts(d);
    assert a[0].1 == CrossrefDoi(d.arxivDoi) && a[1].1 == CrossrefDoi(d.adsDoi);
    AnyHitOfFew(a, ask, hit);
    assert Arg(a[0].1) == d.arxivDoi && Arg(a[1].1) == d.adsDoi;
    Fill(d, Truthy(d.crossrefReference), CrossrefAttempts(d), ask, hit, WithCrossref)
  }

  /** `_fill_missing_ads_data`: skipped when the bibcode is filled; an answer counts only
      with a truthy bibcode; only the ADS group can change. */
  function FillAds(s: Sources, d: ArticleData, title: Value): (r: (ArticleData, seq<Query>))
    ensures Truthy(d.adsBibcode) ==> r == (d, [])
    ensures SameButAds(d, r.0)
    ensures r.1 <= Enabled(AdsAttempts(d))
    ensures forall i :: 0 <= i < |r.1| - 1 ==> !Truthy(AskAds(s, title, r.1[i]).bibcode)
    ensures r.0 == d || (|r.1| > 0 && Truthy(r.0.adsBibcode)
                         && r.0 == WithAds(d, AskAds(s, title, r.1[|r.1| - 1])))
    ensures !Truthy(d.adsBibcode) ==>
      (Truthy(r.0.adsBibcode) <==>
         (Truthy(d.arxivDoi) && Truthy(s.adsDoi(d.arxivDoi, title).bibcode))
         || (Truthy(d.crossrefDoi) && Truthy(s.adsDoi(d.crossrefDoi, title).bibcode))
         || (Truthy(d.arxivId) && Truthy(s.adsArxiv(d.arxivId, title).bibcode)))
  {
    var ask := q => AskAds(s, title, q);
    var hit := (h: AdsHit) => Truthy(h.bibcode);
    var a := AdsAttempts(d);
    assert a[0].1 == AdsDoi(d.arxivDoi) && a[1].1 == AdsDoi(d.crossrefDoi) && a[2].1 == AdsArxiv(d.arxivId);
    AnyHitOfFew(a, ask, hit);
    assert ask(a[0].1) == s.adsDoi(d.arxivDoi, title) && ask(a[1].1) == s.adsDoi(d.crossrefDoi, title);
    assert ask(a[2].1) == s.adsArxiv(d.arxivId, title);
    Fill(d, Truthy(d.adsBibcode), a, ask, hit, WithAds)
  }

  /** The ADS fallbacks go by the arXiv doi first, then the Crossref doi, then the arXiv id,
      each only when that identifier is truthy. */
  lemma AdsFallbackOrder(d: ArticleData)
    requires !Truthy(d.adsBibcode) && Truthy(d.arxivDoi) && Truthy(d.crossrefDoi) && Truthy(d.arxivId)
    ensures Enabled(AdsAttempts(d)) == [AdsDoi(d.arxivDoi), AdsDoi(d.crossrefDoi), AdsArxiv(d.arxivId)]
  {
    var a := AdsAttempts(d);
    assert a[1..][1..][1..] == [];
    assert Enabled(a[1..][1..]) == [AdsArxiv(d.arxivId)];
  }

  /** An ADS answer by the arXiv doi that has a bibcode ends the chain: nothing else is
      asked, and that answer is what the ADS group holds afterwards. */
  lemma {:induction false} AdsStopsAtFirst(s: Sources, d: ArticleData, title: Value)
    requires !Truthy(d.adsBibcode) && Truthy(d.arxivDoi)
    requires Truthy(s.adsDoi(d.arxivDoi, title).bibcode)
    ensures FillAds(s, d, title) == (WithAds(d, s.adsDoi(d.arxivDoi, title)), [AdsDoi(d.arxivDoi)])
  {
    var ask := q => AskAds(s, title, q);
    var hit := (h: AdsHit) => Truthy(h.bibcode);
    assert ask(AdsDoi(d.arxivDoi)) == s.adsDoi(d.arxivDoi, title);
    assert FirstHit(AdsAttempts(d), ask, hit) == (Some(s.adsDoi(d.arxivDoi, title)), [AdsDoi(d.arxivDoi)]);
  }

  /** The record before any lookup: every field `None`. */
  const Empty := ArticleData(VNone, VNone, VNone, VNone, VNone, VNone, VNone, VNone, VNone)

  /** `_update_*_title`: the three title lookups, each answer copied in whatever it holds. */
  function TitleLookups(s: Sources, title: Value, author: Value): (r: ArticleData)
  {
    var d := WithArxiv(Empty, s.arxivTitle(title, author));
    var d := WithCrossref(d, s.crossrefTitle(title, author));
    WithAds(d, s.adsTitle(title, author))
  }

  /** `process_article(title, author)`: the title lookups, then the arXiv, Crossref and ADS
      fallbacks, with every query issued. A group its title lookup found is kept as found. */
  function ProcessArticle(s: Sources, title: Value, author: Value): (r: (ArticleData, seq<Query>))
    ensures |r.1| >= 3 && r.1[0] == ArxivTitle(title, author) && r.1[1] == CrossrefTitle(title, author)
      && r.1[2] == AdsTitle(title, author)
    ensures |r.1| <= 3 + 2 + 2 + 3
    ensures var h := s.arxivTitle(title, author);
      Truthy(h.id) ==> r.0.arxivId == h.id && r.0.summary == h.summary && r.0.arxivDoi == h.doi
    ensures var h := s.crossrefTitle(title, author);
      Truthy(h.reference) ==> r.0.crossrefDoi == h.doi && r.0.crossrefReference == h.reference
    ensures var h := s.adsTitle(title, author);
      Truthy(h.bibcode) ==>
        (r.0.adsDoi == h.doi && r.0.adsAbstract == h.abstractText
         && r.0.adsReference == h.reference && r.0.adsBibcode == h.bibcode)
    ensures var (hx, hc, ha) := (s.arxivTitle(title, author), s.crossrefTitle(title, author), s.adsTitle(title, author));
      !Truthy(hx.id) ==>
        (Truthy(r.0.arxivId) <==>
           (Truthy(hc.doi) && Truthy(s.arxivDoi(hc.doi, title).id))
           || (Truthy(ha.doi) && Truthy(s.arxivDoi(ha.doi, title).id)))
    ensures var (hc, ha) := (s.crossrefTitle(title, author), s.adsTitle(title, author));
      !Truthy(hc.reference) ==>
        (Truthy(r.0.crossrefReference) <==>
           (Truthy(r.0.arxivDoi) && Truthy(s.crossrefDoi(r.0.arxivDoi, title).reference))
           || (Truthy(ha.doi) && Truthy(s.crossrefDoi(ha.doi, title).reference)))
    ensures !Truthy(s.adsTitle(title, author).bibcode) ==>
      (Truthy(r.0.adsBibcode) <==>
         (Truthy(r.0.arxivDoi) && Truthy(s.adsDoi(r.0.arxivDoi, title).bibcode))
         || (Truthy(r.0.crossrefDoi) && Truthy(s.adsDoi(r.0.crossrefDoi, title).bibcode))
         || (Truthy(r.0.arxivId) && Truthy(s.adsArxiv(r.0.arxivId, title).bibcode)))
  {
    var d0 := TitleLookups(s, title, author);
    var (d1, t1) := FillArxiv(s, d0, title);
    var (d2, t2) := FillCrossref(s, d1, title);
    var (d3, t3) := FillAds(s, d2, title);
    var calls := [ArxivTitle(title, author), CrossrefTitle(title, author), AdsTitle(title, author)];
    assert |t1| <= 2 && |t2| <= 2 && |t3| <= 3 by {
      PrefixLength(t1, Enabled(ArxivAttempts(d0)));
      PrefixLength(t2, Enabled(CrossrefAttempts(d1)));
      PrefixLength(t3, Enabled(AdsAttempts(d2)));
    }
    TitleLookupsFields(s, title, author);
    FillsKeep(d0, d1, d2, d3);
    var trace := calls + t1 + t2 + t3;
    assert trace[0] == calls[0] && trace[1] == calls[1] && trace[2] == calls[2];
    (d3, trace)
  }

  /** Each title lookup fills its own group. */
  lemma TitleLookupsFields(s: Sources, title: Value, author: Value)
    ensures var (d, hx, hc, ha) := (TitleLookups(s, title, author), s.arxivTitle(title, author),
                                    s.crossrefTitle(title, author), s.adsTitle(title, author));
      && d.arxivId == hx.id && d.summary == hx.summary && d.arxivDoi == hx.doi
      && d.crossrefDoi == hc.doi && d.crossrefReference == hc.reference
      && d.adsDoi == ha.doi && d.adsAbstract == ha.abstractText && d.adsReference == ha.reference
      && d.adsBibcode == ha.bibcode
  {
  }

  /** After the three fills, each group holds what its own fill left there, and each fill
      saw the groups before it as the earlier fills left them. */
  lemma FillsKeep(d0: ArticleData, d1: ArticleData, d2: ArticleData, d3: ArticleData)
    requires SameButArxiv(d0, d1) && SameButCrossref(d1, d2) && SameButAds(d2, d3)
    ensures d3.arxivId == d1.arxivId && d3.summary == d1.summary && d3.arxivDoi == d1.arxivDoi
    ensures d3.crossrefDoi == d2.crossrefDoi && d3.crossrefReference == d2.crossrefReference
    ensures d2.arxivId == d1.arxivId && d2.arxivDoi == d1.arxivDoi && d2.adsBibcode == d0.adsBibcode
    ensures d1.crossrefDoi == d0.crossrefDoi && d1.crossrefReference == d0.crossrefReference
    ensures d1.adsDoi == d0.adsDoi && d2.adsDoi == d0.adsDoi && d1.adsBibcode == d0.adsBibcode
  {
  }

  lemma PrefixLength(a: seq<Query>, b: seq<Query>)
    requires a <= b
    ensures |a| <= |b|
  { }

  /** The dict `process_article` returns. */
  function ToRecord(d: ArticleData): (r: Record)
    ensures r.Keys == {"arxiv_id", "summary", "arxiv_doi", "crossref_doi", "crossref_reference",
                       "ads_doi", "ads_abstract", "ads_reference", "ads_bibcode"}
    ensures r["arxiv_id"] == d.arxivId && r["summary"] == d.summary && r["arxiv_doi"] == d.arxivDoi
    ensures r["crossref_doi"] == d.crossrefDoi && r["crossref_reference"] == d.crossrefReference
    ensures r["ads_doi"] == d.adsDoi && r["ads_abstract"] == d.adsAbstract
    ensures r["ads_reference"] == d.adsReference && r["ads_bibcode"] == d.adsBibcode
  {
    map["arxiv_id" := d.arxivId, "summary" := d.summary, "arxiv_doi" := d.arxivDoi,
        "crossref_doi" := d.crossrefDoi, "crossref_reference" := d.crossrefReference,
        "ads_doi" := d.adsDoi, "ads_abstract" := d.adsAbstract, "ads_reference" := d.adsReference,
        "ads_bibcode" := d.adsBibcode]
  }

  /** A value that can go into a Python set: lists and dicts cannot. */
  predicate Hashable(v: Value) {
    !v.VList? && !v.VDict?
  }

  predicate NoDuplicates(xs: seq<Value>) {
    forall i, j :: 0 <= i < j < |xs| ==> xs[i] != xs[j]
  }

  /** The distinct elements of `xs`, each at its first occurrence. */
  function Distinct(xs: seq<Value>): (r: seq<Value>)
    ensures NoDuplicates(r)
    ensures forall x :: x in r <==> x in xs
    ensures |r| <= |xs|
    decreases |xs|
  {
    if |xs| == 0 then []
    else
      var init := xs[..|xs| - 1];
      var last := xs[|xs| - 1];
      assert xs == init + [last];
      var rest := Distinct(init);
      if last in rest then rest else rest + [last]
  }

  /** `list(set().union(a or [], b or []))`: every element of either list once. The order
      of a Python set is not specified; the model lists elements by first occurrence. A
      mapping is refused as `Elements` refuses it, and an unhashable element raises. */
  function ReferenceUnion(a: Value, b: Value): (r: Result<seq<Value>>)
    ensures r.Ok? <==>
      (Elements(Or(a, VList([]))).Ok? && Elements(Or(b, VList([]))).Ok?
       && (forall x :: x in Elements(Or(a, VList([]))).value ==> Hashable(x))
       && (forall x :: x in Elements(Or(b, VList([]))).value ==> Hashable(x)))
    ensures r.Ok? ==> NoDuplicates(r.value)
    ensures r.Ok? ==> forall x :: x in r.value <==>
      x in Elements(Or(a, VList([]))).value || x in Elements(Or(b, VList([]))).value
  {
    var xs :- Elements(Or(a, VList([])));
    var ys :- Elements(Or(b, VList([])));
    if exists x :: x in xs + ys && !Hashable(x) then Err(TypeError("unhashable type"))
    else Ok(Distinct(xs + ys))
  }

  /** The table row `organize_db_entry` builds, one field per key. */
  datatype DbRow = DbRow(
    arxivId: Value, bibcode: Value, doi: Value, key: Value, fileName: Value,
    ref: seq<Value>, citedBy: seq<Value>, title: Value, author: Value, year: Value,
    keywords: Value, embeddingTitle: Value, embeddingBody: Value, embeddingSummary: Value)

  /** `embeddings.get(k, np.nan)`, with `nan` standing for the missing embedding. */
  function GetOr(d: Record, k: string, fallback: Value): (r: Value)
    ensures k in d ==> r == d[k]
    ensures k !in d ==> r == fallback
  {
    if k in d then d[k] else fallback
  }

  /** The lookup fields `organize_db_entry` always reads. */
  const DataKeys: set<string> := {"arxiv_id", "ads_bibcode", "crossref_reference", "ads_reference"}

  /** `data["arxiv_doi"] or data["crossref_doi"] or data["ads_doi"]`: each field is read only
      when the ones before it are falsy, so only a field that is read can raise `KeyError`. */
  function DoiOf(data: Record): (r: Result<Value>)
    ensures r.Ok? <==>
      ("arxiv_doi" in data
       && (Truthy(data["arxiv_doi"])
           || ("crossref_doi" in data && (Truthy(data["crossref_doi"]) || "ads_doi" in data))))
    ensures r.Ok? && Truthy(data["arxiv_doi"]) ==> r.value == data["arxiv_doi"]
    ensures r.Ok? && !Truthy(data["arxiv_doi"]) ==>
      r.value == Or(data["crossref_doi"], Get(data, "ads_doi"))
    ensures r.Ok? ==> FirstTruthyOf(r.value, [data["arxiv_doi"], Get(data, "crossref_doi"), Get(data, "ads_doi")])
  {
    var arxivDoi :- Index(data, "arxiv_doi");
    var vs := [arxivDoi, Get(data, "crossref_doi"), Get(data, "ads_doi")];
    if Truthy(arxivDoi) then
      assert FirstTruthyOf(arxivDoi, vs) by { assert arxivDoi == vs[0]; }
      Ok(arxivDoi)
    else
      var crossrefDoi :- Index(data, "crossref_doi");
      if Truthy(crossrefDoi) then
        assert FirstTruthyOf(crossrefDoi, vs) by { assert crossrefDoi == vs[1]; }
        Ok(crossrefDoi)
      else
        var adsDoi :- Index(data, "ads_doi");
        assert FirstTruthyOf(adsDoi, vs) by { assert adsDoi == vs[2]; }
        Ok(adsDoi)
  }

  /** When all three doi fields are present, the short-circuit read is the eager `or` of the
      three. */
  lemma DoiOfPresent(data: Record)
    requires "arxiv_doi" in data && "crossref_doi" in data && "ads_doi" in data
    ensures DoiOf(data) == Ok(Or3(data["arxiv_doi"], data["crossref_doi"], data["ads_doi"]))
  {
  }

  /** A truthy arXiv doi is enough: the Crossref and ADS fields need not exist. */
  lemma DoiOfArxivOnly(doi: Value)
    requires Truthy(doi)
    ensures DoiOf(map["arxiv_doi" := doi]) == Ok(doi)
  {
  }

  /** The metadata fields `organize_db_entry` and `organize_md_metadata` read. */
  const MetadataKeys: set<string> := {"key", "title", "author", "year"}

  /** `organize_db_entry(data, metadata, embeddings, keywords)`: identifiers from the lookups,
      the doi from arXiv, else Crossref, else ADS, every reference once, no citing papers,
      and the bibliographic fields from the metadata. `fileName` is the script's argument
      and `nan` the value of a missing embedding. A missing field raises `KeyError`. */
  function OrganizeDbEntry(data: Record, metadata: Record, embeddings: Record, keywords: Value,
                           fileName: string, nan: Value): (r: Result<DbRow>)
    ensures r.Ok? <==>
      (DataKeys <= data.Keys && DoiOf(data).Ok? && MetadataKeys <= metadata.Keys
       && ReferenceUnion(data["crossref_reference"], data["ads_reference"]).Ok?)
    ensures r.Ok? ==>
      var e := r.value;
      e.arxivId == data["arxiv_id"] && e.bibcode == data["ads_bibcode"]
      && e.doi == DoiOf(data).value
      && e.ref == ReferenceUnion(data["crossref_reference"], data["ads_reference"]).value
      && e.citedBy == [] && e.fileName == VStr(Basename(fileName)) && e.keywords == keywords
      && e.key == metadata["key"] && e.title == metadata["title"] && e.author == metadata["author"]
      && e.year == metadata["year"]
      && e.embeddingTitle == GetOr(embeddings, "embedding_title", nan)
      && e.embeddingBody == GetOr(embeddings, "embedding_body", nan)
      && e.embeddingSummary == GetOr(embeddings, "embedding_summary", nan)
  {
    var arxivId :- Index(data, "arxiv_id");
    var bibcode :- Index(data, "ads_bibcode");
    var doi :- DoiOf(data);
    var key :- Index(metadata, "key");
    var crossrefRef :- Index(data, "crossref_reference");
    var adsRef :- Index(data, "ads_reference");
    var refs :- ReferenceUnion(crossrefRef, adsRef);
    var title :- Index(metadata, "title");
    var author :- Index(metadata, "author");
    var year :- Index(metadata, "year");
    Ok(DbRow(arxivId, bibcode, doi, key, VStr(Basename(fileName)), refs, [],
             title, author, year, keywords, GetOr(embeddings, "embedding_title", nan),
             GetOr(embeddings, "embedding_body", nan), GetOr(embeddings, "embedding_summary", nan)))
  }

  /** The entry's doi is the first truthy doi of arXiv, Crossref and ADS (a field that is not
      read counts as absent), and its references are those of Crossref and ADS, each once. */
  lemma DbEntryFields(data: Record, metadata: Record, embeddings: Record, keywords: Value,
                      fileName: string, nan: Value)
    requires OrganizeDbEntry(data, metadata, embeddings, keywords, fileName, nan).Ok?
    ensures var e := OrganizeDbEntry(data, metadata, embeddings, keywords, fileName, nan).value;
      FirstTruthyOf(e.doi, [data["arxiv_doi"], Get(data, "crossref_doi"), Get(data, "ads_doi")])
      && NoDuplicates(e.ref)
      && (forall x :: x in e.ref <==>
            x in Elements(Or(data["crossref_reference"], VList([]))).value
            || x in Elements(Or(data["ads_reference"], VList([]))).value)
  {
  }

  /** `organize_md_metadata(data, metadata, keywords)` at time `now`: the metadata's key and
      bibliographic fields, the update time, the creation time kept from `data` when truthy,
      "Paper" followed by the keywords as tags, and the first keyword as category. Keywords
      that are not a list cannot be added to one; an empty list has no first keyword. */
  function OrganizeMdMetadata(data: Record, metadata: Record, keywords: Value, now: string): (r: Result<Record>)
    ensures r.Ok? <==>
      (MetadataKeys <= metadata.Keys && keywords.VList? && |keywords.items| > 0)
    ensures MetadataKeys <= metadata.Keys && !keywords.VList? ==> r.Err? && r.error.TypeError?
    ensures MetadataKeys <= metadata.Keys && keywords == VList([]) ==> r == Err(IndexError)
    ensures r.Ok? ==> r.value.Keys == {"key", "updated", "created", "title", "author", "year", "tags", "category"}
    ensures r.Ok? ==> forall k :: k in {"key", "title", "author", "year"} ==> r.value[k] == metadata[k]
    ensures r.Ok? ==> r.value["updated"] == VStr(now)
    ensures r.Ok? && !Truthy(Get(data, "created")) ==> r.value["created"] == VStr(now)
    ensures r.Ok? && Truthy(Get(data, "created")) ==> r.value["created"] == VStr(Format(data["created"]))
    ensures r.Ok? ==> r.value["tags"].VList? && r.value["tags"].items == [VStr("Paper")] + keywords.items
    ensures r.Ok? ==> r.value["category"] == keywords.items[0]
  {
    var key :- Index(metadata, "key");
    var updated := VStr(now);
    var created := VStr(Format(Or(Get(data, "created"), updated)));
    var title :- Index(metadata, "title");
    var author :- Index(metadata, "author");
    var year :- Index(metadata, "year");
    if !keywords.VList? then Err(TypeError("can only concatenate list to list"))
    else
      var tags := [VStr("Paper")] + keywords.items;
      if |keywords.items| == 0 then Err(IndexError)
      else
        Ok(map["key" := key, "updated" := updated, "created" := created, "title" := title,
               "author" := author, "year" := year, "tags" := VList(tags), "category" := keywords.items[0]])
  }

  /** The script passes `process_article`'s dict, which has no creation time: the note's
      creation time is always the update time. */
  lemma CreatedIsUpdated(d: ArticleData, metadata: Record, keywords: Value, now: string)
    requires OrganizeMdMetadata(ToRecord(d), metadata, keywords, now).Ok?
    ensures var m := OrganizeMdMetadata(ToRecord(d), metadata, keywords, now).value;
      m["created"] == m["updated"]
  {
    assert "created" !in ToRecord(d);
  }

  /** On `process_article`'s dict the table entry always exists when the metadata has its
      fields and the reference lists are lists of hashable values or empty. */
  lemma ProcessedEntry(d: ArticleData, metadata: Record, embeddings: Record, keywords: Value,
                       fileName: string, nan: Value)
    requires MetadataKeys <= metadata.Keys
    requires !Truthy(d.crossrefReference) || d.crossrefReference.VList?
    requires !Truthy(d.adsReference) || d.adsReference.VList?
    requires forall x :: x in Elements(Or(d.crossrefReference, VList([]))).value ==> Hashable(x)
    requires forall x :: x in Elements(Or(d.adsReference, VList([]))).value ==> Hashable(x)
    ensures OrganizeDbEntry(ToRecord(d), metadata, embeddings, keywords, fileName, nan).Ok?
  {
  }
}

=== FILE: markdown.dfy ===
/** `MarkdownUtils` and its copies in the scripts: front matter, heading sections, note text
    assembly and BibTeX post-processing, over a note held as a sequence of lines. */
module Markdown {
  import opened Wrappers
  import opened Values
  import opened Strings
  import opened Text

  /** Each line `strip()`ped: both scans below test lines only through their stripped form. */
  function StrippedLines(lines: seq<string>): (r: seq<string>)
    ensures |r| == |lines|
    decreases |lines|
  {
    if |lines| == 0 then [] else [Strip(lines[0])] + StrippedLines(lines[1..])
  }

  lemma {:induction false} StrippedLinesAt(lines: seq<string>, k: nat)
    requires k < |lines|
    ensures StrippedLines(lines)[k] == Strip(lines[k])
    decreases k
  {
    if k > 0 {
      StrippedLinesAt(lines[1..], k - 1);
    }
  }

  /** `'---' in line.strip()`, given the stripped line: the line opens or closes a front
      matter block. */
  predicate Delimiter(stripped: string) {
    exists i :: 0 <= i && i + 3 <= |stripped| && Dashes(stripped, i)
  }

  /** Three dashes at position `i`. */
  predicate Dashes(s: string, i: nat)
    requires i + 3 <= |s|
  {
    s[i] == '-' && s[i + 1] == '-' && s[i + 2] == '-'
  }

  /** The delimiter test is Python's substring test. */
  lemma DelimiterContains(stripped: string)
    ensures Delimiter(stripped) <==> Contains(stripped, "---")
  {
    if Delimiter(stripped) {
      var i :| 0 <= i && i + 3 <= |stripped| && Dashes(stripped, i);
      assert stripped[i..i + 3] == "---";
      ContainsAt(stripped, "---", i);
    } else if Contains(stripped, "---") {
      var i := Find(stripped, "---", 0).value;
      assert stripped[i..i + 3] == "---";
      assert stripped[i] == stripped[i..i + 3][0];
      assert Dashes(stripped, i);
    }
  }

  /** The first index at or after `from` whose stripped line is not empty. */
  function FirstNonBlank(st: seq<string>, from: nat): (r: Option<nat>)
    ensures r.Some? ==> from <= r.value < |st| && st[r.value] != ""
    ensures r.Some? ==> forall j :: from <= j < r.value ==> st[j] == ""
    ensures r.None? ==> forall j :: from <= j < |st| ==> st[j] == ""
    decreases |st| - from
  {
    if from >= |st| then None
    else if st[from] != "" then Some(from)
    else FirstNonBlank(st, from + 1)
  }

  /** The first index at or after `from` whose stripped line is a delimiter. */
  function FirstDelimiter(st: seq<string>, from: nat): (r: Option<nat>)
    ensures r.Some? ==> from <= r.value < |st| && Delimiter(st[r.value])
    ensures r.Some? ==> forall j :: from <= j < r.value ==> !Delimiter(st[j])
    ensures r.None? ==> forall j :: from <= j < |st| ==> !Delimiter(st[j])
    decreases |st| - from
  {
    if from >= |st| then None
    else if Delimiter(st[from]) then Some(from)
    else FirstDelimiter(st, from + 1)
  }

  /** Where the front matter of a note lies, by line number: no non-blank line at all; a
      first non-blank line `f` without '---' (no front matter); an opening line `f` closed
      by line `c`; or an opening line `f` that nothing closes. */
  datatype Layout = AllBlank | Plain(f: nat) | Front(f: nat, c: nat) | Unclosed(f: nat)

  function LayoutOf(st: seq<string>): (r: Layout)
    ensures r.AllBlank? <==> forall j :: 0 <= j < |st| ==> st[j] == ""
    ensures !r.AllBlank? ==> r.f < |st| && st[r.f] != "" && forall j :: 0 <= j < r.f ==> st[j] == ""
    ensures r.Plain? ==> !Delimiter(st[r.f])
    ensures r.Front? || r.Unclosed? ==> Delimiter(st[r.f])
    ensures r.Front? ==>
      r.f < r.c < |st| && Delimiter(st[r.c]) && forall j :: r.f < j < r.c ==> !Delimiter(st[j])
    ensures r.Unclosed? ==> forall j :: r.f < j < |st| ==> !Delimiter(st[j])
  {
    match FirstNonBlank(st, 0)
    case None => AllBlank
    case Some(f) =>
      if !Delimiter(st[f]) then Plain(f)
      else
        match FirstDelimiter(st, f + 1)
        case None => Unclosed(f)
        case Some(c) => Front(f, c)
  }

  /** How a note splits: the YAML text of its front matter (if it has one) and its body. */
  datatype FrontSplit = FrontSplit(yaml: Option<string>, body: string)

  /** The splitting logic shared by every `extract_yaml` copy: leading blank lines are
      skipped; a first line without '---' means no front matter and the lines from it on are
      the body; otherwise the YAML text runs up to the next line with '---' and the body is
      everything after that line. Only blank lines raise `IndexError`; a missing closing line
      leaves `yaml_end` unbound. */
  function SplitFrontMatter(lines: seq<string>): (r: Result<FrontSplit>)
    ensures var l := LayoutOf(StrippedLines(lines));
      (r == Err(IndexError) <==> l.AllBlank?) && (r == Err(UnboundLocal("yaml_end")) <==> l.Unclosed?)
    ensures var l := LayoutOf(StrippedLines(lines));
      l.Plain? ==> r == Ok(FrontSplit(None, Concat(lines[l.f..])))
    ensures var l := LayoutOf(StrippedLines(lines));
      l.Front? ==> r == Ok(FrontSplit(Some(Concat(lines[l.f + 1..l.c])), Concat(lines[l.c + 1..])))
  {
    match LayoutOf(StrippedLines(lines))
    case AllBlank => Err(IndexError)
    case Unclosed(_) => Err(UnboundLocal("yaml_end"))
    case Plain(f) => Ok(FrontSplit(None, Concat(lines[f..])))
    case Front(f, c) => Ok(FrontSplit(Some(Concat(lines[f + 1..c])), Concat(lines[c + 1..])))
  }

  /** Nothing of a note is lost but the skipped blank lines and the two delimiter lines: the
      note is the blank prefix, the opening line, the YAML text, the closing line and the
      body, in that order. */
  lemma SplitFrontMatterReassembles(lines: seq<string>)
    requires SplitFrontMatter(lines).Ok?
    ensures var l := LayoutOf(StrippedLines(lines)); var s := SplitFrontMatter(lines).value;
      s.yaml.None? ==> Concat(lines) == Concat(lines[..l.f]) + s.body
    ensures var l := LayoutOf(StrippedLines(lines)); var s := SplitFrontMatter(lines).value;
      s.yaml.Some? ==>
        Concat(lines) == Concat(lines[..l.f]) + lines[l.f] + s.yaml.value + lines[l.c] + s.body
  {
    var l := LayoutOf(StrippedLines(lines));
    var s := SplitFrontMatter(lines).value;
    if l.Front? {
      ReassembleFront(lines, l.f, l.c, s);
    } else if l.Plain? {
      ReassemblePlain(lines, l.f, s);
    }
  }

  lemma ReassembleFront(lines: seq<string>, f: nat, c: nat, s: FrontSplit)
    requires f < c < |lines| && s == FrontSplit(Some(Concat(lines[f + 1..c])), Concat(lines[c + 1..]))
    ensures Concat(lines) == Concat(lines[..f]) + lines[f] + s.yaml.value + lines[c] + s.body
  {
    ConcatAround(lines, f, c);
  }

  lemma ReassemblePlain(lines: seq<string>, f: nat, s: FrontSplit)
    requires f <= |lines| && s == FrontSplit(None, Concat(lines[f..]))
    ensures Concat(lines) == Concat(lines[..f]) + s.body
  {
    ConcatSplitAt(lines, f);
  }

  /** `extract_yaml` without author normalisation (`new_paper_rel_gen.py`, and
      `extract_metadata` in `paper_db_creation.py`): `load` stands for `yaml.safe_load`. */
  function ExtractYamlRaw(lines: seq<string>, load: string -> Result<Value>)
    : (r: Result<(Value, string)>)
    ensures SplitFrontMatter(lines).Err? ==> r.Err?
    ensures SplitFrontMatter(lines).Ok? && SplitFrontMatter(lines).value.yaml.None? ==>
      r == Ok((VDict(map[]), SplitFrontMatter(lines).value.body))
    ensures SplitFrontMatter(lines).Ok? && SplitFrontMatter(lines).value.yaml.Some? ==>
      var s := SplitFrontMatter(lines).value;
      (r.Ok? <==> load(s.yaml.value).Ok?) &&
      (r.Ok? ==> r.value == (load(s.yaml.value).value, s.body))
  {
    var s :- SplitFrontMatter(lines);
    match s.yaml
    case None => Ok((VDict(map[]), s.body))
    case Some(text) =>
      var metadata :- load(text);
      Ok((metadata, s.body))
  }

  /** `if metadata.get("author"): ...`: a truthy scalar author becomes a one-element list;
      `.get` on something other than a dict raises `AttributeError`. */
  function NormaliseAuthor(metadata: Value): (r: Result<Value>)
    ensures r.Ok? <==> metadata.VDict?
    ensures r.Ok? ==> r.value.VDict? && r.value.fields.Keys == metadata.fields.Keys
    ensures r.Ok? ==> forall k :: k in metadata.fields && k != "author" ==>
      r.value.fields[k] == metadata.fields[k]
    ensures r.Ok? && "author" in metadata.fields ==>
      var a := metadata.fields["author"];
      r.value.fields["author"] == (if Truthy(a) && !a.VList? then VList([a]) else a)
  {
    if !metadata.VDict? then Err(AttributeError("get"))
    else
      var m := metadata.fields;
      var a := Get(m, "author");
      if Truthy(a) && !a.VList? then Ok(VDict(m["author" := VList([a])])) else Ok(metadata)
  }

  /** `MarkdownUtils.extract_yaml` (and the copy in `src/paper_rel_gen.py`): the raw split,
      then the author normalised into a list. */
  function ExtractYaml(lines: seq<string>, load: string -> Result<Value>)
    : (r: Result<(Value, string)>)
    ensures r.Ok? <==> ExtractYamlRaw(lines, load).Ok? && ExtractYamlRaw(lines, load).value.0.VDict?
    ensures r.Ok? ==> (r.value.1 == ExtractYamlRaw(lines, load).value.1
      && r.value.0 == NormaliseAuthor(ExtractYamlRaw(lines, load).value.0).value)
  {
    var (raw, body) :- ExtractYamlRaw(lines, load);
    var m :- NormaliseAuthor(raw);
    Ok((m, body))
  }

  /** With author normalisation, a truthy author always comes back as a list. */
  lemma AuthorIsList(lines: seq<string>, load: string -> Result<Value>)
    requires ExtractYaml(lines, load).Ok?
    ensures var m := ExtractYaml(lines, load).value.0;
      m.VDict? && ("author" in m.fields && Truthy(m.fields["author"]) ==> m.fields["author"].VList?)
  {
    var (raw, body) := ExtractYamlRaw(lines, load).value;
    if raw.VDict? && "author" in raw.fields {
      var a := raw.fields["author"];
      if Truthy(a) && !a.VList? {
        assert Truthy(VList([a]));
      }
    }
  }

  /** A note that opens with a one-line front matter block: that line is the YAML text and
      the remaining lines are the body, whatever they hold. */
  lemma SplitFrontMatterOneLine(lines: seq<string>)
    requires |lines| >= 3 && lines[0] == "---" && lines[2] == "---" && !Delimiter(Strip(lines[1]))
    ensures SplitFrontMatter(lines) == Ok(FrontSplit(Some(lines[1]), Concat(lines[3..])))
  {
    LayoutOneLine(lines);
    assert lines[1..2] == [lines[1]];
    ConcatOne(lines[1]);
  }

  lemma LayoutOneLine(lines: seq<string>)
    requires |lines| >= 3 && lines[0] == "---" && lines[2] == "---" && !Delimiter(Strip(lines[1]))
    ensures LayoutOf(StrippedLines(lines)) == Front(0, 2)
  {
    StrippedDelimiterAt(lines, 0);
    StrippedLinesAt(lines, 1);
    StrippedDelimiterAt(lines, 2);
    StripDelimiterLine();
    LayoutFrontFirst(StrippedLines(lines));
  }

  lemma StrippedDelimiterAt(lines: seq<string>, k: nat)
    requires k < |lines| && lines[k] == "---"
    ensures StrippedLines(lines)[k] == "---"
  {
    StrippedLinesAt(lines, k);
    StripDelimiterLine();
  }

  /** The note of the repository's Markdown tests: one front matter field, a blank line and
      one line of body. */
  lemma SplitFrontMatterExample(entry: string)
    requires !Delimiter(Strip(entry))
    ensures SplitFrontMatter(["---", entry, "---", "", "This is a test"])
      == Ok(FrontSplit(Some(entry), "This is a test"))
  {
    var lines := ["---", entry, "---", "", "This is a test"];
    SplitFrontMatterOneLine(lines);
    assert lines[3..] == ["", "This is a test"];
    assert Concat(["", "This is a test"]) == "This is a test";
  }

  /** Front matter that opens on the first line and closes on the third. */
  lemma LayoutFrontFirst(st: seq<string>)
    requires |st| >= 3 && st[0] != "" && Delimiter(st[0]) && !Delimiter(st[1]) && Delimiter(st[2])
    ensures LayoutOf(st) == Front(0, 2)
  {
    assert FirstNonBlank(st, 0) == Some(0);
    assert FirstDelimiter(st, 1) == Some(2);
  }

  /** The delimiter line `---` is its own stripped form and holds `---`. */
  lemma StripDelimiterLine()
    ensures Strip("---") == "---" && Delimiter("---")
  {
    assert !IsSpace('-');
    RStripNoTrailing("---");
    assert LStrip("---") == "---";
    assert Dashes("---", 0);
  }

  // ---------------------------------------------------------------------------------------
  // Heading sections

  /** `f"# {name}".lower() in line.strip().lower()` for a non-blank line, given the stripped
      line. */
  predicate IsHeader(stripped: string, name: string) {
    stripped != "" && Contains(LowerStr(stripped), LowerStr("# " + name))
  }

  /** `line.split()[0].count('#')` (equivalently on the stripped line, see `LevelStrip`): the
      heading depth of a non-blank line. */
  function Level(stripped: string): nat {
    var ws := Words(stripped);
    if |ws| == 0 then 0 else CountChar(ws[0], '#')
  }

  /** Stripping a line first does not change its level, so both tests in the loop of
      `extract_section` (one on the raw line, one on the stripped line) measure the same. */
  lemma LevelStrip(line: string)
    ensures Level(Strip(line)) == Level(line)
  {
    WordsStrip(line);
  }

  /** Which stripped lines are headers for `name`. */
  function HeaderFlags(st: seq<string>, name: string): (r: seq<bool>)
    ensures |r| == |st|
    decreases |st|
  {
    if |st| == 0 then [] else [IsHeader(st[0], name)] + HeaderFlags(st[1..], name)
  }

  lemma {:induction false} HeaderFlagsAt(st: seq<string>, name: string, k: nat)
    requires k < |st|
    ensures HeaderFlags(st, name)[k] == IsHeader(st[k], name)
    decreases k
  {
    if k > 0 {
      HeaderFlagsAt(st[1..], name, k - 1);
    }
  }

  /** The level of every stripped line. */
  function Levels(st: seq<string>): (r: seq<nat>)
    ensures |r| == |st|
    decreases |st|
  {
    if |st| == 0 then [] else [Level(st[0])] + Levels(st[1..])
  }

  lemma {:induction false} LevelsAt(st: seq<string>, k: nat)
    requires k < |st|
    ensures Levels(st)[k] == Level(st[k])
    decreases k
  {
    if k > 0 {
      LevelsAt(st[1..], k - 1);
    }
  }

  /** The last header line before line `j`. */
  function LastHeader(headers: seq<bool>, j: nat): (r: Option<nat>)
    requires j <= |headers|
    ensures r.Some? ==> r.value < j && headers[r.value]
    ensures r.Some? ==> forall k :: r.value < k < j ==> !headers[k]
    ensures r.None? ==> forall k :: 0 <= k < j ==> !headers[k]
  {
    if j == 0 then None
    else if headers[j - 1] then Some(j - 1)
    else LastHeader(headers, j - 1)
  }

  /** Line `j` ends the open section: it is neither blank nor a header, a header precedes it,
      and its first token has as many '#' as the last such header's. */
  predicate ClosesAt(st: seq<string>, headers: seq<bool>, levels: seq<nat>, j: nat)
    requires |headers| == |st| == |levels| && j < |st|
  {
    st[j] != "" && !headers[j] && LastHeader(headers, j).Some?
      && levels[j] == levels[LastHeader(headers, j).value]
  }

  /** Where `extract_section` finds a section: the joined lines strictly between its header
      and its end line, and those two line numbers. */
  datatype Section = Section(text: string, start: nat, end: nat)

  predicate NoHeader(hs: seq<bool>) {
    forall j :: 0 <= j < |hs| ==> !hs[j]
  }

  lemma BlankNotHeader(st: seq<string>, name: string)
    ensures forall j :: 0 <= j < |st| && st[j] == "" ==> !HeaderFlags(st, name)[j]
  {
    forall j | 0 <= j < |st| && st[j] == "" ensures !HeaderFlags(st, name)[j] {
      HeaderFlagsAt(st, name, j);
    }
  }

  /** The loop of `extract_section` over the lines' stripped forms `st`, header flags `hs`
      and levels `ls`: the scan stops at the first line that closes an open section, and the
      section is the one opened by the last header before that line (a later header for the
      same name re-opens it). */
  method ScanSection(st: seq<string>, hs: seq<bool>, ls: seq<nat>)
    returns (found: bool, start: nat, end: nat)
    requires |hs| == |st| == |ls|
    requires forall j :: 0 <= j < |st| && st[j] == "" ==> !hs[j]
    ensures !found <==> NoHeader(hs)
    ensures found ==> end <= |st| && LastHeader(hs, end) == Some(start)
    ensures found && end < |st| ==> ClosesAt(st, hs, ls, end)
    ensures found ==> forall j :: 0 <= j < end ==> !ClosesAt(st, hs, ls, j)
  {
    found := false;
    var level := 0;
    start := 0;
    end := |st|;
    var closed := false;
    var i := 0;
    while i < |st| && !closed
      invariant 0 <= i <= |st|
      invariant !closed ==> end == |st| && LastHeader(hs, i).Some? == found
      invariant !closed && found ==> start == LastHeader(hs, i).value
      invariant !closed ==> forall j :: 0 <= j < i ==> !ClosesAt(st, hs, ls, j)
      invariant closed ==> 0 < i && end == i - 1 && found
      invariant closed ==> LastHeader(hs, end) == Some(start) && ClosesAt(st, hs, ls, end)
      invariant closed ==> forall j :: 0 <= j < end ==> !ClosesAt(st, hs, ls, j)
      invariant found ==> start < |st| && hs[start] && level == ls[start]
    {
      if st[i] == "" {
      } else if hs[i] {
        found := true;
        level := ls[i];
        start := i;
      } else if found && ls[i] == level {
        end := i;
        closed := true;
      }
      i := i + 1;
    }
  }

  /** `MarkdownUtils.extract_section(body, name)`: the body split at newlines and scanned as
      `ScanSection` describes; the text is the lines strictly between the header and the
      end line. Line `k` is a header when `HeaderFlags(..)[k]`, that is `IsHeader` of its
      stripped form (`HeaderFlagsAt`), and its level is `Levels(..)[k]` (`LevelsAt`). */
  method ExtractSection(body: string, name: string) returns (r: Option<Section>)
    ensures r.None? <==> NoHeader(HeaderFlags(StrippedLines(Split(body, "\n")), name))
    ensures var lines := Split(body, "\n"); var st := StrippedLines(lines);
      var hs := HeaderFlags(st, name); var ls := Levels(st);
      r.Some? ==>
        r.value.end <= |lines| &&
        LastHeader(hs, r.value.end) == Some(r.value.start) &&
        r.value.text == Join("\n", lines[r.value.start + 1..r.value.end]) &&
        (r.value.end < |lines| ==> ClosesAt(st, hs, ls, r.value.end)) &&
        (forall j :: 0 <= j < r.value.end ==> !ClosesAt(st, hs, ls, j))
  {
    var lines := Split(body, "\n");
    var st := StrippedLines(lines);
    var hs := HeaderFlags(st, name);
    var ls := Levels(st);
    BlankNotHeader(st, name);
    assert |st| == |lines| && |hs| == |st| && |ls| == |st|;
    var found, start, end := ScanSection(st, hs, ls);
    if !found {
      return None;
    }
    assert start < end;
    var text := Join("\n", lines[start + 1..end]);
    return Some(Section(text, start, end));
  }

  /** `MarkdownUtils.create_md_text(metadata, body)`: falsy metadata leaves the body alone;
      otherwise the dumped YAML goes between two '---' lines and a blank line precedes the
      body. `dump` stands for `yaml.dump`. */
  function CreateMdText(metadata: Value, body: string, dump: Value -> string): (r: string)
    ensures !Truthy(metadata) ==> r == body
    ensures Truthy(metadata) ==> r == "---\n" + dump(metadata) + "---\n\n" + body
  {
    var header := if Truthy(metadata) then "---\n" + dump(metadata) + "---\n\n" else "";
    header + body
  }

  /** The text one "Others" entry contributes. */
  function OthersBlock(key: string, value: string): string {
    "\n\n### " + key + "\n" + value
  }

  /** `MarkdownUtils.create_others_section(others, contents)`: the "## Others" heading, the
      stripped free text, then one "### key" block per entry, in the dict's order. */
  function CreateOthersSection(others: string, contents: seq<(string, string)>): (r: string)
    decreases |contents|
  {
    if |contents| == 0 then "## Others\n" + Strip(others)
    else
      var last := contents[|contents| - 1];
      CreateOthersSection(others, contents[..|contents| - 1]) + OthersBlock(last.0, last.1)
  }

  /** One block per entry, in order. */
  function OthersBlocks(contents: seq<(string, string)>): (r: seq<string>)
    ensures |r| == |contents|
    ensures forall i :: 0 <= i < |contents| ==> r[i] == OthersBlock(contents[i].0, contents[i].1)
    decreases |contents|
  {
    if |contents| == 0 then []
    else
      var last := contents[|contents| - 1];
      OthersBlocks(contents[..|contents| - 1]) + [OthersBlock(last.0, last.1)]
  }

  /** The section starts with the heading and the stripped free text, and holds each entry's
      block, in order, after it. */
  lemma {:induction false} OthersSectionShape(others: string, contents: seq<(string, string)>)
    ensures CreateOthersSection(others, contents) == "## Others\n" + Strip(others) + Concat(OthersBlocks(contents))
    decreases |contents|
  {
    if |contents| > 0 {
      var init := contents[..|contents| - 1];
      var last := contents[|contents| - 1];
      var block := OthersBlock(last.0, last.1);
      OthersSectionShape(others, init);
      ConcatAppend(OthersBlocks(init), [block]);
      assert Concat([block]) == block;
      var head := "## Others\n" + Strip(others);
      assert head + Concat(OthersBlocks(init)) + block == head + (Concat(OthersBlocks(init)) + block);
    }
  }

  // ---------------------------------------------------------------------------------------
  // BibTeX

  /** ```` ```BibTeX ```` in any letter case at position `i`. */
  predicate OpensBibtex(body: string, i: nat) {
    i + 9 <= |body| && LowerStr(body[i..i + 9]) == "```bibtex"
  }

  function FirstOpening(body: string, from: nat): (r: Option<nat>)
    ensures r.Some? ==> from <= r.value && OpensBibtex(body, r.value)
    ensures r.Some? ==> forall j :: from <= j < r.value ==> !OpensBibtex(body, j)
    ensures r.None? ==> forall j :: from <= j ==> !OpensBibtex(body, j)
    decreases |body| - from
  {
    if from + 9 > |body| then None
    else if OpensBibtex(body, from) then Some(from)
    else FirstOpening(body, from + 1)
  }

  /** The first match of the pattern ```` ```BibTeX(.*?)``` ```` (any case, across lines):
      the text after the first opening fence up to the next three backquotes. */
  function FirstBibtexBlock(body: string): (r: Option<string>)
    ensures r.Some? ==> exists i, j :: (OpensBibtex(body, i) && i + 9 <= j && OccursAt(body, "```", j)
      && r.value == body[i + 9..j])
  {
    match FirstOpening(body, 0)
    case None => None
    case Some(i) =>
      match Find(body, "```", i + 9)
      case None => None
      case Some(j) => Some(body[i + 9..j])
  }

  /** What `bibtexparser` yields for the first entry of a block: its key and field values. */
  datatype BibEntry = BibEntry(key: string, fields: map<string, string>)

  /** Python's `int(s)` on a string of decimal digits, with surrounding whitespace and an
      optional sign; anything else is a `ValueError`. */
  function ParseInt(s: string): (r: Option<int>)
  {
    var t := Strip(s);
    if |t| > 0 && (t[0] == '-' || t[0] == '+') then
      if IsDigits(t[1..]) then
        var v: int := DecimalValue(t[1..]);
        Some(if t[0] == '-' then -v else v)
      else None
    else if IsDigits(t) then Some(DecimalValue(t))
    else None
  }

  function DecimalValue(s: string): nat
    requires forall i :: 0 <= i < |s| ==> IsDigit(s[i])
    decreases |s|
  {
    if |s| == 0 then 0 else DecimalValue(s[..|s| - 1]) * 10 + DigitValue(s[|s| - 1])
  }

  function DigitValue(c: char): nat
    requires IsDigit(c)
  {
    c as int - '0' as int
  }

  /** Reading back the decimal form of a natural number gives the number. */
  lemma {:induction false} DecimalRoundTrip(n: nat)
    ensures IsDigits(NatToDecimal(n)) && DecimalValue(NatToDecimal(n)) == n
    decreases n
  {
    NatToDecimalDigits(n);
    if n >= 10 {
      DecimalRoundTrip(n / 10);
      var s := NatToDecimal(n);
      assert s[..|s| - 1] == NatToDecimal(n / 10);
      assert s[|s| - 1] == DigitChar(n % 10);
      DigitCharValue(n % 10);
    } else {
      DigitCharValue(n);
      assert NatToDecimal(n)[..0] == "";
    }
  }

  lemma DigitCharValue(d: nat)
    requires d < 10
    ensures DigitValue(DigitChar(d)) == d
  {
  }

  /** `int(str(y))` gives back a non-negative year. */
  lemma ParseIntFormat(y: nat)
    ensures ParseInt(NatToDecimal(y)) == Some(y)
  {
    var s := NatToDecimal(y);
    DecimalRoundTrip(y);
    DigitsStrip(s);
    assert s[0] != '-' && s[0] != '+';
  }

  /** Stripping leaves a string of digits alone. */
  lemma DigitsStrip(s: string)
    requires IsDigits(s)
    ensures Strip(s) == s
  {
    assert IsDigit(s[0]) && IsDigit(s[|s| - 1]);
    assert !IsSpace(s[0]) && !IsSpace(s[|s| - 1]);
    LStripNoLeading(s);
    RStripNoTrailing(s);
  }

  /** `MarkdownUtils.extract_bibtex` (and the copy in `src/paper_rel_gen.py`): key, title,
      the author list split on " and ", and the year as an integer; `{}` on any failure. */
  function ExtractBibtex(body: string, parse: string -> Option<BibEntry>): (r: Record)
    ensures r == map[] || r.Keys == {"bibtex_key", "title", "author", "year"}
    ensures r != map[] ==> r["year"].VInt? && r["author"].VList?
    ensures r != map[] <==> (BibtexFields(body, parse).Some? && ParseInt(BibtexFields(body, parse).value.3).Some?)
    ensures r != map[] ==> var (e, t, a, y) := BibtexFields(body, parse).value;
      r["bibtex_key"] == VStr(e.key) && r["title"] == VStr(t) && t == e.fields["title"]
      && r["author"] == StrList(a) && r["year"] == VInt(ParseInt(y).value) && y == e.fields["year"]
  {
    match BibtexFields(body, parse)
    case None => map[]
    case Some((e, title, authors, year)) =>
      match ParseInt(year)
      case None => map[]
      case Some(y) =>
        map["bibtex_key" := VStr(e.key), "title" := VStr(title), "author" := StrList(authors), "year" := VInt(y)]
  }

  /** `extract_bibtex` of `new_paper_rel_gen.py`: the year stays a string and a failure is
      `None` rather than `{}`. */
  function ExtractBibtexRaw(body: string, parse: string -> Option<BibEntry>): (r: Option<Record>)
    ensures r.Some? <==> BibtexFields(body, parse).Some?
    ensures r.Some? ==> r.value.Keys == {"bibtex_key", "title", "author", "year"}
    ensures r.Some? ==> r.value["year"] == VStr(BibtexFields(body, parse).value.3)
    ensures r.Some? ==> var e := BibtexFields(body, parse).value.0;
      r.value["bibtex_key"] == VStr(e.key) && r.value["title"] == VStr(e.fields["title"])
      && r.value["year"] == VStr(e.fields["year"])
    ensures r.Some? ==> var e := BibtexFields(body, parse).value.0;
      r.value["author"] == StrList(Split(e.fields["author"], " and "))
      && Join(" and ", Split(e.fields["author"], " and ")) == e.fields["author"]
  {
    match BibtexFields(body, parse)
    case None => None
    case Some((e, title, authors, year)) =>
      JoinSplit(e.fields["author"], " and ");
      Some(map["bibtex_key" := VStr(e.key), "title" := VStr(title), "author" := StrList(authors),
               "year" := VStr(year)])
  }

  /** The fields both versions read from the first entry of the first block: the entry, its
      title, its authors split on " and ", and its raw year. */
  function BibtexFields(body: string, parse: string -> Option<BibEntry>)
    : (r: Option<(BibEntry, string, seq<string>, string)>)
    ensures r.Some? ==> "author" in r.value.0.fields && r.value.2 == Split(r.value.0.fields["author"], " and ")
    ensures r.Some? ==> "title" in r.value.0.fields && r.value.1 == r.value.0.fields["title"]
    ensures r.Some? ==> "year" in r.value.0.fields && r.value.3 == r.value.0.fields["year"]
  {
    var block :- FirstBibtexBlock(body);
    var e :- parse(block);
    if "title" in e.fields && "author" in e.fields && "year" in e.fields then
      Some((e, e.fields["title"], Split(e.fields["author"], " and "), e.fields["year"]))
    else None
  }
}

=== FILE: notes.dfy ===
/** The note reader of the reference-map generator: locating the References, Bibtex and Others
    blocks of a note by scanning its lines. Each scan is stated twice: as the loop the reader
    runs, over per-line flags, and as a closed-form block description it is proved to compute. */
module Notes {
  import opened Wrappers
  import opened Strings
  import opened OrderedDicts
  import opened Wikilinks

  /** Whether each line, stripped and lower-cased, contains `mark`. */
  function Marks(lines: seq<string>, mark: string): (r: seq<bool>)
    ensures |r| == |lines|
  {
    seq(|lines|, k requires 0 <= k < |lines| => Contains(LowerStr(Strip(lines[k])), mark))
  }

  /** Whether each stripped line contains a `#`. */
  function Hashes(lines: seq<string>): (r: seq<bool>)
    ensures |r| == |lines|
  {
    seq(|lines|, k requires 0 <= k < |lines| => Contains(Strip(lines[k]), "#"))
  }

  /** The first index at or after `from` whose flag is set. */
  function FirstFrom(p: seq<bool>, from: nat): (r: Option<nat>)
    ensures r.Some? ==> from <= r.value < |p| && p[r.value]
    ensures r.Some? ==> forall j :: from <= j < r.value ==> !p[j]
    ensures r.None? ==> forall j :: from <= j < |p| ==> !p[j]
    decreases |p| - from
  {
    if from >= |p| then None else if p[from] then Some(from) else FirstFrom(p, from + 1)
  }

  /** The last index before `upto` whose flag is set. */
  function LastBefore(p: seq<bool>, upto: nat): (r: Option<nat>)
    requires upto <= |p|
    ensures r.Some? ==> r.value < upto && p[r.value]
    ensures r.Some? ==> forall j :: r.value < j < upto ==> !p[j]
    ensures r.None? ==> forall j :: 0 <= j < upto ==> !p[j]
  {
    if upto == 0 then None else if p[upto - 1] then Some(upto - 1) else LastBefore(p, upto - 1)
  }

  /** A block of lines: its header line and the line that ends it (exclusive), which is the
      line count when the block runs to the end of the note. */
  datatype Block = Block(start: nat, end: nat)

  /** The lines that close a block: a line containing `#` that is neither a header (`h`) nor
      a skipped line (`skip`). */
  function Closing(h: seq<bool>, skip: seq<bool>, x: seq<bool>): (c: seq<bool>)
    requires |h| == |skip| == |x|
    ensures |c| == |h|
    ensures forall k :: 0 <= k < |h| ==> (c[k] <==> x[k] && !h[k] && !skip[k])
  {
    seq(|h|, k requires 0 <= k < |h| => x[k] && !h[k] && !skip[k])
  }

  /** The block a scan with a `break` finds: it ends at the first closing line after the first
      header, or at the end; it starts at the last header before that end. */
  function FirstBlock(h: seq<bool>, c: seq<bool>): (r: Option<Block>)
    requires |h| == |c|
    ensures r.None? <==> forall j :: 0 <= j < |h| ==> !h[j]
    ensures r.Some? ==> r.value.start < r.value.end <= |h| && h[r.value.start]
    ensures r.Some? ==> forall j :: r.value.start < j < r.value.end ==> !h[j]
    ensures r.Some? ==> forall i, j :: 0 <= i < j < r.value.end && h[i] ==> !c[j]
    ensures r.Some? && r.value.end < |h| ==> c[r.value.end]
  {
    match FirstFrom(h, 0)
    case None => None
    case Some(f) =>
      var e := match FirstFrom(c, f + 1) case Some(j) => j case None => |h|;
      Some(Block(LastBefore(h, e).value, e))
  }

  /** The block the scan without a `break` finds: it starts at the last header; it ends at the
      last closing line that follows some header, or at the end. */
  function LastBlock(h: seq<bool>, c: seq<bool>): (r: Option<Block>)
    requires |h| == |c|
    ensures r.None? <==> forall j :: 0 <= j < |h| ==> !h[j]
    ensures r.Some? ==> r.value.start < |h| && r.value.end <= |h| && h[r.value.start]
    ensures r.Some? ==> forall j :: r.value.start < j < |h| ==> !h[j]
    ensures r.Some? && r.value.end < |h| ==>
      c[r.value.end] && (exists i :: 0 <= i < r.value.end && h[i])
      && forall j :: r.value.end < j < |h| ==> !c[j]
    ensures r.Some? && r.value.end == |h| ==> forall i, j :: 0 <= i < j < |h| && h[i] ==> !c[j]
  {
    match LastBefore(h, |h|)
    case None => None
    case Some(s) =>
      var f := FirstFrom(h, 0).value;
      var e := match LastBefore(c, |c|) case Some(j) => if j > f then j else |h| case None => |h|;
      Some(Block(s, e))
  }

  /** Where the references scan stands after `i` lines: the end it has recorded so far. */
  function RefEndSoFar(h: seq<bool>, c: seq<bool>, i: nat): nat
    requires |h| == |c| && i <= |h|
  {
    if LastBefore(h, i).None? then |h|
    else
      var f := FirstFrom(h, 0).value;
      match LastBefore(c, i) case Some(j) => if j > f then j else |h| case None => |h|
  }

  /** The loop of `_find_references` over the header (`h`), undiscovered (`u`) and `#` (`x`)
      flags: every header restarts the block, undiscovered lines are skipped, and every other
      `#` line after a header moves the end; there is no `break`. */
  method ScanReferences(h: seq<bool>, u: seq<bool>, x: seq<bool>) returns (found: bool, start: nat, end: nat)
    requires |h| == |u| == |x|
    ensures found <==> LastBlock(h, Closing(h, u, x)).Some?
    ensures found ==> LastBlock(h, Closing(h, u, x)).value == Block(start, end)
  {
    ghost var c := Closing(h, u, x);
    found, start, end := false, 0, |h|;
    var i := 0;
    while i < |h|
      invariant i <= |h|
      invariant found <==> LastBefore(h, i).Some?
      invariant found ==> start == LastBefore(h, i).value
      invariant end == RefEndSoFar(h, c, i)
    {
      if h[i] {
        found := true;
        start := i;
      } else if found && u[i] {
      } else if found && x[i] {
        end := i;
      }
      i := i + 1;
    }
  }

  /** The loop of `_find_bibtex` over the header (`h`) and `#` (`x`) flags: every header
      restarts the block, and the first other `#` line after a header ends it (`break`). */
  method ScanBibtex(h: seq<bool>, x: seq<bool>) returns (found: bool, start: nat, end: nat)
    requires |h| == |x|
    ensures found <==> FirstBlock(h, Closing(h, h, x)).Some?
    ensures found ==> FirstBlock(h, Closing(h, h, x)).value == Block(start, end)
  {
    ghost var c := Closing(h, h, x);
    found, start, end := false, 0, |h|;
    var i := 0;
    while i < |h|
      invariant i <= |h| && end == |h|
      invariant found <==> LastBefore(h, i).Some?
      invariant found ==> start == LastBefore(h, i).value
      invariant found ==> forall j :: FirstFrom(h, 0).value < j < i ==> !c[j]
    {
      if h[i] {
        found := true;
        start := i;
      } else if found && x[i] {
        end := i;
        break;
      }
      i := i + 1;
    }
  }

  /** The loop of `_find_others`: `None` without an Others header, otherwise the first `#`
      line after the first Others header, or the line count. */
  method ScanOthers(o: seq<bool>, x: seq<bool>) returns (r: Option<nat>)
    requires |o| == |x|
    ensures r.None? <==> FirstBlock(o, Closing(o, o, x)).None?
    ensures r.Some? ==> r.value == FirstBlock(o, Closing(o, o, x)).value.end
  {
    ghost var c := Closing(o, o, x);
    var inOthers, end := false, |o|;
    var i := 0;
    while i < |o|
      invariant i <= |o| && end == |o|
      invariant inOthers <==> LastBefore(o, i).Some?
      invariant inOthers ==> forall j :: FirstFrom(o, 0).value < j < i ==> !c[j]
    {
      if o[i] {
        inOthers := true;
      } else if inOthers && x[i] {
        end := i;
        break;
      }
      i := i + 1;
    }
    r := if inOthers then Some(end) else None;
  }

  /** Python's `xs[s:e]` for indices within bounds: empty when `e` does not exceed `s`. */
  function Slice(xs: seq<string>, s: nat, e: nat): (r: seq<string>)
    requires s <= |xs| && e <= |xs|
    ensures s <= e ==> r == xs[s..e]
    ensures e < s ==> r == []
  {
    if s <= e then xs[s..e] else []
  }

  /** The note after the reader has taken a block out, and what it took. */
  datatype Taken<T> = Taken(found: T, rest: seq<string>)

  function Remove(lines: seq<string>, b: Block): (r: seq<string>)
    requires b.start <= |lines| && b.end <= |lines|
    ensures |r| == b.start + |lines| - b.end
  {
    lines[..b.start] + lines[b.end..]
  }

  /** `Note._find_references` as written: the links of the block from the last References
      header to the last closing line after the first one, filed by key; the block leaves the
      note. Without a header: no references and the note unchanged. */
  function FindReferences(lines: seq<string>): (r: Taken<Dict>)
    ensures UniqueKeys(r.found)
    ensures (forall j :: 0 <= j < |lines| ==> !Marks(lines, "# references")[j]) <==> r == Taken([], lines)
  {
    var h := Marks(lines, "# references");
    match LastBlock(h, ReferenceClosing(lines))
    case None => Taken([], lines)
    case Some(b) =>
      BlockMoves(h, ReferenceClosing(lines), b);
      Taken(CreateWikilinkDict(FindLinks(Concat(Slice(lines, b.start, b.end)))), Remove(lines, b))
  }

  /** A found block never starts and ends on the same line, so taking it out changes the
      note's length. */
  lemma BlockMoves(h: seq<bool>, c: seq<bool>, b: Block)
    requires |h| == |c| && b.start < |h| && b.end <= |h| && h[b.start]
    requires b.end < |h| ==> c[b.end]
    requires forall k :: 0 <= k < |h| && c[k] ==> !h[k]
    ensures b.start != b.end
  {
  }

  /** The lines that close a References block. */
  function ReferenceClosing(lines: seq<string>): (c: seq<bool>)
    ensures |c| == |lines|
  {
    Closing(Marks(lines, "# references"), Marks(lines, "# undiscovered"), Hashes(lines))
  }

  /** `_find_references` with the `break` its sibling scans have: the block ends at the first
      closing line after the header. */
  function FindReferencesFixed(lines: seq<string>): (r: Taken<Dict>)
    ensures UniqueKeys(r.found)
    ensures |r.rest| <= |lines|
    ensures FirstBlock(Marks(lines, "# references"), ReferenceClosing(lines)).None? ==> r == Taken([], lines)
  {
    var h := Marks(lines, "# references");
    match FirstBlock(h, ReferenceClosing(lines))
    case None => Taken([], lines)
    case Some(b) =>
      Taken(CreateWikilinkDict(FindLinks(Concat(lines[b.start..b.end]))), Remove(lines, b))
  }

  /** `Note._find_bibtex`: the text of the block after its header, and the note without the
      block; `""` and the note unchanged without a Bibtex header. */
  function FindBibtex(lines: seq<string>): (r: Taken<string>)
    ensures |r.rest| <= |lines|
    ensures (forall j :: 0 <= j < |lines| ==> !Marks(lines, "# bibtex")[j]) <==> r == Taken("", lines)
  {
    var h := Marks(lines, "# bibtex");
    match FirstBlock(h, Closing(h, h, Hashes(lines)))
    case None => Taken("", lines)
    case Some(b) => Taken(Concat(lines[b.start + 1..b.end]), Remove(lines, b))
  }

  /** `Note._find_others`: the line where the Others section ends, `None` without one. */
  function FindOthers(lines: seq<string>): (r: Option<nat>)
    ensures r.Some? ==> 0 < r.value <= |lines|
    ensures r.None? <==> forall j :: 0 <= j < |lines| ==> !Marks(lines, "# others")[j]
    ensures r.Some? ==> exists i :: 0 <= i < r.value && Marks(lines, "# others")[i]
    ensures r.Some? ==> forall i, j :: 0 <= i < j < r.value && Marks(lines, "# others")[i] ==>
      !Hashes(lines)[j] || Marks(lines, "# others")[j]
    ensures r.Some? && r.value < |lines| ==> Hashes(lines)[r.value] && !Marks(lines, "# others")[r.value]
  {
    var o := Marks(lines, "# others");
    match FirstBlock(o, Closing(o, o, Hashes(lines)))
    case None => None
    case Some(b) => Some(b.end)
  }

  /** Taking a block out keeps everything else: the note minus the block, with the block put
      back where it was, is the note. */
  lemma RemoveReassembles(lines: seq<string>, b: Block)
    requires b.start <= b.end <= |lines|
    ensures Concat(Remove(lines, b)[..b.start]) + Concat(lines[b.start..b.end])
      + Concat(Remove(lines, b)[b.start..]) == Concat(lines)
  {
    var r := Remove(lines, b);
    assert r[..b.start] == lines[..b.start];
    assert r[b.start..] == lines[b.end..];
    ConcatThree(lines, b.start, b.end);
  }

  /** The Bibtex reader gives back exactly the lines it removed, less their header. */
  lemma FindBibtexReassembles(lines: seq<string>)
    requires FirstBlock(Marks(lines, "# bibtex"), Closing(Marks(lines, "# bibtex"), Marks(lines, "# bibtex"), Hashes(lines))).Some?
    ensures var b := FirstBlock(Marks(lines, "# bibtex"), Closing(Marks(lines, "# bibtex"), Marks(lines, "# bibtex"), Hashes(lines))).value;
      var r := FindBibtex(lines);
      Concat(r.rest[..b.start]) + lines[b.start] + r.found + Concat(r.rest[b.start..]) == Concat(lines)
  {
    var h := Marks(lines, "# bibtex");
    var b := FirstBlock(h, Closing(h, h, Hashes(lines))).value;
    RemoveHeaderReassembles(lines, b);
  }

  lemma RemoveHeaderReassembles(lines: seq<string>, b: Block)
    requires b.start < b.end <= |lines|
    ensures Concat(Remove(lines, b)[..b.start]) + lines[b.start] + Concat(lines[b.start + 1..b.end])
      + Concat(Remove(lines, b)[b.start..]) == Concat(lines)
  {
    RemoveReassembles(lines, b);
    ConcatFirst(lines, b.start, b.end);
    var a, h, t, c := Concat(Remove(lines, b)[..b.start]), lines[b.start],
      Concat(lines[b.start + 1..b.end]), Concat(Remove(lines, b)[b.start..]);
    AppendAssoc(a, h, t);
  }

  /** As written, when the recorded end does not come before the last header, the References
      reader removes exactly the block whose links it returns. */
  lemma FindReferencesReassembles(lines: seq<string>)
    requires LastBlock(Marks(lines, "# references"), ReferenceClosing(lines)).Some?
    requires var b := LastBlock(Marks(lines, "# references"), ReferenceClosing(lines)).value; b.start <= b.end
    ensures var b := LastBlock(Marks(lines, "# references"), ReferenceClosing(lines)).value;
      var r := FindReferences(lines);
      && Concat(r.rest[..b.start]) + Concat(lines[b.start..b.end]) + Concat(r.rest[b.start..]) == Concat(lines)
      && ToMap(r.found) == ToMap(KeyedLinks(FindLinks(Concat(lines[b.start..b.end]))))
  {
    var b := LastBlock(Marks(lines, "# references"), ReferenceClosing(lines)).value;
    RemoveReassembles(lines, b);
  }

  /** As written, when a header follows the recorded end, the References reader finds no
      links, and the lines from the end up to that header appear twice in what is left. */
  lemma FindReferencesEndBeforeStart(lines: seq<string>)
    requires LastBlock(Marks(lines, "# references"), ReferenceClosing(lines)).Some?
    requires var b := LastBlock(Marks(lines, "# references"), ReferenceClosing(lines)).value; b.end < b.start
    ensures var b := LastBlock(Marks(lines, "# references"), ReferenceClosing(lines)).value;
      var r := FindReferences(lines);
      && r.found == []
      && r.rest == lines[..b.start] + lines[b.end..]
      && multiset(r.rest) == multiset(lines) + multiset(lines[b.end..b.start])
  {
    var b := LastBlock(Marks(lines, "# references"), ReferenceClosing(lines)).value;
    FindReferencesRest(lines, b);
    RemoveBackwards(lines, b);
    assert FindLinks(Concat(Slice(lines, b.start, b.end))) == [];
  }

  /** Removing a block whose end comes before its start keeps every line and repeats the
      lines between the two. */
  lemma RemoveBackwards(lines: seq<string>, b: Block)
    requires b.end < b.start <= |lines|
    ensures Remove(lines, b) == lines[..b.start] + lines[b.end..]
    ensures multiset(Remove(lines, b)) == multiset(lines) + multiset(lines[b.end..b.start])
  {
    assert lines[..b.start] == lines[..b.end] + lines[b.end..b.start];
    assert lines == lines[..b.end] + lines[b.end..];
  }

  /** The fixed References reader removes exactly the block whose links it returns. */
  lemma FindReferencesFixedReassembles(lines: seq<string>)
    requires FirstBlock(Marks(lines, "# references"), ReferenceClosing(lines)).Some?
    ensures var b := FirstBlock(Marks(lines, "# references"), ReferenceClosing(lines)).value;
      var r := FindReferencesFixed(lines);
      && Concat(r.rest[..b.start]) + Concat(lines[b.start..b.end]) + Concat(r.rest[b.start..]) == Concat(lines)
      && ToMap(r.found) == ToMap(KeyedLinks(FindLinks(Concat(lines[b.start..b.end]))))
  {
    var b := FirstBlock(Marks(lines, "# references"), ReferenceClosing(lines)).value;
    RemoveReassembles(lines, b);
  }

  /** A note whose References section is followed by another section and a third heading. */
  const SampleNote: seq<string> := ["# References\n", "# Notes\n", "text\n", "# More\n"]

  lemma StripLine(s: string)
    requires |s| > 0 && !IsSpace(s[0]) && !IsSpace(s[|s| - 1])
    ensures Strip(s + "\n") == s
  {
    assert LStrip(s + "\n") == s + "\n";
    RStripNewline(s);
  }

  lemma SampleStripped()
    ensures Strip(SampleNote[0]) == "# References" && Strip(SampleNote[1]) == "# Notes"
    ensures Strip(SampleNote[2]) == "text" && Strip(SampleNote[3]) == "# More"
  {
    StripReferences();
    StripNotes();
    StripText();
    StripMore();
  }

  lemma StripReferences() ensures Strip("# References\n") == "# References" { StripLine("# References"); }
  lemma StripNotes() ensures Strip("# Notes\n") == "# Notes" { StripLine("# Notes"); }
  lemma StripText() ensures Strip("text\n") == "text" { StripLine("text"); }
  lemma StripMore() ensures Strip("# More\n") == "# More" { StripLine("# More"); }

  lemma SampleLower()
    ensures LowerStr("# References") == "# references" && LowerStr("# Notes") == "# notes"
    ensures LowerStr("text") == "text" && LowerStr("# More") == "# more"
  {
  }

  lemma SampleHashes()
    ensures Contains("# References", "#") && Contains("# Notes", "#") && Contains("# More", "#")
    ensures !Contains("text", "#")
  {
    ContainsAt("# References", "#", 0);
    ContainsAt("# Notes", "#", 0);
    ContainsAt("# More", "#", 0);
    var t := "text";
    assert t[0..1] == [t[0]] && t[1..2] == [t[1]] && t[2..3] == [t[2]] && t[3..4] == [t[3]];
  }

  /** The flags of a four-line note, line by line. */
  lemma MarksOfFour(lines: seq<string>, mark: string, a: bool, b: bool, c: bool, d: bool)
    requires |lines| == 4
    requires Contains(LowerStr(Strip(lines[0])), mark) == a && Contains(LowerStr(Strip(lines[1])), mark) == b
    requires Contains(LowerStr(Strip(lines[2])), mark) == c && Contains(LowerStr(Strip(lines[3])), mark) == d
    ensures Marks(lines, mark) == [a, b, c, d]
  {
    MarksAt(lines, mark, 0);
    MarksAt(lines, mark, 1);
    MarksAt(lines, mark, 2);
    MarksAt(lines, mark, 3);
    FourFlags(Marks(lines, mark), a, b, c, d);
  }

  lemma MarksAt(lines: seq<string>, mark: string, k: nat)
    requires k < |lines|
    ensures Marks(lines, mark)[k] == Contains(LowerStr(Strip(lines[k])), mark)
  {
  }

  lemma HashesAt(lines: seq<string>, k: nat)
    requires k < |lines|
    ensures Hashes(lines)[k] == Contains(Strip(lines[k]), "#")
  {
  }

  lemma FourFlags(h: seq<bool>, a: bool, b: bool, c: bool, d: bool)
    requires |h| == 4 && h[0] == a && h[1] == b && h[2] == c && h[3] == d
    ensures h == [a, b, c, d]
  {
  }

  lemma HashesOfFour(lines: seq<string>, a: bool, b: bool, c: bool, d: bool)
    requires |lines| == 4
    requires Contains(Strip(lines[0]), "#") == a && Contains(Strip(lines[1]), "#") == b
    requires Contains(Strip(lines[2]), "#") == c && Contains(Strip(lines[3]), "#") == d
    ensures Hashes(lines) == [a, b, c, d]
  {
    HashesAt(lines, 0);
    HashesAt(lines, 1);
    HashesAt(lines, 2);
    HashesAt(lines, 3);
    FourFlags(Hashes(lines), a, b, c, d);
  }

  lemma SampleUndiscovered()
    ensures !Contains("# references", "# undiscovered") && !Contains("# notes", "# undiscovered")
    ensures !Contains("text", "# undiscovered") && !Contains("# more", "# undiscovered")
  {
  }

  lemma SampleReferences()
    ensures Contains("# references", "# references") && !Contains("# notes", "# references")
    ensures !Contains("text", "# references") && !Contains("# more", "# references")
  {
    ContainsAt("# references", "# references", 0);
  }

  lemma SampleHeaderFlags()
    ensures Marks(SampleNote, "# references") == [true, false, false, false]
  {
    SampleStripped();
    SampleLower();
    SampleReferences();
    MarksOfFour(SampleNote, "# references", true, false, false, false);
  }

  lemma SampleUndiscoveredFlags()
    ensures Marks(SampleNote, "# undiscovered") == [false, false, false, false]
  {
    SampleStripped();
    SampleLower();
    SampleUndiscovered();
    MarksOfFour(SampleNote, "# undiscovered", false, false, false, false);
  }

  lemma SampleHashFlags()
    ensures Hashes(SampleNote) == [true, true, false, true]
  {
    SampleStripped();
    SampleHashes();
    HashesOfFour(SampleNote, true, true, false, true);
  }

  lemma SampleClosing()
    ensures Marks(SampleNote, "# references") == [true, false, false, false]
    ensures ReferenceClosing(SampleNote) == [false, true, false, true]
  {
    SampleHeaderFlags();
    SampleUndiscoveredFlags();
    SampleHashFlags();
  }

  /** As written, reading the sample note's references takes out the Notes section with them:
      only the last heading is left. */
  lemma FindReferencesDropsSection()
    ensures FindReferences(SampleNote).rest == ["# More\n"]
  {
    SampleClosing();
    SampleLastBlock();
    FindReferencesRest(SampleNote, Block(0, 3));
    SampleRemove();
  }

  /** With the `break`, only the References block goes, and the Notes section stays. */
  lemma FindReferencesFixedKeepsSection()
    ensures FindReferencesFixed(SampleNote).rest == ["# Notes\n", "text\n", "# More\n"]
  {
    SampleClosing();
    SampleFirstBlock();
    FindReferencesFixedRest(SampleNote, Block(0, 1));
    SampleRemove();
  }

  lemma FindReferencesRest(lines: seq<string>, b: Block)
    requires LastBlock(Marks(lines, "# references"), ReferenceClosing(lines)) == Some(b)
    ensures FindReferences(lines).rest == Remove(lines, b)
  {
  }

  lemma FindReferencesFixedRest(lines: seq<string>, b: Block)
    requires FirstBlock(Marks(lines, "# references"), ReferenceClosing(lines)) == Some(b)
    ensures FindReferencesFixed(lines).rest == Remove(lines, b)
  {
  }

  lemma SampleLastBlock()
    ensures LastBlock([true, false, false, false], [false, true, false, true]) == Some(Block(0, 3))
  {
    var h, c := [true, false, false, false], [false, true, false, true];
    assert LastBefore(h, 4) == Some(0);
    assert FirstFrom(h, 0) == Some(0);
    assert LastBefore(c, 4) == Some(3);
  }

  lemma SampleFirstBlock()
    ensures FirstBlock([true, false, false, false], [false, true, false, true]) == Some(Block(0, 1))
  {
    var h, c := [true, false, false, false], [false, true, false, true];
    assert FirstFrom(h, 0) == Some(0);
    assert FirstFrom(c, 1) == Some(1);
    assert LastBefore(h, 1) == Some(0);
  }

  lemma SampleRemove()
    ensures Remove(SampleNote, Block(0, 3)) == ["# More\n"]
    ensures Remove(SampleNote, Block(0, 1)) == ["# Notes\n", "text\n", "# More\n"]
  {
  }
}

=== FILE: ordered.dfy ===
/** Python dictionaries from strings to strings where their order can be observed: a sequence
    of key/value pairs with distinct keys, in insertion order. */
module OrderedDicts {
  /** Python's `<` on strings: lexicographic by code point, a proper prefix first. */
  predicate Less(a: string, b: string)
    decreases |a|
  {
    if |a| == 0 then |b| > 0
    else if |b| == 0 then false
    else if a[0] != b[0] then a[0] < b[0]
    else Less(a[1..], b[1..])
  }

  lemma {:induction false} LessIrreflexive(a: string)
    ensures !Less(a, a)
    decreases |a|
  {
    if |a| > 0 {
      LessIrreflexive(a[1..]);
    }
  }

  lemma {:induction false} LessTransitive(a: string, b: string, c: string)
    requires Less(a, b) && Less(b, c)
    ensures Less(a, c)
    decreases |a|
  {
    if |a| > 0 && a[0] == b[0] && b[0] == c[0] {
      LessTransitive(a[1..], b[1..], c[1..]);
    }
  }

  /** Any two different strings are ordered one way or the other. */
  lemma {:induction false} LessTotal(a: string, b: string)
    requires a != b
    ensures Less(a, b) || Less(b, a)
    decreases |a|
  {
    if |a| > 0 && |b| > 0 && a[0] == b[0] {
      assert a == [a[0]] + a[1..] && b == [b[0]] + b[1..];
      LessTotal(a[1..], b[1..]);
    }
  }

  lemma {:induction false} LessAsymmetric(a: string, b: string)
    requires Less(a, b)
    ensures !Less(b, a)
  {
    if Less(b, a) {
      LessTransitive(a, b, a);
      LessIrreflexive(a);
    }
  }

  type Dict = seq<(string, string)>

  predicate HasKey(d: Dict, k: string) {
    exists i :: 0 <= i < |d| && d[i].0 == k
  }

  predicate UniqueKeys(d: Dict) {
    forall i, j :: 0 <= i < j < |d| ==> d[i].0 != d[j].0
  }

  /** The mapping the pairs leave when assigned one after another, a later pair
      overwriting an earlier one with the same key (so for distinct keys: the mapping the
      dictionary holds, forgetting its order). */
  function ToMap(d: Dict): map<string, string>
    decreases |d|
  {
    if |d| == 0 then map[] else ToMap(d[..|d| - 1])[d[|d| - 1].0 := d[|d| - 1].1]
  }

  lemma {:induction false} ToMapKeys(d: Dict)
    ensures forall k :: k in ToMap(d) <==> HasKey(d, k)
    decreases |d|
  {
    if |d| > 0 {
      var init := d[..|d| - 1];
      ToMapKeys(init);
      forall k ensures HasKey(d, k) <==> HasKey(init, k) || k == d[|d| - 1].0 {
        if HasKey(d, k) {
          var i :| 0 <= i < |d| && d[i].0 == k;
          if i < |d| - 1 { assert init[i] == d[i]; }
        }
        if HasKey(init, k) {
          var i :| 0 <= i < |init| && init[i].0 == k;
          assert d[i] == init[i];
        }
      }
    }
  }

  /** A key maps to the value of its last pair. */
  lemma {:induction false} ToMapLast(d: Dict, i: nat)
    requires i < |d| && forall j :: i < j < |d| ==> d[j].0 != d[i].0
    ensures d[i].0 in ToMap(d) && ToMap(d)[d[i].0] == d[i].1
    decreases |d|
  {
    if i < |d| - 1 {
      var init := d[..|d| - 1];
      assert init[i] == d[i];
      forall j | i < j < |init| ensures init[j].0 != init[i].0 {
        assert init[j] == d[j];
      }
      ToMapLast(init, i);
    }
  }

  /** With distinct keys, every pair is in the mapping. */
  lemma ToMapPairs(d: Dict)
    requires UniqueKeys(d)
    ensures forall k :: k in ToMap(d) <==> HasKey(d, k)
    ensures forall i :: 0 <= i < |d| ==> d[i].0 in ToMap(d) && ToMap(d)[d[i].0] == d[i].1
  {
    ToMapKeys(d);
    forall i | 0 <= i < |d| ensures d[i].0 in ToMap(d) && ToMap(d)[d[i].0] == d[i].1 {
      ToMapLast(d, i);
    }
  }

  /** `d[k] = v`: an existing key keeps its place and takes the new value; a new key goes
      last. */
  function Put(d: Dict, k: string, v: string): (r: Dict)
    ensures HasKey(d, k) ==> |r| == |d|
    ensures !HasKey(d, k) ==> |r| == |d| + 1 && r[|d|] == (k, v)
    ensures forall i :: 0 <= i < |d| ==> r[i] == (if d[i].0 == k then (k, v) else d[i])
  {
    if HasKey(d, k) then seq(|d|, i requires 0 <= i < |d| => if d[i].0 == k then (k, v) else d[i])
    else d + [(k, v)]
  }

  lemma PutUnique(d: Dict, k: string, v: string)
    requires UniqueKeys(d)
    ensures UniqueKeys(Put(d, k, v))
  {
    var r := Put(d, k, v);
    forall i, j | 0 <= i < j < |r| ensures r[i].0 != r[j].0 {
      if j == |d| {
        assert !HasKey(d, k);
        assert d[i].0 != k;
      }
    }
  }

  lemma PutKeys(d: Dict, k: string, v: string)
    ensures forall x :: HasKey(Put(d, k, v), x) <==> HasKey(d, x) || x == k
  {
    var r := Put(d, k, v);
    forall x ensures HasKey(r, x) <==> HasKey(d, x) || x == k {
      if HasKey(r, x) && x != k {
        var i :| 0 <= i < |r| && r[i].0 == x;
        assert i < |d| && d[i].0 == x;
      }
      if HasKey(d, x) {
        var i :| 0 <= i < |d| && d[i].0 == x;
        assert r[i].0 == x;
      }
      if x == k && HasKey(d, k) {
        var i :| 0 <= i < |d| && d[i].0 == k;
        assert r[i].0 == k;
      }
    }
  }

  /** Putting keeps keys distinct and updates the mapping at `k` only. */
  lemma PutMap(d: Dict, k: string, v: string)
    requires UniqueKeys(d)
    ensures UniqueKeys(Put(d, k, v)) && ToMap(Put(d, k, v)) == ToMap(d)[k := v]
  {
    PutUnique(d, k, v);
    if HasKey(d, k) {
      PutMapExisting(d, k, v);
    } else {
      assert Put(d, k, v)[..|d|] == d;
    }
  }

  lemma {:induction false} PutMapExisting(d: Dict, k: string, v: string)
    requires UniqueKeys(d) && HasKey(d, k)
    ensures ToMap(Put(d, k, v)) == ToMap(d)[k := v]
    decreases |d|
  {
    var r := Put(d, k, v);
    var init, last := d[..|d| - 1], d[|d| - 1];
    if last.0 == k {
      forall i | 0 <= i < |init| ensures r[i] == init[i] {
        assert d[i].0 != d[|d| - 1].0;
      }
      assert r[..|r| - 1] == init;
      assert r[|r| - 1] == (k, v);
      assert ToMap(r) == ToMap(init)[k := v];
      assert ToMap(d) == ToMap(init)[k := last.1];
    } else {
      assert HasKey(init, k) by {
        var i :| 0 <= i < |d| && d[i].0 == k;
        assert init[i] == d[i];
      }
      assert r[..|r| - 1] == Put(init, k, v);
      assert r[|r| - 1] == last;
      assert UniqueKeys(init) by {
        forall i, j | 0 <= i < j < |init| ensures init[i].0 != init[j].0 {
          assert init[i] == d[i] && init[j] == d[j];
        }
      }
      PutMapExisting(init, k, v);
      assert ToMap(r) == ToMap(Put(init, k, v))[last.0 := last.1];
      MapSwap(ToMap(init), k, v, last.0, last.1);
    }
  }

  lemma MapSwap(m: map<string, string>, a: string, x: string, b: string, y: string)
    requires a != b
    ensures m[a := x][b := y] == m[b := y][a := x]
  {
  }

  /** `result = {}; for k, v in pairs: result[k] = v`. */
  function FromPairs(ps: Dict): (r: Dict)
    ensures forall k :: HasKey(r, k) <==> HasKey(ps, k)
    decreases |ps|
  {
    if |ps| == 0 then []
    else
      var init := FromPairs(ps[..|ps| - 1]);
      var last := ps[|ps| - 1];
      assert forall k :: HasKey(ps, k) <==> HasKey(ps[..|ps| - 1], k) || k == last.0 by {
        forall k | HasKey(ps, k) ensures HasKey(ps[..|ps| - 1], k) || k == last.0 {
          var i :| 0 <= i < |ps| && ps[i].0 == k;
          if i < |ps| - 1 { assert ps[..|ps| - 1][i] == ps[i]; }
        }
        forall k | HasKey(ps[..|ps| - 1], k) ensures HasKey(ps, k) {
          var i :| 0 <= i < |ps| - 1 && ps[..|ps| - 1][i].0 == k;
          assert ps[i] == ps[..|ps| - 1][i];
        }
      }
      Put(init, last.0, last.1)
  }

  /** Building a dictionary pair by pair gives distinct keys and the mapping of the pairs,
      each key with the value of its last pair. */
  lemma {:induction false} FromPairsMap(ps: Dict)
    ensures UniqueKeys(FromPairs(ps)) && ToMap(FromPairs(ps)) == ToMap(ps)
    decreases |ps|
  {
    if |ps| > 0 {
      var init := ps[..|ps| - 1];
      FromPairsMap(init);
      PutMap(FromPairs(init), ps[|ps| - 1].0, ps[|ps| - 1].1);
    }
  }

  /** Python's `a | b`: a copy of `a` updated with the pairs of `b`, in order. */
  function Union(a: Dict, b: Dict): (r: Dict)
    ensures |r| >= |a| && forall i :: 0 <= i < |a| ==> r[i].0 == a[i].0
    decreases |b|
  {
    if |b| == 0 then a
    else
      var init := Union(a, b[..|b| - 1]);
      Put(init, b[|b| - 1].0, b[|b| - 1].1)
  }

  /** A key of `b` takes its value from `b`, any other key keeps its value from `a`. */
  lemma {:induction false} UnionMap(a: Dict, b: Dict)
    requires UniqueKeys(a)
    ensures UniqueKeys(Union(a, b)) && ToMap(Union(a, b)) == ToMap(a) + ToMap(b)
    decreases |b|
  {
    if |b| > 0 {
      var init := b[..|b| - 1];
      var last := b[|b| - 1];
      var u := Union(a, init);
      assert Union(a, b) == Put(u, last.0, last.1);
      assert ToMap(b) == ToMap(init)[last.0 := last.1];
      UnionMap(a, init);
      PutMap(u, last.0, last.1);
      UpdateUnion(ToMap(a), ToMap(init), last.0, last.1);
    }
  }

  lemma UpdateUnion(m: map<string, string>, n: map<string, string>, k: string, v: string)
    ensures (m + n)[k := v] == m + n[k := v]
  {
  }

  lemma UpdateLeft(m: map<string, string>, n: map<string, string>, k: string, v: string)
    requires k !in n
    ensures (m + n)[k := v] == m[k := v] + n
  {
  }

  /** Strictly increasing keys. */
  predicate Sorted(d: Dict) {
    forall i, j :: 0 <= i < j < |d| ==> Less(d[i].0, d[j].0)
  }

  lemma SortedUnique(d: Dict)
    requires Sorted(d)
    ensures UniqueKeys(d)
  {
    forall i, j | 0 <= i < j < |d| ensures d[i].0 != d[j].0 {
      if d[i].0 == d[j].0 {
        LessIrreflexive(d[i].0);
      }
    }
  }

  /** The same pairs, in whatever order. */
  ghost predicate SamePairs(a: Dict, b: Dict) {
    forall p :: p in a <==> p in b
  }

  /** Inserting a pair with a new key into a sorted dictionary, before the first larger key. */
  function Insert(d: Dict, p: (string, string)): (r: Dict)
    requires Sorted(d) && !HasKey(d, p.0)
    ensures Sorted(r) && |r| == |d| + 1
    ensures forall x :: x in r <==> x in d || x == p
    decreases |d|
  {
    if |d| == 0 || Less(p.0, d[0].0) then
      InsertFront(d, p);
      [p] + d
    else
      assert d[0].0 != p.0;
      LessTotal(p.0, d[0].0);
      assert !HasKey(d[1..], p.0) by {
        forall i | 0 <= i < |d[1..]| ensures d[1..][i].0 != p.0 {
          assert d[1..][i] == d[i + 1];
        }
      }
      var rest := Insert(d[1..], p);
      InsertAfter(d, p, rest);
      assert d == [d[0]] + d[1..];
      [d[0]] + rest
  }

  lemma InsertFront(d: Dict, p: (string, string))
    requires Sorted(d) && (|d| == 0 || Less(p.0, d[0].0))
    ensures Sorted([p] + d)
  {
    var r := [p] + d;
    forall i, j | 0 <= i < j < |r| ensures Less(r[i].0, r[j].0) {
      if i == 0 && j > 1 {
        LessTransitive(p.0, d[0].0, d[j - 1].0);
      }
    }
  }

  lemma InsertAfter(d: Dict, p: (string, string), rest: Dict)
    requires |d| > 0 && Sorted(d) && Less(d[0].0, p.0)
    requires Sorted(rest) && forall x :: x in rest <==> x in d[1..] || x == p
    ensures Sorted([d[0]] + rest)
  {
    forall j | 0 <= j < |rest| ensures Less(d[0].0, rest[j].0) {
      assert rest[j] in rest;
      if rest[j] != p {
        var k :| 0 <= k < |d[1..]| && d[1..][k] == rest[j];
        assert d[k + 1] == rest[j];
      }
    }
  }

  /** `dict(sorted(d.items()))`: the same pairs, ordered by key. */
  function SortByKey(d: Dict): (r: Dict)
    requires UniqueKeys(d)
    ensures Sorted(r) && |r| == |d| && SamePairs(r, d)
    decreases |d|
  {
    if |d| == 0 then []
    else
      var init := d[..|d| - 1];
      var last := d[|d| - 1];
      var s := SortByKey(init);
      NewKeyNotIn(d, s);
      assert d == init + [last];
      Insert(s, last)
  }

  lemma NewKeyNotIn(d: Dict, s: Dict)
    requires |d| > 0 && UniqueKeys(d) && SamePairs(s, d[..|d| - 1])
    ensures !HasKey(s, d[|d| - 1].0)
  {
    forall i | 0 <= i < |s| ensures s[i].0 != d[|d| - 1].0 {
      assert s[i] in d[..|d| - 1];
      var k :| 0 <= k < |d| - 1 && d[..|d| - 1][k] == s[i];
      assert d[k] == s[i];
    }
  }

  lemma SameMapSamePairs(a: Dict, b: Dict)
    requires UniqueKeys(a) && UniqueKeys(b) && ToMap(a) == ToMap(b)
    ensures SamePairs(a, b)
  {
    ToMapPairs(a);
    ToMapPairs(b);
    forall p | p in a ensures p in b {
      var i :| 0 <= i < |a| && a[i] == p;
      var j :| 0 <= j < |b| && b[j].0 == p.0;
      assert b[j] == p;
    }
    forall p | p in b ensures p in a {
      var i :| 0 <= i < |b| && b[i] == p;
      var j :| 0 <= j < |a| && a[j].0 == p.0;
      assert a[j] == p;
    }
  }

  lemma SamePairsSameMap(a: Dict, b: Dict)
    requires UniqueKeys(a) && UniqueKeys(b) && SamePairs(a, b)
    ensures ToMap(a) == ToMap(b)
  {
    ToMapPairs(a);
    ToMapPairs(b);
    forall k ensures k in ToMap(a) <==> k in ToMap(b) {
      if HasKey(a, k) {
        var i :| 0 <= i < |a| && a[i].0 == k;
        assert a[i] in b;
      }
      if HasKey(b, k) {
        var i :| 0 <= i < |b| && b[i].0 == k;
        assert b[i] in a;
      }
    }
    forall k | k in ToMap(a) ensures ToMap(a)[k] == ToMap(b)[k] {
      var i :| 0 <= i < |a| && a[i].0 == k;
      assert a[i] in b;
    }
  }

  /** Over distinct keys, equal mappings mean the same pairs. */
  lemma MapSamePairs(a: Dict, b: Dict)
    requires UniqueKeys(a) && UniqueKeys(b)
    ensures ToMap(a) == ToMap(b) <==> SamePairs(a, b)
  {
    if ToMap(a) == ToMap(b) {
      SameMapSamePairs(a, b);
    }
    if SamePairs(a, b) {
      SamePairsSameMap(a, b);
    }
  }

  /** Sorting forgets the insertion order and nothing else: the sorted dictionary holds the
      same mapping. */
  lemma SortByKeyMap(d: Dict)
    requires UniqueKeys(d)
    ensures UniqueKeys(SortByKey(d)) && ToMap(SortByKey(d)) == ToMap(d)
  {
    SortedUnique(SortByKey(d));
    MapSamePairs(SortByKey(d), d);
  }

  /** A sorted dictionary is determined by its pairs: the only order a key-sorted result can
      show is the sorted one. */
  lemma {:induction false} SortedDetermined(a: Dict, b: Dict)
    requires Sorted(a) && Sorted(b) && SamePairs(a, b)
    ensures a == b
    decreases |a|
  {
    assert |b| > 0 ==> b[0] in a;
    if |a| > 0 {
      SortedSameHead(a, b);
      SortedSameTail(a, b);
      SortedDetermined(a[1..], b[1..]);
      assert a == [a[0]] + a[1..] && b == [b[0]] + b[1..];
    }
  }

  /** Sorted dictionaries with the same pairs start with the same pair. */
  lemma SortedSameHead(a: Dict, b: Dict)
    requires Sorted(a) && Sorted(b) && SamePairs(a, b) && |a| > 0
    ensures |b| > 0 && a[0] == b[0]
  {
    assert a[0] in b;
    var i :| 0 <= i < |b| && b[i] == a[0];
    assert b[0] in a;
    var j :| 0 <= j < |a| && a[j] == b[0];
    if i > 0 && j > 0 {
      LessAsymmetric(b[0].0, a[0].0);
    }
  }

  /** After the common first pair, the rest are sorted and hold the same pairs. */
  lemma SortedSameTail(a: Dict, b: Dict)
    requires Sorted(a) && Sorted(b) && SamePairs(a, b) && |a| > 0 && |b| > 0 && a[0] == b[0]
    ensures Sorted(a[1..]) && Sorted(b[1..]) && SamePairs(a[1..], b[1..])
  {
    SortedUnique(a);
    SortedUnique(b);
    var a', b' := a[1..], b[1..];
    forall x ensures x in a' <==> x in b' {
      if x in a' {
        var k :| 0 <= k < |a'| && a'[k] == x;
        assert a[k + 1] == x && x in b;
        var m :| 0 <= m < |b| && b[m] == x;
        assert m != 0;
        assert b'[m - 1] == x;
      }
      if x in b' {
        var k :| 0 <= k < |b'| && b'[k] == x;
        assert b[k + 1] == x && x in a;
        var m :| 0 <= m < |a| && a[m] == x;
        assert m != 0;
        assert a'[m - 1] == x;
      }
    }
  }

  /** Assigning the pairs of `a` and then those of `b`. */
  lemma {:induction false} ToMapAppend(a: Dict, b: Dict)
    ensures ToMap(a + b) == ToMap(a) + ToMap(b)
    decreases |b|
  {
    if |b| > 0 {
      var init, last := b[..|b| - 1], b[|b| - 1];
      assert (a + b)[..|a + b| - 1] == a + init;
      ToMapAppend(a, init);
      UpdateUnion(ToMap(a), ToMap(init), last.0, last.1);
    } else {
      assert a + b == a;
    }
  }

  /** `[v for v in d.values()]`. */
  function Values(d: Dict): (vs: seq<string>)
    ensures |vs| == |d| && forall i :: 0 <= i < |d| ==> vs[i] == d[i].1
  {
    seq(|d|, i requires 0 <= i < |d| => d[i].1)
  }

  /** The pairs, in order, whose key is (`inside`) or is not (`!inside`) among `keys`. */
  function Restrict(d: Dict, keys: seq<string>, inside: bool): (r: Dict)
    ensures forall p :: p in r <==> p in d && (p.0 in keys <==> inside)
    decreases |d|
  {
    if |d| == 0 then []
    else
      var init := Restrict(d[..|d| - 1], keys, inside);
      var last := d[|d| - 1];
      assert forall p :: p in d <==> p in d[..|d| - 1] || p == last by {
        assert d == d[..|d| - 1] + [last];
      }
      if (last.0 in keys) == inside then init + [last] else init
  }

  /** The last pair of a dictionary is kept or dropped by itself. */
  lemma RestrictLast(d: Dict, keys: seq<string>, inside: bool)
    requires |d| > 0
    ensures var init, last := d[..|d| - 1], d[|d| - 1];
      Restrict(d, keys, inside) ==
        if (last.0 in keys) == inside then Restrict(init, keys, inside) + [last] else Restrict(init, keys, inside)
  {
  }

  /** The values of a dictionary extended by one pair end with that pair's value. */
  lemma ValuesSnoc(d: Dict, p: (string, string))
    ensures Values(d + [p]) == Values(d) + [p.1]
  {
  }

  /** The values of a non-empty dictionary end with its last pair's value. */
  lemma ValuesLast(d: Dict)
    requires |d| > 0
    ensures Values(d) == Values(d[..|d| - 1]) + [d[|d| - 1].1]
  {
  }

  /** Splitting a dictionary by key membership loses no pair and duplicates none. */
  lemma {:induction false} RestrictMultiset(d: Dict, keys: seq<string>)
    ensures multiset(Restrict(d, keys, true)) + multiset(Restrict(d, keys, false)) == multiset(d)
    decreases |d|
  {
    if |d| > 0 {
      RestrictMultiset(d[..|d| - 1], keys);
      assert d == d[..|d| - 1] + [d[|d| - 1]];
    }
  }

  /** The two halves of the split, assigned one after the other, give the whole mapping: they
      share no key, so their order does not matter. */
  lemma {:induction false} RestrictMap(d: Dict, keys: seq<string>)
    ensures ToMap(d) == ToMap(Restrict(d, keys, true)) + ToMap(Restrict(d, keys, false))
    decreases |d|
  {
    if |d| > 0 {
      var init, last := d[..|d| - 1], d[|d| - 1];
      RestrictMap(init, keys);
      var yes, no := Restrict(init, keys, true), Restrict(init, keys, false);
      if last.0 in keys {
        assert Restrict(d, keys, true) == yes + [last];
        assert (yes + [last])[..|yes|] == yes;
        forall i | 0 <= i < |no| ensures no[i].0 != last.0 {
          assert no[i] in no;
        }
        ToMapKeys(no);
        UpdateLeft(ToMap(yes), ToMap(no), last.0, last.1);
      } else {
        assert Restrict(d, keys, false) == no + [last];
        assert (no + [last])[..|no|] == no;
        UpdateUnion(ToMap(yes), ToMap(no), last.0, last.1);
      }
    }
  }
}

=== FILE: papers.dfy ===
/** The note scanner of `paper_db_creation.py`: which files are read, and the table entry
    built from a note's front matter. The file read, `yaml.safe_load` and the embedding call
    are parameters. */
module PaperFiles {
  import opened Wrappers
  import opened Values
  import opened Markdown

  /** `t not in args.metatags`: only a string can equal one of the meta tags. */
  predicate IsMeta(t: Value, metatags: seq<string>) {
    t.VStr? && t.s in metatags
  }

  /** The tags that are not meta tags, in their original order. */
  function KeepTags(ts: seq<Value>, metatags: seq<string>): (r: seq<Value>)
    ensures |r| <= |ts|
    ensures forall t :: t in r ==> t in ts && !IsMeta(t, metatags)
    ensures forall t :: t in ts && !IsMeta(t, metatags) ==> t in r
    decreases |ts|
  {
    if |ts| == 0 then []
    else
      var rest := KeepTags(ts[1..], metatags);
      assert forall t :: t in ts[1..] ==> t in ts;
      if IsMeta(ts[0], metatags) then rest else [ts[0]] + rest
  }

  /** Filtering distributes over concatenation, so the kept tags keep their relative order. */
  lemma {:induction false} KeepTagsAppend(a: seq<Value>, b: seq<Value>, metatags: seq<string>)
    ensures KeepTags(a + b, metatags) == KeepTags(a, metatags) + KeepTags(b, metatags)
    decreases |a|
  {
    if |a| > 0 {
      assert (a + b)[1..] == a[1..] + b;
      KeepTagsAppend(a[1..], b, metatags);
    } else {
      assert a + b == b;
    }
  }

  /** Filtering a second time changes nothing. */
  lemma {:induction false} KeepTagsIdempotent(ts: seq<Value>, metatags: seq<string>)
    ensures KeepTags(KeepTags(ts, metatags), metatags) == KeepTags(ts, metatags)
    decreases |ts|
  {
    if |ts| > 0 {
      KeepTagsIdempotent(ts[1..], metatags);
      if !IsMeta(ts[0], metatags) {
        var r := [ts[0]] + KeepTags(ts[1..], metatags);
        assert r[1..] == KeepTags(ts[1..], metatags);
      }
    }
  }

  /** The entry `process_file` builds. */
  function Entry(m: Record, tags: seq<Value>, et: Value, eb: Value): Record
    requires "key" in m && "title" in m && "category" in m && "year" in m
  {
    map["key" := m["key"], "title" := m["title"], "category" := m["category"], "year" := m["year"],
        "tags" := VList(tags), "embedding_title" := et, "embedding_body" := eb]
  }

  /** `process_file` after the `try`: `extracted` is what reading the file and
      `extract_metadata` gave, an error standing for any exception they raised (caught: the
      result is `None`). A note without a truthy key gives `None`; metadata that is not a
      mapping, or lacks title, category, year or tags, raises. `embed` stands for the
      embedding of the title and the body. */
  function ProcessMetadata(extracted: Result<(Value, string)>, metatags: seq<string>,
                           embed: (Value, string) -> (Value, Value)): (r: Result<Option<Record>>)
    ensures extracted.Err? ==> r == Ok(None)
    ensures extracted.Ok? && !extracted.value.0.VDict? ==> r == Err(AttributeError("get"))
    ensures extracted.Ok? && extracted.value.0.VDict? && !Truthy(Get(extracted.value.0.fields, "key")) ==>
      r == Ok(None)
    ensures r.Ok? && r.value.Some? ==>
      var (m, body) := extracted.value;
      var e := r.value.value;
      m.VDict? && {"key", "title", "category", "year", "tags"} <= m.fields.Keys && Truthy(m.fields["key"])
      && Elements(m.fields["tags"]).Ok?
      && e.Keys == {"key", "title", "category", "year", "tags", "embedding_title", "embedding_body"}
      && (forall k :: k in {"key", "title", "category", "year"} ==> e[k] == m.fields[k])
      && e["tags"] == VList(KeepTags(Elements(m.fields["tags"]).value, metatags))
      && (e["embedding_title"], e["embedding_body"]) == embed(m.fields["title"], body)
  {
    match extracted
    case Err(_) => Ok(None)
    case Ok((metadata, body)) =>
      if !metadata.VDict? then Err(AttributeError("get"))
      else
        var m := metadata.fields;
        if !Truthy(Get(m, "key")) then Ok(None)
        else
          var title :- Index(m, "title");
          var _ :- Index(m, "category");
          var _ :- Index(m, "year");
          var tagValue :- Index(m, "tags");
          var tags :- Elements(tagValue);
          var (et, eb) := embed(title, body);
          Ok(Some(Entry(m, KeepTags(tags, metatags), et, eb)))
  }

  /** A note with a truthy key and all four fields present yields an entry exactly when its
      tags can be iterated. */
  lemma ProcessMetadataComplete(m: Record, body: string, metatags: seq<string>,
                                embed: (Value, string) -> (Value, Value))
    requires Truthy(Get(m, "key")) && "title" in m && "category" in m && "year" in m && "tags" in m
    ensures var r := ProcessMetadata(Ok((VDict(m), body)), metatags, embed);
      r.Ok? <==> m["tags"].VList? || m["tags"].VStr?
    ensures var r := ProcessMetadata(Ok((VDict(m), body)), metatags, embed);
      r.Ok? ==> r.value.Some?
  { }

  /** `process_file(file)`: `read` stands for reading the file's lines and `load` for
      `yaml.safe_load`; `extract_metadata` is the front matter split without author
      normalisation. */
  function ProcessFile(read: Result<seq<string>>, load: string -> Result<Value>, metatags: seq<string>,
                       embed: (Value, string) -> (Value, Value)): (r: Result<Option<Record>>)
    ensures read.Err? ==> r == Ok(None)
    ensures read.Ok? && ExtractYamlRaw(read.value, load).Err? ==> r == Ok(None)
    ensures r.Ok? && r.value.Some? ==>
      read.Ok? && ExtractYamlRaw(read.value, load).Ok?
      && r.value.value.Keys == {"key", "title", "category", "year", "tags", "embedding_title", "embedding_body"}
  {
    match read
    case Err(_) => Ok(None)
    case Ok(lines) => ProcessMetadata(ExtractYamlRaw(lines, load), metatags, embed)
  }

  /** `".md" in file[-3:]`: the last three characters (the whole name when shorter) hold
      ".md", which only a name ending in ".md" does. */
  predicate IsNote(file: string) {
    |file| >= 3 && file[|file| - 3..] == ".md"
  }

  /** What one file adds to `process_files`' list: its entry when it is a note whose
      entry is truthy (neither `None` nor an empty dict), nothing otherwise. */
  function NoteEntry(file: string, process: string -> Result<Option<Record>>): seq<Record> {
    if IsNote(file) && process(file).Ok? && process(file).value.Some? && process(file).value.value != map[]
    then [process(file).value.value] else []
  }

  /** What each file adds, file by file. */
  function NoteEntries(files: seq<string>, process: string -> Result<Option<Record>>): (r: seq<seq<Record>>)
    ensures |r| == |files| && forall i :: 0 <= i < |files| ==> r[i] == NoteEntry(files[i], process)
  {
    seq(|files|, i requires 0 <= i < |files| => NoteEntry(files[i], process))
  }

  lemma NoteEntriesAppend(a: seq<string>, b: seq<string>, process: string -> Result<Option<Record>>)
    ensures NoteEntries(a + b, process) == NoteEntries(a, process) + NoteEntries(b, process)
  {
    var ab := a + b;
    assert forall i :: 0 <= i < |ab| ==> ab[i] == if i < |a| then a[i] else b[i - |a|];
  }

  /** `process_files(files)`: each note in order, through `process` (standing for
      `process_file`); falsy results are skipped and the first exception ends the scan. */
  function ProcessFiles(files: seq<string>, process: string -> Result<Option<Record>>)
    : (r: Result<seq<Record>>)
    ensures r.Ok? ==> |r.value| <= |files|
    ensures r.Ok? <==> forall i :: 0 <= i < |files| && IsNote(files[i]) ==> process(files[i]).Ok?
    ensures r.Ok? ==> forall e :: e in r.value ==>
      exists i :: 0 <= i < |files| && IsNote(files[i]) && process(files[i]) == Ok(Some(e))
    ensures r.Ok? ==> r.value == Flatten(NoteEntries(files, process))
    decreases |files|
  {
    if |files| == 0 then Ok([])
    else
      var rest := files[1..];
      assert forall i :: 0 <= i < |rest| ==> rest[i] == files[i + 1];
      assert NoteEntries(files, process)[1..] == NoteEntries(rest, process);
      if !IsNote(files[0]) then ProcessFiles(rest, process)
      else
        var entry :- process(files[0]);
        var tail :- ProcessFiles(rest, process);
        match entry
        case None => Ok(tail)
        case Some(e) => if e == map[] then Ok(tail) else Ok([e] + tail)
  }

  /** Every truthy entry of a note is kept. */
  lemma ProcessFilesKeeps(files: seq<string>, process: string -> Result<Option<Record>>, i: nat)
    requires ProcessFiles(files, process).Ok?
    requires i < |files| && IsNote(files[i]) && process(files[i]).Ok? && process(files[i]).value.Some?
    requires process(files[i]).value.value != map[]
    ensures process(files[i]).value.value in ProcessFiles(files, process).value
  {
    var parts := NoteEntries(files, process);
    assert parts[i] == [process(files[i]).value.value];
    FlattenHas(parts, i, process(files[i]).value.value);
  }

  /** The files split anywhere: the entries of the whole are those of each part, in order. */
  lemma ProcessFilesAppend(a: seq<string>, b: seq<string>, process: string -> Result<Option<Record>>)
    requires ProcessFiles(a, process).Ok? && ProcessFiles(b, process).Ok?
    ensures ProcessFiles(a + b, process) == Ok(ProcessFiles(a, process).value + ProcessFiles(b, process).value)
  {
    NotesOk(a, b, process);
    NoteEntriesAppend(a, b, process);
    FlattenAppend(NoteEntries(a, process), NoteEntries(b, process));
  }

  lemma NotesOk(a: seq<string>, b: seq<string>, process: string -> Result<Option<Record>>)
    requires forall i :: 0 <= i < |a| && IsNote(a[i]) ==> process(a[i]).Ok?
    requires forall i :: 0 <= i < |b| && IsNote(b[i]) ==> process(b[i]).Ok?
    ensures forall i :: 0 <= i < |a + b| && IsNote((a + b)[i]) ==> process((a + b)[i]).Ok?
  {
    var ab := a + b;
    forall i | 0 <= i < |ab| && IsNote(ab[i]) ensures process(ab[i]).Ok? {
      if i < |a| { assert ab[i] == a[i]; } else { assert ab[i] == b[i - |a|]; }
    }
  }
}

=== FILE: providers.dfy ===
/** The three bibliographic services (`ArxivQuery`, `CrossrefQuery`, `AdsQuery`): the query
    each builds, how a fetched record is normalised, and the gate that asks the user before a
    record with a different title is used. The network calls and the user's answer are the
    fields of `Services`; a failed or empty fetch, whatever its cause, is `None`/`Failed`. */
module Providers {
  import opened Wrappers
  import opened Values
  import opened Strings
  import opened Text
  import opened Warn

  /** The fields of an arXiv search result that `_process` reads. */
  datatype ArxivEntry = ArxivEntry(title: string, authors: seq<string>, entryId: string, doi: Value, summary: string)

  /** An ADS reply: the request failed (HTTP error, bad JSON), the maintenance page came
      back, or the `response.docs` list. */
  datatype Reply = Failed | Maintenance | Docs(docs: seq<Record>)

  /** The outside world the services talk to: the arXiv search, the Crossref search and DOI
      lookup, the ADS search, and the user's answer to a prompt. */
  datatype Services = Services(
    arxiv: string -> Option<ArxivEntry>,
    crossrefSearch: Record -> Option<Record>,
    crossrefLookup: Value -> Option<Record>,
    ads: string -> Reply,
    answer: string -> string)

  /** The tail of every `_process`: without a requested title the record is used; with one,
      it is used when the titles are the `same`, and otherwise only when the user accepts it.
      Comparing a title that is not text raises. */
  function Accept(service: string, title: Option<Value>, result: Record, answer: string -> string)
    : (r: Result<Option<Record>>)
    requires "title" in result
    ensures title.None? ==> r == Ok(Some(result))
    ensures title.Some? ==> (r.Ok? <==> SameValue(title.value, result["title"]).Ok?)
    ensures title.Some? && r.Ok? ==>
      (r.value.Some? <==>
        (SameValue(title.value, result["title"]).value
         || answer(ArticleWarningMessage(service, title.value, result["title"])) == "y"))
    ensures r.Ok? && r.value.Some? ==> r.value.value == result
  {
    match title
    case None => Ok(Some(result))
    case Some(t) =>
      var same :- SameValue(t, result["title"]);
      if same || Confirm(service, t, result["title"], answer) then Ok(Some(result)) else Ok(None)
  }

  /** A record whose title is the `same` as the requested one is used without asking. */
  lemma AcceptSameTitle(service: string, title: string, result: Record, answer: string -> string)
    requires "title" in result && result["title"].VStr? && Same(title, result["title"].s)
    ensures Accept(service, Some(VStr(title)), result, answer) == Ok(Some(result))
  { }

  // arXiv

  /** `ArxivQuery._process(data, title)`: title, first author, the identifier after the last
      '/' of the entry id, doi and summary. A result without authors raises `IndexError`. */
  function ArxivProcess(data: Option<ArxivEntry>, title: Option<Value>, answer: string -> string)
    : (r: Result<Option<Record>>)
    ensures data.None? ==> r == Ok(None)
    ensures data.Some? && |data.value.authors| == 0 ==> r == Err(IndexError)
    ensures r.Ok? && r.value.Some? ==> var d := data.value; var e := r.value.value;
      e.Keys == {"title", "first_author", "arxiv_id", "doi", "summary"}
      && e["title"] == VStr(d.title) && e["first_author"] == VStr(d.authors[0])
      && e["arxiv_id"] == VStr(AfterLast(d.entryId, '/'))
      && e["doi"] == d.doi && e["summary"] == VStr(d.summary)
  {
    match data
    case None => Ok(None)
    case Some(d) =>
      if |d.authors| == 0 then Err(IndexError)
      else
        var result := map["title" := VStr(d.title), "first_author" := VStr(d.authors[0]),
                          "arxiv_id" := VStr(AfterLast(d.entryId, '/')), "doi" := d.doi,
                          "summary" := VStr(d.summary)];
        Accept("arXiv", title, result, answer)
  }

  /** The arXiv search string for a cleaned title: "ti:" and the title, then " AND au:" and
      the author when the author is truthy. */
  function ArxivQueryString(title: string, author: Value): (q: string)
    ensures !Truthy(author) ==> q == "ti:" + title
    ensures Truthy(author) ==> q == "ti:" + title + " AND au:" + Format(author)
  {
    var query := "ti:" + title;
    if Truthy(author) then query + " AND au:" + Format(author) else query
  }

  /** A cleaned title holds no upper-case 'A', so the search string gives back the title and
      whether an author was added: the text after "ti:" up to the first 'A' is the title,
      followed by a space exactly when there is an author. */
  lemma ArxivQueryTitle(title: string, author: Value)
    requires IsCleanForm(title)
    ensures var q := ArxivQueryString(title, author);
      |q| >= 3 && q[..3] == "ti:" && BeforeFirst(q[3..], 'A') == title + (if Truthy(author) then " " else "")
  {
    forall i | 0 <= i < |title| ensures title[i] != 'A' {
      assert IsLowerAlnum(title[i]) || title[i] == ' ';
    }
    QueryParts(title, Truthy(author), Format(author));
  }

  /** The search string split back into its parts, for any title without an 'A'. */
  lemma QueryParts(title: string, withAuthor: bool, au: string)
    requires forall i :: 0 <= i < |title| ==> title[i] != 'A'
    ensures var q := if withAuthor then "ti:" + title + " AND au:" + au else "ti:" + title;
      |q| >= 3 && q[..3] == "ti:" && BeforeFirst(q[3..], 'A') == title + (if withAuthor then " " else "")
  {
    var q := if withAuthor then "ti:" + title + " AND au:" + au else "ti:" + title;
    var t := title + (if withAuthor then " " else "");
    var tail := if withAuthor then "AND au:" + au else "";
    var s := t + tail;
    assert q == "ti:" + s by {
      if withAuthor {
        AppendAssoc("ti:" + title, " ", "AND au:" + au);
      }
    }
    forall i | 0 <= i < |t| ensures t[i] != 'A' {
      if i < |title| {
        assert t[i] == title[i];
      }
    }
    assert s[..|t|] == t;
    assert withAuthor ==> s[|t|] == tail[0] == 'A';
    PrefixBeforeMarker(s, t, 'A');
    assert q[3..] == s;
  }

  /** When `t` opens `s` without containing `c`, and `c` follows it (or `s` ends), the text
      before the first `c` is `t`. */
  lemma PrefixBeforeMarker(s: string, t: string, c: char)
    requires |t| <= |s| && s[..|t|] == t && forall i :: 0 <= i < |t| ==> t[i] != c
    requires |t| == |s| || s[|t|] == c
    ensures BeforeFirst(s, c) == t
  {
    BeforeFirstSpec(s, c);
  }

  /** `ArxivQuery.with_title(title, author)`: the title is cleaned (a non-text title raises),
      searched with the author, and the first hit is processed against the cleaned title. */
  function ArxivWithTitle(s: Services, title: Value, author: Value): (r: Result<Option<Record>>)
    ensures CleanValue(title).Err? ==> r.Err?
    ensures CleanValue(title).Ok? ==> var t := CleanValue(title).value;
      r == ArxivProcess(s.arxiv(ArxivQueryString(t, author)), Some(VStr(t)), s.answer)
  {
    var t :- CleanValue(title);
    ArxivProcess(s.arxiv(ArxivQueryString(t, author)), Some(VStr(t)), s.answer)
  }

  // Crossref

  /** Python's `v[0]`: the first element of a list or character of a string; an empty one
      raises `IndexError`, a mapping `KeyError` (its keys are strings), anything else
      `TypeError`. */
  function First(v: Value): (r: Result<Value>)
    ensures r.Ok? <==> (v.VList? && |v.items| > 0) || (v.VStr? && |v.s| > 0)
    ensures v.VList? && |v.items| > 0 ==> r == Ok(v.items[0])
  {
    match v
    case VList(xs) => if |xs| == 0 then Err(IndexError) else Ok(xs[0])
    case VStr(s) => if |s| == 0 then Err(IndexError) else Ok(VStr([s[0]]))
    case VDict(_) => Err(KeyError("0"))
    case _ => Err(TypeError("object is not subscriptable"))
  }

  /** `data.get("issued").get("date-parts")[0][0]`. */
  function IssuedYear(data: Record): (r: Result<Value>)
    ensures r.Ok? <==>
      (Get(data, "issued").VDict?
       && First(Get(Get(data, "issued").fields, "date-parts")).Ok?
       && First(First(Get(Get(data, "issued").fields, "date-parts")).value).Ok?)
    ensures r.Ok? ==> var parts := Get(data, "issued").fields["date-parts"];
      parts.VList? && parts.items[0].VList? ==> r.value == parts.items[0].items[0]
  {
    var issued := Get(data, "issued");
    if !issued.VDict? then Err(AttributeError("get"))
    else
      var first :- First(Get(issued.fields, "date-parts"));
      First(first)
  }

  /** `CrossrefQuery._process(data, title, get_references)`: title and doi reduced to one
      string, the first author formatted "family, given", the issue year, the abstract, and
      the references only when asked for. */
  function CrossrefProcess(data: Option<Record>, title: Option<Value>, getReferences: bool,
                           answer: string -> string): (r: Result<Option<Record>>)
    ensures data.None? ==> r == Ok(None)
    ensures r.Ok? && r.value.Some? ==> var d := data.value; var e := r.value.value;
      e.Keys == {"title", "first_author", "year", "doi", "abstract"} + (if getReferences then {"reference"} else {})
      && Ok(e["title"]) == GetFirstString(Get(d, "title"))
      && Ok(e["first_author"]) == GetAuthor(Get(d, "author"))
      && Ok(e["year"]) == IssuedYear(d)
      && Ok(e["doi"]) == GetFirstString(Get(d, "DOI"))
      && e["abstract"] == Get(d, "abstract")
      && (getReferences ==> e["reference"] == Get(d, "reference"))
  {
    match data
    case None => Ok(None)
    case Some(d) =>
      var t :- GetFirstString(Get(d, "title"));
      var author :- GetAuthor(Get(d, "author"));
      var year :- IssuedYear(d);
      var doi :- GetFirstString(Get(d, "DOI"));
      var result := map["title" := t, "first_author" := author, "year" := year, "doi" := doi,
                        "abstract" := Get(d, "abstract")];
      var result := if getReferences then result["reference" := Get(d, "reference")] else result;
      Accept("Crossref", title, result, answer)
  }

  /** The Crossref search for a cleaned title: the title, and the author only when truthy. */
  function CrossrefQueryFields(title: string, author: Value): (q: Record)
    ensures q.Keys == {"query.title"} + (if Truthy(author) then {"query.author"} else {})
    ensures q["query.title"] == VStr(title)
    ensures Truthy(author) ==> q["query.author"] == author
  {
    var query := map["query.title" := VStr(title)];
    if Truthy(author) then query["query.author" := author] else query
  }

  /** `CrossrefQuery.with_title(title, author, get_references)`: the cleaned title is
      searched and the first hit processed against it. */
  function CrossrefWithTitle(s: Services, title: Value, author: Value, getReferences: bool)
    : (r: Result<Option<Record>>)
    ensures CleanValue(title).Err? ==> r.Err?
    ensures CleanValue(title).Ok? ==> var t := CleanValue(title).value;
      r == CrossrefProcess(s.crossrefSearch(CrossrefQueryFields(t, author)), Some(VStr(t)), getReferences, s.answer)
  {
    var t :- CleanValue(title);
    CrossrefProcess(s.crossrefSearch(CrossrefQueryFields(t, author)), Some(VStr(t)), getReferences, s.answer)
  }

  /** `CrossrefQuery.with_doi(doi, get_references)`: the record for the DOI, processed
      without a title. */
  function CrossrefWithDoi(s: Services, doi: Value, getReferences: bool): (r: Result<Option<Record>>)
  {
    CrossrefProcess(s.crossrefLookup(doi), None, getReferences, s.answer)
  }

  /** A DOI lookup never asks the user: its result does not depend on the answer. */
  lemma CrossrefWithDoiNeverAsks(s: Services, doi: Value, getReferences: bool, answer: string -> string)
    ensures CrossrefWithDoi(s, doi, getReferences) == CrossrefWithDoi(s.(answer := answer), doi, getReferences)
  { }

  // ADS

  /** `AdsQuery._query(query, get_references)`: a failed request, the maintenance page and
      an empty result list give `None`; otherwise the first document is processed, with no
      title to compare against. */
  function AdsQuery(s: Services, query: string, getReferences: bool): (r: Result<Option<Record>>)
    ensures s.ads(query).Failed? || s.ads(query).Maintenance? ==> r == Ok(None)
    ensures s.ads(query).Docs? && |s.ads(query).docs| == 0 ==> r == Ok(None)
    ensures s.ads(query).Docs? && |s.ads(query).docs| > 0 ==>
      r == AdsProcess(s, s.ads(query).docs[0], None, getReferences)
    decreases if getReferences then 1 else 0, 2, 0
  {
    match s.ads(query)
    case Docs(docs) =>
      if |docs| == 0 then Ok(None) else AdsProcess(s, docs[0], None, getReferences)
    case _ => Ok(None)
  }

  /** `AdsQuery._process(data, title, get_references)`: title and doi reduced to one string,
      first author, year, bibcode and abstract as given, and, when asked for, each
      referenced bibcode looked up in turn without references of its own. */
  function AdsProcess(s: Services, data: Record, title: Option<Value>, getReferences: bool)
    : (r: Result<Option<Record>>)
    ensures r.Ok? && r.value.Some? ==> var e := r.value.value;
      e.Keys == {"title", "first_author", "year", "bibcode", "doi", "abstract"} + (if getReferences then {"reference"} else {})
      && Ok(e["title"]) == GetFirstString(Get(data, "title"))
      && Ok(e["doi"]) == GetFirstString(Get(data, "doi"))
      && (forall k :: k in {"first_author", "year", "bibcode", "abstract"} ==> e[k] == Get(data, k))
      && (getReferences ==>
            (e["reference"].VList? && Elements(ReferenceField(data)).Ok?
             && Ok(e["reference"].items) == AdsReferences(s, Elements(ReferenceField(data)).value)))
    decreases if getReferences then 1 else 0, 1, 0
  {
    var t :- GetFirstString(Get(data, "title"));
    var doi :- GetFirstString(Get(data, "doi"));
    var result := AdsRecord(data, t, doi);
    if getReferences then
      var bibcodes :- Elements(ReferenceField(data));
      var refs :- AdsReferences(s, bibcodes);
      Accept("ADS", title, result["reference" := VList(refs)], s.answer)
    else Accept("ADS", title, result, s.answer)
  }

  /** The six fields every ADS record carries, before any references. */
  function AdsRecord(data: Record, t: Value, doi: Value): (r: Record)
    ensures r.Keys == {"title", "first_author", "year", "bibcode", "doi", "abstract"}
    ensures r["title"] == t && r["doi"] == doi
    ensures forall k :: k in {"first_author", "year", "bibcode", "abstract"} ==> r[k] == Get(data, k)
  {
    map["title" := t, "first_author" := Get(data, "first_author"), "year" := Get(data, "year"),
        "bibcode" := Get(data, "bibcode"), "doi" := doi, "abstract" := Get(data, "abstract")]
  }

  /** `data.get("reference", [])`. */
  function ReferenceField(data: Record): Value {
    if "reference" in data then data["reference"] else VList([])
  }

  /** A lookup result as a Python value: `None` or the record. */
  function AsValue(o: Option<Record>): Value {
    match o
    case None => VNone
    case Some(d) => VDict(d)
  }

  /** `[cls.with_bibcode(x, get_references=False) for x in bibcodes]`: one lookup per
      bibcode, in order; the first lookup that raises ends the list. */
  function AdsReferences(s: Services, bibcodes: seq<Value>): (r: Result<seq<Value>>)
    ensures r.Ok? <==> forall i :: 0 <= i < |bibcodes| ==> AdsWithBibcode(s, bibcodes[i], false).Ok?
    ensures r.Ok? ==> |r.value| == |bibcodes|
    ensures r.Ok? ==>
      forall i :: 0 <= i < |bibcodes| ==> r.value[i] == AsValue(AdsWithBibcode(s, bibcodes[i], false).value)
    decreases 1, 0, |bibcodes|
  {
    if |bibcodes| == 0 then Ok([])
    else
      var first :- AdsWithBibcode(s, bibcodes[0], false);
      var rest :- AdsReferences(s, bibcodes[1..]);
      assert forall i :: 1 <= i < |bibcodes| ==> bibcodes[1..][i - 1] == bibcodes[i];
      Ok([AsValue(first)] + rest)
  }

  /** The ADS search string for a cleaned title: `title:"..."`, then ` author:"..."` when
      the author is truthy. */
  function AdsTitleQuery(title: string, author: Value): (q: string)
    ensures !Truthy(author) ==> q == "title:\"" + title + "\""
    ensures Truthy(author) ==> q == "title:\"" + title + "\"" + " author:\"" + Format(author) + "\""
  {
    var query := "title:\"" + title + "\"";
    if Truthy(author) then query + " author:\"" + Format(author) + "\"" else query
  }

  /** A cleaned title holds no '"', so the title is the text between the first two quotes
      of the search string, with or without an author. */
  lemma AdsQueryTitle(title: string, author: Value)
    requires IsCleanForm(title)
    ensures var q := AdsTitleQuery(title, author);
      |q| >= 7 && q[..7] == "title:\"" && BeforeFirst(q[7..], '"') == title
  {
    forall i | 0 <= i < |title| ensures title[i] != '"' {
      assert IsLowerAlnum(title[i]) || title[i] == ' ';
    }
    AdsQueryParts(title, Truthy(author), Format(author));
  }

  /** The ADS search string split back, for any title without a '"'. */
  lemma AdsQueryParts(title: string, withAuthor: bool, au: string)
    requires forall i :: 0 <= i < |title| ==> title[i] != '"'
    ensures var q := if withAuthor then "title:\"" + title + "\"" + " author:\"" + au + "\""
                     else "title:\"" + title + "\"";
      |q| >= 7 && q[..7] == "title:\"" && BeforeFirst(q[7..], '"') == title
  {
    var q := if withAuthor then "title:\"" + title + "\"" + " author:\"" + au + "\""
             else "title:\"" + title + "\"";
    var rest := q[7..];
    assert rest[..|title|] == title;
    assert rest[|title|] == '"';
    PrefixBeforeMarker(rest, title, '"');
  }

  /** `AdsQuery.with_title(title, author, get_references)`: the cleaned title (a non-text
      title raises) and the author, searched. */
  function AdsWithTitle(s: Services, title: Value, author: Value, getReferences: bool): (r: Result<Option<Record>>)
    ensures CleanValue(title).Err? ==> r.Err?
    ensures CleanValue(title).Ok? ==> r == AdsQuery(s, AdsTitleQuery(CleanValue(title).value, author), getReferences)
  {
    var t :- CleanValue(title);
    AdsQuery(s, AdsTitleQuery(t, author), getReferences)
  }

  /** `AdsQuery.with_doi`, `with_bibcode` and `with_arxiv`: the identifier after its field
      name. */
  function AdsWithDoi(s: Services, doi: Value, getReferences: bool): (r: Result<Option<Record>>)
  {
    AdsQuery(s, "doi:" + Format(doi), getReferences)
  }

  function AdsWithBibcode(s: Services, bibcode: Value, getReferences: bool): (r: Result<Option<Record>>)
    decreases if getReferences then 1 else 0, 3, 0
  {
    AdsQuery(s, "bibcode:" + Format(bibcode), getReferences)
  }

  function AdsWithArxiv(s: Services, arxivId: Value, getReferences: bool): (r: Result<Option<Record>>)
  {
    AdsQuery(s, "arXiv:" + Format(arxivId), getReferences)
  }

  /** The identifier lookups search for the identifier after `doi:`, `bibcode:` or `arXiv:`;
      the three searches for one identifier differ. */
  lemma AdsIdentifierQueries(s: Services, x: Value, getReferences: bool)
    ensures AdsWithDoi(s, x, getReferences) == AdsQuery(s, "doi:" + Format(x), getReferences)
    ensures AdsWithBibcode(s, x, getReferences) == AdsQuery(s, "bibcode:" + Format(x), getReferences)
    ensures AdsWithArxiv(s, x, getReferences) == AdsQuery(s, "arXiv:" + Format(x), getReferences)
    ensures "doi:" + Format(x) != "bibcode:" + Format(x) && "doi:" + Format(x) != "arXiv:" + Format(x)
    ensures "bibcode:" + Format(x) != "arXiv:" + Format(x)
  {
    assert ("doi:" + Format(x))[0] == 'd' && ("bibcode:" + Format(x))[0] == 'b' && ("arXiv:" + Format(x))[0] == 'a';
  }

  /** ADS never asks the user: `_query` passes no title, so a lookup's result does not
      depend on the answer, references included. */
  lemma {:induction false} AdsNeverAsks(s: Services, query: string, getReferences: bool, answer: string -> string)
    ensures AdsQuery(s, query, getReferences) == AdsQuery(s.(answer := answer), query, getReferences)
    decreases if getReferences then 1 else 0, 1, 0
  {
    var s' := s.(answer := answer);
    match s.ads(query)
    case Docs(docs) =>
      if |docs| > 0 && getReferences {
        var data := docs[0];
        var field := Elements(ReferenceField(data));
        if field.Ok? {
          AdsReferencesNeverAsk(s, field.value, answer);
        }
      }
    case _ =>
  }

  lemma {:induction false} AdsReferencesNeverAsk(s: Services, bibcodes: seq<Value>, answer: string -> string)
    ensures AdsReferences(s, bibcodes) == AdsReferences(s.(answer := answer), bibcodes)
    decreases 1, 0, |bibcodes|
  {
    if |bibcodes| > 0 {
      AdsNeverAsks(s, "bibcode:" + Format(bibcodes[0]), false, answer);
      AdsReferencesNeverAsk(s, bibcodes[1..], answer);
    }
  }
}

=== FILE: reconcile.dfy ===
/** `ArticleAPI` of `src/article_api/article_api.py`: an article's data collected from arXiv,
    Crossref and ADS with fallbacks, the basic data of a reference, and the keys of a
    reference list. The lookups (`Fetcher`; `ServiceFetcher` dispatches them to the three
    services) and the reference parser are parameters; every operation also returns the
    lookups it made, in order, so that the fallback order and the stopping rules can be
    stated. */
module Reconcile {
  import opened Wrappers
  import opened Values
  import opened Text
  import opened Dicts
  import opened SbKey
  import opened Providers

  /** One provider lookup with its arguments. */
  datatype Call =
    | ArxivTitle(title: Value, author: Value)
    | CrossrefTitle(title: Value, author: Value)
    | CrossrefDoi(doi: Value)
    | AdsTitle(title: Value, author: Value)
    | AdsDoi(doi: Value)
    | AdsBibcode(bibcode: Value)
    | AdsArxiv(arxivId: Value)

  datatype Provider = Arxiv | Crossref | Ads

  function ProviderOf(c: Call): Provider {
    match c
    case ArxivTitle(_, _) => Arxiv
    case CrossrefTitle(_, _) => Crossref
    case CrossrefDoi(_) => Crossref
    case _ => Ads
  }

  /** The lookup a call stands for; `references` is the `get_references` flag (arXiv has
      none). */
  function Fetch(s: Services, c: Call, references: bool): Result<Option<Record>> {
    match c
    case ArxivTitle(t, a) => ArxivWithTitle(s, t, a)
    case CrossrefTitle(t, a) => CrossrefWithTitle(s, t, a, references)
    case CrossrefDoi(d) => CrossrefWithDoi(s, d, references)
    case AdsTitle(t, a) => AdsWithTitle(s, t, a, references)
    case AdsDoi(d) => AdsWithDoi(s, d, references)
    case AdsBibcode(b) => AdsWithBibcode(s, b, references)
    case AdsArxiv(i) => AdsWithArxiv(s, i, references)
  }

  /** A provider lookup: the call, and whether references are wanted. */
  type Fetcher = (Call, bool) -> Result<Option<Record>>

  /** The lookups the services give: each call dispatched to its provider. */
  function ServiceFetcher(s: Services): Fetcher {
    (c, references) => Fetch(s, c, references)
  }

  /** What a reconciliation step did: a provider lookup, the batch reference parse, or the
      parse of a single unstructured reference. */
  datatype Event = Query(call: Call) | ParseReferences(texts: seq<Value>) | ParseReference(text: Value)

  function Queries(calls: seq<Call>): (r: seq<Event>)
    ensures |r| == |calls| && forall i :: 0 <= i < |calls| ==> r[i] == Query(calls[i])
  {
    seq(|calls|, i requires 0 <= i < |calls| => Query(calls[i]))
  }

  // Merging a provider's result into the article data

  /** The renames `_merge_arxiv_data`, `_merge_crossref_data` and `_merge_ads_data` apply
      to a result before merging it: each provider's identifiers and texts get its prefix. */
  function Renames(p: Provider): seq<(string, string)> {
    match p
    case Arxiv => [("doi", "arxiv_doi"), ("summary", "arxiv_summary")]
    case Crossref => [("doi", "crossref_doi"), ("abstract", "crossref_abstract"), ("reference", "crossref_reference")]
    case Ads => [("bibcode", "ads_bibcode"), ("doi", "ads_doi"), ("abstract", "ads_abstract"), ("reference", "ads_reference")]
  }

  lemma RenamesDistinct(p: Provider)
    ensures var m := Renames(p);
      (forall i, j :: 0 <= i < j < |m| ==> m[i].0 != m[j].0 && m[i].1 != m[j].1)
      && (forall i, j :: 0 <= i < |m| && 0 <= j < |m| ==> m[i].0 != m[j].1)
  { }

  /** `_merge_*_data(data, result)`: `None` leaves the data as it is; otherwise the result,
      renamed, is merged into the data, so that a truthy field of the data is never
      replaced. A result missing a renamed field raises `KeyError`. */
  function MergeFrom(p: Provider, data: Record, result: Option<Record>): (r: Result<Record>)
    ensures result.None? ==> r == Ok(data)
    ensures result.Some? ==> (r.Ok? <==> forall i :: 0 <= i < |Renames(p)| ==> Renames(p)[i].0 in result.value)
    ensures r.Ok? ==> data.Keys <= r.value.Keys
    ensures r.Ok? ==> forall k :: k in data && Truthy(data[k]) ==> r.value[k] == data[k]
    ensures r.Ok? && result.Some? ==> forall i :: 0 <= i < |Renames(p)| ==>
      Renames(p)[i].1 in r.value && r.value[Renames(p)[i].1] == Or(Get(data, Renames(p)[i].1), result.value[Renames(p)[i].0])
    ensures r.Ok? && result.Some? ==> forall k :: k in result.value && !Sources(Renames(p), k) && !Targets(Renames(p), k) ==>
      k in r.value && r.value[k] == Or(Get(data, k), result.value[k])
  {
    match result
    case None => Ok(data)
    case Some(found) =>
      var m := Renames(p);
      RenamesDistinct(p);
      RenameKeysOk(found, m);
      match RenameKeys(found, m)
      case Err(e) => Err(e)
      case Ok(renamed) =>
        RenameKeysSpec(found, m);
        Ok(MergeRecords(data, renamed))
  }

  /** Lookups made one after the other, each result merged in (`_get_data`). */
  function Apply(fetch: Fetcher, data: Record, calls: seq<Call>): (r: Result<Record>)
    ensures r.Ok? ==> data.Keys <= r.value.Keys
    ensures r.Ok? ==> forall k :: k in data && Truthy(data[k]) ==> r.value[k] == data[k]
    decreases |calls|
  {
    if |calls| == 0 then Ok(data)
    else
      var result :- fetch(calls[0], true);
      var d :- MergeFrom(ProviderOf(calls[0]), data, result);
      Apply(fetch, d, calls[1..])
  }

  /** A lookup whose provider finds nothing changes nothing. */
  lemma {:induction false} ApplyNothingFound(fetch: Fetcher, data: Record, calls: seq<Call>)
    requires forall i :: 0 <= i < |calls| ==> fetch(calls[i], true) == Ok(None)
    ensures Apply(fetch, data, calls) == Ok(data)
    decreases |calls|
  {
    if |calls| > 0 {
      assert fetch(calls[0], true) == Ok(None);
      ApplyNothingFound(fetch, data, calls[1..]);
    }
  }

  /** `_get_data(data)`: the title lookups on arXiv, then Crossref, then ADS, with the
      data's title and first author. */
  function TitleData(fetch: Fetcher, data: Record): (r: Result<(Record, seq<Call>)>)
    ensures ("title" !in data || "first_author" !in data) ==> r.Err?
    ensures r.Ok? ==> var (t, a) := (data["title"], data["first_author"]);
      r.value.1 == [ArxivTitle(t, a), CrossrefTitle(t, a), AdsTitle(t, a)]
    ensures r.Ok? ==> data.Keys <= r.value.0.Keys
    ensures r.Ok? ==> forall k :: k in data && Truthy(data[k]) ==> r.value.0[k] == data[k]
  {
    var title :- Index(data, "title");
    var author :- Index(data, "first_author");
    var calls := [ArxivTitle(title, author), CrossrefTitle(title, author), AdsTitle(title, author)];
    var d :- Apply(fetch, data, calls);
    Ok((d, calls))
  }

  // The fallbacks for missing references

  /** The identifier lookups a fallback can make. */
  datatype Lookup = CrossrefByDoi | AdsByDoi | AdsByArxiv

  function CallOf(kind: Lookup, v: Value): Call {
    match kind
    case CrossrefByDoi => CrossrefDoi(v)
    case AdsByDoi => AdsDoi(v)
    case AdsByArxiv => AdsArxiv(v)
  }

  /** One fallback step: when the data's `guard` is not `None`, look up the value of
      `field`. */
  datatype Attempt = Attempt(guard: string, field: string, kind: Lookup)

  /** `_get_missing_crossref_data`: the DOI arXiv gave, then the DOI ADS gave (when ADS
      found the article at all). */
  const CrossrefFallbacks: seq<Attempt> :=
    [Attempt("arxiv_doi", "arxiv_doi", CrossrefByDoi), Attempt("ads_bibcode", "ads_doi", CrossrefByDoi)]

  /** `_get_missing_ads_data`: the arXiv identifier, then Crossref's DOI, then arXiv's. */
  const AdsFallbacks: seq<Attempt> :=
    [Attempt("arxiv_id", "arxiv_id", AdsByArxiv), Attempt("crossref_doi", "crossref_doi", AdsByDoi),
     Attempt("arxiv_doi", "arxiv_doi", AdsByDoi)]

  /** One fallback as examined: skipped because its guard is `None`, or made, with its call
      and the data after the call's result was merged in. */
  datatype Step = Skipped | Made(call: Call, after: Record)

  /** The data after a step: a made lookup replaces it, a skipped one leaves it. */
  function After(data: Record, s: Step): Record {
    if s.Made? then s.after else data
  }

  /** The data the `i`-th examined fallback sees: the data after the steps before it. */
  function StateAt(data: Record, steps: seq<Step>, i: nat): Record
    requires i <= |steps|
    decreases i
  {
    if i == 0 then data else StateAt(After(data, steps[0]), steps[1..], i - 1)
  }

  /** A fallback that found the sought field: it was made and left the field not `None`. */
  predicate Found(s: Step, target: string) {
    s.Made? && target in s.after && s.after[target] != VNone
  }

  /** One fallback examined on data `d`: its guard is read; it is made exactly when the guard
      is not `None`, with the value of its field; the provider's result for that call, merged
      in, is the data after it, which holds the sought field. */
  ghost predicate StepOk(fetch: Fetcher, d: Record, target: string, a: Attempt, s: Step) {
    && a.guard in d
    && (s.Skipped? <==> d[a.guard] == VNone)
    && (s.Made? ==>
          && a.field in d && s.call == CallOf(a.kind, d[a.field])
          && fetch(s.call, true).Ok?
          && MergeFrom(ProviderOf(s.call), d, fetch(s.call, true).value) == Ok(s.after)
          && target in s.after)
  }

  /** What a fallback chain from position `from` does: the fallbacks are examined one after
      the other in list order, each on the data the earlier ones left; none but the last
      found the sought field, and the chain ends early only when the last one did. The data
      keeps every field, and the value of every truthy field. */
  ghost predicate ChainOutcome(fetch: Fetcher, data: Record, target: string, attempts: seq<Attempt>,
                               from: nat, d: Record, steps: seq<Step>)
  {
    && from + |steps| <= |attempts|
    && (forall i :: 0 <= i < |steps| ==> StepOk(fetch, StateAt(data, steps, i), target, attempts[from + i], steps[i]))
    && (forall i :: 0 <= i < |steps| - 1 ==> !Found(steps[i], target))
    && (from + |steps| < |attempts| ==> |steps| > 0 && Found(steps[|steps| - 1], target))
    && d == StateAt(data, steps, |steps|)
    && data.Keys <= d.Keys
    && (forall k :: k in data && Truthy(data[k]) ==> d[k] == data[k])
  }

  /** The calls of the fallbacks that were made, in order. */
  function MadeCalls(steps: seq<Step>): (r: seq<Call>)
    ensures |r| <= |steps|
  {
    if |steps| == 0 then [] else (if steps[0].Made? then [steps[0].call] else []) + MadeCalls(steps[1..])
  }

  /** The fallbacks from position `from` on: one whose guard is `None` is skipped; otherwise
      its lookup is merged in and the chain stops as soon as `target` is no longer `None`. */
  function Chain(fetch: Fetcher, data: Record, target: string, attempts: seq<Attempt>, from: nat)
    : (r: Result<(Record, seq<Step>)>)
    requires from <= |attempts|
    ensures r.Ok? ==> ChainOutcome(fetch, data, target, attempts, from, r.value.0, r.value.1)
    decreases |attempts| - from
  {
    if from == |attempts| then Ok((data, []))
    else
      var a := attempts[from];
      var guard :- Index(data, a.guard);
      if guard == VNone then
        var (d, steps) :- Chain(fetch, data, target, attempts, from + 1);
        ChainCons(fetch, data, target, attempts, from, Skipped, d, steps);
        Ok((d, [Skipped] + steps))
      else
        var arg :- Index(data, a.field);
        var call := CallOf(a.kind, arg);
        var result :- fetch(call, true);
        var d :- MergeFrom(ProviderOf(call), data, result);
        var found :- Index(d, target);
        if found != VNone then
          ChainStop(fetch, data, target, attempts, from, Made(call, d));
          Ok((d, [Made(call, d)]))
        else
          var (d', steps) :- Chain(fetch, d, target, attempts, from + 1);
          ChainCons(fetch, data, target, attempts, from, Made(call, d), d', steps);
          Ok((d', [Made(call, d)] + steps))
  }

  /** A fallback that found the sought field ends the chain. */
  lemma ChainStop(fetch: Fetcher, data: Record, target: string, attempts: seq<Attempt>, from: nat, s: Step)
    requires from < |attempts|
    requires StepOk(fetch, data, target, attempts[from], s) && Found(s, target)
    ensures ChainOutcome(fetch, data, target, attempts, from, s.after, [s])
  {
    assert StateAt(data, [s], 0) == data;
    assert StateAt(data, [s], 1) == StateAt(s.after, [], 0);
  }

  /** A fallback that did not find the sought field, in front of the rest of the chain, run
      on the data it left. */
  lemma ChainCons(fetch: Fetcher, data: Record, target: string, attempts: seq<Attempt>, from: nat,
                  s: Step, d: Record, rest: seq<Step>)
    requires from < |attempts|
    requires StepOk(fetch, data, target, attempts[from], s) && !Found(s, target)
    requires ChainOutcome(fetch, After(data, s), target, attempts, from + 1, d, rest)
    ensures ChainOutcome(fetch, data, target, attempts, from, d, [s] + rest)
  {
    var steps := [s] + rest;
    assert steps[1..] == rest;
    forall i | 0 < i <= |steps| ensures StateAt(data, steps, i) == StateAt(After(data, s), rest, i - 1) { }
    forall i | 0 < i < |steps| ensures steps[i] == rest[i - 1] { }
    var m := After(data, s);
    assert data.Keys <= m.Keys && forall k :: k in data && Truthy(data[k]) ==> m[k] == data[k];
    forall k | k in data && Truthy(data[k]) ensures d[k] == data[k] {
      assert Truthy(m[k]);
    }
  }

  /** When no remaining fallback's guard holds a value, the chain makes no lookup. */
  lemma {:induction false} ChainUnguarded(fetch: Fetcher, data: Record, target: string, attempts: seq<Attempt>, from: nat)
    requires from <= |attempts|
    requires forall j :: from <= j < |attempts| ==> attempts[j].guard in data && data[attempts[j].guard] == VNone
    ensures Chain(fetch, data, target, attempts, from).Ok?
    ensures Chain(fetch, data, target, attempts, from).value.0 == data
    ensures MadeCalls(Chain(fetch, data, target, attempts, from).value.1) == []
    decreases |attempts| - from
  {
    if from < |attempts| {
      ChainUnguarded(fetch, data, target, attempts, from + 1);
    }
  }

  /** `_get_missing_crossref_data` and `_get_missing_ads_data`: nothing at all happens when
      the sought references are already there (not `None`); otherwise the chain runs. */
  function Missing(fetch: Fetcher, data: Record, target: string, attempts: seq<Attempt>)
    : (r: Result<(Record, seq<Step>)>)
    ensures target !in data ==> r.Err?
    ensures target in data && data[target] != VNone ==> r == Ok((data, []))
    ensures target in data && data[target] == VNone && r.Ok? ==> ChainOutcome(fetch, data, target, attempts, 0, r.value.0, r.value.1)
    ensures r.Ok? ==> data.Keys <= r.value.0.Keys && |r.value.1| <= |attempts|
    ensures r.Ok? ==> forall k :: k in data && Truthy(data[k]) ==> r.value.0[k] == data[k]
  {
    var current :- Index(data, target);
    if current != VNone then Ok((data, [])) else Chain(fetch, data, target, attempts, 0)
  }

  /** `_get_missing_data`: the Crossref fallbacks, then the ADS fallbacks, each chain on the
      data the one before left; the lookups made are the Crossref chain's followed by the
      ADS chain's. */
  function MissingData(fetch: Fetcher, data: Record): (r: Result<(Record, seq<Call>)>)
    ensures var m1 := Missing(fetch, data, "crossref_reference", CrossrefFallbacks);
      r.Ok? <==> m1.Ok? && Missing(fetch, m1.value.0, "ads_reference", AdsFallbacks).Ok?
    ensures r.Ok? ==>
      var m1 := Missing(fetch, data, "crossref_reference", CrossrefFallbacks).value;
      var m2 := Missing(fetch, m1.0, "ads_reference", AdsFallbacks).value;
      r.value == (m2.0, MadeCalls(m1.1) + MadeCalls(m2.1))
    ensures r.Ok? ==> data.Keys <= r.value.0.Keys
    ensures r.Ok? ==> forall k :: k in data && Truthy(data[k]) ==> r.value.0[k] == data[k]
  {
    var (d1, s1) :- Missing(fetch, data, "crossref_reference", CrossrefFallbacks);
    var (d2, s2) :- Missing(fetch, d1, "ads_reference", AdsFallbacks);
    Ok((d2, MadeCalls(s1) + MadeCalls(s2)))
  }

  /** The lookups `_get_missing_data` makes: at most two on Crossref, then at most three on
      ADS, none on arXiv, and no Crossref lookup after an ADS one. */
  lemma MissingDataOrder(fetch: Fetcher, data: Record)
    requires MissingData(fetch, data).Ok?
    ensures var calls := MissingData(fetch, data).value.1;
      && |calls| <= |CrossrefFallbacks| + |AdsFallbacks|
      && (forall i :: 0 <= i < |calls| ==> ProviderOf(calls[i]) != Arxiv)
      && (forall i, j :: 0 <= i < j < |calls| && ProviderOf(calls[i]) == Ads ==> ProviderOf(calls[j]) == Ads)
  {
    var m1 := Missing(fetch, data, "crossref_reference", CrossrefFallbacks);
    var m2 := Missing(fetch, m1.value.0, "ads_reference", AdsFallbacks);
    assert m1.Ok? && m2.Ok?;
    FallbacksAsk();
    MissingProvider(fetch, data, "crossref_reference", CrossrefFallbacks, Crossref);
    MissingProvider(fetch, m1.value.0, "ads_reference", AdsFallbacks, Ads);
    ProvidersThen(MadeCalls(m1.value.1), MadeCalls(m2.value.1));
  }

  /** The Crossref fallbacks ask Crossref and the ADS fallbacks ask ADS. */
  lemma FallbacksAsk()
    ensures AllAsk(CrossrefFallbacks, Crossref) && AllAsk(AdsFallbacks, Ads)
  {
  }

  /** The provider every fallback of a list asks. */
  predicate AllAsk(attempts: seq<Attempt>, p: Provider) {
    forall i :: 0 <= i < |attempts| ==> ProviderOf(CallOf(attempts[i].kind, VNone)) == p
  }

  /** When every fallback asks one provider, so does every lookup a chain makes. */
  lemma MissingProvider(fetch: Fetcher, data: Record, target: string, attempts: seq<Attempt>, p: Provider)
    requires AllAsk(attempts, p)
    requires Missing(fetch, data, target, attempts).Ok?
    ensures forall i :: 0 <= i < |MadeCalls(Missing(fetch, data, target, attempts).value.1)| ==>
      ProviderOf(MadeCalls(Missing(fetch, data, target, attempts).value.1)[i]) == p
  {
    var (d, steps) := Missing(fetch, data, target, attempts).value;
    if |steps| > 0 {
      ChainProvider(fetch, data, target, attempts, d, steps, p);
    }
  }

  lemma ChainProvider(fetch: Fetcher, data: Record, target: string, attempts: seq<Attempt>, d: Record,
                      steps: seq<Step>, p: Provider)
    requires AllAsk(attempts, p)
    requires ChainOutcome(fetch, data, target, attempts, 0, d, steps)
    ensures forall i :: 0 <= i < |MadeCalls(steps)| ==> ProviderOf(MadeCalls(steps)[i]) == p
  {
    forall i | 0 <= i < |steps| && steps[i].Made? ensures ProviderOf(steps[i].call) == p {
      StepAsks(fetch, StateAt(data, steps, i), target, attempts[i], steps[i]);
      assert ProviderOf(CallOf(attempts[i].kind, VNone)) == p;
    }
    MadeCallsProvider(steps, p);
  }

  /** A made fallback's call is of the fallback's kind. */
  lemma StepAsks(fetch: Fetcher, d: Record, target: string, a: Attempt, s: Step)
    requires StepOk(fetch, d, target, a, s) && s.Made?
    ensures ProviderOf(s.call) == ProviderOf(CallOf(a.kind, VNone))
  {
  }

  /** The lookups made ask the provider every made step asks. */
  lemma {:induction false} MadeCallsProvider(steps: seq<Step>, p: Provider)
    requires forall i :: 0 <= i < |steps| && steps[i].Made? ==> ProviderOf(steps[i].call) == p
    ensures forall i :: 0 <= i < |MadeCalls(steps)| ==> ProviderOf(MadeCalls(steps)[i]) == p
    decreases |steps|
  {
    if |steps| > 0 {
      var rest := steps[1..];
      forall i | 0 <= i < |rest| && rest[i].Made? ensures ProviderOf(rest[i].call) == p {
        assert rest[i] == steps[i + 1];
      }
      MadeCallsProvider(rest, p);
    }
  }

  /** Crossref lookups followed by ADS lookups: none asks arXiv, and no Crossref lookup comes
      after an ADS one. */
  lemma ProvidersThen(a: seq<Call>, b: seq<Call>)
    requires forall i :: 0 <= i < |a| ==> ProviderOf(a[i]) == Crossref
    requires forall i :: 0 <= i < |b| ==> ProviderOf(b[i]) == Ads
    ensures forall i :: 0 <= i < |a + b| ==> ProviderOf((a + b)[i]) != Arxiv
    ensures forall i, j :: 0 <= i < j < |a + b| && ProviderOf((a + b)[i]) == Ads ==> ProviderOf((a + b)[j]) == Ads
  {
  }

  /** With no arXiv DOI but an ADS bibcode, the Crossref fallback looks up the DOI ADS gave:
      the first lookup `_get_missing_crossref_data` makes is Crossref by `ads_doi`. */
  lemma CrossrefFallbackUsesAdsDoi(fetch: Fetcher, data: Record)
    requires "crossref_reference" in data && data["crossref_reference"] == VNone
    requires "arxiv_doi" in data && data["arxiv_doi"] == VNone
    requires "ads_bibcode" in data && data["ads_bibcode"] != VNone && "ads_doi" in data
    requires Missing(fetch, data, "crossref_reference", CrossrefFallbacks).Ok?
    ensures var calls := MadeCalls(Missing(fetch, data, "crossref_reference", CrossrefFallbacks).value.1);
      calls == [CrossrefDoi(data["ads_doi"])]
  {
    var steps := Missing(fetch, data, "crossref_reference", CrossrefFallbacks).value.1;
    assert StepOk(fetch, StateAt(data, steps, 0), "crossref_reference", CrossrefFallbacks[0], steps[0]);
    assert steps[0] == Skipped;
    assert StateAt(data, steps, 1) == data;
    assert StepOk(fetch, data, "crossref_reference", CrossrefFallbacks[1], steps[1]);
    assert steps == [Skipped, steps[1]];
    assert MadeCalls(steps) == MadeCalls(steps[1..]);
  }

  // Basic data of a reference

  /** `_verify_basic_data`: title, first author and year all truthy. */
  predicate Verified(d: Record) {
    Truthy(Get(d, "title")) && Truthy(Get(d, "first_author")) && Truthy(Get(d, "year"))
  }

  /** The lookups `get_basic_data` may make, in order: by DOI on Crossref then ADS, by
      bibcode on ADS, by title on ADS then Crossref; a stage whose identifier is `None` is
      left out. */
  function BasicPlan(title: Value, firstAuthor: Value, doi: Value, bibcode: Value): seq<Call> {
    (if doi != VNone then [CrossrefDoi(doi), AdsDoi(doi)] else [])
    + (if bibcode != VNone then [AdsBibcode(bibcode)] else [])
    + (if title != VNone then [AdsTitle(title, firstAuthor), CrossrefTitle(title, firstAuthor)] else [])
  }

  /** The data after the first `n` planned lookups, each made without references and its
      result merged in plainly, whatever the data looked like in between. */
  function RunData(fetch: Fetcher, data: Record, plan: seq<Call>, n: nat): Result<Record>
    requires n <= |plan|
    decreases n
  {
    if n == 0 then Ok(data)
    else
      var result :- fetch(plan[0], false);
      RunData(fetch, Merge(Some(data), result).value, plan[1..], n - 1)
  }

  /** What a run of `n` lookups from `data` promises: they are the first `n` planned ones, the
      data after each earlier one was not verified, the run ended early only on verified
      data, and the data's fields are kept unless falsy. */
  ghost predicate RunOutcome(fetch: Fetcher, data: Record, plan: seq<Call>, d: Record, n: nat) {
    && n <= |plan| && RunData(fetch, data, plan, n) == Ok(d)
    && (forall i :: 1 <= i < n ==> RunData(fetch, data, plan, i).Ok? && !Verified(RunData(fetch, data, plan, i).value))
    && (n < |plan| ==> n > 0 && Verified(d))
    && data.Keys <= d.Keys
    && (forall k :: k in data && Truthy(data[k]) ==> d[k] == data[k])
  }

  /** The stages of `get_basic_data` flattened into one list: after each lookup, without
      references, its result is merged in plainly and the run stops once the data is
      verified. Along with the data comes the number of lookups made. */
  function BasicRun(fetch: Fetcher, data: Record, plan: seq<Call>): (r: Result<(Record, nat)>)
    ensures r.Ok? ==> RunOutcome(fetch, data, plan, r.value.0, r.value.1)
    ensures r.Err? ==> RunData(fetch, data, plan, |plan|).Err?
    decreases |plan|
  {
    if |plan| == 0 then Ok((data, 0))
    else
      var result := fetch(plan[0], false);
      if result.Err? then Err(result.error)
      else
        var d := Merge(Some(data), result.value).value;
        MergeKeeps(data, result.value);
        if Verified(d) then
          RunOutcomeFirst(fetch, data, plan, d);
          Ok((d, 1))
        else
          var rest := BasicRun(fetch, d, plan[1..]);
          if rest.Err? then
            RunDataErr(fetch, data, plan, d);
            Err(rest.error)
          else
            RunOutcomeCons(fetch, data, plan, d, rest.value.0, rest.value.1);
            Ok((rest.value.0, rest.value.1 + 1))
  }

  /** A first lookup that verifies the data ends the run there. */
  lemma RunOutcomeFirst(fetch: Fetcher, data: Record, plan: seq<Call>, d: Record)
    requires |plan| > 0 && fetch(plan[0], false).Ok?
    requires d == Merge(Some(data), fetch(plan[0], false).value).value && Verified(d)
    requires data.Keys <= d.Keys && (forall k :: k in data && Truthy(data[k]) ==> d[k] == data[k])
    ensures RunOutcome(fetch, data, plan, d, 1)
  {
    assert RunData(fetch, data, plan, 1) == RunData(fetch, d, plan[1..], 0);
  }

  /** A lookup that fails after a successful first one makes the whole plan fail. */
  lemma RunDataErr(fetch: Fetcher, data: Record, plan: seq<Call>, d: Record)
    requires |plan| > 0 && fetch(plan[0], false).Ok?
    requires d == Merge(Some(data), fetch(plan[0], false).value).value
    requires RunData(fetch, d, plan[1..], |plan| - 1).Err?
    ensures RunData(fetch, data, plan, |plan|).Err?
  {
  }

  /** Merging a lookup's result into the data keeps every field of the data, and the value
      of every truthy one. */
  lemma MergeKeeps(data: Record, result: Option<Record>)
    ensures var d := Merge(Some(data), result).value;
      data.Keys <= d.Keys && forall k :: k in data && Truthy(data[k]) ==> d[k] == data[k]
  {
    if result.Some? {
      forall k | k in data && Truthy(data[k]) ensures MergeRecords(data, result.value)[k] == data[k] {
        MergeKeepsTruthy(data, result.value, k);
      }
    }
  }

  /** A first lookup that leaves the data unverified, followed by a run from its result. */
  lemma RunOutcomeCons(fetch: Fetcher, data: Record, plan: seq<Call>, d: Record, d': Record, n: nat)
    requires |plan| > 0 && fetch(plan[0], false).Ok?
    requires d == Merge(Some(data), fetch(plan[0], false).value).value && !Verified(d)
    requires data.Keys <= d.Keys && (forall k :: k in data && Truthy(data[k]) ==> d[k] == data[k])
    requires RunOutcome(fetch, d, plan[1..], d', n)
    ensures RunOutcome(fetch, data, plan, d', n + 1)
  {
    forall i | 1 <= i <= n + 1 ensures RunData(fetch, data, plan, i) == RunData(fetch, d, plan[1..], i - 1) { }
    forall k | k in data && Truthy(data[k]) ensures d'[k] == data[k] {
      assert Truthy(d[k]);
    }
  }

  /** The data `get_basic_data` starts from. */
  function BasicStart(title: Value, firstAuthor: Value): Record {
    map["title" := title, "first_author" := firstAuthor, "year" := VNone]
  }

  /** `get_basic_data(title, first_author, doi, bibcode)`: the planned lookups are made in
      order until the data is verified. The lookups made are the first `n` planned ones,
      where `n` is the first count after which the data is verified, or all of them; the
      data after them is returned exactly when it is verified, else `None`. */
  function GetBasicData(fetch: Fetcher, title: Value, firstAuthor: Value, doi: Value, bibcode: Value)
    : (r: Result<(Option<Record>, seq<Call>)>)
    ensures r.Ok? ==> var (found, calls) := r.value; var plan := BasicPlan(title, firstAuthor, doi, bibcode);
      var start := BasicStart(title, firstAuthor);
      && |calls| <= |plan| && calls == plan[..|calls|]
      && RunData(fetch, start, plan, |calls|).Ok?
      && (forall i :: 1 <= i < |calls| ==> RunData(fetch, start, plan, i).Ok? && !Verified(RunData(fetch, start, plan, i).value))
      && (|calls| < |plan| ==> found.Some?)
      && (found.Some? <==> Verified(RunData(fetch, start, plan, |calls|).value))
      && (found.Some? ==> found.value == RunData(fetch, start, plan, |calls|).value)
    ensures r.Ok? && r.value.0.Some? ==>
      (Truthy(title) ==> r.value.0.value["title"] == title)
      && (Truthy(firstAuthor) ==> r.value.0.value["first_author"] == firstAuthor)
    ensures r.Err? ==>
      RunData(fetch, BasicStart(title, firstAuthor), BasicPlan(title, firstAuthor, doi, bibcode), |BasicPlan(title, firstAuthor, doi, bibcode)|).Err?
    ensures title == VNone && doi == VNone && bibcode == VNone ==> r == Ok((None, []))
  {
    var plan := BasicPlan(title, firstAuthor, doi, bibcode);
    var start := BasicStart(title, firstAuthor);
    var (d, n) :- BasicRun(fetch, start, plan);
    Ok((if Verified(d) then Some(d) else None, plan[..n]))
  }

  /** The run stops at the first lookup after which the data is verified: no later lookup
      is made, whatever it would return. */
  lemma BasicRunStops(fetch: Fetcher, data: Record, plan: seq<Call>)
    requires |plan| > 0 && fetch(plan[0], false).Ok?
    requires Verified(Merge(Some(data), fetch(plan[0], false).value).value)
    ensures BasicRun(fetch, data, plan) == Ok((Merge(Some(data), fetch(plan[0], false).value).value, 1))
  { }

  // Keys of a reference list

  /** The fields every reference needs for its key. */
  const Required: set<string> := {"title", "first_author", "year"}

  /** `_filter_unstructured(data)`: falsy entries dropped, the text of entries holding an
      `unstructured` field in the second list, the other entries in the first, both in
      order. A truthy entry that is not a mapping raises (it cannot be indexed by a string
      further on). */
  function FilterUnstructured(entries: seq<Value>): (r: Result<(seq<Value>, seq<Value>)>)
    ensures r.Ok? <==> forall i :: 0 <= i < |entries| && Truthy(entries[i]) ==> entries[i].VDict?
    ensures r.Ok? ==> |r.value.0| + |r.value.1| <= |entries|
    decreases |entries|
  {
    if |entries| == 0 then Ok(([], []))
    else
      var e := entries[0];
      var rest := entries[1..];
      assert forall i :: 0 <= i < |rest| ==> rest[i] == entries[i + 1];
      Route(e, FilterUnstructured(rest))
  }

  /** One entry of the filter in front of the rest's outcome: a falsy entry is skipped, a
      truthy entry that is not a mapping raises, and a mapping goes to one of the two lists. */
  function Route(e: Value, tail: Result<(seq<Value>, seq<Value>)>): Result<(seq<Value>, seq<Value>)> {
    if !Truthy(e) then tail
    else if !e.VDict? then Err(TypeError("string indices must be integers"))
    else
      var (structured, unstructured) :- tail;
      if "unstructured" in e.fields then Ok((structured, [e.fields["unstructured"]] + unstructured))
      else Ok(([e] + structured, unstructured))
  }

  /** Routing one entry commutes with appending more entries' lists. */
  lemma RouteAppend(e: Value, x: (seq<Value>, seq<Value>), y: (seq<Value>, seq<Value>))
    requires Route(e, Ok(x)).Ok?
    ensures Route(e, Ok((x.0 + y.0, x.1 + y.1)))
      == Ok((Route(e, Ok(x)).value.0 + y.0, Route(e, Ok(x)).value.1 + y.1))
  {
    if Truthy(e) && "unstructured" in e.fields {
      var u := e.fields["unstructured"];
      assert [u] + (x.1 + y.1) == ([u] + x.1) + y.1;
    } else if Truthy(e) {
      assert [e] + (x.0 + y.0) == ([e] + x.0) + y.0;
    }
  }

  /** The first list holds exactly the truthy mappings without an `unstructured` field,
      and the second the text of every one with it. */
  lemma {:induction false} FilterUnstructuredRoutes(entries: seq<Value>)
    requires FilterUnstructured(entries).Ok?
    ensures forall e :: e in FilterUnstructured(entries).value.0 <==>
      e in entries && Truthy(e) && e.VDict? && "unstructured" !in e.fields
    ensures forall e :: e in entries && Truthy(e) && e.VDict? && "unstructured" in e.fields ==>
      e.fields["unstructured"] in FilterUnstructured(entries).value.1
    decreases |entries|
  {
    if |entries| > 0 {
      var rest := entries[1..];
      FilterUnstructuredRoutes(rest);
      assert forall x :: x in entries <==> x == entries[0] || x in rest;
    }
  }

  /** Filtering distributes over concatenation: the order of the entries is kept in both
      lists. */
  lemma {:induction false} FilterUnstructuredAppend(a: seq<Value>, b: seq<Value>)
    requires FilterUnstructured(a).Ok? && FilterUnstructured(b).Ok?
    ensures FilterUnstructured(a + b) ==
      Ok((FilterUnstructured(a).value.0 + FilterUnstructured(b).value.0,
          FilterUnstructured(a).value.1 + FilterUnstructured(b).value.1))
    decreases |a|
  {
    var fb := FilterUnstructured(b).value;
    if |a| == 0 {
      assert a + b == b;
      assert [] + fb.0 == fb.0 && [] + fb.1 == fb.1;
    } else {
      var fa := FilterUnstructured(a[1..]);
      assert FilterUnstructured(a) == Route(a[0], fa);
      assert (a + b)[1..] == a[1..] + b;
      assert FilterUnstructured(a + b) == Route(a[0], FilterUnstructured(a[1..] + b));
      FilterUnstructuredAppend(a[1..], b);
      RouteAppend(a[0], fa.value, fb);
    }
  }

  /** The start of `_dict_to_sbkey` on a structured entry: the title taken from
      `article-title` (removed) or `title`, then `series-title` when that is falsy; the
      first author derived from `author` when missing; then every required field holding
      `None` removed. */
  function Normalise(m: Record): (r: Result<Record>)
    ensures r.Err? <==>
      ("first_author" !in m && "author" in m &&
       (GetFirstString(m["author"]).Err? || GetAuthor(GetFirstString(m["author"]).value).Err?))
    ensures r.Ok? ==> "article-title" !in r.value
    ensures r.Ok? ==> forall f :: f in Required && f in r.value ==> r.value[f] != VNone
    ensures r.Ok? && Truthy(Get(m, "article-title")) ==> Get(r.value, "title") == m["article-title"]
    ensures r.Ok? && "article-title" !in m && Truthy(Get(m, "title")) ==> Get(r.value, "title") == m["title"]
    ensures r.Ok? && !Truthy(if "article-title" in m then m["article-title"] else Get(m, "title")) ==>
      Get(r.value, "title") == Get(m, "series-title")
    ensures r.Ok? && "first_author" in m ==> Get(r.value, "first_author") == m["first_author"]
    ensures r.Ok? && "first_author" !in m && "author" in m ==>
      Get(r.value, "first_author") == GetAuthor(GetFirstString(m["author"]).value).value
    ensures r.Ok? ==> Get(r.value, "year") == Get(m, "year")
    ensures r.Ok? ==> forall k :: k in m && k !in Required && k != "article-title" ==> k in r.value && r.value[k] == m[k]
  {
    var m2 := TitleStep(m);
    var m3 :- AuthorStep(m2);
    Ok(DropNone(m3))
  }

  /** The title steps of `_dict_to_sbkey`: `article-title` popped into `title` (the current
      title when it is absent), then `series-title` when that is falsy. */
  function TitleStep(m: Record): (r: Record)
    ensures "article-title" !in r && "title" in r
    ensures Truthy(Get(m, "article-title")) ==> r["title"] == m["article-title"]
    ensures "article-title" !in m && Truthy(Get(m, "title")) ==> r["title"] == m["title"]
    ensures !Truthy(if "article-title" in m then m["article-title"] else Get(m, "title")) ==>
      r["title"] == Get(m, "series-title")
    ensures forall k :: k in m && k != "title" && k != "article-title" ==> k in r && r[k] == m[k]
    ensures forall k :: k in r ==> k in m || k == "title"
  {
    var popped := if "article-title" in m then m["article-title"] else Get(m, "title");
    var m1 := (m - {"article-title"})["title" := popped];
    m1["title" := Or(Or(Get(m1, "title"), Get(m1, "article-title")), Get(m1, "series-title"))]
  }

  /** The first author derived from `author` when it is missing; the derivation raises on an
      author list it cannot read. */
  function AuthorStep(m: Record): (r: Result<Record>)
    ensures r.Err? <==>
      ("author" in m && "first_author" !in m &&
       (GetFirstString(m["author"]).Err? || GetAuthor(GetFirstString(m["author"]).value).Err?))
    ensures r.Ok? && ("author" !in m || "first_author" in m) ==> r.value == m
    ensures r.Ok? && "author" in m && "first_author" !in m ==>
      r.value == m["first_author" := GetAuthor(GetFirstString(m["author"]).value).value]
  {
    if "author" in m && "first_author" !in m then
      var first :- GetFirstString(m["author"]);
      var author :- GetAuthor(first);
      Ok(m["first_author" := author])
    else Ok(m)
  }

  /** Every required field holding `None` removed; everything else kept. */
  function DropNone(m: Record): (r: Record)
    ensures forall f :: f in Required && f in r ==> r[f] != VNone
    ensures forall k :: k in r ==> k in m && r[k] == m[k]
    ensures forall k :: k in m && (k !in Required || m[k] != VNone) ==> k in r
  {
    m - set f | f in Required && Get(m, f) == VNone
  }

  /** `_dict_to_sbkey(entry)`: an entry with an `unstructured` field is first replaced by
      what the parser makes of that text; a reference still lacking a required field gets
      its basic data looked up, and yields no key when that fails. `parse` stands for the
      reference parser. */
  function DictToSbKey(fetch: Fetcher, parse: Value -> Value, entry: Value): (r: Result<(Option<string>, seq<Event>)>)
    ensures !entry.VDict? ==> r.Err?
    ensures r.Ok? ==> GoodOutcome(r.value)
    ensures entry.VDict? && "unstructured" in entry.fields && r.Ok? ==>
      |r.value.1| > 0 && r.value.1[0] == ParseReference(entry.fields["unstructured"])
  {
    if !entry.VDict? then Err(TypeError("argument of type is not iterable"))
    else
      var (m, parsed) :- Stub(parse, entry.fields);
      var n :- Normalise(m);
      var (found, calls) :- Complete(fetch, n);
      var events := parsed + Queries(calls);
      NoBatchParse(parsed, calls);
      var key :- KeyOf(found);
      Ok((key, events))
  }

  /** The single parses of a reference followed by its lookups never include the batch
      parse. */
  lemma NoBatchParse(parsed: seq<Event>, calls: seq<Call>)
    requires forall i :: 0 <= i < |parsed| ==> parsed[i].ParseReference?
    ensures forall i :: 0 <= i < |parsed + Queries(calls)| ==> !(parsed + Queries(calls))[i].ParseReferences?
  {
  }

  /** A normalised reference with all required fields as it is; otherwise its basic data. */
  function Complete(fetch: Fetcher, n: Record): (r: Result<(Option<Record>, seq<Call>)>)
  {
    if Required <= n.Keys then Ok((Some(n), []))
    else GetBasicData(fetch, Get(n, "title"), Get(n, "first_author"), Get(n, "doi"), Get(n, "bibcode"))
  }

  /** The end of `_dict_to_sbkey`: no data or no title gives no key; otherwise the key of
      title, first author and year. */
  function KeyOf(found: Option<Record>): (r: Result<Option<string>>)
    ensures found.None? ==> r == Ok(None)
    ensures found.Some? && Required <= found.value.Keys ==>
      r == (var key :- GenerateSbKey(found.value["title"], found.value["first_author"], found.value["year"]); Ok(Some(key)))
    ensures r.Ok? && r.value.Some? ==> |r.value.value| == 32
  {
    match found
    case None => Ok(None)
    case Some(d) =>
      if "title" !in d then Ok(None)
      else
        var author :- Index(d, "first_author");
        var year :- Index(d, "year");
        var key :- GenerateSbKey(d["title"], author, year);
        Ok(Some(key))
  }

  /** A structured reference with title, first author and year needs no lookup: its key is
      made from those fields directly and nothing is queried or parsed. */
  lemma DictToSbKeyComplete(fetch: Fetcher, parse: Value -> Value, m: Record)
    requires "unstructured" !in m && Normalise(m).Ok? && Required <= Normalise(m).value.Keys
    ensures var n := Normalise(m).value;
      DictToSbKey(fetch, parse, VDict(m)) ==
        (var key :- GenerateSbKey(n["title"], n["first_author"], n["year"]); Ok((Some(key), [])))
  {
    var n := Normalise(m).value;
    assert Stub(parse, m) == Ok((m, []));
    assert Complete(fetch, n) == Ok((Some(n), []));
  }

  /** A reference lacking a required field gets the basic data of its title, first author,
      DOI and bibcode; when none is found it yields no key, after exactly the lookups
      `get_basic_data` made. */
  lemma DictToSbKeyIncomplete(fetch: Fetcher, parse: Value -> Value, m: Record)
    requires "unstructured" !in m && Normalise(m).Ok? && !(Required <= Normalise(m).value.Keys)
    requires var n := Normalise(m).value;
      GetBasicData(fetch, Get(n, "title"), Get(n, "first_author"), Get(n, "doi"), Get(n, "bibcode")).Ok?
      && GetBasicData(fetch, Get(n, "title"), Get(n, "first_author"), Get(n, "doi"), Get(n, "bibcode")).value.0.None?
    ensures var n := Normalise(m).value;
      var calls := GetBasicData(fetch, Get(n, "title"), Get(n, "first_author"), Get(n, "doi"), Get(n, "bibcode")).value.1;
      DictToSbKey(fetch, parse, VDict(m)) == Ok((None, Queries(calls)))
  {
    var n := Normalise(m).value;
    assert Stub(parse, m) == Ok((m, []));
    assert [] + Queries(Complete(fetch, n).value.1) == Queries(Complete(fetch, n).value.1);
  }

  /** The reference itself, or what the parser makes of its `unstructured` text (which must
      be a mapping to be used further). */
  function Stub(parse: Value -> Value, m: Record): (r: Result<(Record, seq<Event>)>)
    ensures "unstructured" !in m ==> r == Ok((m, []))
    ensures "unstructured" in m ==> (r.Ok? <==> parse(m["unstructured"]).VDict?)
    ensures "unstructured" in m && r.Ok? ==>
      r.value == (parse(m["unstructured"]).fields, [ParseReference(m["unstructured"])])
  {
    if "unstructured" !in m then Ok((m, []))
    else
      var parsed := parse(m["unstructured"]);
      if parsed.VDict? then Ok((parsed.fields, [ParseReference(m["unstructured"])]))
      else Err(AttributeError("get"))
  }

  /** A reference's outcome as `_dict_to_sbkey` produces it: a key has 32 characters and
      the batch parser is not called. */
  predicate GoodOutcome(x: (Option<string>, seq<Event>)) {
    (x.0.Some? ==> |x.0.value| == 32) && forall i :: 0 <= i < |x.1| ==> !x.1[i].ParseReferences?
  }

  /** The same for a list of references. */
  predicate GoodKeys(x: (seq<string>, seq<Event>)) {
    (forall i :: 0 <= i < |x.0| ==> |x.0[i]| == 32) && forall i :: 0 <= i < |x.1| ==> !x.1[i].ParseReferences?
  }

  /** The loop of `_list_to_sbkey` with `one` resolving each entry: the key of each entry
      in order, entries without a key left out; the first entry that raises ends it. */
  function ListKeys(one: Value -> Result<(Option<string>, seq<Event>)>, entries: seq<Value>)
    : (r: Result<(seq<string>, seq<Event>)>)
    ensures r.Ok? <==> forall i :: 0 <= i < |entries| ==> one(entries[i]).Ok?
    ensures r.Ok? ==> |r.value.0| <= |entries|
    ensures r.Ok? ==> r.value.0 == Flatten(seq(|entries|, i requires 0 <= i < |entries| => KeyPart(one(entries[i]))))
    ensures r.Ok? ==> r.value.1 == Flatten(seq(|entries|, i requires 0 <= i < |entries| => EventPart(one(entries[i]))))
    decreases |entries|
  {
    if |entries| == 0 then Ok(([], []))
    else
      var rest := entries[1..];
      assert forall i :: 0 <= i < |rest| ==> rest[i] == entries[i + 1];
      var keys := seq(|entries|, i requires 0 <= i < |entries| => KeyPart(one(entries[i])));
      var events := seq(|entries|, i requires 0 <= i < |entries| => EventPart(one(entries[i])));
      assert keys[1..] == seq(|rest|, i requires 0 <= i < |rest| => KeyPart(one(rest[i])));
      assert events[1..] == seq(|rest|, i requires 0 <= i < |rest| => EventPart(one(rest[i])));
      Cons(one(entries[0]), ListKeys(one, rest))
  }

  /** The key one entry contributes: none when it has none or raised. */
  function KeyPart(x: Result<(Option<string>, seq<Event>)>): seq<string> {
    if x.Ok? && x.value.0.Some? then [x.value.0.value] else []
  }

  /** The events one entry contributes: none when it raised. */
  function EventPart(x: Result<(Option<string>, seq<Event>)>): seq<Event> {
    if x.Ok? then x.value.1 else []
  }

  /** When every entry's outcome is well formed, so is the list's. */
  lemma {:induction false} ListKeysGood(one: Value -> Result<(Option<string>, seq<Event>)>, entries: seq<Value>)
    requires ListKeys(one, entries).Ok?
    requires forall i :: 0 <= i < |entries| ==> GoodOutcome(one(entries[i]).value)
    ensures GoodKeys(ListKeys(one, entries).value)
    decreases |entries|
  {
    if |entries| > 0 {
      var rest := entries[1..];
      assert forall i :: 0 <= i < |rest| ==> rest[i] == entries[i + 1];
      ListKeysGood(one, rest);
      ConsGood(one(entries[0]), ListKeys(one, rest));
    }
  }

  /** One entry's outcome in front of the rest's: its key, when it has one, and its events
      first; an error in either is the outcome. */
  function Cons(head: Result<(Option<string>, seq<Event>)>, tail: Result<(seq<string>, seq<Event>)>)
    : (r: Result<(seq<string>, seq<Event>)>)
    ensures r.Ok? <==> head.Ok? && tail.Ok?
    ensures r.Ok? ==> r.value.0 == (if head.value.0.Some? then [head.value.0.value] else []) + tail.value.0
    ensures r.Ok? ==> r.value.1 == head.value.1 + tail.value.1
  {
    var (key, events) :- head;
    var (keys, more) :- tail;
    Ok(((if key.Some? then [key.value] else []) + keys, events + more))
  }

  /** Prepending a good outcome to good keys keeps them good. */
  lemma ConsGood(head: Result<(Option<string>, seq<Event>)>, tail: Result<(seq<string>, seq<Event>)>)
    requires head.Ok? && tail.Ok? && GoodOutcome(head.value) && GoodKeys(tail.value)
    ensures GoodKeys(Cons(head, tail).value)
  {
    var r := Cons(head, tail).value;
    var first := if head.value.0.Some? then [head.value.0.value] else [];
    assert forall i :: 0 <= i < |r.0| ==> r.0[i] == if i < |first| then first[i] else tail.value.0[i - |first|];
    assert forall i :: 0 <= i < |r.1| ==>
      r.1[i] == if i < |head.value.1| then head.value.1[i] else tail.value.1[i - |head.value.1|];
  }

  /** Keys of a concatenation are the keys of each part, in order. */
  lemma {:induction false} ListKeysAppend(one: Value -> Result<(Option<string>, seq<Event>)>, a: seq<Value>, b: seq<Value>)
    requires ListKeys(one, a).Ok? && ListKeys(one, b).Ok?
    ensures ListKeys(one, a + b) ==
      Ok((ListKeys(one, a).value.0 + ListKeys(one, b).value.0, ListKeys(one, a).value.1 + ListKeys(one, b).value.1))
    decreases |a|
  {
    var kb := ListKeys(one, b).value;
    if |a| == 0 {
      assert a + b == b;
      assert [] + kb.0 == kb.0 && [] + kb.1 == kb.1;
    } else {
      var head := one(a[0]);
      var ra := ListKeys(one, a[1..]);
      ListKeysUnfold(one, a);
      assert (a + b)[1..] == a[1..] + b && (a + b)[0] == a[0];
      ListKeysUnfold(one, a + b);
      ListKeysAppend(one, a[1..], b);
      ConsAppend(head, ra.value, kb);
    }
  }

  /** The first entry's outcome in front of the rest's. */
  lemma ListKeysUnfold(one: Value -> Result<(Option<string>, seq<Event>)>, entries: seq<Value>)
    requires |entries| > 0
    ensures ListKeys(one, entries) == Cons(one(entries[0]), ListKeys(one, entries[1..]))
  {
  }

  /** Prepending one outcome commutes with appending more keys and events. */
  lemma ConsAppend(head: Result<(Option<string>, seq<Event>)>, x: (seq<string>, seq<Event>), y: (seq<string>, seq<Event>))
    requires head.Ok?
    ensures Cons(head, Ok((x.0 + y.0, x.1 + y.1)))
      == Ok((Cons(head, Ok(x)).value.0 + y.0, Cons(head, Ok(x)).value.1 + y.1))
  {
    var first := if head.value.0.Some? then [head.value.0.value] else [];
    assert first + (x.0 + y.0) == (first + x.0) + y.0;
    assert head.value.1 + (x.1 + y.1) == (head.value.1 + x.1) + y.1;
  }

  /** `_list_to_sbkey(entries)`. */
  function ListToSbKey(fetch: Fetcher, parse: Value -> Value, entries: seq<Value>): (r: Result<(seq<string>, seq<Event>)>)
    ensures r.Ok? <==> forall i :: 0 <= i < |entries| ==> DictToSbKey(fetch, parse, entries[i]).Ok?
    ensures r.Ok? ==> |r.value.0| <= |entries| && GoodKeys(r.value)
  {
    var one := v => DictToSbKey(fetch, parse, v);
    var r := ListKeys(one, entries);
    if r.Ok? then ListKeysGood(one, entries); r else r
  }

  /** Keys of a concatenation are the keys of each part, in order. */
  lemma ListToSbKeyAppend(fetch: Fetcher, parse: Value -> Value, a: seq<Value>, b: seq<Value>)
    requires ListToSbKey(fetch, parse, a).Ok? && ListToSbKey(fetch, parse, b).Ok?
    ensures ListToSbKey(fetch, parse, a + b) ==
      Ok((ListToSbKey(fetch, parse, a).value.0 + ListToSbKey(fetch, parse, b).value.0,
          ListToSbKey(fetch, parse, a).value.1 + ListToSbKey(fetch, parse, b).value.1))
  {
    ListKeysAppend(v => DictToSbKey(fetch, parse, v), a, b);
  }

  /** Some truthy entry is a mapping with an `unstructured` field. */
  predicate HasUnstructured(entries: seq<Value>) {
    exists i :: 0 <= i < |entries| && Truthy(entries[i]) && entries[i].VDict? && "unstructured" in entries[i].fields
  }

  /** `generate_sbkey(entries)` on a list: the unstructured texts go to the parser in one
      batch, only when there are any; then the keys of the structured entries followed by
      those of the parsed ones. */
  function ReferenceKeys(fetch: Fetcher, parse: Value -> Value, entries: seq<Value>): (r: Result<(seq<string>, seq<Event>)>)
    ensures r.Ok? ==> forall i :: 0 <= i < |r.value.0| ==> |r.value.0[i]| == 32
    ensures r.Ok? ==> (HasUnstructured(entries) <==> |r.value.1| > 0 && r.value.1[0].ParseReferences?)
    ensures r.Ok? ==> forall i :: 1 <= i < |r.value.1| ==> !r.value.1[i].ParseReferences?
  {
    var (structured, unstructured) :- FilterUnstructured(entries);
    UnstructuredFound(entries);
    if |unstructured| > 0 then
      var parsed := parse(VList(unstructured));
      if !parsed.VList? then Err(TypeError("can only concatenate list to list"))
      else
        var (keys, events) :- ListToSbKey(fetch, parse, structured + parsed.items);
        Ok((keys, [ParseReferences(unstructured)] + events))
    else ListToSbKey(fetch, parse, structured)
  }

  /** The second list of the filter is non-empty exactly when some entry is unstructured. */
  lemma {:induction false} UnstructuredFound(entries: seq<Value>)
    requires FilterUnstructured(entries).Ok?
    ensures |FilterUnstructured(entries).value.1| > 0 <==> HasUnstructured(entries)
    decreases |entries|
  {
    if |entries| > 0 {
      var rest := entries[1..];
      UnstructuredFound(rest);
      if HasUnstructured(rest) {
        var i :| 0 <= i < |rest| && Truthy(rest[i]) && rest[i].VDict? && "unstructured" in rest[i].fields;
        assert rest[i] == entries[i + 1];
      }
      if HasUnstructured(entries) && !HasUnstructured(rest) {
        var i :| 0 <= i < |entries| && Truthy(entries[i]) && entries[i].VDict? && "unstructured" in entries[i].fields;
        if i > 0 { assert entries[i] == rest[i - 1]; }
      }
    }
  }

  /** The keys come out as the structured entries' keys followed by the parsed entries'. */
  lemma ReferenceKeysOrder(fetch: Fetcher, parse: Value -> Value, entries: seq<Value>)
    requires FilterUnstructured(entries).Ok?
    requires var (structured, unstructured) := FilterUnstructured(entries).value;
      |unstructured| > 0 && parse(VList(unstructured)).VList?
      && ListToSbKey(fetch, parse, structured).Ok? && ListToSbKey(fetch, parse, parse(VList(unstructured)).items).Ok?
    ensures var (structured, unstructured) := FilterUnstructured(entries).value;
      ReferenceKeys(fetch, parse, entries).Ok?
      && ReferenceKeys(fetch, parse, entries).value.0 ==
           ListToSbKey(fetch, parse, structured).value.0 + ListToSbKey(fetch, parse, parse(VList(unstructured)).items).value.0
  {
    var (structured, unstructured) := FilterUnstructured(entries).value;
    ListToSbKeyAppend(fetch, parse, structured, parse(VList(unstructured)).items);
  }

  // The article's data

  /** The fields `get_data` starts from. */
  const ArticleKeys: set<string> :=
    {"title", "author", "first_author", "year", "arxiv_id", "arxiv_doi", "arxiv_summary",
     "crossref_doi", "crossref_abstract", "crossref_reference",
     "ads_bibcode", "ads_doi", "ads_abstract", "ads_reference"}

  /** The starting data: title, author and first author given, every other field `None`. */
  function Initial(title: Value, author: Value, firstAuthor: Value): (r: Record)
    ensures r.Keys == ArticleKeys
    ensures r["title"] == title && r["author"] == author && r["first_author"] == firstAuthor
    ensures forall k :: k in ArticleKeys - {"title", "author", "first_author"} ==> r[k] == VNone
  {
    map k | k in ArticleKeys ::
      if k == "title" then title else if k == "author" then author
      else if k == "first_author" then firstAuthor else VNone
  }

  /** `value or []` as a list; anything else truthy cannot be added to a list. */
  function ListOr(v: Value): (r: Result<seq<Value>>)
    ensures !Truthy(v) ==> r == Ok([])
    ensures v.VList? ==> r == Ok(v.items)
    ensures r.Ok? <==> !Truthy(v) || v.VList?
  {
    if !Truthy(v) then Ok([]) else if v.VList? then Ok(v.items) else Err(TypeError("can only concatenate list to list"))
  }

  function KeyValues(keys: seq<string>): (r: seq<Value>)
    ensures |r| == |keys| && forall i :: 0 <= i < |keys| ==> r[i] == VStr(keys[i])
  {
    seq(|keys|, i requires 0 <= i < |keys| => VStr(keys[i]))
  }

  /** The lookups of `get_data` before the keys: by title, then the fallbacks. The data
      keeps every starting field, and a truthy title or first author is never replaced. */
  function Collect(fetch: Fetcher, title: Value, author: Value, first: Value): (r: Result<(Record, seq<Call>)>)
    ensures r.Ok? ==> ArticleKeys <= r.value.0.Keys
    ensures r.Ok? && Truthy(title) ==> Get(r.value.0, "title") == title
    ensures r.Ok? && Truthy(first) ==> Get(r.value.0, "first_author") == first
  {
    var start := Initial(title, author, first);
    var (d1, titleCalls) :- TitleData(fetch, start);
    var (d2, fallbackCalls) :- MissingData(fetch, d1);
    Ok((d2, titleCalls + fallbackCalls))
  }

  /** The first three lookups are the ones by title, arXiv, Crossref, then ADS. */
  lemma CollectTitleFirst(fetch: Fetcher, title: Value, author: Value, first: Value)
    requires Collect(fetch, title, author, first).Ok?
    ensures var calls := Collect(fetch, title, author, first).value.1;
      |calls| >= 3 && calls[0] == ArxivTitle(title, first)
      && calls[1] == CrossrefTitle(title, first) && calls[2] == AdsTitle(title, first)
  {
    var start := Initial(title, author, first);
    assert start["title"] == title && start["first_author"] == first;
    var titleCalls := TitleData(fetch, start).value.1;
    assert titleCalls == [ArxivTitle(title, first), CrossrefTitle(title, first), AdsTitle(title, first)];
    var fallbackCalls := MissingData(fetch, TitleData(fetch, start).value.0).value.1;
    assert Collect(fetch, title, author, first).value.1 == titleCalls + fallbackCalls;
  }

  /** The two fields holding the article's reference lists. */
  const ReferenceFields: set<string> := {"crossref_reference", "ads_reference"}

  /** The article's references, Crossref's then ADS's, each `None` or empty one skipped; a
      missing field raises. */
  function References(d: Record): (r: Result<seq<Value>>)
    ensures r.Ok? <==> ("crossref_reference" in d && "ads_reference" in d
                        && ListOr(d["crossref_reference"]).Ok? && ListOr(d["ads_reference"]).Ok?)
    ensures r.Ok? ==> r.value == ListOr(d["crossref_reference"]).value + ListOr(d["ads_reference"]).value
  {
    var c :- Index(d, "crossref_reference");
    var a :- Index(d, "ads_reference");
    var crossref :- ListOr(c);
    var ads :- ListOr(a);
    Ok(crossref + ads)
  }

  /** A reference `_dict_to_sbkey` works on in place: a truthy mapping without an
      `unstructured` field. */
  predicate Structured(e: Value) {
    Truthy(e) && e.VDict? && "unstructured" !in e.fields
  }

  /** A reference as `_dict_to_sbkey` leaves it: a structured one normalised, any other as it
      was. */
  function InPlace(e: Value): Value {
    if Structured(e) && Normalise(e.fields).Ok? then VDict(Normalise(e.fields).value) else e
  }

  /** A reference list with every entry as `_dict_to_sbkey` leaves it. */
  function InPlaceList(v: Value): (r: Value)
    ensures v.VList? ==> (r.VList? && |r.items| == |v.items|
                          && forall i :: 0 <= i < |v.items| ==> r.items[i] == InPlace(v.items[i]))
    ensures !v.VList? ==> r == v
  {
    if v.VList? then VList(seq(|v.items|, i requires 0 <= i < |v.items| => InPlace(v.items[i]))) else v
  }

  /** `after` is the list `before` once each of its structured references has been
      normalised where it stands: the same length, each structured entry replaced by what
      `Normalise` makes of it, every other entry unchanged; a value that is not a list is
      unchanged. */
  ghost predicate NormalisedIn(before: Value, after: Value) {
    if before.VList? then
      && after.VList? && |after.items| == |before.items|
      && forall i :: 0 <= i < |before.items| ==>
           if Structured(before.items[i]) then
             Normalise(before.items[i].fields).Ok? && after.items[i] == VDict(Normalise(before.items[i].fields).value)
           else after.items[i] == before.items[i]
    else after == before
  }

  /** A reference in normal form: no `article-title`, and no required field holding `None`. */
  predicate NormalForm(m: Record) {
    "article-title" !in m && forall f :: f in Required && f in m ==> m[f] != VNone
  }

  /** Every structured reference of a list is in normal form. */
  predicate NormalForms(v: Value) {
    v.VList? ==> forall i :: 0 <= i < |v.items| && Structured(v.items[i]) ==> NormalForm(v.items[i].fields)
  }

  /** A list normalised in place holds only normal forms. */
  lemma NormalisedForms(before: Value, after: Value)
    requires NormalisedIn(before, after)
    ensures NormalForms(after)
  {
    if before.VList? {
      forall i | 0 <= i < |after.items| && Structured(after.items[i]) ensures NormalForm(after.items[i].fields) {
        if Structured(before.items[i]) {
          var n := Normalise(before.items[i].fields).value;
          assert after.items[i] == VDict(n);
        }
      }
    }
  }

  /** A structured reference that yields an outcome was normalised without error. */
  lemma DictToSbKeyNormalises(fetch: Fetcher, parse: Value -> Value, e: Value)
    requires Structured(e) && DictToSbKey(fetch, parse, e).Ok?
    ensures Normalise(e.fields).Ok?
  {
    assert Stub(parse, e.fields) == Ok((e.fields, []));
  }

  /** When the keys of a reference list are made, every structured reference in it was
      normalised without error. */
  lemma ReferenceKeysNormalise(fetch: Fetcher, parse: Value -> Value, refs: seq<Value>)
    requires ReferenceKeys(fetch, parse, refs).Ok?
    ensures forall i :: 0 <= i < |refs| && Structured(refs[i]) ==> Normalise(refs[i].fields).Ok?
  {
    var (structured, unstructured) := FilterUnstructured(refs).value;
    FilterUnstructuredRoutes(refs);
    var all := if |unstructured| > 0 then structured + parse(VList(unstructured)).items else structured;
    assert ListToSbKey(fetch, parse, all).Ok?;
    forall i | 0 <= i < |refs| && Structured(refs[i]) ensures Normalise(refs[i].fields).Ok? {
      assert refs[i] in structured;
      var j :| 0 <= j < |structured| && structured[j] == refs[i];
      assert all[j] == refs[i];
      DictToSbKeyNormalises(fetch, parse, refs[i]);
    }
  }

  /** With every structured reference normalisable, both reference lists are normalised in
      place. */
  lemma NormalisedLists(data: Record)
    requires References(data).Ok?
    requires var refs := References(data).value;
      forall i :: 0 <= i < |refs| && Structured(refs[i]) ==> Normalise(refs[i].fields).Ok?
    ensures NormalisedIn(data["crossref_reference"], InPlaceList(data["crossref_reference"]))
    ensures NormalisedIn(data["ads_reference"], InPlaceList(data["ads_reference"]))
  {
    var refs := References(data).value;
    var c, a := data["crossref_reference"], data["ads_reference"];
    var crossref := ListOr(c).value;
    if c.VList? {
      forall i | 0 <= i < |c.items| && Structured(c.items[i]) ensures Normalise(c.items[i].fields).Ok? {
        assert refs[i] == c.items[i];
      }
    }
    if a.VList? {
      forall i | 0 <= i < |a.items| && Structured(a.items[i]) ensures Normalise(a.items[i].fields).Ok? {
        assert refs[|crossref| + i] == a.items[i];
      }
    }
  }

  /** Every element is a key: a string of 32 characters. */
  predicate KeyList(v: Value) {
    v.VList? && forall i :: 0 <= i < |v.items| ==> v.items[i].VStr? && |v.items[i].s| == 32
  }

  /** The data carries its own key, made from its title, first author and year, and a list
      of reference keys. */
  predicate KeyedData(d: Record) {
    "key" in d && "ref" in d
    && GenerateSbKey(Get(d, "title"), Get(d, "first_author"), Get(d, "year")).Ok?
    && d["key"] == VStr(GenerateSbKey(Get(d, "title"), Get(d, "first_author"), Get(d, "year")).value)
    && KeyList(d["ref"])
  }

  /** The end of `get_data`: the article's key from its title, first author and year,
      and the keys of its references. Making those keys normalises each structured
      reference where it stands, inside the article's own reference lists; nothing else
      changes. */
  function Keyed(fetch: Fetcher, parse: Value -> Value, data: Record): (r: Result<(Record, seq<Event>)>)
    requires Required <= data.Keys
    ensures r.Ok? ==> r.value.0.Keys == data.Keys + {"key", "ref"} && KeyedData(r.value.0)
    ensures r.Ok? ==> forall f :: f in ReferenceFields ==> f in data && NormalisedIn(data[f], r.value.0[f])
    ensures r.Ok? ==> forall k :: k in data && k !in {"key", "ref"} && k !in ReferenceFields ==> r.value.0[k] == data[k]
    ensures r.Ok? ==> r.value.0["title"] == data["title"] && r.value.0["first_author"] == data["first_author"]
    ensures r.Ok? ==> References(data).Ok? && ReferenceKeys(fetch, parse, References(data).value).Ok?
    ensures r.Ok? ==> var keys := ReferenceKeys(fetch, parse, References(data).value).value;
      r.value.0["ref"] == VList(KeyValues(keys.0)) && r.value.1 == keys.1
  {
    var key :- GenerateSbKey(data["title"], data["first_author"], data["year"]);
    var refs :- References(data);
    var (keys, refEvents) :- ReferenceKeys(fetch, parse, refs);
    ReferenceKeysNormalise(fetch, parse, refs);
    TouchedLists(data);
    var t := Touched(data);
    assert t["title"] == data["title"] && t["first_author"] == data["first_author"] && t["year"] == data["year"];
    KeyedRecord(t, key, keys);
    KeyedOutcome(data, key, keys);
    Ok((WithKeys(t, key, keys), refEvents))
  }

  /** The data with both reference lists normalised in place. */
  function Touched(data: Record): (r: Record)
    requires ReferenceFields <= data.Keys
    ensures r.Keys == data.Keys
    ensures r["crossref_reference"] == InPlaceList(data["crossref_reference"])
    ensures r["ads_reference"] == InPlaceList(data["ads_reference"])
    ensures forall k :: k in data && k !in ReferenceFields ==> r[k] == data[k]
  {
    data["crossref_reference" := InPlaceList(data["crossref_reference"])]
        ["ads_reference" := InPlaceList(data["ads_reference"])]
  }

  /** The data with its own key and its references' keys added. */
  function WithKeys(data: Record, key: string, keys: seq<string>): Record {
    data["key" := VStr(key)]["ref" := VList(KeyValues(keys))]
  }

  /** What `Keyed` returns, field by field, once the reference lists are normalised in
      place. */
  lemma KeyedOutcome(data: Record, key: string, keys: seq<string>)
    requires Required <= data.Keys && ReferenceFields <= data.Keys
    requires forall f :: f in ReferenceFields ==> NormalisedIn(data[f], Touched(data)[f])
    ensures var d := WithKeys(Touched(data), key, keys);
      && d.Keys == data.Keys + {"key", "ref"}
      && (forall f :: f in ReferenceFields ==> NormalisedIn(data[f], d[f]))
      && (forall k :: k in data && k !in {"key", "ref"} && k !in ReferenceFields ==> d[k] == data[k])
      && d["title"] == data["title"] && d["first_author"] == data["first_author"]
  {
    var t := Touched(data);
    var d := WithKeys(t, key, keys);
    assert d.Keys == t.Keys + {"key", "ref"};
    assert forall k :: k in t && k !in {"key", "ref"} ==> d[k] == t[k];
    UpdateTwice(data, t, d, ReferenceFields, {"key", "ref"});
  }

  /** Two rounds of updates on disjoint sets of fields: the second round's fields are added,
      the first round's hold what it wrote, and every other field is as it was. */
  lemma UpdateTwice(data: Record, t: Record, d: Record, first: set<string>, second: set<string>)
    requires first !! second
    requires t.Keys == data.Keys && forall k :: k in data && k !in first ==> t[k] == data[k]
    requires d.Keys == t.Keys + second && forall k :: k in t && k !in second ==> d[k] == t[k]
    ensures d.Keys == data.Keys + second
    ensures forall k :: k in data && k !in second && k !in first ==> d[k] == data[k]
    ensures forall k :: k in first && k in t ==> d[k] == t[k]
  {
  }

  /** Both reference lists of the touched data are the data's, normalised in place. */
  lemma TouchedLists(data: Record)
    requires References(data).Ok?
    requires var refs := References(data).value;
      forall i :: 0 <= i < |refs| && Structured(refs[i]) ==> Normalise(refs[i].fields).Ok?
    ensures forall f :: f in ReferenceFields ==> f in data && NormalisedIn(data[f], Touched(data)[f])
  {
    NormalisedLists(data);
  }

  lemma KeyedRecord(data: Record, key: string, keys: seq<string>)
    requires Required <= data.Keys
    requires GenerateSbKey(data["title"], data["first_author"], data["year"]) == Ok(key)
    requires forall i :: 0 <= i < |keys| ==> |keys[i]| == 32
    ensures var d := WithKeys(data, key, keys);
      d.Keys == data.Keys + {"key", "ref"} && KeyedData(d)
      && forall k :: k in data && k !in {"key", "ref"} ==> d[k] == data[k]
  {
    var d := WithKeys(data, key, keys);
    assert Get(d, "title") == data["title"] && Get(d, "first_author") == data["first_author"];
    assert Get(d, "year") == data["year"];
  }

  /** `get_data(title, author)`: the title lookups, the fallbacks for missing references,
      the article's key, and the keys of its Crossref and ADS references, which leave every
      structured reference in those lists in normal form. */
  function GetData(fetch: Fetcher, parse: Value -> Value, title: Value, author: Value): (r: Result<(Record, seq<Event>)>)
    ensures r.Ok? ==> GetFirstString(author).Ok?
    ensures r.Ok? ==> ArticleKeys <= r.value.0.Keys && KeyedData(r.value.0)
    ensures r.Ok? && Truthy(title) ==> Get(r.value.0, "title") == title
    ensures r.Ok? && Truthy(GetFirstString(author).value) ==>
      Get(r.value.0, "first_author") == GetFirstString(author).value
    ensures r.Ok? ==> forall f :: f in ReferenceFields ==> f in r.value.0 && NormalForms(r.value.0[f])
    ensures r.Ok? ==> var c := Collect(fetch, title, author, GetFirstString(author).value);
      c.Ok? && References(c.value.0).Ok? && ReferenceKeys(fetch, parse, References(c.value.0).value).Ok?
      && r.value.0["ref"] == VList(KeyValues(ReferenceKeys(fetch, parse, References(c.value.0).value).value.0))
  {
    var first :- GetFirstString(author);
    var (collected, calls) :- Collect(fetch, title, author, first);
    RequiredInArticle();
    SubsetTrans(Required, ArticleKeys, collected.Keys);
    var (d, refEvents) :- Keyed(fetch, parse, collected);
    KeysGrow(ArticleKeys, collected.Keys, {"key", "ref"});
    assert Get(d, "title") == Get(collected, "title");
    assert Get(d, "first_author") == Get(collected, "first_author");
    KeyedForms(collected, d);
    Ok((d, Queries(calls) + refEvents))
  }

  /** Reference lists normalised in place hold only normal forms. */
  lemma KeyedForms(data: Record, d: Record)
    requires forall f :: f in ReferenceFields ==> f in data && f in d && NormalisedIn(data[f], d[f])
    ensures forall f :: f in ReferenceFields ==> NormalForms(d[f])
  {
    forall f | f in ReferenceFields ensures NormalForms(d[f]) {
      NormalisedForms(data[f], d[f]);
    }
  }

  lemma RequiredInArticle()
    ensures Required <= ArticleKeys
  {
  }

  lemma SubsetTrans(a: set<string>, b: set<string>, c: set<string>)
    requires a <= b && b <= c
    ensures a <= c
  {
  }

  lemma KeysGrow(a: set<string>, b: set<string>, c: set<string>)
    requires a <= b
    ensures a <= b + c
  {
  }
}

=== FILE: sbkey.dfy ===
/** The 32-character identity key ("SBKey") of an article: 6 characters of the first author's
    last name, 4 of the year, 6 of the first title word and 16 title-word initials. */
module SbKey {
  import opened Wrappers
  import opened Values
  import opened Strings
  import opened Text

  predicate NotAlnum(c: char) { !IsAlnum(c) }

  /** `re.sub(r"[^a-zA-Z0-9]+", ' ', s)`: each maximal run of other characters becomes one
      space. */
  function SubNonAlnum(s: string): (r: string)
    ensures forall i :: 0 <= i < |r| ==> IsAlnum(r[i]) || r[i] == ' '
    ensures |s| > 0 && NotAlnum(s[0]) ==> |r| > 0 && r[0] == ' '
    decreases |s|
  {
    if |s| == 0 then ""
    else if IsAlnum(s[0]) then [s[0]] + SubNonAlnum(s[1..])
    else
      var n := RunLength(s, NotAlnum);
      " " + SubNonAlnum(s[n..])
  }

  /** `clean_text(s)`: the substitution above, lower-cased. Unlike `TextUtils.clean` it keeps
      a leading and a trailing space. */
  function CleanText(s: string): string {
    LowerStr(SubNonAlnum(s))
  }

  /** `clean_text` on any value: a non-string raises in `re.sub`. */
  function CleanTextValue(v: Value): (r: Result<string>)
    ensures r.Ok? <==> v.VStr?
    ensures v.VStr? ==> r.value == CleanText(v.s)
  {
    if v.VStr? then Ok(CleanText(v.s)) else Err(TypeError("expected string or bytes-like object"))
  }

  lemma {:induction false} SubAlnumPrefix(w: string, t: string)
    requires forall i :: 0 <= i < |w| ==> IsAlnum(w[i])
    ensures SubNonAlnum(w + t) == w + SubNonAlnum(t)
    decreases |w|
  {
    if |w| > 0 {
      SubAlnumPrefix(w[1..], t);
      assert w + t == [w[0]] + (w[1..] + t);
      SubAlnumCons(w[0], w[1..] + t);
      assert [w[0]] + (w[1..] + SubNonAlnum(t)) == w + SubNonAlnum(t);
    } else {
      assert w + t == t;
    }
  }

  /** A letter or digit in front passes through the substitution. */
  lemma SubAlnumCons(c: char, rest: string)
    requires IsAlnum(c)
    ensures SubNonAlnum([c] + rest) == [c] + SubNonAlnum(rest)
  {
    assert ([c] + rest)[1..] == rest;
  }

  lemma LowerAppend(a: string, b: string)
    ensures LowerStr(a + b) == LowerStr(a) + LowerStr(b)
  {
  }

  /** Splitting `clean_text(s)` on whitespace yields exactly the words `TextUtils.clean` sees:
      the lower-cased alphanumeric runs of `s`. */
  lemma {:induction false} CleanTextWords(s: string)
    ensures Words(CleanText(s)) == CleanWords(s)
    decreases |s|
  {
    if |s| == 0 {
    } else if !IsAlnum(s[0]) {
      var n := RunLength(s, NotAlnum);
      CleanTextWords(s[n..]);
      CleanTextWordsGap(s, n);
    } else {
      var m := RunLength(s, IsAlnum);
      CleanTextWords(s[m..]);
      CleanTextWordsWord(s, m);
    }
  }

  lemma CleanTextWordsGap(s: string, n: nat)
    requires |s| > 0 && !IsAlnum(s[0]) && n == RunLength(s, NotAlnum)
    requires Words(CleanText(s[n..])) == CleanWords(s[n..])
    ensures Words(CleanText(s)) == CleanWords(s)
  {
    TokensSkip(s, n, IsAlnum);
    var rest := SubNonAlnum(s[n..]);
    assert SubNonAlnum(s) == " " + rest;
    LowerAppend(" ", rest);
    assert LowerStr(" ") == " ";
    TokensSkip(" " + LowerStr(rest), 1, NotSpace);
    assert (" " + LowerStr(rest))[1..] == LowerStr(rest);
  }

  lemma CleanTextWordsWord(s: string, m: nat)
    requires |s| > 0 && IsAlnum(s[0]) && m == RunLength(s, IsAlnum)
    requires Words(CleanText(s[m..])) == CleanWords(s[m..])
    ensures Words(CleanText(s)) == CleanWords(s)
  {
    var w, t := s[..m], s[m..];
    var lw, lt := LowerStr(w), LowerStr(SubNonAlnum(t));
    CleanTextSplit(s, m);
    WordThenGap(s, m);
    TokensWord(lw, lt, NotSpace);
    CleanWordsSplit(s, m);
  }

  lemma WordThenGap(s: string, m: nat)
    requires |s| > 0 && IsAlnum(s[0]) && m == RunLength(s, IsAlnum)
    ensures |LowerStr(s[..m])| > 0 && forall i :: 0 <= i < m ==> NotSpace(LowerStr(s[..m])[i])
    ensures var lt := LowerStr(SubNonAlnum(s[m..])); |lt| > 0 ==> !NotSpace(lt[0])
  {
  }

  lemma CleanTextSplit(s: string, m: nat)
    requires m == RunLength(s, IsAlnum)
    ensures CleanText(s) == LowerStr(s[..m]) + LowerStr(SubNonAlnum(s[m..]))
  {
    assert s == s[..m] + s[m..];
    SubAlnumPrefix(s[..m], s[m..]);
    LowerAppend(s[..m], SubNonAlnum(s[m..]));
  }

  lemma CleanWordsSplit(s: string, m: nat)
    requires |s| > 0 && IsAlnum(s[0]) && m == RunLength(s, IsAlnum)
    ensures CleanWords(s) == [LowerStr(s[..m])] + CleanWords(s[m..])
  {
    var ts := Tokens(s[m..], IsAlnum);
    assert Tokens(s, IsAlnum) == [s[..m]] + ts;
    assert ([s[..m]] + ts)[1..] == ts;
  }

  /** `TextUtils.clean` is `clean_text` with the words re-joined by single spaces. */
  lemma CleanIsJoinedCleanText(s: string)
    ensures Clean(s) == Join(" ", Words(CleanText(s)))
  {
    CleanTextWords(s);
  }

  /** `verify_entry`: a string is itself, a list is reduced to its first element (an empty
      list raises), and anything else is `""`. */
  function VerifyEntry(v: Value): (r: Result<string>)
    ensures v.VStr? ==> r == Ok(v.s)
    ensures !v.VStr? && !v.VList? ==> r == Ok("")
    ensures v.VList? && |v.items| == 0 ==> r == Err(IndexError)
    ensures v.VList? && |v.items| > 0 ==> r == VerifyEntry(v.items[0])
    decreases v
  {
    match v
    case VStr(s) => Ok(s)
    case VList(xs) => if |xs| == 0 then Err(IndexError) else VerifyEntry(xs[0])
    case _ => Ok("")
  }

  /** `verify_entry` agrees with `get_first_string` on a string and on a list that starts
      with a string. */
  lemma VerifyEntryFirstString(v: Value)
    requires v.VStr? || (v.VList? && |v.items| > 0 && v.items[0].VStr?)
    ensures GetFirstString(v).Ok? && GetFirstString(v).value.VStr?
    ensures VerifyEntry(v) == Ok(GetFirstString(v).value.s)
  {
  }

  function Dots(n: nat): (r: string)
    ensures |r| == n && forall i :: 0 <= i < n ==> r[i] == '.'
  {
    seq(n, _ => '.')
  }

  function DotForSpace(c: char): char {
    if c == ' ' then '.' else c
  }

  /** `_format_entry(s, n)`: lower-case, pad on the right with '.', cut to `n` characters, and
      turn every space into '.'. */
  function FormatEntry(s: string, n: nat): (r: string)
    ensures |r| == n
    ensures forall i :: 0 <= i < n && i < |s| ==> r[i] == DotForSpace(LowerChar(s[i]))
    ensures forall i :: |s| <= i < n ==> r[i] == '.'
  {
    var lower := LowerStr(s);
    var padded := if |lower| < n then lower + Dots(n - |lower|) else lower;
    seq(n, i requires 0 <= i < n => DotForSpace(padded[i]))
  }

  /** A formatted entry holds only '.' and lower-case letters and digits when `s` holds only
      letters, digits, spaces and dots. */
  lemma FormatEntryAlphabet(s: string, n: nat)
    requires forall i :: 0 <= i < |s| ==> IsAlnum(s[i]) || s[i] == ' ' || s[i] == '.'
    ensures forall i :: 0 <= i < n ==> IsKeyChar(FormatEntry(s, n)[i])
  {
  }

  predicate IsKeyChar(c: char) {
    IsLowerAlnum(c) || c == '.'
  }

  /** The first characters of the given words, concatenated. */
  function Initials(ws: seq<string>): (r: string)
    requires forall k :: 0 <= k < |ws| ==> |ws[k]| > 0
    ensures |r| == |ws|
    ensures forall k :: 0 <= k < |ws| ==> r[k] == ws[k][0]
  {
    if |ws| == 0 then "" else [ws[0][0]] + Initials(ws[1..])
  }

  /** The author segment: the first word of `clean_text(author)`, or "." for a falsy author.
      A truthy non-string raises `TypeError`, a string without letters or digits `IndexError`. */
  function AuthorPart(author: Value): (r: Result<string>)
    ensures !Truthy(author) ==> r == Ok(".")
    ensures Truthy(author) ==> (r.Ok? <==> author.VStr? && |CleanWords(author.s)| > 0)
    ensures Truthy(author) && r.Ok? ==> r.value == CleanWords(author.s)[0]
  {
    if !Truthy(author) then Ok(".")
    else
      var c :- CleanTextValue(author);
      CleanTextWords(author.s);
      var words := Words(c);
      if |words| == 0 then Err(IndexError) else Ok(words[0])
  }

  /** The year segment before formatting: `str(year)` when it is all digits, else ".". */
  function YearPart(year: Value): (r: string)
    ensures IsDigits(Format(year)) ==> r == Format(year)
    ensures !IsDigits(Format(year)) ==> r == "."
  {
    var y := Format(year);
    if IsDigits(y) then y else "."
  }

  /** `generate_sbkey(title, author, year)` of `src/paper_rel_gen.py`, without the write to
      the article table. */
  function GenerateSbKey(title: Value, author: Value, year: Value): (r: Result<string>)
    ensures r.Ok? <==> AuthorPart(author).Ok? && title.VStr? && |CleanWords(title.s)| > 0
    ensures r.Ok? ==> |r.value| == 32
  {
    var last :- AuthorPart(author);
    var t :- CleanTextValue(title);
    CleanTextWords(title.s);
    var words := Words(t);
    if |words| == 0 then Err(IndexError)
    else
      Ok(FormatEntry(last, 6) + FormatEntry(YearPart(year), 4)
        + FormatEntry(words[0], 6) + FormatEntry(Initials(words), 16))
  }

  /** The four fixed-width segments of a key: six characters of the author's last name,
      four of the year, six of the first title word and sixteen of the title's initials. */
  lemma KeyLayout(title: Value, author: Value, year: Value)
    requires GenerateSbKey(title, author, year).Ok?
    ensures var key := GenerateSbKey(title, author, year).value;
      var ws := CleanWords(title.s);
      key[..6] == FormatEntry(AuthorPart(author).value, 6) &&
      key[6..10] == FormatEntry(YearPart(year), 4) &&
      key[10..16] == FormatEntry(ws[0], 6) &&
      key[16..] == FormatEntry(Initials(ws), 16)
  {
    var ws := CleanWords(title.s);
    KeySegments(title.s, author, year, AuthorPart(author).value, ws);
    var key := GenerateSbKey(title, author, year).value;
    assert key[..6] == FormatEntry(AuthorPart(author).value, 6);
    assert key[6..10] == FormatEntry(YearPart(year), 4);
    assert key[10..16] == FormatEntry(ws[0], 6);
  }

  /** Every character of a key is a lower-case letter, a digit or '.'. */
  lemma {:induction false} KeyAlphabet(title: Value, author: Value, year: Value)
    requires GenerateSbKey(title, author, year).Ok?
    ensures forall i :: 0 <= i < 32 ==> IsKeyChar(GenerateSbKey(title, author, year).value[i])
  {
    var ws := CleanWords(title.s);
    var a := AuthorPart(author).value;
    assert forall i :: 0 <= i < |a| ==> IsAlnum(a[i]) || a[i] == '.' by {
      if Truthy(author) { assert IsCleanWord(a); }
    }
    var y := YearPart(year);
    assert forall i :: 0 <= i < |y| ==> IsAlnum(y[i]) || y[i] == '.' by {
      if IsDigits(Format(year)) { assert y == Format(year); }
    }
    assert IsCleanWord(ws[0]);
    var ini := Initials(ws);
    assert forall i :: 0 <= i < |ini| ==> IsAlnum(ini[i]) || ini[i] == ' ' by {
      forall i | 0 <= i < |ini| ensures IsAlnum(ini[i]) {
        assert IsCleanWord(ws[i]);
      }
    }
    FormatEntryAlphabet(a, 6);
    FormatEntryAlphabet(y, 4);
    FormatEntryAlphabet(ws[0], 6);
    FormatEntryAlphabet(ini, 16);
    var p1, p2, p3, p4 := FormatEntry(a, 6), FormatEntry(y, 4), FormatEntry(ws[0], 6), FormatEntry(ini, 16);
    KeySegments(title.s, author, year, a, ws);
    JoinAlphabet(p1, p2, p3, p4);
  }

  /** Four segments of key characters join into a 32-character string of key characters. */
  lemma JoinAlphabet(p1: string, p2: string, p3: string, p4: string)
    requires |p1| == 6 && |p2| == 4 && |p3| == 6 && |p4| == 16
    requires forall i :: 0 <= i < 6 ==> IsKeyChar(p1[i])
    requires forall i :: 0 <= i < 4 ==> IsKeyChar(p2[i])
    requires forall i :: 0 <= i < 6 ==> IsKeyChar(p3[i])
    requires forall i :: 0 <= i < 16 ==> IsKeyChar(p4[i])
    ensures forall i :: 0 <= i < 32 ==> IsKeyChar((p1 + p2 + p3 + p4)[i])
  {
    var key := p1 + p2 + p3 + p4;
    forall i | 0 <= i < 32 ensures IsKeyChar(key[i]) {
      if i < 6 { assert key[i] == p1[i]; }
      else if i < 10 { assert key[i] == p2[i - 6]; }
      else if i < 16 { assert key[i] == p3[i - 10]; }
      else { assert key[i] == p4[i - 16]; }
    }
  }

  /** A four-digit year appears verbatim in characters 6 to 9 of the key. */
  lemma KeyYear(title: Value, author: Value, year: Value)
    requires GenerateSbKey(title, author, year).Ok?
    requires |Format(year)| == 4 && IsDigits(Format(year))
    ensures GenerateSbKey(title, author, year).value[6..10] == Format(year)
  {
    KeyLayout(title, author, year);
    var y := Format(year);
    assert forall i :: 0 <= i < 4 ==> LowerChar(y[i]) == y[i] && DotForSpace(y[i]) == y[i];
  }

  /** Titles that `TextUtils.same` identifies get the same key. */
  lemma {:induction false} KeySameTitle(t1: string, t2: string, author: Value, year: Value)
    requires Same(t1, t2)
    ensures GenerateSbKey(VStr(t1), author, year) == GenerateSbKey(VStr(t2), author, year)
  {
    CleanWordsOfClean(t1);
    CleanWordsOfClean(t2);
    assert CleanWords(t1) == CleanWords(t2);
    CleanTextWords(t1);
    CleanTextWords(t2);
  }

  lemma LowerExamples()
    ensures LowerStr("The") == "the" && LowerStr("Test") == "test" && LowerStr("Title") == "title"
  {
  }

  lemma TitleWords1()
    ensures CleanWords("Title") == [LowerStr("Title")]
  {
    CleanWordsSingle("Title");
  }

  lemma TitleWords2()
    ensures CleanWords("Test Title") == [LowerStr("Test")] + CleanWords("Title")
  {
    assert "Test Title" == "Test" + " " + "Title";
    CleanWordsCons("Test", " ", "Title");
  }

  lemma TitleWords3()
    ensures CleanWords("The Test Title") == [LowerStr("The")] + CleanWords("Test Title")
  {
    assert "The Test Title" == "The" + " " + "Test Title";
    CleanWordsCons("The", " ", "Test Title");
  }

  lemma TitleWordsExample()
    ensures CleanWords("The Test Title") == ["the", "test", "title"]
  {
    LowerExamples();
    TitleWords1();
    TitleWords2();
    TitleWords3();
  }

  lemma AuthorWordsExample()
    ensures |CleanWords("Test, Author")| > 0 && CleanWords("Test, Author")[0] == "test"
  {
    assert "Test, Author" == "Test" + ", " + "Author";
    CleanWordsCons("Test", ", ", "Author");
    LowerExamples();
  }

  lemma Segment1() ensures FormatEntry("test", 6) == "test.." {}
  lemma Segment2() ensures FormatEntry("2099", 4) == "2099" {}
  lemma Segment3() ensures FormatEntry("the", 6) == "the..." {}
  lemma Segment4() ensures FormatEntry("ttt", 16) == "ttt............." {}

  lemma SegmentsExample()
    ensures FormatEntry("test", 6) + FormatEntry("2099", 4) + FormatEntry("the", 6)
      + FormatEntry("ttt", 16) == "test..2099the...ttt............."
  {
    Segment1();
    Segment2();
    Segment3();
    Segment4();
  }

  /** The key as the concatenation of its four formatted segments. */
  lemma KeySegments(title: string, author: Value, year: Value, a: string, ws: seq<string>)
    requires AuthorPart(author) == Ok(a) && CleanWords(title) == ws && |ws| > 0
    ensures GenerateSbKey(VStr(title), author, year)
      == Ok(FormatEntry(a, 6) + FormatEntry(YearPart(year), 4) + FormatEntry(ws[0], 6)
            + FormatEntry(Initials(ws), 16))
  {
    CleanTextWords(title);
  }

  lemma AuthorPartExample()
    ensures AuthorPart(VStr("Test, Author")) == Ok("test")
  {
    AuthorWordsExample();
  }

  lemma YearPartExample()
    ensures YearPart(VStr("2099")) == "2099"
  {
    assert Format(VStr("2099")) == "2099";
    assert IsDigits("2099");
  }

  lemma InitialsExample()
    ensures Initials(["the", "test", "title"]) == "ttt"
  {
  }

  /** The first key-generation example of the repository's pipeline tests. */
  lemma KeyExample()
    ensures GenerateSbKey(VStr("The Test Title"), VStr("Test, Author"), VStr("2099"))
      == Ok("test..2099the...ttt.............")
  {
    TitleWordsExample();
    AuthorPartExample();
    YearPartExample();
    InitialsExample();
    KeySegments("The Test Title", VStr("Test, Author"), VStr("2099"), "test", ["the", "test", "title"]);
    SegmentsExample();
  }

  /** `s` written `n` times. */
  function Repeat(s: string, n: nat): (r: string)
    ensures |r| == n * |s|
  {
    if n == 0 then "" else s + Repeat(s, n - 1)
  }

  /** "a" followed by `n` times " a" is `n + 1` words "a". */
  lemma {:induction false} CleanWordsOfAs(n: nat)
    ensures CleanWords("a" + Repeat(" a", n)) == seq(n + 1, _ => "a")
  {
    if n == 0 {
      assert "a" + Repeat(" a", 0) == "a";
      CleanWordsSingle("a");
      assert LowerStr("a") == "a";
      assert seq(1, _ => "a") == ["a"];
    } else {
      assert "a" + Repeat(" a", n) == "a" + " " + ("a" + Repeat(" a", n - 1));
      CleanWordsCons("a", " ", "a" + Repeat(" a", n - 1));
      CleanWordsOfAs(n - 1);
      assert LowerStr("a") == "a";
    }
  }

  lemma LongTitleWords()
    ensures CleanWords("LongerFirst" + Repeat(" a", 20)) == ["longerfirst"] + seq(20, _ => "a")
  {
    assert "LongerFirst" + Repeat(" a", 20) == "LongerFirst" + " " + ("a" + Repeat(" a", 19));
    CleanWordsCons("LongerFirst", " ", "a" + Repeat(" a", 19));
    CleanWordsOfAs(19);
    assert LowerStr("LongerFirst") == "longerfirst";
  }

  lemma LongAuthorWords()
    ensures |CleanWords("LongTest, Author")| > 0 && CleanWords("LongTest, Author")[0] == "longtest"
  {
    assert "LongTest, Author" == "LongTest" + ", " + "Author";
    CleanWordsCons("LongTest", ", ", "Author");
    LowerLongTest();
  }

  lemma LowerLongTest() ensures LowerStr("LongTest") == "longtest" {}

  lemma LongAuthorPart()
    ensures AuthorPart(VStr("LongTest, Author")) == Ok("longtest")
  {
    LongAuthorWords();
    AuthorPartOf("LongTest, Author", "longtest");
  }

  /** The author segment of a string author is its first clean word. */
  lemma AuthorPartOf(s: string, w: string)
    requires |s| > 0 && |CleanWords(s)| > 0 && CleanWords(s)[0] == w
    ensures AuthorPart(VStr(s)) == Ok(w)
  {
  }

  lemma IntYearPart()
    ensures YearPart(VInt(2099)) == "2099"
  {
    Decimal2099();
    assert Format(VInt(2099)) == "2099";
    assert IsDigits("2099");
  }

  lemma Decimal2099()
    ensures NatToDecimal(2099) == "2099"
  {
    assert NatToDecimal(20) == "20";
    assert NatToDecimal(209) == "209";
  }

  lemma LongInitials()
    ensures FormatEntry(Initials(["longerfirst"] + seq(20, _ => "a")), 16) == "laaaaaaaaaaaaaaa"
  {
    var ws := ["longerfirst"] + seq(20, _ => "a");
    var f := FormatEntry(Initials(ws), 16);
    var lit := "laaaaaaaaaaaaaaa";
    assert lit == "l" + seq(15, _ => 'a');
    forall i | 0 <= i < 16 ensures f[i] == lit[i] {
      if i > 0 {
        assert ws[i] == "a";
      }
    }
  }

  lemma LongSegments()
    ensures FormatEntry("longtest", 6) + FormatEntry("2099", 4) + FormatEntry("longerfirst", 6)
      == "longte2099longer"
  {
    assert FormatEntry("longtest", 6) == "longte";
    assert FormatEntry("longerfirst", 6) == "longer";
    Segment2();
  }

  /** The second key-generation example of the repository's pipeline tests: a title of
      twenty-one words, "LongerFirst" followed by twenty times " a", and an integer year. */
  lemma LongKeyExample()
    ensures GenerateSbKey(VStr("LongerFirst" + Repeat(" a", 20)), VStr("LongTest, Author"), VInt(2099))
      == Ok("longte2099longerlaaaaaaaaaaaaaaa")
  {
    LongTitleWords();
    LongAuthorPart();
    LongKeyValue();
    KeyOf("LongerFirst" + Repeat(" a", 20), VStr("LongTest, Author"), VInt(2099), "longtest",
          ["longerfirst"] + seq(20, _ => "a"), "longte2099longerlaaaaaaaaaaaaaaa");
  }

  lemma LongKeyValue()
    ensures var ws := ["longerfirst"] + seq(20, _ => "a");
      FormatEntry("longtest", 6) + FormatEntry(YearPart(VInt(2099)), 4) + FormatEntry(ws[0], 6)
        + FormatEntry(Initials(ws), 16) == "longte2099longerlaaaaaaaaaaaaaaa"
  {
    var ws := ["longerfirst"] + seq(20, _ => "a");
    IntYearPart();
    LongInitials();
    LongSegments();
    var p, q := FormatEntry("longtest", 6) + FormatEntry("2099", 4) + FormatEntry(ws[0], 6),
      FormatEntry(Initials(ws), 16);
    assert p == "longte2099longer" && q == "laaaaaaaaaaaaaaa";
    LongKeyJoin();
  }

  /** A key is its four formatted segments, whatever the words they come from. */
  lemma KeyOf(title: string, author: Value, year: Value, a: string, ws: seq<string>, key: string)
    requires AuthorPart(author) == Ok(a) && CleanWords(title) == ws && |ws| > 0
    requires FormatEntry(a, 6) + FormatEntry(YearPart(year), 4) + FormatEntry(ws[0], 6)
      + FormatEntry(Initials(ws), 16) == key
    ensures GenerateSbKey(VStr(title), author, year) == Ok(key)
  {
    KeySegments(title, author, year, a, ws);
  }

  lemma LongKeyJoin()
    ensures "longte2099longer" + "laaaaaaaaaaaaaaa" == "longte2099longerlaaaaaaaaaaaaaaa"
  {
  }
}

=== FILE: strings.dfy ===
/** Python `str` operations used by the pipeline, over `seq<char>`. */
module Strings {
  import opened Wrappers

  /** Python's `str.isspace()` for one character: the ASCII whitespace and separator controls
      and the Unicode space characters. */
  predicate IsSpace(c: char) {
    c == ' ' || ('\t' <= c <= '\r') || ('\U{1c}' <= c <= '\U{1f}') || c == '\U{85}' || c == '\U{a0}'
    || c == '\U{1680}' || ('\U{2000}' <= c <= '\U{200a}') || c == '\U{2028}' || c == '\U{2029}'
    || c == '\U{202f}' || c == '\U{205f}' || c == '\U{3000}'
  }

  predicate NotSpace(c: char) { !IsSpace(c) }

  /** `s.strip() == ""`. */
  predicate IsBlank(s: string) {
    forall i :: 0 <= i < |s| ==> IsSpace(s[i])
  }

  /** Python's `s.lstrip()`. */
  function LStrip(s: string): (r: string)
    ensures |r| <= |s| && r == s[|s| - |r|..]
    ensures |r| > 0 ==> !IsSpace(r[0])
    ensures forall i :: 0 <= i < |s| - |r| ==> IsSpace(s[i])
    decreases |s|
  {
    if |s| > 0 && IsSpace(s[0]) then LStrip(s[1..]) else s
  }

  /** Python's `s.rstrip()`. */
  function RStrip(s: string): (r: string)
    ensures |r| <= |s| && r == s[..|r|]
    ensures |r| > 0 ==> !IsSpace(r[|r| - 1])
    ensures forall i :: |r| <= i < |s| ==> IsSpace(s[i])
    decreases |s|
  {
    if |s| > 0 && IsSpace(s[|s| - 1]) then RStrip(s[..|s| - 1]) else s
  }

  /** Python's `s.strip()`. */
  function Strip(s: string): (r: string)
  {
    RStrip(LStrip(s))
  }

  /** `strip()` removes Unicode whitespace too: an ideographic space in front and a no-break
      space behind. */
  lemma StripUnicodeSpaces()
    ensures Strip("\U{3000}x\U{a0}") == "x"
  {
    var s := "\U{3000}x\U{a0}";
    var t := s[1..];
    assert IsSpace(s[0]) && !IsSpace(t[0]) && IsSpace(t[1]);
    assert LStrip(s) == LStrip(t);
    LStripNoLeading(t);
    assert t[..1] == "x";
    assert RStrip(t) == RStrip("x");
    RStripNoTrailing("x");
  }

  lemma StripBlank(s: string)
    ensures Strip(s) == "" <==> IsBlank(s)
  {
    var l := LStrip(s);
    if !IsBlank(s) {
      assert |l| > 0;
      assert !IsSpace(l[0]);
    }
  }

  /** `rstrip` removes one trailing newline after a non-space character. */
  lemma RStripNewline(s: string)
    requires |s| > 0 && !IsSpace(s[|s| - 1])
    ensures RStrip(s + "\n") == s
  {
    assert (s + "\n")[..|s + "\n"| - 1] == s;
  }

  /** `lstrip` leaves alone a string that does not start with whitespace. */
  lemma LStripNoLeading(s: string)
    requires |s| > 0 && !IsSpace(s[0])
    ensures LStrip(s) == s
  {
  }

  /** `rstrip` leaves alone a string that does not end in whitespace. */
  lemma RStripNoTrailing(s: string)
    requires |s| > 0 && !IsSpace(s[|s| - 1])
    ensures RStrip(s) == s
  {
  }

  /** ASCII lower-casing of one character. */
  function LowerChar(c: char): char {
    if 'A' <= c <= 'Z' then (c as int + 32) as char else c
  }

  function LowerStr(s: string): (r: string)
    ensures |r| == |s|
    ensures forall i :: 0 <= i < |s| ==> r[i] == LowerChar(s[i])
  {
    seq(|s|, i requires 0 <= i < |s| => LowerChar(s[i]))
  }

  /** `sub` occurs in `s` at index `i`. */
  predicate OccursAt(s: string, sub: string, i: int) {
    0 <= i && i + |sub| <= |s| && s[i..i + |sub|] == sub
  }

  /** An occurrence past the first character is an occurrence in the rest, one place earlier. */
  lemma OccursShift(s: string, sub: string, i: int)
    requires |s| > 0 && i >= 1
    ensures OccursAt(s, sub, i) == OccursAt(s[1..], sub, i - 1)
  {
    if i + |sub| <= |s| {
      assert s[1..][i - 1..i - 1 + |sub|] == s[i..i + |sub|];
    }
  }

  /** The first index at or after `from` where `sub` occurs (Python's `s.find(sub, from)`). */
  function Find(s: string, sub: string, from: nat): (r: Option<nat>)
    ensures r.Some? ==> from <= r.value && OccursAt(s, sub, r.value)
    ensures r.Some? ==> forall j :: from <= j < r.value ==> !OccursAt(s, sub, j)
    ensures r.None? ==> forall j :: from <= j ==> !OccursAt(s, sub, j)
    decreases |s| - from
  {
    if from + |sub| > |s| then None
    else if s[from..from + |sub|] == sub then Some(from)
    else Find(s, sub, from + 1)
  }

  /** Python's `sub in s`. */
  predicate Contains(s: string, sub: string) {
    Find(s, sub, 0).Some?
  }

  lemma ContainsAt(s: string, sub: string, i: int)
    requires OccursAt(s, sub, i)
    ensures Contains(s, sub)
  {
  }

  /** Python's `''.join(parts)`. */
  function Concat(parts: seq<string>): (r: string)
    ensures |parts| == 0 ==> r == ""
    decreases |parts|
  {
    if |parts| == 0 then "" else parts[0] + Concat(parts[1..])
  }

  lemma {:induction false} ConcatAppend(a: seq<string>, b: seq<string>)
    ensures Concat(a + b) == Concat(a) + Concat(b)
    decreases |a|
  {
    if |a| == 0 {
      assert a + b == b;
    } else {
      assert (a + b)[1..] == a[1..] + b;
      ConcatAppend(a[1..], b);
    }
  }

  lemma ConcatOne(x: string)
    ensures Concat([x]) == x
  {
    assert [x][1..] == [];
  }

  lemma ConcatSplitAt(xs: seq<string>, i: nat)
    requires i <= |xs|
    ensures Concat(xs) == Concat(xs[..i]) + Concat(xs[i..])
  {
    assert xs == xs[..i] + xs[i..];
    ConcatAppend(xs[..i], xs[i..]);
  }

  /** Three consecutive runs of parts join to the whole. */
  lemma ConcatThree(xs: seq<string>, s: nat, e: nat)
    requires s <= e <= |xs|
    ensures Concat(xs[..s]) + Concat(xs[s..e]) + Concat(xs[e..]) == Concat(xs)
  {
    PrefixSplit(xs, s, e);
    ConcatSplitAt(xs, e);
  }

  lemma PrefixSplit(xs: seq<string>, s: nat, e: nat)
    requires s <= e <= |xs|
    ensures Concat(xs[..e]) == Concat(xs[..s]) + Concat(xs[s..e])
  {
    ConcatSplitAt(xs[..e], s);
    assert xs[..e][..s] == xs[..s];
    assert xs[..e][s..] == xs[s..e];
  }

  /** A run of parts is its first part followed by the rest. */
  lemma ConcatFirst(xs: seq<string>, s: nat, e: nat)
    requires s < e <= |xs|
    ensures Concat(xs[s..e]) == xs[s] + Concat(xs[s + 1..e])
  {
    assert xs[s..e][1..] == xs[s + 1..e];
  }

  /** Taking out two parts `f < c` leaves three runs around them. */
  lemma ConcatAround(xs: seq<string>, f: nat, c: nat)
    requires f < c < |xs|
    ensures Concat(xs) == Concat(xs[..f]) + xs[f] + Concat(xs[f + 1..c]) + xs[c] + Concat(xs[c + 1..])
  {
    ConcatThree(xs, f, c);
    ConcatFirst(xs, f, c);
    ConcatFirst(xs, c, |xs|);
    assert xs[c..|xs|] == xs[c..] && xs[c + 1..|xs|] == xs[c + 1..];
    Regroup(Concat(xs[..f]), xs[f], Concat(xs[f + 1..c]), xs[c], Concat(xs[c + 1..]));
  }

  lemma Regroup(a: string, p: string, b: string, q: string, e: string)
    ensures a + (p + b) + (q + e) == a + p + b + q + e
  {
  }

  /** A slice inside the first part of a concatenation ignores the second part. */
  lemma SliceAppend(s: string, x: string, i: nat, j: nat)
    requires i <= j <= |s|
    ensures (s + x)[i..j] == s[i..j]
  {
  }

  /** Dropping part of the first part of a concatenation keeps the second part whole. */
  lemma DropAppend(s: string, x: string, i: nat)
    requires i <= |s|
    ensures (s + x)[i..] == s[i..] + x
  {
  }

  lemma AppendAssoc(a: string, b: string, c: string)
    ensures a + b + c == a + (b + c)
  {
  }

  /** Python's `sep.join(parts)`. */
  function Join(sep: string, parts: seq<string>): string
    decreases |parts|
  {
    if |parts| == 0 then ""
    else if |parts| == 1 then parts[0]
    else parts[0] + sep + Join(sep, parts[1..])
  }

  /** Python's `s.split(sep)` for a non-empty separator: the pieces between the
      non-overlapping occurrences of `sep`, scanned left to right. */
  function Split(s: string, sep: string): (r: seq<string>)
    requires |sep| > 0
    ensures |r| >= 1
    decreases |s|
  {
    match Find(s, sep, 0)
    case None => [s]
    case Some(i) => [s[..i]] + Split(s[i + |sep|..], sep)
  }

  /** Splitting and re-joining with the same separator gives back the string. */
  lemma {:induction false} JoinSplit(s: string, sep: string)
    requires |sep| > 0
    ensures Join(sep, Split(s, sep)) == s
    decreases |s|
  {
    match Find(s, sep, 0)
    case None =>
    case Some(i) =>
      var rest := Split(s[i + |sep|..], sep);
      JoinSplit(s[i + |sep|..], sep);
      assert Split(s, sep) == [s[..i]] + rest;
      assert (([s[..i]] + rest)[1..]) == rest;
      assert s == s[..i] + s[i..i + |sep|] + s[i + |sep|..];
  }

  /** No piece of a split contains the separator. */
  lemma {:induction false} SplitPiecesAvoidSep(s: string, sep: string)
    requires |sep| > 0
    ensures forall k :: 0 <= k < |Split(s, sep)| ==> !Contains(Split(s, sep)[k], sep)
    decreases |s|
  {
    match Find(s, sep, 0)
    case None =>
      var r := Split(s, sep);
      assert r == [s];
      assert !Contains(s, sep);
    case Some(i) =>
      var rest := Split(s[i + |sep|..], sep);
      SplitPiecesAvoidSep(s[i + |sep|..], sep);
      var r := Split(s, sep);
      assert r == [s[..i]] + rest;
      assert !Contains(s[..i], sep) by {
        var p := s[..i];
        if Contains(p, sep) {
          var j := Find(p, sep, 0).value;
          assert p[j..j + |sep|] == s[j..j + |sep|];
          assert OccursAt(s, sep, j);
        }
      }
      forall k | 0 <= k < |r| ensures !Contains(r[k], sep) {
        if k > 0 { assert r[k] == rest[k - 1]; }
      }
  }

  /** The text after the last occurrence of `c` (Python's `s.split(c)[-1]`). */
  function AfterLast(s: string, c: char): (r: string)
  {
    var parts := Split(s, [c]);
    parts[|parts| - 1]
  }

  /** The text before the first occurrence of `c` (Python's `s.split(c)[0]`). */
  function BeforeFirst(s: string, c: char): (r: string)
  {
    Split(s, [c])[0]
  }

  /** `s.split(c)[0]` is the prefix of `s` up to the first `c`. */
  lemma BeforeFirstSpec(s: string, c: char)
    ensures var p := BeforeFirst(s, c);
      |p| <= |s| && p == s[..|p|] && (forall i :: 0 <= i < |p| ==> p[i] != c)
      && (|p| < |s| ==> s[|p|] == c)
  {
    match Find(s, [c], 0)
    case None =>
      forall i | 0 <= i < |s| ensures s[i] != c {
        assert !OccursAt(s, [c], i);
      }
    case Some(i) =>
      forall j | 0 <= j < i ensures s[j] != c {
        assert !OccursAt(s, [c], j);
      }
  }

  /** `s.split(c)[-1]` is the suffix of `s` after the last `c`. */
  lemma {:induction false} AfterLastSpec(s: string, c: char)
    ensures var q := AfterLast(s, c);
      |q| <= |s| && q == s[|s| - |q|..] && (forall i :: 0 <= i < |q| ==> q[i] != c)
      && (|q| < |s| ==> s[|s| - |q| - 1] == c)
    decreases |s|
  {
    match Find(s, [c], 0)
    case None =>
      forall i | 0 <= i < |s| ensures s[i] != c {
        assert !OccursAt(s, [c], i);
      }
    case Some(i) =>
      var t := s[i + 1..];
      AfterLastSpec(t, c);
      var parts := Split(t, [c]);
      assert Split(s, [c]) == [s[..i]] + parts;
      assert AfterLast(s, c) == AfterLast(t, c);
      assert OccursAt(s, [c], i);
      assert s[i] == c;
  }

  /** The length of the longest prefix of `s` whose characters all satisfy `p`. */
  function RunLength(s: string, p: char -> bool): (n: nat)
    ensures n <= |s|
    ensures forall i :: 0 <= i < n ==> p(s[i])
    ensures n < |s| ==> !p(s[n])
    decreases |s|
  {
    if |s| > 0 && p(s[0]) then 1 + RunLength(s[1..], p) else 0
  }

  /** The maximal runs of characters satisfying `p`, left to right. With `p` = not-whitespace
      this is Python's `s.split()`. */
  function Tokens(s: string, p: char -> bool): (r: seq<string>)
    ensures forall k :: 0 <= k < |r| ==> |r[k]| > 0
    ensures forall k, i :: 0 <= k < |r| && 0 <= i < |r[k]| ==> p(r[k][i])
    decreases |s|
  {
    if |s| == 0 then []
    else if !p(s[0]) then Tokens(s[1..], p)
    else
      var n := RunLength(s, p);
      [s[..n]] + Tokens(s[n..], p)
  }

  /** Python's argument-less `s.split()`. */
  function Words(s: string): seq<string> {
    Tokens(s, NotSpace)
  }

  /** A prefix of characters outside `p` does not change the tokens. */
  lemma {:induction false} TokensSkip(s: string, k: nat, p: char -> bool)
    requires k <= |s|
    requires forall i :: 0 <= i < k ==> !p(s[i])
    ensures Tokens(s, p) == Tokens(s[k..], p)
    decreases k
  {
    if k > 0 {
      assert s[1..][k - 1..] == s[k..];
      TokensSkip(s[1..], k - 1, p);
    }
  }

  /** The run length is the one index that ends a run of `p`. */
  lemma RunLengthUnique(s: string, n: nat, p: char -> bool)
    requires n <= |s| && forall i :: 0 <= i < n ==> p(s[i])
    requires n < |s| ==> !p(s[n])
    ensures RunLength(s, p) == n
  {
  }

  /** A suffix of characters outside `p` does not change the tokens. */
  lemma {:induction false} TokensTrailing(s: string, t: string, p: char -> bool)
    requires forall i :: 0 <= i < |t| ==> !p(t[i])
    ensures Tokens(s + t, p) == Tokens(s, p)
    decreases |s|
  {
    if |s| == 0 {
      assert s + t == t;
      TokensSkip(t, |t|, p);
      assert t[|t|..] == [];
    } else if !p(s[0]) {
      assert (s + t)[1..] == s[1..] + t;
      TokensTrailing(s[1..], t, p);
    } else {
      var m := RunLength(s, p);
      forall i | 0 <= i < m ensures p((s + t)[i]) {
        assert (s + t)[i] == s[i];
      }
      if m < |s| {
        assert (s + t)[m] == s[m];
      } else if 0 < |t| {
        assert (s + t)[m] == t[0];
      }
      RunLengthUnique(s + t, m, p);
      var n := m;
      assert (s + t)[..n] == s[..m];
      assert (s + t)[n..] == s[m..] + t;
      TokensTrailing(s[m..], t, p);
    }
  }

  /** Python's `s.strip().split() == s.split()`. */
  lemma WordsStrip(s: string)
    ensures Words(Strip(s)) == Words(s)
  {
    WordsLStrip(s);
    WordsRStrip(LStrip(s));
  }

  lemma WordsLStrip(s: string)
    ensures Tokens(LStrip(s), NotSpace) == Tokens(s, NotSpace)
  {
    var k := |s| - |LStrip(s)|;
    forall i | 0 <= i < k ensures !NotSpace(s[i]) { }
    TokensSkip(s, k, NotSpace);
  }

  lemma WordsRStrip(l: string)
    ensures Tokens(RStrip(l), NotSpace) == Tokens(l, NotSpace)
  {
    var r := RStrip(l);
    var t := l[|r|..];
    forall i | 0 <= i < |t| ensures !NotSpace(t[i]) {
      assert t[i] == l[|r| + i];
    }
    assert l == r + t;
    TokensTrailing(r, t, NotSpace);
  }

  /** A full run followed by a character outside `p` (or the end) is one token. */
  lemma TokensWord(w: string, t: string, p: char -> bool)
    requires |w| > 0 && forall i :: 0 <= i < |w| ==> p(w[i])
    requires |t| > 0 ==> !p(t[0])
    ensures Tokens(w + t, p) == [w] + Tokens(t, p)
  {
    RunLengthWord(w, t, p);
    assert (w + t)[..|w|] == w;
    assert (w + t)[|w|..] == t;
  }

  lemma {:induction false} RunLengthWord(w: string, t: string, p: char -> bool)
    requires forall i :: 0 <= i < |w| ==> p(w[i])
    requires |t| > 0 ==> !p(t[0])
    ensures RunLength(w + t, p) == |w|
    decreases |w|
  {
    if |w| > 0 {
      assert (w + t)[1..] == w[1..] + t;
      RunLengthWord(w[1..], t, p);
    } else {
      assert w + t == t;
    }
  }

  /** A run, then a non-empty gap of characters outside `p`: one token, then the rest. */
  lemma TokensPiece(w: string, gap: string, rest: string, p: char -> bool)
    requires |w| > 0 && forall i :: 0 <= i < |w| ==> p(w[i])
    requires |gap| > 0 && forall i :: 0 <= i < |gap| ==> !p(gap[i])
    ensures Tokens(w + gap + rest, p) == [w] + Tokens(rest, p)
  {
    assert w + gap + rest == w + (gap + rest);
    TokensWord(w, gap + rest, p);
    TokensSkip(gap + rest, |gap|, p);
    assert (gap + rest)[|gap|..] == rest;
  }

  /** A string with a character satisfying `p` has at least one token; the first token
      starts at the first such character. */
  lemma {:induction false} TokensNonEmpty(s: string, p: char -> bool, i: nat)
    requires i < |s| && p(s[i])
    ensures |Tokens(s, p)| > 0
    decreases |s|
  {
    if !p(s[0]) {
      TokensNonEmpty(s[1..], p, i - 1);
    }
  }

  /** Python's `s.count(c)` for one character. */
  function CountChar(s: string, c: char): (n: nat)
    ensures n <= |s|
    ensures n == 0 <==> forall i :: 0 <= i < |s| ==> s[i] != c
    decreases |s|
  {
    if |s| == 0 then 0 else (if s[0] == c then 1 else 0) + CountChar(s[1..], c)
  }
}

=== FILE: tables.dfy ===
/** Key-indexed tables: the pandas data frames of the knowledge base and the paper database,
    with the last-write-wins append (`drop_duplicates(subset='key', keep='last')`), the
    in-place row update of the reference-map generator and the fallback on a failed load. */
module Tables {
  import opened Wrappers
  import opened Values

  /** A data frame: its column names and its rows. A row lacks a field where the frame holds
      a missing value. */
  datatype Frame = Frame(columns: set<string>, rows: seq<Record>)

  /** The `key` field of a row; a row without one has a missing key. */
  function KeyOf(row: Record): Value {
    Get(row, "key")
  }

  predicate HasKey(rows: seq<Record>, k: Value) {
    exists j :: 0 <= j < |rows| && KeyOf(rows[j]) == k
  }

  /** Every key occurs at most once. */
  predicate UniqueKeys(rows: seq<Record>) {
    forall i, j :: 0 <= i < j < |rows| ==> KeyOf(rows[i]) != KeyOf(rows[j])
  }

  /** The rows whose key is not `k`, in order. */
  function Without(rows: seq<Record>, k: Value): (r: seq<Record>)
    ensures forall x :: x in r <==> x in rows && KeyOf(x) != k
    ensures |r| <= |rows|
  {
    if |rows| == 0 then []
    else if KeyOf(rows[0]) == k then Without(rows[1..], k)
    else [rows[0]] + Without(rows[1..], k)
  }

  lemma HasKeyCons(x: Record, rows: seq<Record>, k: Value)
    ensures HasKey([x] + rows, k) <==> KeyOf(x) == k || HasKey(rows, k)
  {
    var xs := [x] + rows;
    if HasKey(xs, k) && KeyOf(x) != k {
      var j :| 0 <= j < |xs| && KeyOf(xs[j]) == k;
      assert xs[j] == rows[j - 1];
    }
    if HasKey(rows, k) {
      var j :| 0 <= j < |rows| && KeyOf(rows[j]) == k;
      assert xs[j + 1] == rows[j];
    }
    if KeyOf(x) == k {
      assert xs[0] == x;
    }
  }

  /** `drop_duplicates(subset='key', keep='last')`: a row stays when no later row has its key. */
  function DropDuplicates(rows: seq<Record>): (r: seq<Record>)
    ensures UniqueKeys(r)
    ensures forall x :: x in r ==> x in rows
    ensures forall k :: HasKey(r, k) <==> HasKey(rows, k)
    ensures |r| <= |rows|
  {
    if |rows| == 0 then []
    else
      var rest := DropDuplicates(rows[1..]);
      assert rows == [rows[0]] + rows[1..];
      HasKeyConsAll(rows[0], rows[1..]);
      HasKeyConsAll(rows[0], rest);
      if HasKey(rows[1..], KeyOf(rows[0])) then rest
      else
        assert forall j :: 0 <= j < |rest| ==> KeyOf(rest[j]) != KeyOf(rows[0]);
        [rows[0]] + rest
  }

  lemma HasKeyConsAll(x: Record, rows: seq<Record>)
    ensures forall k :: HasKey([x] + rows, k) <==> KeyOf(x) == k || HasKey(rows, k)
  {
    forall k ensures HasKey([x] + rows, k) <==> KeyOf(x) == k || HasKey(rows, k) {
      HasKeyCons(x, rows, k);
    }
  }

  lemma HasKeySnoc(rows: seq<Record>, e: Record, k: Value)
    ensures HasKey(rows + [e], k) <==> HasKey(rows, k) || KeyOf(e) == k
  {
    var xs := rows + [e];
    if HasKey(xs, k) && KeyOf(e) != k {
      var j :| 0 <= j < |xs| && KeyOf(xs[j]) == k;
      assert xs[j] == rows[j];
    }
    if HasKey(rows, k) {
      var j :| 0 <= j < |rows| && KeyOf(rows[j]) == k;
      assert xs[j] == rows[j];
    }
    if KeyOf(e) == k {
      assert xs[|rows|] == e;
    }
  }

  lemma HasKeyWithout(rows: seq<Record>, k: Value, j: Value)
    ensures HasKey(Without(rows, k), j) <==> HasKey(rows, j) && j != k
  {
    var w := Without(rows, k);
    if HasKey(w, j) {
      var i :| 0 <= i < |w| && KeyOf(w[i]) == j;
      assert w[i] in rows;
      var m :| 0 <= m < |rows| && rows[m] == w[i];
    }
    if HasKey(rows, j) && j != k {
      var i :| 0 <= i < |rows| && KeyOf(rows[i]) == j;
      assert rows[i] in w;
      var m :| 0 <= m < |w| && w[m] == rows[i];
    }
  }

  /** A table without the key `k` is left alone by removing `k`. */
  lemma {:induction false} WithoutAbsent(rows: seq<Record>, k: Value)
    requires !HasKey(rows, k)
    ensures Without(rows, k) == rows
  {
    if |rows| > 0 {
      assert KeyOf(rows[0]) != k;
      assert !HasKey(rows[1..], k) by {
        HasKeyCons(rows[0], rows[1..], k);
        assert rows == [rows[0]] + rows[1..];
      }
      WithoutAbsent(rows[1..], k);
    }
  }

  lemma {:induction false} WithoutSnoc(rows: seq<Record>, e: Record, k: Value)
    ensures Without(rows + [e], k) == Without(rows, k) + (if KeyOf(e) == k then [] else [e])
  {
    if |rows| == 0 {
      assert rows + [e] == [e];
      assert [e][1..] == [];
    } else {
      assert (rows + [e])[1..] == rows[1..] + [e];
      WithoutSnoc(rows[1..], e, k);
    }
  }

  /** Rows with distinct keys lose nothing to `drop_duplicates`. */
  lemma {:induction false} DropDuplicatesUnique(rows: seq<Record>)
    requires UniqueKeys(rows)
    ensures DropDuplicates(rows) == rows
  {
    if |rows| > 0 {
      forall j | 0 <= j < |rows[1..]| ensures KeyOf(rows[1..][j]) != KeyOf(rows[0]) {
        assert rows[1..][j] == rows[j + 1];
      }
      assert UniqueKeys(rows[1..]) by {
        forall i, j | 0 <= i < j < |rows[1..]| ensures KeyOf(rows[1..][i]) != KeyOf(rows[1..][j]) {
          assert rows[1..][i] == rows[i + 1] && rows[1..][j] == rows[j + 1];
        }
      }
      DropDuplicatesUnique(rows[1..]);
      assert rows == [rows[0]] + rows[1..];
    }
  }

  /** Appending a row to a table and dropping duplicates: the other rows, deduplicated, then
      the new row as the only one with its key. */
  lemma {:induction false} DropDuplicatesSnoc(rows: seq<Record>, e: Record)
    ensures DropDuplicates(rows + [e]) == DropDuplicates(Without(rows, KeyOf(e))) + [e]
  {
    var k := KeyOf(e);
    if |rows| == 0 {
      assert rows + [e] == [e];
      assert [e][1..] == [];
    } else {
      var x, t := rows[0], rows[1..];
      assert rows + [e] == [x] + (t + [e]);
      assert ([x] + (t + [e]))[1..] == t + [e];
      DropDuplicatesSnoc(t, e);
      HasKeySnoc(t, e, KeyOf(x));
      if KeyOf(x) != k {
        HasKeyWithout(t, k, KeyOf(x));
        assert Without(rows, k) == [x] + Without(t, k);
        assert ([x] + Without(t, k))[1..] == Without(t, k);
      }
    }
  }

  /** The last row with each key survives `drop_duplicates`... */
  lemma {:induction false} DropDuplicatesKeepsLast(rows: seq<Record>, i: nat)
    requires i < |rows|
    requires forall j :: i < j < |rows| ==> KeyOf(rows[j]) != KeyOf(rows[i])
    ensures rows[i] in DropDuplicates(rows)
  {
    if i == 0 {
      forall j | 0 <= j < |rows[1..]| ensures KeyOf(rows[1..][j]) != KeyOf(rows[0]) {
        assert rows[1..][j] == rows[j + 1];
      }
    } else {
      forall j | i - 1 < j < |rows[1..]| ensures KeyOf(rows[1..][j]) != KeyOf(rows[1..][i - 1]) {
        assert rows[1..][j] == rows[j + 1];
      }
      DropDuplicatesKeepsLast(rows[1..], i - 1);
    }
  }

  /** ... and every row that survives is the last with its key. */
  lemma {:induction false} DropDuplicatesOnlyLast(rows: seq<Record>, x: Record)
    requires x in DropDuplicates(rows)
    ensures exists i :: 0 <= i < |rows| && rows[i] == x && forall j :: i < j < |rows| ==> KeyOf(rows[j]) != KeyOf(x)
  {
    var t := rows[1..];
    if x in DropDuplicates(t) {
      DropDuplicatesOnlyLast(t, x);
      var i :| 0 <= i < |t| && t[i] == x && forall j :: i < j < |t| ==> KeyOf(t[j]) != KeyOf(x);
      assert rows[i + 1] == x;
      forall j | i + 1 < j < |rows| ensures KeyOf(rows[j]) != KeyOf(x) {
        assert rows[j] == t[j - 1];
      }
    } else {
      assert x == rows[0] && !HasKey(t, KeyOf(rows[0]));
      forall j | 0 < j < |rows| ensures KeyOf(rows[j]) != KeyOf(x) {
        assert rows[j] == t[j - 1];
      }
    }
  }

  /** Appending a row to the rows of a table, last write wins. */
  function AppendRow(rows: seq<Record>, e: Record): (r: seq<Record>)
    ensures |r| > 0 && r[|r| - 1] == e
    ensures UniqueKeys(r)
    ensures forall i :: 0 <= i < |r| - 1 ==> KeyOf(r[i]) != KeyOf(e)
    ensures r[..|r| - 1] == DropDuplicates(Without(rows, KeyOf(e)))
  {
    DropDuplicatesSnoc(rows, e);
    var r := DropDuplicates(rows + [e]);
    assert r[..|r| - 1] == DropDuplicates(Without(rows, KeyOf(e)));
    forall i | 0 <= i < |r| - 1 ensures KeyOf(r[i]) != KeyOf(e) {
      var w := Without(rows, KeyOf(e));
      assert r[i] in DropDuplicates(w);
      HasKeyWithout(rows, KeyOf(e), KeyOf(e));
      assert HasKey(DropDuplicates(w), KeyOf(r[i]));
    }
    r
  }

  /** Writing the same key twice leaves what the second write alone would leave: in
      particular the table does not grow. */
  lemma AppendRowTwice(rows: seq<Record>, e1: Record, e2: Record)
    requires KeyOf(e1) == KeyOf(e2)
    ensures AppendRow(AppendRow(rows, e1), e2) == AppendRow(rows, e2)
  {
    var k := KeyOf(e1);
    var d := DropDuplicates(Without(rows, k));
    var once := AppendRow(rows, e1);
    SnocEqual(once, d + [e1]);
    WithoutSnoc(d, e1, k);
    assert !HasKey(d, k) by {
      HasKeyWithout(rows, k, k);
    }
    WithoutAbsent(d, k);
    DropDuplicatesUnique(d);
    assert Without(once, k) == d;
    SnocEqual(AppendRow(once, e2), AppendRow(rows, e2));
  }

  /** Two non-empty sequences with the same front and the same last element are equal. */
  lemma SnocEqual<T>(a: seq<T>, b: seq<T>)
    requires |a| > 0 && |b| > 0
    requires a[..|a| - 1] == b[..|b| - 1] && a[|a| - 1] == b[|b| - 1]
    ensures a == b
  {
    assert a == a[..|a| - 1] + [a[|a| - 1]];
    assert b == b[..|b| - 1] + [b[|b| - 1]];
  }

  /** The table a method leaves behind, and the exception it raised, if any. */
  datatype Appended = Appended(db: Frame, error: Option<Error>)

  /** `KnowledgeBase.append_db_entry`: the entry joins the table as its last row, replacing
      every row with the same key. `drop_duplicates(subset='key')` raises `KeyError` before
      the table is replaced when neither has a `key` column; logging `entry['key']` raises
      `KeyError` after the table is replaced when only the entry lacks one. */
  function AppendDbEntry(db: Frame, entry: Record): (r: Appended)
    ensures r.error.None? <==> "key" in entry
    ensures r.error.Some? ==> r.error.value == KeyError("key")
    ensures "key" !in db.columns + entry.Keys ==> r.db == db
    ensures "key" in db.columns + entry.Keys ==> r.db.columns == db.columns + entry.Keys
    ensures "key" in db.columns + entry.Keys ==>
      && |r.db.rows| > 0 && r.db.rows[|r.db.rows| - 1] == entry
      && (forall i :: 0 <= i < |r.db.rows| - 1 ==> KeyOf(r.db.rows[i]) != KeyOf(entry))
      && r.db.rows[..|r.db.rows| - 1] == DropDuplicates(Without(db.rows, KeyOf(entry)))
  {
    if "key" !in db.columns + entry.Keys then Appended(db, Some(KeyError("key")))
    else
      var f := Frame(db.columns + entry.Keys, AppendRow(db.rows, entry));
      Appended(f, if "key" in entry then None else Some(KeyError("key")))
  }

  /** `PaperDB.append_paper_db`: the first entry becomes the table; later ones are appended
      with last write winning. `drop_duplicates(subset='key')` raises `KeyError` when neither
      the table nor the entry has a `key` column. */
  function AppendPaperDb(db: Option<Frame>, entry: Record): (r: Result<Frame>)
    ensures db.None? ==> r == Ok(Frame(entry.Keys, [entry]))
    ensures db.Some? ==> (r.Err? <==> "key" !in db.value.columns + entry.Keys)
    ensures r.Ok? ==> |r.value.rows| > 0 && r.value.rows[|r.value.rows| - 1] == entry
    ensures r.Ok? ==> forall i :: 0 <= i < |r.value.rows| - 1 ==> KeyOf(r.value.rows[i]) != KeyOf(entry)
  {
    match db
    case None => Ok(Frame(entry.Keys, [entry]))
    case Some(f) =>
      if "key" in f.columns + entry.Keys then Ok(Frame(f.columns + entry.Keys, AppendRow(f.rows, entry)))
      else Err(KeyError("key"))
  }

  /** The first append and an append to an empty table agree. */
  lemma AppendPaperDbFirst(entry: Record)
    requires "key" in entry
    ensures AppendPaperDb(None, entry) == AppendPaperDb(Some(Frame({}, [])), entry)
  {
    assert AppendRow([], entry) == [entry];
    assert {} + entry.Keys == entry.Keys;
  }

  /** `PaperDB.append_article_db`: the article's key, title, author and year as one row. */
  function ArticleRow(sbkey: Value, title: Value, author: Value, year: Value): Record {
    map["key" := sbkey, "title" := title, "author" := author, "year" := year]
  }

  function AppendArticleDb(db: Option<Frame>, sbkey: Value, title: Value, author: Value, year: Value)
    : (r: Result<Frame>)
    ensures r.Ok?
    ensures |r.value.rows| > 0 && r.value.rows[|r.value.rows| - 1] == ArticleRow(sbkey, title, author, year)
    ensures forall i :: 0 <= i < |r.value.rows| - 1 ==> KeyOf(r.value.rows[i]) != sbkey
  {
    AppendPaperDb(db, ArticleRow(sbkey, title, author, year))
  }

  /** The columns of a fresh knowledge table. */
  const KnowledgeColumns: set<string> := {"key", "title", "keywords", "file_name", "file_hash"}

  /** `KnowledgeBase._load_db`: the stored table, or, when reading it fails for any reason, an
      empty table with the knowledge columns; the failure is not passed on. */
  function LoadDb(read: Result<Frame>): (db: Frame)
    ensures read.Ok? ==> db == read.value
    ensures read.Err? ==> |db.rows| == 0 && db.columns == KnowledgeColumns
  {
    match read
    case Ok(f) => f
    case Err(_) => Frame(KnowledgeColumns, [])
  }

  /** A frame whose rows carry index labels (the reference-map generator's paper table is
      looked up by its index). */
  type Indexed = seq<(Value, Record)>

  predicate Labelled(t: Indexed, k: Value) {
    exists i :: 0 <= i < |t| && t[i].0 == k
  }

  /** `PaperDB.update`: the rows labelled with the entry's key become the entry; without such a
      row the table is unchanged (the miss is only logged). Reading `entry['key']` for the
      log raises `KeyError` first when the entry has no key. */
  function PaperDbUpdate(t: Indexed, entry: Record): (r: Result<Indexed>)
    ensures r.Err? <==> "key" !in entry
    ensures r.Ok? ==> |r.value| == |t|
    ensures r.Ok? && !Labelled(t, entry["key"]) ==> r.value == t
    ensures r.Ok? ==> forall i :: 0 <= i < |t| ==>
      r.value[i] == (if t[i].0 == entry["key"] then (t[i].0, entry) else t[i])
  {
    var k :- Index(entry, "key");
    if Labelled(t, k) then
      Ok(seq(|t|, i requires 0 <= i < |t| => if t[i].0 == k then (t[i].0, entry) else t[i]))
    else Ok(t)
  }

  /** Rows in order of a weight, smallest first. */
  predicate SortedBy(s: seq<Record>, w: Record -> real) {
    forall i, j :: 0 <= i < j < |s| ==> w(s[i]) <= w(s[j])
  }

  function InsertBy(x: Record, s: seq<Record>, w: Record -> real): (r: seq<Record>)
    requires SortedBy(s, w)
    ensures SortedBy(r, w) && multiset(r) == multiset(s) + multiset{x}
  {
    if |s| == 0 then [x]
    else if w(x) <= w(s[0]) then
      assert s == [s[0]] + s[1..];
      [x] + s
    else
      var rest := InsertBy(x, s[1..], w);
      InsertByStep(x, s, w, rest);
      [s[0]] + rest
  }

  lemma InsertByStep(x: Record, s: seq<Record>, w: Record -> real, rest: seq<Record>)
    requires |s| > 0 && SortedBy(s, w) && w(s[0]) < w(x)
    requires SortedBy(rest, w) && multiset(rest) == multiset(s[1..]) + multiset{x}
    ensures SortedBy([s[0]] + rest, w) && multiset([s[0]] + rest) == multiset(s) + multiset{x}
  {
    assert s == [s[0]] + s[1..];
    forall j | 0 <= j < |rest| ensures w(s[0]) <= w(rest[j]) {
      assert rest[j] in multiset(rest);
      if rest[j] != x {
        assert rest[j] in multiset(s[1..]);
        var m :| 0 <= m < |s[1..]| && s[1..][m] == rest[j];
        assert s[m + 1] == rest[j];
      }
    }
    var r := [s[0]] + rest;
    forall i, j | 0 <= i < j < |r| ensures w(r[i]) <= w(r[j]) {
      if i > 0 {
        assert r[i] == rest[i - 1] && r[j] == rest[j - 1];
      } else {
        assert r[j] == rest[j - 1];
      }
    }
  }

  /** Sorting by a weight (the model of `sort_values`). */
  function SortBy(rows: seq<Record>, w: Record -> real): (r: seq<Record>)
    ensures SortedBy(r, w) && multiset(r) == multiset(rows)
  {
    if |rows| == 0 then []
    else
      assert rows == [rows[0]] + rows[1..];
      InsertBy(rows[0], SortBy(rows[1..], w), w)
  }

  /** Python's `s[:n]`. */
  function TakePrefix(s: seq<Record>, n: int): (r: seq<Record>)
    ensures 0 <= n ==> |r| == if n < |s| then n else |s|
    ensures n < 0 ==> |r| == if |s| + n > 0 then |s| + n else 0
    ensures r == s[..|r|]
  {
    if n >= 0 then (if n < |s| then s[..n] else s)
    else if |s| + n > 0 then s[..|s| + n] else []
  }

  /** `chosen` is some of `rows`, and no row left out has a smaller weight than a chosen one. */
  predicate Smallest(chosen: seq<Record>, rows: seq<Record>, w: Record -> real) {
    multiset(chosen) <= multiset(rows)
    && forall x, y :: x in multiset(chosen) && y in multiset(rows) - multiset(chosen) ==> w(x) <= w(y)
  }

  lemma PrefixSmallest(s: seq<Record>, m: nat, w: Record -> real)
    requires SortedBy(s, w) && m <= |s|
    ensures Smallest(s[..m], s, w)
  {
    assert s == s[..m] + s[m..];
    assert multiset(s) - multiset(s[..m]) == multiset(s[m..]);
    forall x, y | x in multiset(s[..m]) && y in multiset(s[m..]) ensures w(x) <= w(y) {
      var i :| 0 <= i < m && s[..m][i] == x;
      var j :| 0 <= j < |s[m..]| && s[m..][j] == y;
      assert s[i] == x && s[m + j] == y;
    }
  }

  lemma SmallestSameRows(chosen: seq<Record>, s: seq<Record>, rows: seq<Record>, w: Record -> real)
    requires Smallest(chosen, s, w) && multiset(s) == multiset(rows)
    ensures Smallest(chosen, rows, w)
  {
  }

  /** The distance of a row from the query, through the searched column. */
  function Distance(key: string, dist: Value -> real): Record -> real {
    row => dist(Get(row, key))
  }

  function Farness(key: string, dist: Value -> real): Record -> real {
    row => -dist(Get(row, key))
  }

  /** `KnowledgeBase.vector_search` as written: the rows sorted by distance, descending, and the
      first `n`; `KeyError` when the table has no such column. The farthest rows come back. */
  function VectorSearch(db: Frame, key: string, dist: Value -> real, n: int): (r: Result<seq<Record>>)
    ensures r.Ok? <==> key in db.columns
    ensures r.Ok? ==> |r.value| <= |db.rows| && (0 <= n ==> |r.value| == if n < |db.rows| then n else |db.rows|)
    ensures r.Ok? ==> Smallest(r.value, db.rows, Farness(key, dist))
    ensures r.Ok? ==> SortedBy(r.value, Farness(key, dist))
  {
    if key !in db.columns then Err(KeyError(key))
    else
      var sorted := SortBy(db.rows, Farness(key, dist));
      var r := TakePrefix(sorted, n);
      PrefixSmallest(sorted, |r|, Farness(key, dist));
      SmallestSameRows(r, sorted, db.rows, Farness(key, dist));
      Ok(r)
  }

  /** `vector_search` sorting ascending, as a search for related rows needs: the nearest rows
      come back. */
  function VectorSearchNearest(db: Frame, key: string, dist: Value -> real, n: int): (r: Result<seq<Record>>)
    ensures r.Ok? <==> key in db.columns
    ensures r.Ok? ==> |r.value| <= |db.rows| && (0 <= n ==> |r.value| == if n < |db.rows| then n else |db.rows|)
    ensures r.Ok? ==> Smallest(r.value, db.rows, Distance(key, dist))
    ensures r.Ok? ==> SortedBy(r.value, Distance(key, dist))
  {
    if key !in db.columns then Err(KeyError(key))
    else
      var sorted := SortBy(db.rows, Distance(key, dist));
      var r := TakePrefix(sorted, n);
      PrefixSmallest(sorted, |r|, Distance(key, dist));
      SmallestSameRows(r, sorted, db.rows, Distance(key, dist));
      Ok(r)
  }

  const Near: Record := map["key" := VStr("near"), "v" := VInt(1)]
  const Far: Record := map["key" := VStr("far"), "v" := VInt(2)]

  function SampleDistance(v: Value): real {
    if v == VInt(2) then 2.0 else 1.0
  }

  /** Asked for the one row closest to the query, the search as written returns the farther. */
  lemma VectorSearchReturnsFarthest()
    ensures VectorSearch(Frame({"key", "v"}, [Near, Far]), "v", SampleDistance, 1) == Ok([Far])
    ensures VectorSearchNearest(Frame({"key", "v"}, [Near, Far]), "v", SampleDistance, 1) == Ok([Near])
  {
    SortSampleFarness();
    SortSampleDistance();
  }

  lemma SortSampleFarness()
    ensures SortBy([Near, Far], Farness("v", SampleDistance)) == [Far, Near]
  {
    var w := Farness("v", SampleDistance);
    assert SampleDistance(VInt(1)) == 1.0 && SampleDistance(VInt(2)) == 2.0;
    assert Get(Near, "v") == VInt(1) && Get(Far, "v") == VInt(2);
    assert w(Far) < w(Near);
    SortPair(Near, Far, w);
  }

  lemma SortSampleDistance()
    ensures SortBy([Near, Far], Distance("v", SampleDistance)) == [Near, Far]
  {
    var w := Distance("v", SampleDistance);
    assert SampleDistance(VInt(1)) == 1.0 && SampleDistance(VInt(2)) == 2.0;
    assert Get(Near, "v") == VInt(1) && Get(Far, "v") == VInt(2);
    assert w(Near) <= w(Far);
    SortPair(Near, Far, w);
  }

  /** Sorting two rows puts the lighter first, the first given on a tie. */
  lemma SortPair(x: Record, y: Record, w: Record -> real)
    ensures SortBy([x, y], w) == if w(x) <= w(y) then [x, y] else [y, x]
  {
    assert [x, y][1..] == [y] && [y][1..] == [];
    assert SortBy([y], w) == [y];
    assert InsertBy(x, [], w) == [x];
    if w(y) < w(x) {
      assert InsertBy(x, [y], w) == [y] + [x];
    } else {
      assert InsertBy(x, [y], w) == [x] + [y];
    }
  }

  /** Dict keys must be hashable: lists and dicts are not. */
  predicate Hashable(v: Value) {
    !v.VList? && !v.VDict?
  }

  /** `entry["key"]` used as a dict key. */
  function EntryKey(e: Record): (r: Result<Value>)
    ensures r.Ok? <==> "key" in e && Hashable(e["key"])
    ensures r.Ok? ==> r.value == e["key"]
  {
    var k :- Index(e, "key");
    if Hashable(k) then Ok(k) else Err(TypeError("unhashable type"))
  }

  /** Every entry has a hashable key. */
  predicate AllKeyed(es: seq<Record>) {
    forall i :: 0 <= i < |es| ==> "key" in es[i] && Hashable(es[i]["key"])
  }

  /** The `db_mapping` of `update_entries`: each key of the old entries to the index of its
      last occurrence. */
  function KeyIndex(prior: seq<Record>): (r: Result<map<Value, nat>>)
    ensures r.Ok? <==> AllKeyed(prior)
    ensures r.Ok? ==> LastIndex(prior, r.value)
  {
    if |prior| == 0 then Ok(map[])
    else
      var init := prior[..|prior| - 1];
      assert AllKeyed(prior) <==> AllKeyed(init) && "key" in prior[|prior| - 1] && Hashable(prior[|prior| - 1]["key"]) by {
        assert forall i :: 0 <= i < |init| ==> init[i] == prior[i];
      }
      var m :- KeyIndex(init);
      var k :- EntryKey(prior[|prior| - 1]);
      KeyIndexStep(prior, m);
      Ok(m[k := |prior| - 1])
  }

  /** `m` sends each key of `prior` to the index of its last occurrence, and nothing else. */
  predicate LastIndex(prior: seq<Record>, m: map<Value, nat>)
    requires AllKeyed(prior)
  {
    (forall k :: k in m ==>
      m[k] < |prior| && prior[m[k]]["key"] == k && forall j :: m[k] < j < |prior| ==> prior[j]["key"] != k)
    && forall i :: 0 <= i < |prior| ==> prior[i]["key"] in m
  }

  lemma KeyIndexStep(prior: seq<Record>, m: map<Value, nat>)
    requires |prior| > 0 && AllKeyed(prior)
    requires AllKeyed(prior[..|prior| - 1]) && LastIndex(prior[..|prior| - 1], m)
    ensures LastIndex(prior, m[prior[|prior| - 1]["key"] := |prior| - 1])
  {
    var init := prior[..|prior| - 1];
    assert forall i :: 0 <= i < |init| ==> init[i] == prior[i];
  }

  /** Whether a new entry's key counts as found: `if idx:` as written treats index 0 as not
      found (`skipZero`); the fix tests only for presence. */
  predicate Found(m: map<Value, nat>, k: Value, skipZero: bool) {
    k in m && !(skipZero && m[k] == 0)
  }

  /** `dict.update` applied with each entry in turn. */
  function UpdateWith(row: Record, es: seq<Record>): Record
    decreases |es|
  {
    if |es| == 0 then row else UpdateWith(row + es[0], es[1..])
  }

  /** The new entries that update the row at index `i`, in order. */
  function UpdatesAt(news: seq<Record>, m: map<Value, nat>, i: nat, skipZero: bool): (r: seq<Record>)
    requires AllKeyed(news)
    ensures forall e :: e in r ==> e in news
  {
    if |news| == 0 then []
    else
      var k := news[0]["key"];
      var rest := UpdatesAt(news[1..], m, i, skipZero);
      if Found(m, k, skipZero) && m[k] == i then [news[0]] + rest else rest
  }

  /** The new entries that are appended, in order. */
  function Unfound(news: seq<Record>, m: map<Value, nat>, skipZero: bool): (r: seq<Record>)
    requires AllKeyed(news)
    ensures |r| <= |news|
    ensures forall e :: e in r ==> e in news && !Found(m, e["key"], skipZero)
  {
    if |news| == 0 then []
    else
      var rest := Unfound(news[1..], m, skipZero);
      if Found(m, news[0]["key"], skipZero) then rest else [news[0]] + rest
  }

  /** The loop of `update_entries` over the new entries. */
  function UpdateAll(updated: seq<Record>, m: map<Value, nat>, news: seq<Record>, skipZero: bool)
    : (r: Result<seq<Record>>)
    requires forall k :: k in m ==> m[k] < |updated|
    ensures r.Ok? <==> AllKeyed(news)
    decreases |news|
  {
    if |news| == 0 then Ok(updated)
    else
      var k :- EntryKey(news[0]);
      var rest := news[1..];
      assert AllKeyed(news) <==> AllKeyed(rest) by {
        assert forall i :: 0 <= i < |rest| ==> rest[i] == news[i + 1];
      }
      if Found(m, k, skipZero) then
        UpdateAll(updated[m[k] := updated[m[k]] + news[0]], m, rest, skipZero)
      else UpdateAll(updated + [news[0]], m, rest, skipZero)
  }

  /** What the loop computes, in closed form: each old row updated by the entries found at
      its index, then the entries not found. */
  function Updated(updated: seq<Record>, m: map<Value, nat>, news: seq<Record>, skipZero: bool)
    : (r: seq<Record>)
    requires AllKeyed(news)
  {
    seq(|updated|, i requires 0 <= i < |updated| => UpdateWith(updated[i], UpdatesAt(news, m, i, skipZero)))
      + Unfound(news, m, skipZero)
  }

  lemma {:induction false} UpdateAllSpec(updated: seq<Record>, m: map<Value, nat>, news: seq<Record>, skipZero: bool)
    requires forall k :: k in m ==> m[k] < |updated|
    requires AllKeyed(news)
    ensures UpdateAll(updated, m, news, skipZero) == Ok(Updated(updated, m, news, skipZero))
    decreases |news|
  {
    if |news| > 0 {
      var e, rest := news[0], news[1..];
      var k := e["key"];
      assert AllKeyed(rest) by {
        assert forall i :: 0 <= i < |rest| ==> rest[i] == news[i + 1];
      }
      if Found(m, k, skipZero) {
        var u := updated[m[k] := updated[m[k]] + e];
        assert EntryKey(e) == Ok(k);
        assert UpdateAll(updated, m, news, skipZero) == UpdateAll(u, m, rest, skipZero);
        UpdateAllSpec(u, m, rest, skipZero);
        UpdateAllFoundStep(updated, m, news, skipZero);
      } else {
        var u := updated + [e];
        assert EntryKey(e) == Ok(k);
        assert UpdateAll(updated, m, news, skipZero) == UpdateAll(u, m, rest, skipZero);
        UpdateAllSpec(u, m, rest, skipZero);
        UpdateAllAppendStep(updated, m, news, skipZero);
      }
    } else {
      assert Updated(updated, m, news, skipZero) == updated;
    }
  }

  lemma UpdateAllFoundStep(updated: seq<Record>, m: map<Value, nat>, news: seq<Record>, skipZero: bool)
    requires forall k :: k in m ==> m[k] < |updated|
    requires |news| > 0 && AllKeyed(news) && AllKeyed(news[1..])
    requires Found(m, news[0]["key"], skipZero)
    ensures var j := m[news[0]["key"]];
      Updated(updated[j := updated[j] + news[0]], m, news[1..], skipZero) == Updated(updated, m, news, skipZero)
  {
    var e, rest := news[0], news[1..];
    var j := m[e["key"]];
    var u := updated[j := updated[j] + e];
    forall i | 0 <= i < |updated|
      ensures UpdateWith(u[i], UpdatesAt(rest, m, i, skipZero)) == UpdateWith(updated[i], UpdatesAt(news, m, i, skipZero))
    {
      if i == j {
        var us := UpdatesAt(news, m, i, skipZero);
        assert us == [e] + UpdatesAt(rest, m, i, skipZero);
        assert us[1..] == UpdatesAt(rest, m, i, skipZero);
      }
    }
  }

  lemma UpdateAllAppendStep(updated: seq<Record>, m: map<Value, nat>, news: seq<Record>, skipZero: bool)
    requires forall k :: k in m ==> m[k] < |updated|
    requires |news| > 0 && AllKeyed(news) && AllKeyed(news[1..])
    requires !Found(m, news[0]["key"], skipZero)
    ensures Updated(updated + [news[0]], m, news[1..], skipZero) == Updated(updated, m, news, skipZero)
  {
    var e, rest := news[0], news[1..];
    var u := updated + [e];
    NoUpdatesBeyond(rest, m, |updated|, skipZero);
    var a := seq(|u|, i requires 0 <= i < |u| => UpdateWith(u[i], UpdatesAt(rest, m, i, skipZero)));
    var b := seq(|updated|, i requires 0 <= i < |updated| => UpdateWith(updated[i], UpdatesAt(news, m, i, skipZero)));
    assert a == b + [e];
    assert Unfound(news, m, skipZero) == [e] + Unfound(rest, m, skipZero);
  }

  lemma {:induction false} NoUpdatesBeyond(news: seq<Record>, m: map<Value, nat>, n: nat, skipZero: bool)
    requires AllKeyed(news)
    requires forall k :: k in m ==> m[k] < n
    ensures UpdatesAt(news, m, n, skipZero) == []
    decreases |news|
  {
    if |news| > 0 {
      assert AllKeyed(news[1..]) by {
        assert forall i :: 0 <= i < |news[1..]| ==> news[1..][i] == news[i + 1];
      }
      NoUpdatesBeyond(news[1..], m, n, skipZero);
    }
  }

  /** `update_entries(old_entries, new_entries)` as written: a new entry whose key the old
      entries map to a non-zero index updates that entry in place; every other new entry is
      appended. `KeyError` for an entry without a key, `TypeError` for an unhashable one. */
  function UpdateEntries(prior: seq<Record>, news: seq<Record>): (r: Result<seq<Record>>)
    ensures r.Ok? <==> AllKeyed(prior) && AllKeyed(news)
  {
    var m :- KeyIndex(prior);
    UpdateAll(prior, m, news, true)
  }

  /** `update_entries` with `if idx is not None:`, so that the first entry can be updated too. */
  function UpdateEntriesFixed(prior: seq<Record>, news: seq<Record>): (r: Result<seq<Record>>)
    ensures r.Ok? <==> AllKeyed(prior) && AllKeyed(news)
  {
    var m :- KeyIndex(prior);
    UpdateAll(prior, m, news, false)
  }

  /** As written, the result is the old entries, each updated by the new entries the mapping
      sends to its non-zero index, then the rest of the new entries in input order; the first
      prior entry is never updated. */
  lemma UpdateEntriesShape(prior: seq<Record>, news: seq<Record>)
    requires AllKeyed(prior) && AllKeyed(news)
    ensures var m := KeyIndex(prior).value; var r := UpdateEntries(prior, news).value;
      |r| == |prior| + |Unfound(news, m, true)|
      && r[|prior|..] == Unfound(news, m, true)
      && (forall i :: 0 <= i < |prior| ==> r[i] == UpdateWith(prior[i], UpdatesAt(news, m, i, true)))
      && (|prior| > 0 ==> r[0] == prior[0])
  {
    var m := KeyIndex(prior).value;
    UpdateAllSpec(prior, m, news, true);
    if |prior| > 0 {
      NoUpdatesAtZero(news, m);
    }
  }

  lemma {:induction false} NoUpdatesAtZero(news: seq<Record>, m: map<Value, nat>)
    requires AllKeyed(news)
    ensures UpdatesAt(news, m, 0, true) == []
    decreases |news|
  {
    if |news| > 0 {
      assert AllKeyed(news[1..]) by {
        assert forall i :: 0 <= i < |news[1..]| ==> news[1..][i] == news[i + 1];
      }
      NoUpdatesAtZero(news[1..], m);
    }
  }

  /** With the fix, the rows added are exactly the new entries whose key no old entry has. */
  lemma UpdateEntriesFixedShape(prior: seq<Record>, news: seq<Record>)
    requires AllKeyed(prior) && AllKeyed(news)
    ensures var m := KeyIndex(prior).value; var r := UpdateEntriesFixed(prior, news).value;
      |r| == |prior| + |Unfound(news, m, false)|
      && (forall i :: 0 <= i < |prior| ==> r[i] == UpdateWith(prior[i], UpdatesAt(news, m, i, false)))
      && forall e :: e in r[|prior|..] ==> e in news && forall i :: 0 <= i < |prior| ==> prior[i]["key"] != e["key"]
  {
    var m := KeyIndex(prior).value;
    UpdateAllSpec(prior, m, news, false);
  }

  const OldA: Record := map["key" := VStr("a")]
  const NewA: Record := map["key" := VStr("a"), "title" := VStr("t")]

  /** The first old entry is never found: a new entry with its key is appended, and the
      table then holds the key twice. The fix updates the entry in place instead. */
  lemma UpdateEntriesDuplicatesFirst()
    ensures UpdateEntries([OldA], [NewA]) == Ok([OldA, NewA])
    ensures UpdateEntriesFixed([OldA], [NewA]) == Ok([OldA + NewA])
  {
    var m := map[VStr("a") := 0];
    assert [OldA][..0] == [];
    assert KeyIndex([OldA]) == Ok(m);
    assert AllKeyed([NewA]);
    assert [NewA][1..] == [];
    UpdateAllSpec([OldA], m, [NewA], true);
    assert UpdatesAt([NewA], m, 0, true) == [];
    assert Unfound([NewA], m, true) == [NewA];
    assert Updated([OldA], m, [NewA], true) == [OldA, NewA];
    UpdateAllSpec([OldA], m, [NewA], false);
    assert UpdatesAt([NewA], m, 0, false) == [NewA];
    assert Unfound([NewA], m, false) == [];
    assert UpdateWith(OldA, [NewA]) == OldA + NewA;
    assert Updated([OldA], m, [NewA], false) == [OldA + NewA];
  }

}

=== FILE: text.dfy ===
/** Title and name normalisation (`TextUtils` in src/utils/text.py). */
module Text {
  import opened Wrappers
  import opened Values
  import opened Strings

  /** The characters the cleaning regex keeps: ASCII letters and digits. */
  predicate IsAlnum(c: char) {
    ('a' <= c <= 'z') || ('A' <= c <= 'Z') || ('0' <= c <= '9')
  }

  predicate IsLowerAlnum(c: char) {
    ('a' <= c <= 'z') || ('0' <= c <= '9')
  }

  /** A string `clean` can produce: lower-case letters, digits and single inner spaces. */
  predicate IsCleanForm(r: string) {
    && (forall i :: 0 <= i < |r| ==> IsLowerAlnum(r[i]) || r[i] == ' ')
    && (|r| > 0 ==> r[0] != ' ' && r[|r| - 1] != ' ')
    && (forall i :: 0 <= i < |r| - 1 && r[i] == ' ' ==> r[i + 1] != ' ')
  }

  /** A word `clean` keeps: non-empty, lower-case letters and digits only. */
  predicate IsCleanWord(w: string) {
    |w| > 0 && forall i :: 0 <= i < |w| ==> IsLowerAlnum(w[i])
  }

  /** The words of `s` as `clean` sees them: each maximal run of ASCII letters and digits,
      lower-cased. */
  function CleanWords(s: string): (ws: seq<string>)
    ensures forall k :: 0 <= k < |ws| ==> IsCleanWord(ws[k])
  {
    LowerAll(Tokens(s, IsAlnum))
  }

  /** Lower-cases every string of `ts`. */
  function LowerAll(ts: seq<string>): (r: seq<string>)
    requires forall k :: 0 <= k < |ts| ==> |ts[k]| > 0
    requires forall k, i :: 0 <= k < |ts| && 0 <= i < |ts[k]| ==> IsAlnum(ts[k][i])
    ensures |r| == |ts|
    ensures forall k :: 0 <= k < |ts| ==> r[k] == LowerStr(ts[k])
  {
    if |ts| == 0 then [] else [LowerStr(ts[0])] + LowerAll(ts[1..])
  }

  /** `TextUtils.clean` on a string: every run of non-alphanumeric characters becomes one
      space, the result is trimmed and lower-cased. */
  function Clean(s: string): (r: string)
  {
    Join(" ", CleanWords(s))
  }

  /** `TextUtils.clean` on any value: `None` is the empty string, a non-string is the
      `TypeError` that `re.sub` raises. */
  function CleanValue(v: Value): (r: Result<string>)
    ensures v.VNone? ==> r == Ok("")
    ensures v.VStr? ==> r == Ok(Clean(v.s))
    ensures r.Ok? <==> v.VNone? || v.VStr?
  {
    match v
    case VNone => Ok("")
    case VStr(s) => Ok(Clean(s))
    case _ => Err(TypeError("expected string or bytes-like object"))
  }

  /** `TextUtils.same`: equality after cleaning; an exception if either side is not text. */
  function SameValue(a: Value, b: Value): (r: Result<bool>)
    ensures r.Ok? <==> CleanValue(a).Ok? && CleanValue(b).Ok?
    ensures r.Ok? ==> (r.value <==> CleanValue(a).value == CleanValue(b).value)
  {
    var ca :- CleanValue(a);
    var cb :- CleanValue(b);
    Ok(ca == cb)
  }

  predicate Same(a: string, b: string) {
    Clean(a) == Clean(b)
  }

  lemma {:induction false} JoinNonEmpty(ws: seq<string>)
    requires |ws| > 0 && forall k :: 0 <= k < |ws| ==> |ws[k]| > 0
    ensures |Join(" ", ws)| > 0
  {
    if |ws| > 1 {
      assert Join(" ", ws) == ws[0] + " " + Join(" ", ws[1..]);
    }
  }

  /** Joining clean words with single spaces gives a string in clean form. */
  lemma {:induction false} JoinCleanForm(ws: seq<string>)
    requires forall k :: 0 <= k < |ws| ==> IsCleanWord(ws[k])
    ensures IsCleanForm(Join(" ", ws))
    decreases |ws|
  {
    if |ws| > 1 {
      var w, rest := ws[0], ws[1..];
      var j := Join(" ", rest);
      JoinCleanForm(rest);
      JoinNonEmpty(rest);
      var r := Join(" ", ws);
      assert r == w + " " + j;
      assert forall i :: 0 <= i < |w| ==> r[i] == w[i];
      assert r[|w|] == ' ';
      assert forall i :: |w| < i < |r| ==> r[i] == j[i - |w| - 1];
      assert r[|r| - 1] == j[|j| - 1];
      forall i | 0 <= i < |r| - 1 && r[i] == ' ' ensures r[i + 1] != ' ' {
        if i == |w| { assert r[i + 1] == j[0]; }
        else { assert i > |w|; assert r[i + 1] == j[i + 1 - |w| - 1]; }
      }
    }
  }

  /** The alphanumeric tokens of space-joined clean words are those words. */
  lemma {:induction false} TokensOfJoin(ws: seq<string>)
    requires forall k :: 0 <= k < |ws| ==> IsCleanWord(ws[k])
    ensures Tokens(Join(" ", ws), IsAlnum) == ws
    decreases |ws|
  {
    if |ws| == 1 {
      TokensWord(ws[0], "", IsAlnum);
      assert ws[0] + "" == ws[0];
    } else if |ws| > 1 {
      var w, rest := ws[0], ws[1..];
      var j := Join(" ", rest);
      TokensOfJoin(rest);
      assert Join(" ", ws) == w + (" " + j);
      TokensWord(w, " " + j, IsAlnum);
      TokensSkip(" " + j, 1, IsAlnum);
      assert (" " + j)[1..] == j;
    }
  }

  /** Lower-casing a clean word leaves it unchanged. */
  lemma LowerCleanWord(w: string)
    requires IsCleanWord(w)
    ensures LowerStr(w) == w
  {
  }

  /** The words of a cleaned string are the cleaned words of the original. */
  lemma CleanWordsOfClean(s: string)
    ensures CleanWords(Clean(s)) == CleanWords(s)
  {
    var ws := CleanWords(s);
    TokensOfJoin(ws);
    var ts := Tokens(Clean(s), IsAlnum);
    assert ts == ws;
    forall k | 0 <= k < |ws| ensures LowerStr(ts[k]) == ws[k] {
      LowerCleanWord(ws[k]);
    }
  }

  /** `clean` produces lower-case letters, digits and single inner spaces, never a leading
      or trailing space. */
  lemma CleanShape(s: string)
    ensures IsCleanForm(Clean(s))
  {
    JoinCleanForm(CleanWords(s));
  }

  /** `clean` is idempotent. */
  lemma CleanIdempotent(s: string)
    ensures Clean(Clean(s)) == Clean(s)
  {
    CleanWordsOfClean(s);
  }

  /** `same` is an equivalence, and a text is the same as its cleaned form; so comparing
      against an already-cleaned query title is the same as comparing against the raw one. */
  lemma SameProperties(a: string, b: string, c: string)
    ensures Same(a, a)
    ensures Same(a, b) ==> Same(b, a)
    ensures Same(a, b) && Same(b, c) ==> Same(a, c)
    ensures Same(Clean(a), b) <==> Same(a, b)
  {
    CleanIdempotent(a);
  }

  /** `TextUtils.get_first_string`: the first element of a list (whatever it is), a string
      unchanged, and `""` for anything else; indexing an empty list raises. */
  function GetFirstString(v: Value): (r: Result<Value>)
    ensures v.VList? ==> (r.Ok? <==> |v.items| > 0)
    ensures v.VList? && |v.items| > 0 ==> r == Ok(v.items[0])
    ensures v.VStr? ==> r == Ok(v)
    ensures !v.VList? && !v.VStr? ==> r == Ok(VStr(""))
  {
    match v
    case VList(xs) => if |xs| == 0 then Err(IndexError) else Ok(xs[0])
    case VStr(_) => Ok(v)
    case _ => Ok(VStr(""))
  }

  /** `TextUtils.get_last_name`: `None` stays `None`; with a comma, the trimmed text before
      the first comma; otherwise the trimmed text after the last space. Non-strings raise. */
  function GetLastName(v: Value): (r: Result<Value>)
    ensures v.VNone? ==> r == Ok(VNone)
    ensures r.Ok? <==> v.VNone? || v.VStr?
    ensures v.VStr? && Contains(v.s, ",") ==> r == Ok(VStr(Strip(BeforeFirst(v.s, ','))))
    ensures v.VStr? && !Contains(v.s, ",") ==> r == Ok(VStr(Strip(AfterLast(v.s, ' '))))
  {
    match v
    case VNone => Ok(VNone)
    case VStr(s) =>
      if Contains(s, ",") then Ok(VStr(Strip(BeforeFirst(s, ','))))
      else Ok(VStr(Strip(AfterLast(s, ' '))))
    case VList(_) => Err(AttributeError("'list' object has no attribute 'split'"))
    case VDict(_) => Err(AttributeError("'dict' object has no attribute 'split'"))
    case _ => Err(TypeError("argument of type is not iterable"))
  }

  /** The last name of a "Family, Given" string is the trimmed text before the first comma. */
  lemma LastNameWithComma(name: string)
    requires Contains(name, ",")
    ensures exists p :: (GetLastName(VStr(name)) == Ok(VStr(Strip(p)))
      && |p| < |name| && name[..|p|] == p && name[|p|] == ','
      && forall i :: 0 <= i < |p| ==> p[i] != ',')
  {
    var p := BeforeFirst(name, ',');
    BeforeFirstSpec(name, ',');
    var j := Find(name, ",", 0).value;
    assert name[j..j + 1] == ",";
    assert name[j] == ',';
    assert forall i :: 0 <= i < |p| ==> name[i] == p[i];
  }

  /** Without a comma, the last name is the trimmed last space-separated token. */
  lemma LastNameWithoutComma(name: string)
    requires !Contains(name, ",")
    ensures exists q :: (GetLastName(VStr(name)) == Ok(VStr(Strip(q)))
      && |q| <= |name| && name[|name| - |q|..] == q
      && (forall i :: 0 <= i < |q| ==> q[i] != ' ')
      && (|q| < |name| ==> name[|name| - |q| - 1] == ' '))
  {
    AfterLastSpec(name, ' ');
  }

  /** `TextUtils.get_author`: a list gives the author of its first element; a dict with
      `family` gives "family, given"; another dict gives its `name`; a string is itself;
      anything else is `""`. Missing keys, empty lists and non-string name parts raise, in
      the order Python evaluates `value['family'] + ', ' + value['given']`: a non-string
      family before a missing given. */
  function GetAuthor(v: Value): (r: Result<Value>)
    ensures v.VStr? ==> r == Ok(v)
    ensures v.VNone? || v.VBool? || v.VInt? ==> r == Ok(VStr(""))
    ensures v.VDict? && "family" in v.fields && "given" in v.fields
              && v.fields["family"].VStr? && v.fields["given"].VStr?
            ==> r == Ok(VStr(v.fields["family"].s + ", " + v.fields["given"].s))
    ensures v.VDict? && "family" in v.fields && !v.fields["family"].VStr? ==> r.Err? && r.error.TypeError?
    ensures v.VDict? && "family" in v.fields && v.fields["family"].VStr? && "given" !in v.fields
            ==> r == Err(KeyError("given"))
    ensures v.VDict? && "family" in v.fields && "given" in v.fields && !v.fields["given"].VStr?
            ==> r.Err? && r.error.TypeError?
    ensures v.VDict? && "family" !in v.fields ==> r == Index(v.fields, "name")
    ensures v.VList? && |v.items| > 0 ==> r == GetAuthor(v.items[0])
    ensures v.VList? && |v.items| == 0 ==> r.Err?
  {
    match v
    case VList(xs) => if |xs| == 0 then Err(IndexError) else GetAuthor(xs[0])
    case VDict(m) =>
      if "family" in m then
        if !m["family"].VStr? then Err(TypeError("unsupported operand type(s) for +"))
        else if "given" !in m then Err(KeyError("given"))
        else if m["given"].VStr? then Ok(VStr(m["family"].s + ", " + m["given"].s))
        else Err(TypeError("can only concatenate str to str"))
      else Index(m, "name")
    case VStr(_) => Ok(v)
    case _ => Ok(VStr(""))
  }

  /** The dict `{"family": None}` raises `TypeError` at the first `+`, before `given` is read. */
  lemma GetAuthorFamilyFirst()
    ensures GetAuthor(VDict(map["family" := VNone])).Err?
    ensures GetAuthor(VDict(map["family" := VNone])).error.TypeError?
    ensures GetAuthor(VDict(map["family" := VStr("Doe")])) == Err(KeyError("given"))
  {
  }

  /** Formatting a Crossref author as "family, given" and taking its last name gives back
      the family name (trimmed), provided the family name has no comma. */
  lemma {:induction false} LastNameOfFormattedAuthor(family: string, given: string)
    requires forall i :: 0 <= i < |family| ==> family[i] != ','
    ensures GetAuthor(VDict(map["family" := VStr(family), "given" := VStr(given)])).Ok?
    ensures GetLastName(GetAuthor(VDict(map["family" := VStr(family), "given" := VStr(given)])).value)
            == Ok(VStr(Strip(family)))
  {
    var m := map["family" := VStr(family), "given" := VStr(given)];
    var name := family + ", " + given;
    assert GetAuthor(VDict(m)) == Ok(VStr(name));
    assert OccursAt(name, ",", |family|);
    ContainsAt(name, ",", |family|);
    BeforeFirstSpec(name, ',');
    var p := BeforeFirst(name, ',');
    assert forall i :: 0 <= i < |family| ==> name[i] == family[i];
    assert name[|family|] == ',';
    assert forall i :: 0 <= i < |p| ==> name[i] == p[i];
    assert p == family;
  }

  /** Peeling one word and the gap after it off the front of a string. */
  lemma CleanWordsCons(w: string, gap: string, rest: string)
    requires |w| > 0 && forall i :: 0 <= i < |w| ==> IsAlnum(w[i])
    requires |gap| > 0 && forall i :: 0 <= i < |gap| ==> !IsAlnum(gap[i])
    ensures CleanWords(w + gap + rest) == [LowerStr(w)] + CleanWords(rest)
  {
    TokensPiece(w, gap, rest, IsAlnum);
  }

  lemma CleanWordsSingle(w: string)
    requires |w| > 0 && forall i :: 0 <= i < |w| ==> IsAlnum(w[i])
    ensures CleanWords(w) == [LowerStr(w)]
  {
    TokensWord(w, "", IsAlnum);
    assert w + "" == w;
  }

  /** Two words, each followed by a gap. */
  lemma TwoWords(s: string, w1: string, g1: string, w2: string, g2: string)
    requires |w1| > 0 && forall i :: 0 <= i < |w1| ==> IsAlnum(w1[i])
    requires |w2| > 0 && forall i :: 0 <= i < |w2| ==> IsAlnum(w2[i])
    requires |g1| > 0 && forall i :: 0 <= i < |g1| ==> !IsAlnum(g1[i])
    requires |g2| > 0 && forall i :: 0 <= i < |g2| ==> !IsAlnum(g2[i])
    requires s == w1 + g1 + (w2 + g2 + "")
    ensures CleanWords(s) == [LowerStr(w1), LowerStr(w2)]
  {
    CleanWordsCons(w2, g2, "");
    CleanWordsCons(w1, g1, w2 + g2 + "");
  }

  /** Two words with a gap between them and nothing after. */
  lemma TwoWordsLast(s: string, w1: string, g1: string, w2: string)
    requires |w1| > 0 && forall i :: 0 <= i < |w1| ==> IsAlnum(w1[i])
    requires |w2| > 0 && forall i :: 0 <= i < |w2| ==> IsAlnum(w2[i])
    requires |g1| > 0 && forall i :: 0 <= i < |g1| ==> !IsAlnum(g1[i])
    requires s == w1 + g1 + w2
    ensures CleanWords(s) == [LowerStr(w1), LowerStr(w2)]
  {
    CleanWordsSingle(w2);
    CleanWordsCons(w1, g1, w2);
  }

  /** One more word in front adds one word. */
  lemma OneMoreWord(s: string, w: string, g: string, rest: string)
    requires |w| > 0 && forall i :: 0 <= i < |w| ==> IsAlnum(w[i])
    requires |g| > 0 && forall i :: 0 <= i < |g| ==> !IsAlnum(g[i])
    requires s == w + g + rest
    ensures |CleanWords(s)| == 1 + |CleanWords(rest)|
  {
    CleanWordsCons(w, g, rest);
  }

  // Each fact about a literal is a lemma of its own, which keeps the examples cheap.

  lemma HelloWorldPieces()
    ensures CleanWords("Hello, World!") == [LowerStr("Hello"), LowerStr("World")]
  {
    TwoWords("Hello, World!", "Hello", ", ", "World", "!");
  }

  lemma TestCommaPieces()
    ensures CleanWords("Test, text!") == [LowerStr("Test"), LowerStr("text")]
  {
    TwoWords("Test, text!", "Test", ", ", "text", "!");
  }

  lemma TestTextPieces()
    ensures CleanWords("test text") == [LowerStr("test"), LowerStr("text")]
  {
    TwoWordsLast("test text", "test", " ", "text");
  }

  lemma AnotherPieces()
    ensures |CleanWords("another test text")| == 1 + |CleanWords("test text")|
  {
    OneMoreWord("another test text", "another", " ", "test text");
  }

  lemma LowerHello() ensures LowerStr("Hello") == "hello" { }
  lemma LowerWorld() ensures LowerStr("World") == "world" { }
  lemma LowerTestUpper() ensures LowerStr("Test") == "test" { }
  lemma LowerTest() ensures LowerStr("test") == "test" { }
  lemma LowerText() ensures LowerStr("text") == "text" { }
  lemma JoinHelloWorld() ensures Join(" ", ["hello", "world"]) == "hello world" { }

  lemma WordsHelloWorld()
    ensures CleanWords("Hello, World!") == ["hello", "world"]
  {
    HelloWorldPieces();
    LowerHello();
    LowerWorld();
  }

  /** The first cleaning example of the repository's text-utility tests. */
  lemma CleanHelloWorld()
    ensures Clean("Hello, World!") == "hello world"
  {
    WordsHelloWorld();
    JoinHelloWorld();
  }

  lemma WordsTestComma()
    ensures CleanWords("Test, text!") == ["test", "text"]
  {
    TestCommaPieces();
    LowerTestUpper();
    LowerText();
  }

  lemma WordsTestText()
    ensures CleanWords("test text") == ["test", "text"]
  {
    TestTextPieces();
    LowerTest();
    LowerText();
  }

  lemma WordsAnother()
    ensures |CleanWords("another test text")| == 3
  {
    AnotherPieces();
    WordsTestText();
  }

  /** The `same` examples of the repository's text-utility tests. */
  lemma SameExamples()
    ensures Same("Test, text!", "test text")
    ensures !Same("Test, text!", "another test text")
  {
    WordsTestComma();
    WordsTestText();
    WordsAnother();
    CleanWordsOfClean("Test, text!");
    CleanWordsOfClean("another test text");
  }
}

=== FILE: values.dfy ===
/** JSON-like Python values with Python's truthiness, and records (dicts keyed by strings). */
module Values {
  import opened Wrappers

  /** A Python value as it flows through the pipeline: YAML/JSON data, provider records and
      reference stubs. Dicts are keyed by strings. */
  datatype Value =
    | VNone
    | VBool(b: bool)
    | VInt(i: int)
    | VStr(s: string)
    | VList(items: seq<Value>)
    | VDict(fields: Record)

  type Record = map<string, Value>

  /** Python truthiness: `None`, `False`, `0`, `""`, `[]` and `{}` are falsy. */
  predicate Truthy(v: Value) {
    match v
    case VNone => false
    case VBool(b) => b
    case VInt(i) => i != 0
    case VStr(s) => |s| > 0
    case VList(xs) => |xs| > 0
    case VDict(m) => |m| > 0
  }

  /** Python's `a or b`: the first operand when it is truthy, otherwise the second. */
  function Or(a: Value, b: Value): (r: Value)
    ensures Truthy(a) ==> r == a
    ensures !Truthy(a) ==> r == b
    ensures Truthy(r) <==> Truthy(a) || Truthy(b)
  {
    if Truthy(a) then a else b
  }

  /** Python's `d.get(k)`: the value stored under `k`, or `None` when absent. */
  function Get(d: Record, k: string): (r: Value)
    ensures k in d ==> r == d[k]
    ensures k !in d ==> r == VNone
  {
    if k in d then d[k] else VNone
  }

  /** Python's `d[k]`: a `KeyError` when absent. */
  function Index(d: Record, k: string): (r: Result<Value>)
    ensures r.Ok? <==> k in d
    ensures r.Ok? ==> r.value == d[k]
  {
    if k in d then Ok(d[k]) else Err(KeyError(k))
  }

  /** The decimal digits of a natural number, most significant first. */
  function NatToDecimal(n: nat): (r: string)
    decreases n
  {
    if n < 10 then [DigitChar(n)] else NatToDecimal(n / 10) + [DigitChar(n % 10)]
  }

  function DigitChar(d: nat): (c: char)
    requires d < 10
    ensures '0' <= c <= '9'
  {
    ['0', '1', '2', '3', '4', '5', '6', '7', '8', '9'][d]
  }

  predicate IsDigit(c: char) { '0' <= c <= '9' }

  /** Python's `str.isdigit()` restricted to ASCII digits: non-empty and digits only. */
  predicate IsDigits(s: string) {
    |s| > 0 && forall i :: 0 <= i < |s| ==> IsDigit(s[i])
  }

  lemma {:induction false} NatToDecimalDigits(n: nat)
    ensures IsDigits(NatToDecimal(n))
    decreases n
  {
    if n >= 10 {
      NatToDecimalDigits(n / 10);
      var a, b := NatToDecimal(n / 10), [DigitChar(n % 10)];
      assert NatToDecimal(n) == a + b;
      forall i | 0 <= i < |a + b| ensures IsDigit((a + b)[i]) {
        if i < |a| { assert (a + b)[i] == a[i]; } else { assert (a + b)[i] == b[i - |a|]; }
      }
    }
  }

  /** What a `for` loop or `filter` iterates over: a list's elements, a string's characters. Iterating a
      scalar raises `TypeError`; a mapping's keys have no order in `Values`, so a mapping is
      refused as well. */
  function Elements(v: Value): (r: Result<seq<Value>>)
    ensures r.Ok? <==> v.VList? || v.VStr?
    ensures v.VList? ==> r == Ok(v.items)
    ensures v.VStr? ==> r.Ok? && |r.value| == |v.s| && forall i :: 0 <= i < |v.s| ==> r.value[i] == VStr([v.s[i]])
  {
    match v
    case VList(xs) => Ok(xs)
    case VStr(s) => Ok(seq(|s|, i requires 0 <= i < |s| => VStr([s[i]])))
    case _ => Err(TypeError("object is not iterable"))
  }

  /** Python's `str(v)` for the scalar values that reach an f-string in the source;
      lists and dicts render as a fixed placeholder (their `repr` is not modelled). */
  function Format(v: Value): (r: string)
    ensures v.VStr? ==> r == v.s
    ensures v.VInt? && v.i >= 0 ==> r == NatToDecimal(v.i)
    ensures v.VNone? ==> r == "None"
  {
    match v
    case VNone => "None"
    case VBool(b) => if b then "True" else "False"
    case VInt(i) => if i >= 0 then NatToDecimal(i) else "-" + NatToDecimal(-i)
    case VStr(s) => s
    case VList(_) => "[...]"
    case VDict(_) => "{...}"
  }

  /** The parts laid end to end, in order. */
  function Flatten<T>(parts: seq<seq<T>>): seq<T>
    decreases |parts|
  {
    if |parts| == 0 then [] else parts[0] + Flatten(parts[1..])
  }

  /** Flattening a concatenation flattens each part. */
  lemma {:induction false} FlattenAppend<T>(a: seq<seq<T>>, b: seq<seq<T>>)
    ensures Flatten(a + b) == Flatten(a) + Flatten(b)
    decreases |a|
  {
    if |a| == 0 {
      assert a + b == b;
    } else {
      assert (a + b)[1..] == a[1..] + b;
      FlattenAppend(a[1..], b);
    }
  }

  /** An element of one part is an element of the whole. */
  lemma {:induction false} FlattenHas<T>(parts: seq<seq<T>>, i: nat, x: T)
    requires i < |parts| && x in parts[i]
    ensures x in Flatten(parts)
    decreases i
  {
    if i > 0 {
      FlattenHas(parts[1..], i - 1, x);
    }
  }

  /** Wraps a sequence of strings as a Python list of strings. */
  function StrList(xs: seq<string>): (r: Value)
    ensures r.VList? && |r.items| == |xs|
    ensures forall i :: 0 <= i < |xs| ==> r.items[i] == VStr(xs[i])
  {
    VList(seq(|xs|, i requires 0 <= i < |xs| => VStr(xs[i])))
  }
}

=== FILE: warn.dfy ===
/** `WarningProcessor`: the yes/no gate that asks the user before a doubtful result is used. */
module Warn {
  import opened Values

  /** How a warning ends: a returned answer, or the process exiting with status 1. */
  datatype Outcome = Returned(accepted: bool) | Exited

  /** A warning's effect: the prompt shown to the user, if any, and how it ends. */
  datatype Warning = Warning(prompt: seq<string>, outcome: Outcome)

  /** The coloured `WARNING: ` prefix; `\U{1B}` is the escape character. */
  const WarningPrefix: string := "\U{1B}[33mWARNING\U{1B}[0m: "

  /** `process_warning(message, abort, script_mode)`, where `answer` stands for the line the
      user types at the `input(message)` prompt. */
  function ProcessWarning(message: string, abort: bool, scriptMode: bool, answer: string -> string)
    : (w: Warning)
    ensures scriptMode ==> w == Warning([], Returned(false))
    ensures !scriptMode ==> w.prompt == [message]
    ensures w.outcome == Returned(true) <==> !scriptMode && answer(message) == "y"
    ensures w.outcome == Exited <==> !scriptMode && abort && answer(message) != "y"
  {
    if scriptMode then Warning([], Returned(false))
    else
      var userContinue := answer(message) == "y";
      if abort && !userContinue then Warning([message], Exited)
      else Warning([message], Returned(userContinue))
  }

  /** The prompt `process_article_warning` builds for a doubtful fetched title. */
  function ArticleWarningMessage(service: string, request: Value, fetched: Value): string {
    WarningPrefix + "Fetched paper might be not correct (" + service + ")\n"
      + "\tRequested:\t" + Format(request) + "\n"
      + "\tFetched:\t" + Format(fetched) + "\n"
      + "\tDo you want to use fetched paper? (y/N): "
  }

  /** `process_article_warning(abort, service, request, fetched)`: never in script mode, so the
      user is always asked. */
  function ProcessArticleWarning(abort: bool, service: string, request: Value, fetched: Value,
                                 answer: string -> string): (w: Warning)
    ensures w.prompt == [ArticleWarningMessage(service, request, fetched)]
    ensures w.outcome == Returned(true) <==> answer(ArticleWarningMessage(service, request, fetched)) == "y"
    ensures !abort ==> w.outcome.Returned?
  {
    ProcessWarning(ArticleWarningMessage(service, request, fetched), abort, false, answer)
  }

  /** The answer a provider acts on: every provider passes `abort = False`, so the warning
      always returns, and it returns `True` exactly for the answer "y". */
  function Confirm(service: string, request: Value, fetched: Value, answer: string -> string)
    : (accepted: bool)
    ensures accepted <==> answer(ArticleWarningMessage(service, request, fetched)) == "y"
  {
    ProcessArticleWarning(false, service, request, fetched, answer).outcome.accepted
  }
}

=== FILE: wikilinks.dfy ===
/** Obsidian wikilinks: the key a link is filed under, the `[[...]]` scanner, the link
    dictionaries and the References/Undiscovered section both note writers produce. */
module Wikilinks {
  import opened Wrappers
  import opened Strings
  import opened OrderedDicts

  /** `wikilink.split("|")[0].split("/")[-1]`: the last path segment of the link target,
      ignoring an alias after `|`. */
  function WikilinkKey(link: string): (k: string)
  {
    AfterLast(BeforeFirst(link, '|'), '/')
  }

  /** The key of a link `pre + name + rest`, where `pre` is a folder path ending in `/` (or
      nothing) and `rest` an alias starting with `|` (or nothing), is `name`. */
  lemma WikilinkKeyOf(pre: string, name: string, rest: string)
    requires |pre| == 0 || pre[|pre| - 1] == '/'
    requires forall i :: 0 <= i < |pre| ==> pre[i] != '|'
    requires forall i :: 0 <= i < |name| ==> name[i] != '|' && name[i] != '/'
    requires |rest| == 0 || rest[0] == '|'
    ensures WikilinkKey(pre + name + rest) == name
  {
    var link := pre + name + rest;
    var n := |pre| + |name|;
    BeforeFirstSpec(link, '|');
    var p := BeforeFirst(link, '|');
    assert forall i :: 0 <= i < n ==> link[i] == (pre + name)[i] && link[i] != '|';
    assert n < |link| ==> link[n] == '|';
    assert p == pre + name;
    AfterLastSpec(p, '/');
    var q := AfterLast(p, '/');
    assert forall i :: 0 <= i < |name| ==> p[|pre| + i] == name[i] && p[|pre| + i] != '/';
    assert |pre| > 0 ==> p[|pre| - 1] == '/';
    assert q == p[|pre|..] == name;
  }

  /** A key never contains `/` or `|`. */
  lemma WikilinkKeyPlain(link: string)
    ensures forall i :: 0 <= i < |WikilinkKey(link)| ==> WikilinkKey(link)[i] != '/' && WikilinkKey(link)[i] != '|'
  {
    var p := BeforeFirst(link, '|');
    BeforeFirstSpec(link, '|');
    AfterLastSpec(p, '/');
  }

  // ---------------------------------------------------------------------------------------
  // re.findall(r"\[\[(.*?)\]\]", text)

  /** Where the lazy `(.*?)\]\]` part of the pattern ends in `t`: the first `]]`, provided no
      newline comes before it (`.` does not match a newline). `CloseSpec` states it. */
  function Close(t: string): (r: Option<nat>)
    ensures r.Some? ==> r.value + 2 <= |t|
    decreases |t|
  {
    if |t| < 2 then None
    else if t[0] == ']' && t[1] == ']' then Some(0)
    else if t[0] == '\n' then None
    else
      match Close(t[1..])
      case Some(j) => Some(j + 1)
      case None => None
  }

  /** `r` is where the lazy match in `t` closes: at an occurrence of "]]" with neither a
      newline nor another "]]" before it; no close at all only when a newline precedes every
      "]]". */
  ghost predicate LazyClose(t: string, r: Option<nat>) {
    && (r.Some? ==> OccursAt(t, "]]", r.value))
    && (r.Some? ==> forall i :: 0 <= i < r.value ==> t[i] != '\n' && !OccursAt(t, "]]", i))
    && (r.None? ==> forall j :: 0 <= j && OccursAt(t, "]]", j) ==> exists i :: 0 <= i < j && t[i] == '\n')
  }

  lemma {:induction false} CloseSpec(t: string)
    ensures LazyClose(t, Close(t))
    decreases |t|
  {
    if |t| < 2 {
      assert forall j :: !OccursAt(t, "]]", j);
    } else if t[0] == ']' && t[1] == ']' {
      assert OccursAt(t, "]]", 0);
    } else if t[0] == '\n' {
      forall j | 0 <= j && OccursAt(t, "]]", j) ensures exists i :: 0 <= i < j && t[i] == '\n' {
        assert j != 0 && t[0] == '\n';
      }
    } else {
      CloseSpec(t[1..]);
      match Close(t[1..])
      case Some(j) =>
        OccursShift(t, "]]", j + 1);
        forall i | 1 <= i < j + 1 { OccursShift(t, "]]", i); }
        assert !OccursAt(t, "]]", 0);
      case None =>
        forall j | 0 <= j && OccursAt(t, "]]", j) ensures exists i :: 0 <= i < j && t[i] == '\n' {
          assert j != 0;
          OccursShift(t, "]]", j);
          var i :| 0 <= i < j - 1 && t[1..][i] == '\n';
          assert t[i + 1] == '\n';
        }
    }
  }

  /** The texts of the `[[...]]` links in `s`, left to right, without overlap. */
  function FindLinks(s: string): (r: seq<string>)
    decreases |s|
  {
    if |s| < 2 then []
    else if s[0] == '[' && s[1] == '[' then
      match Close(s[2..])
      case Some(j) => [s[2..2 + j]] + FindLinks(s[j + 4..])
      case None => FindLinks(s[1..])
    else FindLinks(s[1..])
  }

  /** A link text the scanner gives back unchanged once written as `[[v]]`: no `]` and no
      newline. */
  predicate Linkable(v: string) {
    forall i :: 0 <= i < |v| ==> v[i] != ']' && v[i] != '\n'
  }

  lemma {:induction false} CloseOf(v: string, rest: string)
    requires Linkable(v)
    ensures Close(v + "]]" + rest) == Some(|v|)
    decreases |v|
  {
    var t := v + "]]" + rest;
    if |v| > 0 {
      assert t[0] == v[0];
      assert t[1..] == v[1..] + "]]" + rest;
      CloseOf(v[1..], rest);
    } else {
      assert t[0] == ']' && t[1] == ']';
    }
  }

  /** Text without `[` cannot open a link, so the scan passes over it. */
  lemma {:induction false} FindLinksSkip(p: string, s: string)
    requires forall i :: 0 <= i < |p| ==> p[i] != '['
    ensures FindLinks(p + s) == FindLinks(s)
    decreases |p|
  {
    if |p| > 0 {
      var t := p + s;
      assert t[0] == p[0];
      assert t[1..] == p[1..] + s;
      FindLinksSkip(p[1..], s);
    } else {
      assert p + s == s;
    }
  }

  /** A link as the note writers print it. */
  function Link(v: string): string {
    "[[" + v + "]]"
  }

  lemma FindLinksLink(v: string, rest: string)
    requires Linkable(v)
    ensures FindLinks(Link(v) + rest) == [v] + FindLinks(rest)
  {
    var s := Link(v) + rest;
    assert s[0] == '[' && s[1] == '[';
    assert s[2..] == v + "]]" + rest;
    CloseOf(v, rest);
    assert s[2..2 + |v|] == v;
    assert s[|v| + 4..] == rest;
  }

  /** A trailing newline cannot complete a link. */
  lemma {:induction false} CloseNewline(t: string)
    ensures Close(t + "\n") == Close(t)
    decreases |t|
  {
    var u := t + "\n";
    if |t| >= 2 {
      assert u[0] == t[0] && u[1] == t[1];
      assert u[1..] == t[1..] + "\n";
      CloseNewline(t[1..]);
    } else if |t| == 1 {
      assert u[1] == '\n';
      assert u[1..] == "\n";
    }
  }

  lemma {:induction false} FindLinksNewline(s: string)
    ensures FindLinks(s + "\n") == FindLinks(s)
    decreases |s|, 1
  {
    var u := s + "\n";
    if |s| >= 2 {
      assert u[0] == s[0] && u[1] == s[1];
      if s[0] == '[' && s[1] == '[' {
        FindLinksNewlineOpen(s);
      } else {
        assert u[1..] == s[1..] + "\n";
        FindLinksNewline(s[1..]);
      }
    } else if |s| == 1 {
      assert u[1] == '\n';
      assert u[1..] == "\n";
    }
  }

  lemma {:induction false} FindLinksNewlineOpen(s: string)
    requires |s| >= 2 && s[0] == '[' && s[1] == '['
    ensures FindLinks(s + "\n") == FindLinks(s)
    decreases |s|, 0
  {
    var u := s + "\n";
    DropAppend(s, "\n", 2);
    CloseNewline(s[2..]);
    var c := Close(s[2..]);
    FindLinksOpen(s, c);
    FindLinksOpen(u, c);
    if c.Some? {
      var j := c.value;
      SliceAppend(s, "\n", 2, 2 + j);
      DropAppend(s, "\n", j + 4);
      FindLinksNewline(s[j + 4..]);
    } else {
      DropAppend(s, "\n", 1);
      FindLinksNewline(s[1..]);
    }
  }

  /** One scanning step at `[[`, with the closing position given. */
  lemma FindLinksOpen(s: string, c: Option<nat>)
    requires |s| >= 2 && s[0] == '[' && s[1] == '[' && c == Close(s[2..])
    ensures c.Some? ==> c.value + 4 <= |s| && FindLinks(s) == [s[2..2 + c.value]] + FindLinks(s[c.value + 4..])
    ensures c.None? ==> FindLinks(s) == FindLinks(s[1..])
  {
  }

  /** Each link paired with its key. */
  function KeyedLinks(links: seq<string>): (ps: Dict)
    ensures |ps| == |links|
    ensures forall i :: 0 <= i < |links| ==> ps[i] == (WikilinkKey(links[i]), links[i])
  {
    seq(|links|, i requires 0 <= i < |links| => (WikilinkKey(links[i]), links[i]))
  }

  /** `_create_wikilink_dict(wikilinks)` (both copies): each link filed under its key, in
      order, a later link replacing an earlier one with the same key. */
  function CreateWikilinkDict(links: seq<string>): (r: Dict)
    ensures UniqueKeys(r) && ToMap(r) == ToMap(KeyedLinks(links))
  {
    FromPairsMap(KeyedLinks(links));
    FromPairs(KeyedLinks(links))
  }

  /** The keys of the dictionary are the keys of the links, and each key holds the last link
      filed under it. */
  lemma WikilinkDictLast(links: seq<string>, i: nat)
    requires i < |links| && forall j :: i < j < |links| ==> WikilinkKey(links[j]) != WikilinkKey(links[i])
    ensures WikilinkKey(links[i]) in ToMap(CreateWikilinkDict(links))
    ensures ToMap(CreateWikilinkDict(links))[WikilinkKey(links[i])] == links[i]
  {
    ToMapLast(KeyedLinks(links), i);
  }

  lemma WikilinkDictKeys(links: seq<string>, k: string)
    ensures HasKey(CreateWikilinkDict(links), k) <==> exists i :: 0 <= i < |links| && WikilinkKey(links[i]) == k
  {
    var d := CreateWikilinkDict(links);
    ToMapKeys(d);
    ToMapKeys(KeyedLinks(links));
    if HasKey(KeyedLinks(links), k) {
      var i :| 0 <= i < |links| && KeyedLinks(links)[i].0 == k;
      assert WikilinkKey(links[i]) == k;
    }
  }

  // ---------------------------------------------------------------------------------------
  // Reference sections

  /** One list line, `f"- [[{value}]]\n"`. */
  function Item(v: string): string {
    "- " + Link(v) + "\n"
  }

  /** The list lines of `vs`, in order. */
  function ListItems(vs: seq<string>): string
    decreases |vs|
  {
    if |vs| == 0 then "" else Item(vs[0]) + ListItems(vs[1..])
  }

  lemma {:induction false} ListItemsSnoc(vs: seq<string>, v: string)
    ensures ListItems(vs + [v]) == ListItems(vs) + Item(v)
    decreases |vs|
  {
    if |vs| == 0 {
      assert ListItems([v]) == Item(v) + ListItems([]);
    } else {
      assert (vs + [v])[1..] == vs[1..] + [v];
      ListItemsSnoc(vs[1..], v);
      AppendAssoc(Item(vs[0]), ListItems(vs[1..]), Item(v));
    }
  }

  lemma ItemLinks(v: string, rest: string)
    requires Linkable(v)
    ensures FindLinks(Item(v) + rest) == [v] + FindLinks(rest)
  {
    assert Item(v) + rest == "- " + (Link(v) + ("\n" + rest)) by {
      AppendAssoc("- " + Link(v), "\n", rest);
      AppendAssoc("- ", Link(v), "\n" + rest);
    }
    FindLinksSkip("- ", Link(v) + ("\n" + rest));
    FindLinksLink(v, "\n" + rest);
    FindLinksSkip("\n", rest);
  }

  /** Scanning the list lines gives back the listed texts. */
  lemma {:induction false} FindLinksItems(vs: seq<string>, t: string)
    requires forall k :: 0 <= k < |vs| ==> Linkable(vs[k])
    ensures FindLinks(ListItems(vs) + t) == vs + FindLinks(t)
    decreases |vs|
  {
    if |vs| > 0 {
      FindLinksItems(vs[1..], t);
      FindLinksItemsCons(vs, t);
    } else {
      assert ListItems(vs) + t == t;
    }
  }

  lemma FindLinksItemsCons(vs: seq<string>, t: string)
    requires |vs| > 0 && Linkable(vs[0])
    requires FindLinks(ListItems(vs[1..]) + t) == vs[1..] + FindLinks(t)
    ensures FindLinks(ListItems(vs) + t) == vs + FindLinks(t)
  {
    var rest := ListItems(vs[1..]) + t;
    assert ListItems(vs) == Item(vs[0]) + ListItems(vs[1..]);
    AppendAssoc(Item(vs[0]), ListItems(vs[1..]), t);
    ItemLinks(vs[0], rest);
    assert vs == [vs[0]] + vs[1..];
  }

  /** A block `header + items` with its trailing whitespace stripped, then a newline: scanning
      it yields the items' texts. */
  lemma BlockLinks(header: string, vs: seq<string>, t: string)
    requires forall i :: 0 <= i < |header| ==> header[i] != '['
    requires forall k :: 0 <= k < |vs| ==> Linkable(vs[k])
    ensures FindLinks(RStrip(header + ListItems(vs)) + "\n" + t) == vs + FindLinks(t)
  {
    if |vs| == 0 {
      BlockLinksEmpty(header, t);
    } else {
      BlockLinksSome(header, vs, t);
    }
  }

  lemma BlockLinksEmpty(header: string, t: string)
    requires forall i :: 0 <= i < |header| ==> header[i] != '['
    ensures FindLinks(RStrip(header + ListItems([])) + "\n" + t) == FindLinks(t)
  {
    assert header + ListItems([]) == header;
    var r := RStrip(header);
    assert forall i :: 0 <= i < |r + "\n"| ==> (r + "\n")[i] != '[' by {
      assert forall i :: 0 <= i < |r| ==> r[i] == header[i];
    }
    FindLinksSkip(r + "\n", t);
  }

  lemma BlockLinksSome(header: string, vs: seq<string>, t: string)
    requires |vs| > 0
    requires forall i :: 0 <= i < |header| ==> header[i] != '['
    requires forall k :: 0 <= k < |vs| ==> Linkable(vs[k])
    ensures FindLinks(RStrip(header + ListItems(vs)) + "\n" + t) == vs + FindLinks(t)
  {
    var r := RStrip(header + ListItems(vs));
    StripLastItem(header, vs);
    assert r + "\n" + t == header + (ListItems(vs) + t) by {
      AppendAssoc(header, ListItems(vs), t);
    }
    FindLinksSkip(header, ListItems(vs) + t);
    FindLinksItems(vs, t);
  }

  /** Stripping a block that ends in a list line removes exactly its final newline. */
  lemma StripLastItem(header: string, vs: seq<string>)
    requires |vs| > 0
    ensures RStrip(header + ListItems(vs)) + "\n" == header + ListItems(vs)
  {
    var init, last := vs[..|vs| - 1], vs[|vs| - 1];
    assert vs == init + [last];
    ListItemsSnoc(init, last);
    var body := header + ListItems(init) + ("- " + Link(last));
    assert header + ListItems(vs) == body + "\n" by {
      AppendAssoc(header, ListItems(init), Item(last));
    }
    assert body[|body| - 1] == ']';
    RStripNewline(body);
  }

  const ReferencesHeader: string := "### References\n"
  const UndiscoveredHeader: string := "#### Undiscovered\n"

  lemma HeadersPlain()
    ensures forall i :: 0 <= i < |ReferencesHeader| ==> ReferencesHeader[i] != '['
    ensures forall i :: 0 <= i < |UndiscoveredHeader| ==> UndiscoveredHeader[i] != '['
  {
  }

  /** The links filed under a key in `local` (discovered) or not (undiscovered), in
      dictionary order. */
  function Discovered(refs: Dict, local: seq<string>): seq<string> {
    Values(Restrict(refs, local, true))
  }

  function Undiscovered(refs: Dict, local: seq<string>): seq<string> {
    Values(Restrict(refs, local, false))
  }

  /** Every reference is listed exactly once, in one part or the other. */
  lemma {:induction false} PartitionExact(refs: Dict, local: seq<string>)
    ensures multiset(Discovered(refs, local)) + multiset(Undiscovered(refs, local)) == multiset(Values(refs))
    decreases |refs|
  {
    if |refs| > 0 {
      PartitionExact(refs[..|refs| - 1], local);
      PartitionExactStep(refs, local);
    }
  }

  /** A value appended to one side of a split is appended to the whole. */
  lemma SplitSnoc(a: seq<string>, b: seq<string>, all: seq<string>, x: string)
    requires multiset(a) + multiset(b) == multiset(all)
    ensures multiset(a + [x]) + multiset(b) == multiset(all + [x])
    ensures multiset(b) + multiset(a + [x]) == multiset(all + [x])
  {
  }

  lemma PartitionExactStep(refs: Dict, local: seq<string>)
    requires |refs| > 0
    requires var init := refs[..|refs| - 1];
      multiset(Discovered(init, local)) + multiset(Undiscovered(init, local)) == multiset(Values(init))
    ensures multiset(Discovered(refs, local)) + multiset(Undiscovered(refs, local)) == multiset(Values(refs))
  {
    var init, last := refs[..|refs| - 1], refs[|refs| - 1];
    ValuesLast(refs);
    RestrictLast(refs, local, true);
    RestrictLast(refs, local, false);
    if last.0 in local {
      ValuesSnoc(Restrict(init, local, true), last);
      SplitSnoc(Discovered(init, local), Undiscovered(init, local), Values(init), last.1);
    } else {
      ValuesSnoc(Restrict(init, local, false), last);
      SplitSnoc(Undiscovered(init, local), Discovered(init, local), Values(init), last.1);
    }
  }

  /** The `(reference_part, undiscovered_part)` pair the writing loop builds: list lines for
      the discovered links and for the undiscovered ones, each in dictionary order. */
  method PartitionLinks(refs: Dict, local: seq<string>) returns (found: string, undiscovered: string)
    ensures found == ListItems(Discovered(refs, local))
    ensures undiscovered == ListItems(Undiscovered(refs, local))
  {
    found, undiscovered := "", "";
    var i := 0;
    while i < |refs|
      invariant 0 <= i <= |refs|
      invariant found == ListItems(Values(Restrict(refs[..i], local, true)))
      invariant undiscovered == ListItems(Values(Restrict(refs[..i], local, false)))
    {
      var (key, value) := refs[i];
      var next := refs[..i + 1];
      assert next[..i] == refs[..i] && next[i] == (key, value);
      RestrictLast(next, local, true);
      RestrictLast(next, local, false);
      var kept := Restrict(refs[..i], local, key in local);
      ValuesSnoc(kept, (key, value));
      ListItemsSnoc(Values(kept), value);
      if key in local {
        found := found + Item(value);
      } else {
        undiscovered := undiscovered + Item(value);
      }
      i := i + 1;
    }
    assert refs[..i] == refs;
  }

  /** `ObsidianNote._create_reference_section(references)`: the discovered links, a blank
      line, then the `#### Undiscovered` block, each with trailing whitespace stripped. */
  function ReferenceSection(refs: Dict, local: seq<string>): string {
    RStrip(ListItems(Discovered(refs, local))) + "\n\n"
      + RStrip(UndiscoveredHeader + ListItems(Undiscovered(refs, local)))
  }

  method CreateReferenceSection(refs: Dict, local: seq<string>) returns (s: string)
    ensures s == ReferenceSection(refs, local)
  {
    var found, undiscovered := PartitionLinks(refs, local);
    s := RStrip(found) + "\n\n" + RStrip(UndiscoveredHeader + undiscovered);
  }

  /** Scanning the section for links yields every discovered link, then every undiscovered
      one, each once. */
  lemma ReferenceSectionLinks(refs: Dict, local: seq<string>)
    requires forall i :: 0 <= i < |refs| ==> Linkable(refs[i].1)
    ensures FindLinks(ReferenceSection(refs, local)) == Discovered(refs, local) + Undiscovered(refs, local)
  {
    var d, u := Discovered(refs, local), Undiscovered(refs, local);
    RestrictLinkable(refs, local);
    assert "" + ListItems(d) == ListItems(d);
    HeadersPlain();
    TwoBlocksLinks("", d, UndiscoveredHeader, u);
  }

  /** Two stripped blocks separated by a blank line yield the first block's links, then the
      second's. */
  lemma TwoBlocksLinks(h1: string, d: seq<string>, h2: string, u: seq<string>)
    requires forall i :: 0 <= i < |h1| ==> h1[i] != '['
    requires forall i :: 0 <= i < |h2| ==> h2[i] != '['
    requires forall k :: 0 <= k < |d| ==> Linkable(d[k])
    requires forall k :: 0 <= k < |u| ==> Linkable(u[k])
    ensures FindLinks(RStrip(h1 + ListItems(d)) + "\n\n" + RStrip(h2 + ListItems(u))) == d + u
  {
    var a, b := RStrip(h1 + ListItems(d)), RStrip(h2 + ListItems(u));
    BlockLinks(h1, d, "\n" + b);
    LastBlockLinks(h2, u);
    JoinBlocks(a, b, d, u);
    assert FindLinks(a + "\n\n" + b) == d + u;
  }

  lemma JoinBlocks(a: string, b: string, x: seq<string>, y: seq<string>)
    requires FindLinks(a + "\n" + ("\n" + b)) == x + FindLinks("\n" + b)
    requires FindLinks(b + "\n") == y
    ensures FindLinks(a + "\n\n" + b) == x + y
  {
    BlankLineSplit(a, b);
    NewlineMoves(b);
  }

  /** A blank line between two blocks is two newlines, regrouped. */
  lemma BlankLineSplit(a: string, b: string)
    ensures a + "\n\n" + b == a + "\n" + ("\n" + b)
  {
    assert "\n\n" == "\n" + "\n";
  }

  /** The same, with a blank line after the second block. */
  lemma TwoBlocksLinksSpaced(h1: string, d: seq<string>, h2: string, u: seq<string>)
    requires forall i :: 0 <= i < |h1| ==> h1[i] != '['
    requires forall i :: 0 <= i < |h2| ==> h2[i] != '['
    requires forall k :: 0 <= k < |d| ==> Linkable(d[k])
    requires forall k :: 0 <= k < |u| ==> Linkable(u[k])
    ensures FindLinks(RStrip(h1 + ListItems(d)) + "\n\n" + RStrip(h2 + ListItems(u)) + "\n\n") == d + u
  {
    var a, b := RStrip(h1 + ListItems(d)), RStrip(h2 + ListItems(u));
    var tail := "\n" + (b + "\n" + "\n");
    BlockLinks(h1, d, tail);
    SpacedTail(h2, u);
    assert FindLinks(tail) == u;
    JoinBlocksSpaced(a, b, d, u);
  }

  lemma SpacedTail(header: string, vs: seq<string>)
    requires forall i :: 0 <= i < |header| ==> header[i] != '['
    requires forall k :: 0 <= k < |vs| ==> Linkable(vs[k])
    ensures FindLinks("\n" + (RStrip(header + ListItems(vs)) + "\n" + "\n")) == vs
  {
    var b := RStrip(header + ListItems(vs));
    FindLinksSkip("\n", b + "\n" + "\n");
    BlockLinks(header, vs, "\n");
    assert FindLinks("\n") == [];
  }

  lemma JoinBlocksSpaced(a: string, b: string, x: seq<string>, y: seq<string>)
    requires FindLinks(a + "\n" + ("\n" + (b + "\n" + "\n"))) == x + FindLinks("\n" + (b + "\n" + "\n"))
    requires FindLinks("\n" + (b + "\n" + "\n")) == y
    ensures FindLinks(a + "\n\n" + b + "\n\n") == x + y
  {
    SpacedSplit(a, b);
  }

  lemma SpacedSplit(a: string, b: string)
    ensures a + "\n\n" + b + "\n\n" == a + "\n" + ("\n" + (b + "\n" + "\n"))
  {
    BlankLineSplit(a, b + "\n\n");
    assert "\n\n" == "\n" + "\n";
    assert b + "\n\n" == b + "\n" + "\n";
  }

  lemma LastBlockLinks(header: string, vs: seq<string>)
    requires forall i :: 0 <= i < |header| ==> header[i] != '['
    requires forall k :: 0 <= k < |vs| ==> Linkable(vs[k])
    ensures FindLinks(RStrip(header + ListItems(vs)) + "\n") == vs
  {
    var r := RStrip(header + ListItems(vs));
    BlockLinks(header, vs, "");
    assert r + "\n" + "" == r + "\n";
  }

  lemma NewlineMoves(s: string)
    ensures FindLinks("\n" + s) == FindLinks(s + "\n")
  {
    FindLinksSkip("\n", s);
    FindLinksNewline(s);
  }

  lemma RestrictLinkable(refs: Dict, local: seq<string>)
    requires forall i :: 0 <= i < |refs| ==> Linkable(refs[i].1)
    ensures forall k :: 0 <= k < |Discovered(refs, local)| ==> Linkable(Discovered(refs, local)[k])
    ensures forall k :: 0 <= k < |Undiscovered(refs, local)| ==> Linkable(Undiscovered(refs, local)[k])
  {
    var yes, no := Restrict(refs, local, true), Restrict(refs, local, false);
    forall k | 0 <= k < |yes| ensures Linkable(yes[k].1) {
      assert yes[k] in refs;
    }
    forall k | 0 <= k < |no| ensures Linkable(no[k].1) {
      assert no[k] in refs;
    }
  }

  /** `Note._create_reference_section(existing_references)`: the same partition under a
      `### References` heading, with a blank line after each block; iterating `None` raises. */
  function NoteReferenceSection(refs: Dict, existing: Option<seq<string>>): (r: Result<string>)
    ensures r.Err? <==> existing.None? && |refs| > 0
  {
    if existing.None? && |refs| > 0 then Err(TypeError("argument of type 'NoneType' is not iterable"))
    else
      var keys := existing.GetOr([]);
      Ok(RStrip(ReferencesHeader + ListItems(Discovered(refs, keys))) + "\n\n"
        + RStrip(UndiscoveredHeader + ListItems(Undiscovered(refs, keys))) + "\n\n")
  }

  lemma NoteReferenceSectionLinks(refs: Dict, existing: seq<string>)
    requires forall i :: 0 <= i < |refs| ==> Linkable(refs[i].1)
    ensures NoteReferenceSection(refs, Some(existing)).Ok?
    ensures FindLinks(NoteReferenceSection(refs, Some(existing)).value)
      == Discovered(refs, existing) + Undiscovered(refs, existing)
  {
    var d, u := Discovered(refs, existing), Undiscovered(refs, existing);
    RestrictLinkable(refs, existing);
    HeadersPlain();
    TwoBlocksLinksSpaced(ReferencesHeader, d, UndiscoveredHeader, u);
  }

  /** The mapping a merge of reference links must produce: the links of `first` by key,
      overridden by the links of `second`. */
  function MergedMap(first: seq<string>, second: seq<string>): map<string, string> {
    ToMap(KeyedLinks(first)) + ToMap(KeyedLinks(second))
  }

  /** `_merge_references(reference_body, new_references)` of the Obsidian note: the links of the
      metadata, overridden by the links found in a non-empty existing References section, sorted
      by key. */
  function ObsidianMergeReferences(body: Option<string>, newRefs: seq<string>): (r: Dict)
    ensures Sorted(r) && UniqueKeys(r)
    ensures body.Some? && |body.value| > 0 ==> ToMap(r) == MergedMap(newRefs, FindLinks(body.value))
    ensures !(body.Some? && |body.value| > 0) ==> ToMap(r) == ToMap(KeyedLinks(newRefs))
  {
    var base := CreateWikilinkDict(newRefs);
    if body.Some? && |body.value| > 0 then
      var found := CreateWikilinkDict(FindLinks(body.value));
      UnionMap(base, found);
      SortByKeyMap(Union(base, found));
      SortByKey(Union(base, found))
    else
      SortByKeyMap(base);
      SortByKey(base)
  }

  /** `Note._merge_references` of the reference-map generator: without a table row the note's
      references stay as they are; otherwise the row's links, overridden by the note's own
      references, sorted by key. */
  function NoteMergeReferences(dbRefs: Option<seq<string>>, references: Dict): (r: Dict)
    requires UniqueKeys(references)
    ensures dbRefs.None? ==> r == references
    ensures dbRefs.Some? ==> Sorted(r) && UniqueKeys(r)
    ensures dbRefs.Some? ==> ToMap(r) == ToMap(KeyedLinks(dbRefs.value)) + ToMap(references)
  {
    match dbRefs
    case None => references
    case Some(links) =>
      var db := CreateWikilinkDict(links);
      UnionMap(db, references);
      SortByKeyMap(Union(db, references));
      SortByKey(Union(db, references))
  }

  /** A key-sorted dictionary is fixed by its mapping, so the merge is the only sorted
      dictionary holding the merged links. */
  lemma SortedByMap(a: Dict, b: Dict)
    requires Sorted(a) && Sorted(b) && ToMap(a) == ToMap(b)
    ensures a == b
  {
    SortedUnique(a);
    SortedUnique(b);
    MapSamePairs(a, b);
    SortedDetermined(a, b);
  }

  lemma ObsidianMergeCanonical(body: string, newRefs: seq<string>, d: Dict)
    requires |body| > 0
    requires Sorted(d) && ToMap(d) == MergedMap(newRefs, FindLinks(body))
    ensures d == ObsidianMergeReferences(Some(body), newRefs)
  {
    SortedByMap(d, ObsidianMergeReferences(Some(body), newRefs));
  }

  /** Merging twice with the same table row changes nothing more. */
  lemma NoteMergeIdempotent(dbRefs: seq<string>, references: Dict)
    requires UniqueKeys(references)
    ensures var once := NoteMergeReferences(Some(dbRefs), references);
      NoteMergeReferences(Some(dbRefs), once) == once
  {
    var once := NoteMergeReferences(Some(dbRefs), references);
    var twice := NoteMergeReferences(Some(dbRefs), once);
    var m := ToMap(KeyedLinks(dbRefs));
    assert ToMap(twice) == m + (m + ToMap(references));
    assert m + (m + ToMap(references)) == m + ToMap(references);
    SortedByMap(twice, once);
  }

  /** A reference dictionary as the merges build it: every link filed under its own key. */
  predicate WellKeyed(refs: Dict) {
    forall i :: 0 <= i < |refs| ==> refs[i].0 == WikilinkKey(refs[i].1)
  }

  lemma KeyedValues(d: Dict)
    requires WellKeyed(d)
    ensures KeyedLinks(Values(d)) == d
  {
  }

  lemma KeyedLinksAppend(a: seq<string>, b: seq<string>)
    ensures KeyedLinks(a + b) == KeyedLinks(a) + KeyedLinks(b)
  {
  }

  lemma RestrictWellKeyed(refs: Dict, local: seq<string>, inside: bool)
    requires WellKeyed(refs)
    ensures WellKeyed(Restrict(refs, local, inside))
  {
    var r := Restrict(refs, local, inside);
    forall i | 0 <= i < |r| ensures r[i].0 == WikilinkKey(r[i].1) {
      assert r[i] in refs;
    }
  }

  /** Reading back a written References section: the links found in it, filed by key, give
      the dictionary it was written from. */
  lemma ReferenceSectionRoundTrip(refs: Dict, local: seq<string>)
    requires WellKeyed(refs)
    requires forall i :: 0 <= i < |refs| ==> Linkable(refs[i].1)
    ensures ToMap(KeyedLinks(FindLinks(ReferenceSection(refs, local)))) == ToMap(refs)
  {
    var yes, no := Restrict(refs, local, true), Restrict(refs, local, false);
    ReferenceSectionLinks(refs, local);
    KeyedLinksAppend(Values(yes), Values(no));
    RestrictWellKeyed(refs, local, true);
    RestrictWellKeyed(refs, local, false);
    KeyedValues(yes);
    KeyedValues(no);
    ToMapAppend(yes, no);
    RestrictMap(refs, local);
  }
}

=== FILE: wrappers.dfy ===
/** Failure-compatible wrappers and the exceptions the modelled Python code can raise. */
module Wrappers {

  /** Python's `None`-or-value, for functions that return `None` on a handled failure. */
  datatype Option<+T> = None | Some(value: T) {
    predicate IsFailure() { None? }

    function PropagateFailure<U>(): Option<U>
      requires None?
    {
      None
    }

    function Extract(): T
      requires Some?
    {
      value
    }

    function GetOr(default: T): T {
      match this
      case Some(v) => v
      case None => default
    }
  }

  /** The exceptions that escape the modelled code; nothing in the model catches them
      except where the source has a `try`. */
  datatype Error =
    | TypeError(what: string)
    | IndexError
    | KeyError(key: string)
    | AttributeError(what: string)
    | UnboundLocal(name: string)
    | ValueError(what: string)

  /** A normal return value or the exception the call raised. */
  datatype Result<+T> = Ok(value: T) | Err(error: Error) {
    predicate IsFailure() { Err? }

    function PropagateFailure<U>(): Result<U>
      requires Err?
    {
      Err(error)
    }

    function Extract(): T
      requires Ok?
    {
      value
    }
  }
}
